=== FILE: README.md ===
# Coman — a Dafny model of its module host

Coman hosts small "modules": each is a Python package exposing an object
derived from `ModuleBase` that mounts its FastAPI router under a versioned
prefix (`/v1/<name>`) and whose endpoints can also be called from the
command line. Around that core sit the module loader and registry, the
message models exchanged between modules, the small pydantic and FastAPI
stand-ins the repository ships for offline use, the settings that say where
modules are found, the OpenTelemetry wiring, the bundled modules (logic
rules, integrations, the orchestrator, the manager, text analysis, the text
upper-caser) and the Telegram bot's translations, configuration and
database.

This project models that core in Dafny and proves properties of it:

- The module base class (`base_module.dfy`): route-attribute
  normalisation, the console operations derived from a module's routes,
  the versioned and legacy routers and the mirroring of each versioned
  registration onto the legacy one.
- The module registry and loader (`registry.dfy`): the `Core` that holds
  the loaded modules and the walk that skips packages that fail to load.
- The web-framework stand-in (`routing.dfy`, `app.dfy`): prefix
  normalisation, path joining, route registration, first-match lookup,
  keyword-argument assembly and the response for results and
  `HTTPException`s.
- The command-line helpers (`cli.dfy`): `key=value` parsing, the payload
  and argument merge, result formatting and the `argv` rewrite.
- Settings and tracing (`config.dfy`, `tracing.dfy`).
- The message models and their managers (`messages_base.dfy`,
  `messages_manager.dfy`, `messages_integration.dfy`,
  `messages_orchestrator.dfy`) and the pydantic stand-in (`pydantic.dfy`).
- The bundled modules (`logic_app.dfy`, `logic_module.dfy`,
  `integration.dfy`, `orchestrator.dfy`, `manager.dfy`, `analysis.dfy`,
  `analysis_app.dfy`, `text_app.dfy`).
- The Telegram bot's translations, configuration and storage
  (`telegram_i18n.dfy`, `telegram_config.dfy`, `telegram_db.dfy`).
- Shared helpers: `wrappers.dfy` (Option/Result), `py_value.dfy` (Python
  values, `str()`, truthiness, exceptions), `text.dfy` (ASCII string
  operations), `collections.dfy` (de-duplication and ordering),
  `named_list.dfy` (lists of records looked up by name) and `handlers.dfy`.

Objects whose fields the code updates (the registries, the JSON-file
stores, the FastAPI app, the tracing state, the Telegram database) are
Dafny classes; their methods state the whole new state and are proved
against specification functions, whose properties are lemmas. Python
dictionaries are maps and Python values are the `PyValue.Value` datatype.

Where the code and its documentation differ, the model follows the code:

- `_full_path` collapses `//` with a single `replace`, so a run of three
  slashes leaves `//`; the model keeps that (`Routing.FullPath`).
- The `ModuleBase` endpoint wrapper passes keyword arguments that only the
  real FastAPI accepts; the model records the registration itself (the
  prefixed path and its methods, `GET` by default).
- A test of the base module expects the route `/base/sample`, but the
  prefix the code builds is `/v1/base`, so the route is `/v1/base/sample`.

## Model

| member | source | states |
|---|---|---|
| ModuleBase.GetModuleVersion | coman/version.py:21-24 | the per-module override when the name has one, otherwise the platform version "1.0.0" |
| ModuleBase.NormaliseMethods | core/base_module.py:21-29 | the result is strictly sorted, upper-case, and holds exactly the upper-cased declared methods (the `methods` attribute, else the single `method`, else none) |
| ModuleBase.NormalisePath | core/base_module.py:32-36 | `path` when non-empty, else `path_format`; empty exactly when both are |
| ModuleBase.Coerce | core/base_module.py:48-71 | no annotation, `None` or a non-string is returned unchanged; a string for a list parameter becomes the decoded array, `[decoded]` or `[raw]`; a string for a dict parameter becomes the decoded object or stays as it is |
| ModuleBase.CoerceIdempotent | core/base_module.py:48-71 | coercing a coerced value again changes nothing |
| ModuleBase.BindValue | core/base_module.py:96-106 | a supplied argument is taken as given; otherwise there is a value exactly when the parameter has a default |
| ModuleBase.BindOk | core/base_module.py:96-108 | binding succeeds exactly when every parameter gets a value, and then binds exactly the declared parameter names |
| ModuleBase.BindError | core/base_module.py:105-106 | a failed binding is the `TypeError` naming the first parameter without a value and the operation |
| ModuleBase.BindPrefixError | core/base_module.py:96-106 | once a prefix of the parameters fails, the whole binding fails with the same error (later parameters are not looked at) |
| ModuleBase.BindSupplied | core/base_module.py:97-108 | a supplied argument wins over the default, coerced by the parameter's annotation |
| ModuleBase.BindDefault | core/base_module.py:99-108 | without an argument the parameter has a default, and is bound to the marker's `.default` (or `None`) for a framework marker, else to the default itself, coerced |
| ModuleBase.BindAt | core/base_module.py:96-108 | every declared parameter is bound to the coerced value chosen for it |
| ModuleBase.BindIgnoresExtra | core/base_module.py:96-97 | arguments naming no parameter do not change the binding |
| ModuleBase.Describe | core/base_module.py:84-90 | the description carries the operation name, the route summary, the normalised path and the normalised methods |
| ModuleBase.Invoke | core/base_module.py:92-127 | the result is that of calling the handler with the bound arguments, or the binding error, in which case the handler is not called |
| ModuleBase.KeyList | core/base_module.py:289-304 | the keys are exactly the non-empty ones among the handler name, the two path forms (only for a non-empty path) and the prefix-relative path, the handler name first |
| ModuleBase.OperationKeys | core/base_module.py:289-304 | a key is listed exactly when it is a non-empty operation key of the route; the handler name comes first |
| ModuleBase.OperationOf | core/base_module.py:312-320 | the operation keeps the route, its handler and the module name, and is named after the handler, the path or the module |
| ModuleBase.ClaimSpec | core/base_module.py:321-328 | claiming keeps every existing entry and gives exactly the new stripped, lower-cased keys to the operation |
| ModuleBase.ClaimedKeysMembers | core/base_module.py:321-324 | the keys claimed for a list are exactly the stripped, lower-cased forms of its entries that are not blank |
| ModuleBase.ClaimKeys | core/base_module.py:321-328 | the inner loop of the index builder computes the claim function |
| ModuleBase.IndexOfKeys | core/base_module.py:306-329 | a key is in the index exactly when some claimant claims it |
| ModuleBase.IndexOfFirst | core/base_module.py:326-328 | a key belongs to the first claimant that claims it |
| ModuleBase.IndexKeys | core/base_module.py:306-329 | a key is in the index exactly when some route with a handler claims it |
| ModuleBase.IndexFirstWins | core/base_module.py:326-328 | first writer wins: a key maps to the operation of the first route claiming it, whatever later routes claim |
| ModuleBase.IndexKeyIgnoresCase | core/base_module.py:325 | index keys and looked-up names are matched without regard to letter case |
| ModuleBase.RouteKeysAreLookupKeys | core/base_module.py:321-325 | every key a route claims is a non-blank operation key, stripped and lower-cased as a lookup is |
| ModuleBase.FirstByKey | core/base_module.py:345-350 | no two kept descriptions share (path, methods), and there are no more of them than candidates |
| ModuleBase.DescriptionsCover | core/base_module.py:331-351 | every route with a handler is represented by a description with its path and methods |
| ModuleBase.DescriptionsFirst | core/base_module.py:331-351 | every description is that of a route with a handler and no earlier handled route has the same (path, methods) |
| ModuleBase.LegacyMethods | core/base_module.py:237-241 | the explicit methods, else the versioned route's sorted methods, else `["GET"]`; never empty |
| ModuleBase.LegacyExtra | core/base_module.py:248-259 | the caller's `openapi_extra` keys are kept as given; `sunset` is added only when the module has legacy metadata, and only where absent |
| ModuleBase.MirroredRoute | core/base_module.py:235-268 | the mirror has the legacy prefix plus the same path, the same endpoint, `deprecated` true, the `[Deprecated] ` summary prefix only for a non-empty summary, the legacy methods and the merged extra |
| ModuleBase.BaseModule.constructor | core/base_module.py:138-169 | version falls back to the registered version; prefix `/v{major}/{name}`; a legacy router `/{name}` only when legacy routes are enabled; sunset metadata only when a sunset date is set; no routes yet; observability is set up for each router: the module's provider is cached once under its name, the tracer is that provider's module tracer, and both routers get its traced route class and tag |
| ModuleBase.BaseModule.AddApiRoute | core/base_module.py:178-268 | the versioned route is appended, and its mirror is appended to the legacy router exactly when legacy routes are enabled; every versioned route keeps its mirror at the same position |
| ModuleBase.BaseModule.GetRouters | core/base_module.py:270-274 | the versioned router first, then the legacy one exactly when it exists |
| ModuleBase.BaseModule.GetConsoleOperations | core/base_module.py:306-329 | the loop builds the first-wins index of the versioned routes |
| ModuleBase.BaseModule.DescribeConsoleOperations | core/base_module.py:331-351 | the loop keeps the first description for each (path, methods), in route order |
| ModuleBase.BaseModule.InvokeConsoleOperation | core/base_module.py:353-360 | an unknown stripped, lower-cased name raises `KeyError` listing the sorted keys (or `<none>`); a known one invokes that operation |
| ModuleBase.UnknownOperationText | core/base_module.py:357-359 | `str()` of the unknown-operation `KeyError` is its message in double quotes when the name and the listing have nothing to escape |
| ModuleBase.NonEmpty | core/base_module.py:304 | `[k for k in keys if k]` keeps exactly the non-empty keys |
| ModuleBase.ClaimantOf | core/base_module.py:308-321 | a route claims its operation keys, and has an operation exactly when it has a handler, that of `OperationOf` |
| ModuleBase.Claimants | core/base_module.py:308 | one claimant per route, in router order |
| ModuleBase.ClaimIsAddClaims | core/base_module.py:321-328 | the inner loop's claim for a handled route is the claimant's claim |
| ModuleBase.ClaimAsAddClaims | core/base_module.py:321-328 | claiming a list of keys is claiming their stripped, lower-cased non-empty forms |
| ModuleBase.Candidates | core/base_module.py:334-345 | one candidate per route, in order: the route's description when it has a handler, none otherwise |
| ModuleBase.FirstByKeyStep | core/base_module.py:346-350 | one more candidate appends its description exactly when its (path, methods) is new |
| ModuleBase.DescKeysSnoc | core/base_module.py:349 | appending a description adds its (path, methods) to the seen set |
| ModuleBase.FirstByKeyCover | core/base_module.py:346-350 | every candidate's (path, methods) is among the kept descriptions |
| ModuleBase.FirstByKeyFirst | core/base_module.py:346-350 | every kept description is the first candidate with its (path, methods) |
| Routing.NormalisePrefix | fastapi/routing.py:16-18 | trailing slashes removed; a non-empty result starts with `/` and does not end with one; empty exactly when the prefix is only slashes |
| Routing.NormalisePrefixIdempotent | fastapi/routing.py:16-18 | normalising a normalised prefix changes nothing |
| Routing.Rooted | fastapi/routing.py:23-25 | the stripped path, with a leading `/` added when it lacks one |
| Routing.FullPath | fastapi/routing.py:22-30 | without a prefix the rooted path; with a prefix, `/` gives the prefix itself, and a rooted prefix gives a rooted result |
| Routing.FullPathAppends | fastapi/routing.py:29 | when no `//` occurs, the full path is the prefix followed by the rooted path |
| Routing.FullPathJoinsSlashes | fastapi/routing.py:29 | a prefix ending with `/` and a rooted path without `//` meet in a single slash: the prefix followed by the path without its leading slash |
| Routing.FullPathOfDoubledPath | fastapi/routing.py:29 | a path written with a doubled leading slash is joined to a prefix with one slash: `prefix + "/" + rest` |
| Routing.FullPathOfApiExample | fastapi/routing.py:22-30 | under the prefix `/api`, the path `//x` is registered as `/api/x` |
| Routing.FullPathIdempotent | fastapi/routing.py:22-30 | without a prefix, the full path of a full path is itself |
| Routing.RoutesForAt | fastapi/routing.py:33-35 | exactly one route per method, at its position, upper-cased, with the same full path and handler |
| Routing.APIRouter.constructor | fastapi/routing.py:15-20 | the prefix is normalised, the tags kept, no routes |
| Routing.APIRouter.AddApiRoute | fastapi/routing.py:32-36 | the routes for the given methods are appended in order and the handler is returned unchanged |
| Routing.APIRouter.Get | fastapi/routing.py:38-42 | one GET route is appended and the handler returned |
| Routing.APIRouter.Post | fastapi/routing.py:44-48 | one POST route is appended and the handler returned |
| Routing.SingleRoute | fastapi/routing.py:38-48 | a single method list gives a single route with that method |
| Routing.ResponseText | fastapi/routing.py:56-62 | JSON text for a dict or list; otherwise `str()`: the text itself for a string, `None`, `True` or `False`, a float's repr, and the non-empty `str()` of a tuple or an instance |
| Routing.ResponseTextOfInt | fastapi/routing.py:60-62 | the text of an integer response reads back as that integer |
| App.FindRoute | fastapi/app.py:22-26 | no route is returned exactly when none matches both method and path; otherwise the first matching route |
| App.FindRouteConcat | fastapi/app.py:14-26 | routes included later are searched only when no earlier route matches |
| App.RegisteredRouteIsFound | fastapi/app.py:17-26 | after registering a handler, a request for any of its methods on its path finds a route, and finds the new handler unless an earlier route already answered |
| App.DefaultsOf | fastapi/app.py:48-55 | the declared defaults are keyed by exactly the parameters that have a default |
| App.DefaultsOfAt | fastapi/app.py:50-55 | each such parameter maps to its default, a `_Body` marker unwrapped to its `.default` |
| App.CallKwargs | fastapi/app.py:33-57 | the keys are the query parameters, the body keys and the defaults; query parameters win, then body keys, then defaults |
| App.Respond | fastapi/app.py:59-64 | a result gives status 200 with it; an `HTTPException` gives its status with `{"detail": detail}`; any other exception propagates |
| App.SetDefaults | fastapi/app.py:36-57 | the `setdefault` loop keeps every present key and adds the absent ones |
| App.SignatureDefaults | fastapi/app.py:48-55 | the `bound_defaults` loop computes the declared defaults |
| App.FastAPI.constructor | fastapi/app.py:11-12 | no routes |
| App.FastAPI.IncludeRouter | fastapi/app.py:14-15 | the router's routes are appended after the existing ones, in order |
| App.FastAPI.AddApiRoute | fastapi/app.py:17-20 | the routes of an unprefixed registration are appended |
| App.FastAPI.MatchRoute | fastapi/app.py:22-26 | the linear search returns the first route with the same method and path, or none |
| App.FastAPI.HandleRequest | fastapi/app.py:28-64 | an unmatched request gives 404 `{"detail": "Not Found"}`; otherwise the matched handler's outcome on the merged keyword arguments becomes the response |
| Cli.SplitAtFirst | modules/main.py:122 | the text is the part before the first `=`, the `=`, and the rest; the first part holds no `=` |
| Cli.SplitAtFirstUnique | modules/main.py:122 | a prefix free of the separator followed by the separator is exactly what the split returns |
| Cli.DecodeOr | modules/main.py:127-130 | the decoded JSON value, or the text itself when it is not JSON |
| Cli.ParseKv | modules/main.py:119-131 | an argument without `=` exits with "expected key=value"; a blank key exits with "key cannot be empty"; otherwise the key is non-empty and free of `=` |
| Cli.ParseKvOfPair | modules/main.py:119-131 | `key=value` parses back to the key and the decoded value, even when the value holds `=` |
| Cli.Assign | modules/main.py:144-145 | updating never removes a key |
| Cli.AssignLastWins | modules/main.py:144-145 | a key is present exactly when the data or some argument holds it; the last argument naming it wins; otherwise the data's value stays |
| Cli.PayloadData | modules/main.py:135-143 | an absent or empty payload gives `{}`; a payload that is not JSON exits with "Invalid JSON payload: ..."; a non-object exits with "must be an object"; an object gives its entries |
| Cli.ApplyArgs | modules/main.py:144-146 | the arguments apply exactly when every one of them parses |
| Cli.ApplyArgsLaterWins | modules/main.py:144-146 | a later argument overrides earlier ones and the data; a key no argument names keeps the data's value |
| Cli.Merged | modules/main.py:134-146 | the merge succeeds exactly when the payload and every argument do; a payload error comes first |
| Cli.MergedLaterWins | modules/main.py:143-146 | `--arg` entries override the payload and each other in order |
| Cli.LoadPayload | modules/main.py:135-143 | the payload step computes the payload data |
| Cli.UpdateWithArgs | modules/main.py:144-146 | the argument loop computes the in-order application, stopping at the first failure |
| Cli.MergeArguments | modules/main.py:134-146 | `_merge_arguments` computes the merge |
| Cli.Converted | modules/main.py:173-187 | the result of the first converter in order whose call succeeds, every converter before it being missing or raising; none when every converter is missing or raises |
| Cli.FormatResult | modules/main.py:170-192 | `None` becomes `{"ok": True}`; a working converter's result is used; strings, integers, floats, booleans, lists and dicts pass through; anything else becomes its `repr` |
| Cli.FormatResultIdempotent | modules/main.py:170-192 | formatting a result that passes through changes nothing |
| Cli.FormatResultPrintable | modules/main.py:170-192 | without converters the formatted result always passes through |
| Cli.ArgvOrSys | modules/main.py:232 | a given non-empty list is used, otherwise the process arguments |
| Cli.RewriteArgv | modules/main.py:233-237 | `serve` is put in front exactly when the list is empty or starts with `api`, `telegram` or `all`; the original list follows unchanged; the result never starts with a service name |
| Cli.RewriteArgvIdempotent | modules/main.py:233-237 | rewriting a rewritten list changes nothing |
| Cli.FindModule | modules/main.py:151-154 | a loaded name gives its module; an unknown name exits listing the sorted module names, or `<none>` |
| Cli.CallOutcome | modules/main.py:149-162 | module lookup first, then the merge, then the invocation (a failure exits naming the module and operation), then formatting |
| Cli.CallOutcomeUnknownOperation | modules/main.py:157-160 | an unknown operation exits with "Failed to execute m.op: " and the `KeyError` message in double quotes, as `str()` of the `KeyError` renders a message holding `'` |
| Config.PathParts | core/config.py:5 | every part is non-empty, stripped and free of `,` |
| Config.Candidates | core/config.py:5-8 | the parts when there are any, else the working directory, its `integrations` subdirectory and `.` |
| Config.Absolute | core/config.py:10-11 | every candidate made absolute, in order |
| Config.DistinctAbsolute | core/config.py:9-14 | no duplicates, exactly the absolute forms of the candidates, in the order of their first occurrence |
| Config.SplitPaths | core/config.py:4-14 | `_split_paths` computes the distinct absolute candidates |
| Config.AbsoluteDistinct | core/config.py:9-14 | the loop keeps each absolute path once, in the order of its first occurrence |
| Config.BlankSettingHasNoParts | core/config.py:5-6 | an absent or empty setting has no parts, so the defaults are used |
| Config.DefaultPaths | core/config.py:6-14 | when `.` is the working directory, the default list has exactly two entries, the working directory first |
| Config.DedupRepeatFirst | core/config.py:12-13 | a repeat of the first of two distinct entries is dropped |
| Tracing.NormaliseBool | observability/tracing.py:46-54 | `None` gives the default; after stripping and lower-casing, `0/false/no/off` give false, `1/true/yes/on` give true, anything else the default |
| Tracing.NormaliseBoolIgnoresCaseAndSpace | observability/tracing.py:49 | surrounding whitespace and letter case do not change the reading |
| Tracing.DefaultVersion | observability/tracing.py:39-43 | the installed package version, else `0.0.0` |
| Tracing.BuildResource | observability/tracing.py:57-63 | the service name, namespace `coman`, and the given version unless it is absent or empty, then the default version |
| Tracing.ModuleTracer | observability/tracing.py:172-186 | the tracer of the provider with scope `coman.modules.{name}` |
| Tracing.TracingState.constructor | observability/tracing.py:33-36 | no providers and no client library instrumented |
| Tracing.TracingState.GetOrCreateProvider | observability/tracing.py:89-102 | a cached provider is returned and nothing changes; otherwise a provider built from the name and version is cached under the name; at most one provider per service name |
| Tracing.TracingState.InstrumentHttpClients | observability/tracing.py:121-130 | each library not yet instrumented is instrumented once with the provider, httpx first; afterwards both flags are set |
| Tracing.TracingState.Record | observability/tracing.py:124-128 | one instrumentation call is appended to the record |
| Tracing.TracingState.EnsureGlobalProvider | observability/tracing.py:105-118 | only the SDK's default provider is replaced, by the given one tagged with the service name; any provider already set is kept |
| Tracing.TracingState.InstrumentFastApiApp | observability/tracing.py:178-190 | a new name caches a provider built from the name and version; the tracer is that provider's module tracer; each client library not yet instrumented is instrumented once with it, httpx first; the SDK default global provider is replaced by it tagged with the name and any other is kept |
| Tracing.Router.constructor | observability/tracing.py:156-160 | a router with the plain route class and no tracing tag |
| Tracing.Router.EnsureRouteClass | observability/tracing.py:156-160 | a tagged router is left untouched; an untagged one gets the traced route class and is tagged with it |
| Tracing.SetupModuleObservability | observability/tracing.py:163-175 | the tracer comes from the module's provider, which stays cached or, for a new name, is built from the name and version and added to the cache; the global provider, the instrumentation record and both flags are unchanged; a given untagged router gets the traced route class and is tagged with it, and a tagged one is left as it is |
| Tracing.SpanSuffix | observability/tracing.py:142 | the operation stripped of slashes when that is not empty, else the route path stripped of slashes when that is not empty, else `handler`; never empty |
| Tracing.SpanName | observability/tracing.py:142 | the module name, a dot, then the operation without surrounding slashes, else the route path without them, else `handler` |
| Tracing.SpanSuffixWithoutOuterSlash | observability/tracing.py:142 | the part after the module name neither starts nor ends with a slash |
| Tracing.SpanSuffixOfSlashed | observability/tracing.py:142 | an operation written as `/name/` names the span by `name` |
| Tracing.SpanSuffixOfOnlySlashes | observability/tracing.py:142 | an operation and a route path made only of slashes name the span `handler` |
| Tracing.RouteOperation | observability/tracing.py:137 | the route name when non-empty, else the handler's name, else "" |
| Tracing.SpanAttributes | observability/tracing.py:144-148 | module, operation (else the route path) and route are always set; `coman.methods` is set exactly when there are methods, sorted and joined with `,` |
| Registry.LoadAllConcat | core/registry.py:10-24 | loading two runs of entries is loading the second onto the result of the first |
| Registry.SkippedEntry | core/registry.py:11-24 | an entry that is not a package, fails to import or instantiate, or has no `Module` class leaves the result as if it were absent: only that entry is skipped |
| Registry.LoadAllLastWins | core/registry.py:19-20 | a name is loaded exactly when it was there before or some entry registered an instance declaring it; the last such entry's instance is kept; otherwise the earlier value stays |
| Registry.LoadAllHas | core/registry.py:19-20 | a name is loaded exactly when it was there before or some entry registered it |
| Registry.LoadAllLast | core/registry.py:20 | a later module of the same name overwrites an earlier one |
| Registry.LoadAllUntouched | core/registry.py:20 | a name no entry registers keeps its earlier instance |
| Registry.Core.constructor | core/registry.py:4-7 | no modules and no scheduler |
| Registry.LoadModules | core/registry.py:8-24 | the loop stores each successfully instantiated `Module` under its declared name, in discovery order, and leaves the scheduler alone |
| MessagesBase.KnownKeys | core/messages/base.py:38-41 | the fallback data holds exactly the payload keys that are declared fields, with their values, and nothing for a non-dictionary payload |
| MessagesBase.FromPayload | core/messages/base.py:25-44 | an instance of the class is returned as it is; `None` and other non-dictionary payloads give the class built from `{}`; a dictionary is validated; the result is always an instance |
| MessagesBase.ToPayload | core/messages/base.py:46-51 | exactly the declared fields whose value is not `None`, normalised |
| MessagesBase.Clone | core/messages/base.py:53-56 | the clone is an instance of the same class (the original is a value and is not changed) |
| MessagesBase.CloneFields | core/messages/base.py:53-56 | the clone holds every update, keeps every other field the original set to a non-`None` value, and defaults the rest |
| MessagesBase.UnknownKeysIgnored | core/messages/base.py:17-51 | keys that name no declared field never reach a payload |
| MessagesBase.PayloadRoundTrip | core/messages/base.py:25-51 | a message whose attributes are exactly its non-`None`, model-free fields survives the round trip through its payload |
| MessagesManager.DropEmpty | core/messages/manager.py:28 | exactly the non-empty entries are kept |
| MessagesManager.NewToolDefinition | core/messages/manager.py:22-28 | name, path and description kept; the method is the given one upper-cased (so equal to it up to case), or `GET` when absent or empty; a text `params` is split on `,` with parts stripped and empty parts dropped; a list loses its empty entries |
| MessagesManager.NewToolDefinitionIdempotent | core/messages/manager.py:22-28 | building a definition from the fields of a normalised one gives it back |
| MessagesManager.ParamsTextRoundTrip | core/messages/manager.py:23-25 | stripped, comma-free parameter names survive being written as comma-separated text and read back |
| MessagesManager.ToolRegistry.constructor | core/messages/manager.py:34 | no tools |
| MessagesManager.ToolRegistry.FromTools | core/messages/manager.py:50-52 | the tools in the order given |
| MessagesManager.ToolRegistry.Upsert | core/messages/manager.py:36-39 | every tool with the same name is removed and the new one appended last |
| MessagesManager.ToolRegistry.Find | core/messages/manager.py:41-45 | the loop returns the first tool with the name, or none |
| MessagesManager.ToolRegistry.Names | core/messages/manager.py:47-48 | the tool names in registry order |
| MessagesManager.UpsertThenFind | core/messages/manager.py:36-45 | after `upsert(t)`, `find(t.name)` is `t`, and every other name finds what it found before |
| MessagesManager.DictOrEmpty | core/messages/manager.py:63-68 | the value under the key when it is a dictionary, else `{}` |
| MessagesManager.NewManagerRunRequest | core/messages/manager.py:62-71 | succeeds exactly when the goal is falsy or a string; the goal is stripped (falsy gives ""); non-dictionary inputs and metadata become `{}`; a truthy non-string goal raises `AttributeError` |
| MessagesManager.ManagerRunRequestIdempotent | core/messages/manager.py:62-71 | a request rebuilt from its own fields is the same request |
| MessagesManager.ManagerRunResult.constructor | core/messages/manager.py:74-83 | every field at its default |
| MessagesManager.ManagerRunResult.SetKnownTools | core/messages/manager.py:85-87 | the registry is recorded, the same object is returned, and nothing else changes |
| MessagesIntegration.StripSig | core/messages/integration.py:28-29 | a falsy signature is kept; a truthy string is stripped; a truthy non-string raises `AttributeError` |
| MessagesIntegration.NewIntegrationDefinition | core/messages/integration.py:22-29 | succeeds exactly when name, path, module and callable are strings and the signature is falsy or a string; the four are stripped; the first non-string field raises `AttributeError` |
| MessagesIntegration.NewIntegrationDefinitionNormalised | core/messages/integration.py:22-29 | every definition built is in stripped form |
| MessagesIntegration.NewIntegrationDefinitionIdempotent | core/messages/integration.py:22-29 | rebuilding a normalised definition from its own fields gives it back |
| MessagesIntegration.FieldsOfGet | core/messages/integration.py:16-20 | the keyword arguments of a definition give each of its fields back |
| MessagesIntegration.DefinitionFromPayload | core/messages/integration.py:56-60 | a definition is kept; a dictionary goes to the constructor; anything else falls back to an empty payload, which fails on the missing name |
| MessagesIntegration.ConvertAll | core/messages/integration.py:54-61 | succeeds exactly when every entry converts, preserving count and order |
| MessagesIntegration.AsEntries | core/messages/integration.py:61 | the definitions as registry entries, in order |
| MessagesIntegration.ConvertAllOfDefinitions | core/messages/integration.py:54-61 | converting entries that are already definitions gives them back |
| MessagesIntegration.IntegrationRegistry.FromEntries | core/messages/integration.py:37-38 | the entries as given, before the conversion |
| MessagesIntegration.IntegrationRegistry.EnsureModels | core/messages/integration.py:54-61 | every entry is converted in order; on a failure the exception is returned and the list is left as it was |
| MessagesIntegration.IntegrationRegistry.Upsert | core/messages/integration.py:41-45 | after the conversion, every definition with the same name is removed and the new one appended |
| MessagesIntegration.IntegrationRegistry.Find | core/messages/integration.py:47-52 | after the conversion, the first definition with the name, or none |
| MessagesIntegration.FirstDefinition | core/messages/integration.py:49-52 | the search loop returns the first definition with the name |
| MessagesIntegration.UpsertThenFind | core/messages/integration.py:41-52 | after upserting `d`, the entries convert and `find(d.name)` is `d` |
| MessagesIntegration.UnwrapKwargs | core/messages/integration.py:74-78 | falsy and non-dictionary values give `{}`; a dictionary whose sole key is `kwargs` holding a dictionary is unwrapped; any other dictionary is kept |
| MessagesIntegration.UnwrapKwargsOnce | core/messages/integration.py:77-78 | unwrapping happens once only |
| MessagesIntegration.NewIntegrationCallRequest | core/messages/integration.py:73-81 | keyword arguments follow the unwrapping rule; the mode is stripped and non-empty; name, callable and `verify_sig` (default true) are kept |
| MessagesIntegration.CallRequestMode | core/messages/integration.py:81 | an absent or blank mode becomes `inproc`; a non-blank one is stripped |
| MessagesOrchestrator.NewCapability | core/messages/orchestrator.py:21-25 | the name is kept as given; the kind is stripped with `webhook` for an absent, falsy or blank kind; endpoint and description are stripped (default ""); the first field that cannot be stripped raises `AttributeError` |
| MessagesOrchestrator.FieldsOfGet | core/messages/orchestrator.py:16-19 | the keyword arguments of a capability give its fields back |
| MessagesOrchestrator.NewCapabilityNormalised | core/messages/orchestrator.py:23-25 | every capability built has a non-empty stripped kind and stripped endpoint and description |
| MessagesOrchestrator.NewCapabilityIdempotent | core/messages/orchestrator.py:21-25 | rebuilding a normalised capability from its own fields gives it back |
| MessagesOrchestrator.CapabilityRegistry.constructor | core/messages/orchestrator.py:31 | no capabilities |
| MessagesOrchestrator.CapabilityRegistry.Add | core/messages/orchestrator.py:33-34 | exactly one capability is appended at the end, earlier entries untouched, no deduplication; normalised contents stay normalised |
| Pydantic.Field | pydantic/__init__.py:106-109 | giving both a default and a factory is exactly the `ValueError` case; otherwise the `FieldInfo` holding what was given |
| Pydantic.FieldDefault | pydantic/__init__.py:141-148 | a factory's value comes first, then an explicit default, then `None` |
| Pydantic.DefaultFor | pydantic/__init__.py:140-151 | an undeclared name defaults to `None`, a plain class attribute to itself, a `Field` to its factory's value, else its default, else `None` |
| Pydantic.Constructed | pydantic/__init__.py:123-134 | an instance of the class whose attributes are the data keys and the annotated fields; data values win, and an annotated field missing from the data gets its default |
| Pydantic.ConstructedParts | pydantic/__init__.py:126-134 | the attributes are the field values from the annotation pass plus the leftover keys |
| Pydantic.AnnotatedPass | pydantic/__init__.py:126-132 | the loop over the annotations pops each field from `remaining` or defaults it |
| Pydantic.SetLeftovers | pydantic/__init__.py:133-134 | every leftover key is set as an attribute |
| Pydantic.Construct | pydantic/__init__.py:123-134 | `BaseModel.__init__` builds the instance described by `Constructed` |
| Pydantic.ParseObj | pydantic/__init__.py:153-157 | a mapping builds an instance; anything else raises `ValidationError("Expected mapping for parse_obj")` |
| Pydantic.ModelValidate | pydantic/__init__.py:159-163 | a mapping builds an instance; anything else raises `ValidationError("Expected mapping for model_validate")` |
| Pydantic.ToDictOf | pydantic/__init__.py:171-178 | a dictionary holding exactly the annotated fields, minus those holding `None` when `exclude_none` is set |
| Pydantic.Normalise | pydantic/__init__.py:180-190 | lists, tuples and dictionaries keep their kind and length (dictionaries their keys); instances become dictionaries; anything else is kept |
| Pydantic.NormaliseIsModelFree | pydantic/__init__.py:180-190 | no instance remains anywhere in a normalised value |
| Pydantic.ToDictIsModelFree | pydantic/__init__.py:171-178 | no instance remains anywhere in `_to_dict`'s result |
| Pydantic.NormaliseModelFree | pydantic/__init__.py:180-190 | a value without instances is already normalised |
| Pydantic.NormaliseIdempotent | pydantic/__init__.py:180-190 | normalising twice is normalising once |
| Pydantic.ToDict | pydantic/__init__.py:171-178 | the loop over the annotated fields computes `_to_dict` |
| LogicApp.Iterate | modules/logic_app/module.py:8-15 | lists and tuples iterate over their items, dictionaries over their keys, strings over their characters; any other value raises `TypeError` "'T' object is not iterable" |
| LogicApp.Unpack2 | modules/logic_app/module.py:11-15 | `k, v = pair` succeeds exactly on an iterable with two items; a non-iterable and too few or too many items raise Python's `TypeError`/`ValueError` messages |
| LogicApp.ContextGet | modules/logic_app/module.py:11-15 | a string key is looked up in the context (missing gives `None`); another hashable key gives `None`; an unhashable key raises |
| LogicApp.Comparands | modules/logic_app/module.py:10-13 | succeeds exactly when the pair unpacks and the key is hashable, and yields `str(ctx.get(k))` and `str(v)` |
| LogicApp.Membership | modules/logic_app/module.py:14-15 | succeeds exactly when the pair unpacks, the key is hashable and the second item is iterable; true exactly when some item's string form equals the context value's |
| LogicApp.EvalExpr | modules/logic_app/module.py:6-16 | anything but a dictionary is false, and so is a dictionary with none of the five keys |
| LogicApp.EvalAll | modules/logic_app/module.py:8 | a non-iterable operand raises the iteration error |
| LogicApp.EvalAny | modules/logic_app/module.py:9 | a non-iterable operand raises the iteration error |
| LogicApp.AllIsConjunction | modules/logic_app/module.py:8 | when no item raises, `all` is true exactly when every item is true (so an empty list is true) |
| LogicApp.AnyIsDisjunction | modules/logic_app/module.py:9 | when no item raises, `any` is true exactly when some item is true (so an empty list is false) |
| LogicApp.AllStopsAtFalse | modules/logic_app/module.py:8 | `all` is false at the first false item whatever the items after it would do |
| LogicApp.NeqIsNotEq | modules/logic_app/module.py:10-13 | `neq` raises exactly when `eq` does and otherwise is its negation |
| LogicApp.EqOfPresentKey | modules/logic_app/module.py:10-11 | `eq` on a present key compares the string forms of the stored and the given value |
| LogicApp.EqSeesReprQuotes | modules/logic_app/module.py:10-11 | `eq` tells the list `['a', 'b']` from a one-item list holding the string `a', 'b`, whose repr is double-quoted |
| LogicApp.Precedence | modules/logic_app/module.py:8-15 | the result depends only on the first present key in the order `all`, `any`, `eq`, `neq`, `in` |
| LogicApp.Decode | modules/logic_app/module.py:34-36 | `json.loads` succeeds exactly when the text decodes, and otherwise raises `ValueError` |
| LogicApp.Consider | modules/logic_app/module.py:32-37 | a disabled rule is skipped; a recorded rule is enabled, its expression decodes and holds, and the record carries its id, name, priority and decoded action; an undecodable expression raises |
| LogicApp.Matching | modules/logic_app/module.py:31-37 | the loop succeeds exactly when every rule is considered without error; every recorded entry comes from a rule; the list is empty exactly when no rule is recorded; `MatchingIsRecorded` and `MatchingComplete` give the rest |
| LogicApp.MatchingIsRecorded | modules/logic_app/module.py:31-37 | when the loop gets through, `applied` is exactly the records of the rules, in rule order |
| LogicApp.MatchingComplete | modules/logic_app/module.py:31-37 | when the loop gets through, every rule that is enabled, holds and decodes has its record in `applied` |
| LogicApp.ChosenOutranksRecorded | modules/logic_app/module.py:38-40 | a record that comes first in the sorted list outranks the record of every enabled rule whose expression holds |
| LogicApp.MatchingFailureSticks | modules/logic_app/module.py:32-37 | an error on a prefix of the rules is the error of the whole loop |
| LogicApp.Target | modules/logic_app/module.py:41-42 | a non-dict action, or a non-dict `set`, raises AttributeError naming its type; otherwise success exactly when both `use_integration` and `use_callable` under `set` are truthy, yielding them, and otherwise 400 "rule action missing use_integration/use_callable" |
| LogicApp.DecideAndCallAdvanced | modules/logic_app/module.py:27-49 | a loop error propagates; no match gives 400 "no matching rule"; when the first rule in (-priority, id) order has a bad target its error is raised, and when its target is good the call succeeds; a success holds the matches sorted by (-priority, id), the chosen rule with the highest priority and lowest id among equals, and the integration's answer for its target called with the context; `applied` is the rules' records in rule order, sorted, and the chosen rule outranks every enabled rule whose expression holds |
| LogicApp.Dispatch | modules/logic_app/module.py:38-49 | no matched rule gives 400 "no matching rule"; otherwise `applied` is the matches sorted by (-priority, id), the chosen rule is in it with the highest priority and lowest id among equals, a bad target gives its error, and a good target is called with the context |
| LogicModule.SnapshotWithout | modules/logic_module/module.py:28 | dropping the rows with one label removes that label from the dictionary view and leaves every other label's value |
| LogicModule.SnapshotWithoutStep | modules/logic_module/module.py:28 | the induction step of `SnapshotWithout` for one more row |
| LogicModule.SnapshotWithoutDropped | modules/logic_module/module.py:28 | a last row with the dropped label contributes nothing after the removal |
| LogicModule.SnapshotWithoutKept | modules/logic_module/module.py:28 | a last row with another label is still set after the removal |
| LogicModule.UpdateOutsideRemoved | modules/logic_module/module.py:28 | setting a label other than the removed one commutes with the removal |
| LogicModule.SnapshotSnoc | modules/logic_module/module.py:28 | a later row overrides an earlier row with the same label in the dictionary view |
| LogicModule.SnapshotOfUpsert | modules/logic_module/module.py:11-32 | after `INSERT OR REPLACE` on the unique label the label holds the new value and every other label is unchanged |
| LogicModule.FiredCount | modules/logic_module/module.py:26-32 | the count is at most the number of rules and is zero exactly when no rule's condition holds |
| LogicModule.DeriveUntouched | modules/logic_module/module.py:30-32 | a label no firing rule sets keeps its presence and value |
| LogicModule.DeriveLaterWins | modules/logic_module/module.py:30-32 | when several firing rules set the same label, the last one decides its value |
| LogicModule.DeriveRowsSnapshot | modules/logic_module/module.py:28-32 | the rows after the pass, read back as a dictionary, are the dictionary view of the pass |
| LogicModule.RowOf | modules/logic_module/module.py:45 | a reported rule keeps every column and reads `enabled` as `bool(enabled)` |
| LogicModule.ReportOrder | modules/logic_module/module.py:44-45 | every stored rule is reported: same length, ordered by priority descending then id ascending, every row reported and every report a row |
| LogicModule.LogicStore.RulesxList | modules/logic_module/module.py:41-45 | `rulesx_list` reports every stored extended rule once, ordered by priority descending then id ascending, and nothing else |
| LogicModule.Rows | modules/logic_module/module.py:45 | one report per row, in row order |
| LogicModule.RowsOfSorted | modules/logic_module/module.py:44-45 | the reports of a sorted permutation of the table are in report order and are exactly the table's reports |
| LogicModule.LogicStore.constructor | modules/logic_module/db.py:9-14 | a new database has three empty tables and no id handed out |
| LogicModule.LogicStore.AddFact | modules/logic_module/module.py:8-12 | the fact is upserted by label: the label holds the value, other facts and tables unchanged, labels stay unique |
| LogicModule.LogicStore.ListFacts | modules/logic_module/module.py:13-17 | one `{"label", "value"}` record per stored fact, in row order |
| LogicModule.LogicStore.AddRule | modules/logic_module/module.py:18-23 | the rule is appended; nothing else changes |
| LogicModule.LogicStore.Infer | modules/logic_module/module.py:24-34 | every rule is judged against the facts as they were before the pass; each firing rule upserts its fact; the answer counts the firing rules; the other tables are unchanged |
| LogicModule.LogicStore.RulesxAdd | modules/logic_module/module.py:35-40 | the rule is appended under the next `AUTOINCREMENT` id; ids keep increasing |
| LogicModule.LogicStore.RulesxClear | modules/logic_module/module.py:46-50 | no extended rule is left; facts, rules and the id counter are kept |
| Integration.IsAllowed | modules/integration/module.py:13-20 | a path is allowed exactly when its resolved form is some resolved base or lies below it after a separator |
| Integration.AllowedBelowBase | modules/integration/module.py:13-20 | every allowed base, and every path resolving below one, is allowed |
| Integration.SiblingNotWithin | modules/integration/module.py:18 | a sibling whose name merely begins with the base's name is not within the base |
| Integration.SplitAtLastDot | modules/integration/module.py:69 | `rsplit(".", 1)` joins back to the target and its right part holds no dot |
| Integration.SplitAtLastDotUnique | modules/integration/module.py:69 | splitting `a + "." + b` with a dot-free `b` gives back `(a, b)` |
| Integration.CallKwargs | modules/integration/module.py:58-62 | `None` becomes `{}`; anything but a dictionary is 400 "kwargs must be a JSON object"; a sole `kwargs` key holding a dictionary is unwrapped once; any other dictionary is kept |
| Integration.UnwrapOnce | modules/integration/module.py:61-62 | a doubly wrapped dictionary keeps its inner wrapper |
| Integration.Target | modules/integration/module.py:63-72 | a plain explicit callable is called in the registered module; without one, a plain registered callable is used the same way; neither gives 400 "callable not specified"; any success names the registered module and a dot-free function; the only errors are the two 400s |
| Integration.DottedTarget | modules/integration/module.py:68-72 | a dotted callable is accepted exactly when its module part is the registered module, and then splits into module and function; otherwise 400 "callable must belong to the registered module" |
| Integration.TargetFallsBack | modules/integration/module.py:63 | a request without a callable behaves exactly as if it named the registered callable |
| Integration.RegisteredDottedTarget | modules/integration/module.py:63-72 | a dotted registered callable is accepted exactly when its module part is the registered module, and then splits into module and function; otherwise 400 "callable must belong to the registered module" |
| Integration.IntegrationStore.constructor | modules/integration/module.py:7-8 | with no registry file there are no integrations |
| Integration.IntegrationStore.Register | modules/integration/module.py:36-46 | a path outside the allowed directories is 400 with the path and the list, an import failure propagates, both leaving the registry unchanged; otherwise the new entry with the module's signature replaces every entry of that name and goes last, the answer is `{"ok": true, "sig": sig}`, and names stay unique |
| Integration.IntegrationStore.Call | modules/integration/module.py:49-84 | an unknown name is 404; a path no longer allowed is 400; a changed signature under `verify_sig` is 400 "signature mismatch"; then, in that order, a non-dict `kwargs` and a missing or foreign callable give their 400s, an in-process call's error is passed on, and otherwise the answer is `{"result": ...}` of the in-process call or the subprocess runner's reply |
| Integration.RegisterThenFind | modules/integration/module.py:44-51 | a freshly registered integration is the one a call by its name finds |
| Orchestrator.TargetNames | modules/orchestrator/module.py:26-38 | the new name is always replaced, and the original name too exactly when it is given and non-empty |
| Orchestrator.CapabilityFile.constructor | modules/orchestrator/module.py:6-7 | with no capability file there are no capabilities |
| Orchestrator.CapabilityFile.Register | modules/orchestrator/module.py:26-38 | every entry under the new or the original name is removed, the other entries stay in order, the new entry is last, and the answer reports the new count |
| Orchestrator.CapabilityFile.Delete | modules/orchestrator/module.py:41-45 | every entry with the name is removed, the answer reports how many there were, and an absent name changes nothing |
| Orchestrator.RegisterLeavesOne | modules/orchestrator/module.py:26-36 | after a registration exactly one entry carries the new name |
| Orchestrator.RenameRemovesOriginal | modules/orchestrator/module.py:26-30 | after a rename no entry carries the original name |
| Manager.ParamList | modules/manager/module.py:43 | the parameters are the non-empty comma-free parts of the text; an empty text has none |
| Manager.ParamListDropsEmpty | modules/manager/module.py:43 | comma-free names, some empty or padded, written comma-separated: the empty ones are dropped and the others come back as written (not stripped), in order |
| Manager.ParamListOfJoin | modules/manager/module.py:43 | non-empty comma-free names written comma-separated are read back as they were |
| Manager.GoalOf | modules/manager/module.py:49-55 | a truthy string goal in a dictionary payload is the goal; without a truthy goal the `goal_q` parameter (or "") is used; a truthy non-string goal raises |
| Manager.InputsLookup | modules/manager/module.py:76-77 | a falsy `inputs` holds nothing; a dictionary is looked up; any success with a value comes from a dictionary holding the key |
| Manager.ParamValue | modules/manager/module.py:75-81 | an `inputs` value wins; without one, `s` gets the goal and `url` the URL found in the goal, else the parameter is left out; it raises exactly when the lookup raises |
| Manager.QueryOf | modules/manager/module.py:74-81 | the query is built exactly when no lookup raises; every key is a tool parameter with its value; every parameter that has a value is in it |
| Manager.QueryOfFailureSticks | modules/manager/module.py:75-77 | a failing lookup on a prefix of the parameters is the failure of the whole loop |
| Manager.FirstHeuristic | modules/manager/module.py:60-64 | a chosen tool belongs to the first heuristic whose pattern matches a non-empty goal; none is chosen exactly when the goal is empty or nothing matches |
| Manager.ToolFor | modules/manager/module.py:53-64 | a URL in the goal selects the title tool; otherwise no tool is chosen exactly when the goal is empty or no heuristic matches; a chosen tool is the title tool or a heuristic's; without a URL the choice is the first heuristic whose pattern matches a non-empty goal |
| Manager.UppercaseGoal | modules/manager/module.py:55-64 | without a URL, a goal matching the uppercase heuristic and not the title one selects `text.uppercase` |
| Manager.NormaliseBody | modules/manager/module.py:86-102 | the answer is never a string: a decoded non-string body is kept; a string that strips to a bracketed text is decoded when it can be; any string left is wrapped as `{"text": ...}` |
| Manager.NormaliseBodyIdempotent | modules/manager/module.py:86-102 | normalising an already normalised answer changes nothing |
| Manager.PlainTextIsWrapped | modules/manager/module.py:90-102 | a text answer that is not bracketed comes back wrapped and unstripped |
| Manager.VerbOf | modules/manager/module.py:84 | a tool is called with `GET` exactly when its method is `GET`, and with `POST` otherwise |
| Manager.ToolsFile.constructor | modules/manager/module.py:9-10 | with no tool file there are no tools |
| Manager.ToolsFile.RegisterTool | modules/manager/module.py:39-45 | every tool of the name is replaced by the new one, appended last with its method upper-cased and its parameters split; the answer is `{"ok": true}` |
| Manager.ToolsFile.Run | modules/manager/module.py:47-104 | a bad goal raises; no tool gives the `no_tool` answer with the tool file; a tool missing from the file gives `unknown_tool`; a failing query raises; otherwise the tool (last entry of the name) is called at the API base plus its path and the answer holds goal, tool, query and the normalised result |
| Manager.ChooseTool | modules/manager/module.py:54-64 | the loop picks the tool `ToolFor` names: the title tool for a URL, otherwise the first matching heuristic |
| Manager.BuildQuery | modules/manager/module.py:74-81 | the loop builds the query `QueryOf` describes, or stops with its error |
| Manager.RegisteredToolIsFound | modules/manager/module.py:69-70 | a registered tool is the one a run finds under its name |
| Manager.GoalOnlyQuery | modules/manager/module.py:78-79 | a tool whose only parameter is `s`, given no inputs, is queried with the goal |
| Analysis.Tokens | modules/analysis_module/module.py:10 | one token per whitespace-separated word, in order, each the word lower-cased, non-empty and lower-case |
| Analysis.WordsAreNotBlank | modules/analysis_module/module.py:10 | every word `split()` yields strips to itself and is non-empty, so the `w.strip()` filter drops nothing |
| Analysis.Count | modules/analysis_module/module.py:11 | `Counter`: the keys are exactly the tokens and each count is the token's number of occurrences |
| Analysis.Frequency | modules/analysis_module/module.py:7-11 | the keys are exactly the tokens of the text, each non-empty, lower-case and counted at least once |
| Analysis.TotalRemove | modules/analysis_module/module.py:11 | the sum of the counts may be taken by removing any key first |
| Analysis.TotalBump | modules/analysis_module/module.py:11 | counting one more occurrence raises the sum by one |
| Analysis.CountTotal | modules/analysis_module/module.py:11 | the counts add up to the number of tokens |
| Analysis.FrequencyTotal | modules/analysis_module/module.py:10-11 | the counts of a text add up to its number of words |
| Analysis.FrequencyOfBlank | modules/analysis_module/module.py:10-11 | an empty or all-whitespace text has an empty frequency map |
| Analysis.FrequencyIgnoresCase | modules/analysis_module/module.py:10 | lower-casing the text first gives the same map: case variants share one count |
| AnalysisApp.NewFrequencyRequest | modules/analysis_module/app/main.py:13-26 | the request is built exactly when the stripped text is not blank, and holds the stripped text; a blank text is the validation error with the module's message |
| AnalysisApp.Frequency | modules/analysis_module/app/main.py:38-43 | the counts' keys are exactly the lower-cased words of the request, each non-empty, lower-case and counted by occurrences |
| AnalysisApp.LegacyFrequency | modules/analysis_module/app/main.py:57-61 | the deprecated path answers exactly as the current one |
| AnalysisApp.FrequencyStatus | modules/analysis_module/app/main.py:20-38 | 422 exactly for a blank text and 200 exactly otherwise |
| AnalysisApp.FrequencyOfRequest | modules/analysis_module/app/main.py:16-43 | stripping the request text does not change the counts, which are the module's frequency of the raw text and add up to its number of words |
| TextApp.NewUppercaseRequest | modules/text_module/app/main.py:12-25 | the request is built exactly when the stripped text is not blank, and holds the stripped text; a blank text is the validation error with the module's message |
| TextApp.Uppercase | modules/text_module/app/main.py:38-43 | the answer keeps the request's text as `original`; `uppercased` has its length, is upper-case and agrees with it up to case |
| TextApp.UppercaseEndpoint | modules/text_module/app/main.py:12-43 | a blank body is rejected; otherwise `original` is the stripped text and `uppercased` its upper-case form |
| TextApp.LegacyUppercase | modules/text_module/app/main.py:57-61 | the deprecated query-parameter path builds the same request, raising the same validation error for a blank text, and otherwise answers as the current endpoint |
| TextApp.UppercaseStatus | modules/text_module/app/main.py:19-38 | 422 exactly for a blank text and 200 exactly otherwise |
| TextApp.UppercaseOfRaw | modules/text_module/app/main.py:15-42 | the upper-cased answer is the raw text upper-cased and then stripped |
| TextApp.UppercaseIdempotentRequest | modules/text_module/app/main.py:15-43 | sending the answer's `original` again gives the same answer |
| TelegramI18n.TableLanguage | telegram/coman/modules/telegram_module/i18n.py:52-56 | the table is always a known one: Russian without a language or with an empty one, the lower-cased language when supported, English otherwise |
| TelegramI18n.T | telegram/coman/modules/telegram_module/i18n.py:52-57 | the chosen table's entry, else the English entry, else the key itself |
| TelegramI18n.TablesAgreeOnKeys | telegram/coman/modules/telegram_module/i18n.py:5-50 | the Russian and English tables define the same keys |
| TelegramI18n.UnknownKeyIsItself | telegram/coman/modules/telegram_module/i18n.py:57 | an unknown key comes back as itself in every language |
| TelegramI18n.LanguageIgnoresCase | telegram/coman/modules/telegram_module/i18n.py:53 | the language code is read regardless of letter case |
| TelegramI18n.DefaultIsRussian | telegram/coman/modules/telegram_module/i18n.py:53 | no language and the empty language both read the Russian table |
| TelegramI18n.UnsupportedIsEnglish | telegram/coman/modules/telegram_module/i18n.py:54-55 | an unsupported language reads the English table |
| TelegramConfig.ReadId | telegram/coman/modules/telegram_module/config.py:8-14 | a blank part gives no id; otherwise the id is `int()` of the stripped part, and no id means the stripped part is blank or not an integer |
| TelegramConfig.ReadIdOfPadded | telegram/coman/modules/telegram_module/config.py:8-14 | an integer written with whitespace on either side reads back as that integer |
| TelegramConfig.IdsOfParts | telegram/coman/modules/telegram_module/config.py:7-15 | there are never more ids than parts |
| TelegramConfig.AdminParts | telegram/coman/modules/telegram_module/config.py:7 | a missing or empty value is one empty part |
| TelegramConfig.AdminIds | telegram/coman/modules/telegram_module/config.py:5-15 | a missing or empty value gives no ids |
| TelegramConfig.ParseAdminIds | telegram/coman/modules/telegram_module/config.py:5-15 | the loop keeps exactly the integers of the parts, in order |
| TelegramConfig.IdsOfPartsStep | telegram/coman/modules/telegram_module/config.py:8-14 | one loop step appends the part's integer when it has one |
| TelegramConfig.IdsOfPartsConcat | telegram/coman/modules/telegram_module/config.py:7-15 | the ids of two runs of parts are the first run's ids followed by the second's |
| TelegramConfig.PrintedIdReadsBack | telegram/coman/modules/telegram_module/config.py:8-12 | a printed integer is already stripped, not blank, and reads back as itself |
| TelegramConfig.Printed | telegram/coman/modules/telegram_module/config.py:7-15 | one printed form per id, in order |
| TelegramConfig.IdsOfPrinted | telegram/coman/modules/telegram_module/config.py:7-15 | printed integers read back as the same integers, order and repetitions kept |
| TelegramConfig.PrintedHasNoSeparator | telegram/coman/modules/telegram_module/config.py:7 | a printed integer holds neither `,` nor `;` |
| TelegramConfig.AdminIdsOfJoin | telegram/coman/modules/telegram_module/config.py:5-15 | a comma-separated list of ids reads back as the list, order and duplicates kept |
| TelegramConfig.JoinHasNoChar | telegram/coman/modules/telegram_module/config.py:7 | joining parts that lack a character other than the separator gives a text lacking it |
| TelegramConfig.ReplaceCharAbsent | telegram/coman/modules/telegram_module/config.py:7 | replacing a character that does not occur changes nothing |
| TelegramConfig.SemicolonIsComma | telegram/coman/modules/telegram_module/config.py:7 | a semicolon separates ids exactly as a comma does |
| TelegramConfig.LoadConfig | telegram/coman/modules/telegram_module/config.py:17-38 | a blank stripped token is the `RuntimeError` "Env TELEGRAM_BOT_TOKEN is required"; otherwise the configuration holds the stripped token, the ids parsed from `TELEGRAM_ADMIN_IDS` and the import-time defaults |
| TelegramDb.DefaultLanguage | telegram/coman/modules/telegram_module/db.py:7 | the default language is non-empty and lower-case, the given one lower-cased when it is non-empty, and `ru` when it is missing or empty |
| TelegramDb.LanguageOf | telegram/coman/modules/telegram_module/db.py:62-67 | the stored non-empty language lower-cased, else the default lower-cased; always lower-case |
| TelegramDb.RoleOf | telegram/coman/modules/telegram_module/db.py:75-80 | the stored non-empty role, else `user`; never empty |
| TelegramDb.UserDb.constructor | telegram/coman/modules/telegram_module/db.py:5-25 | the database keeps its path and the table it opens, with the default language normalised |
| TelegramDb.UserDb.UpsertUser | telegram/coman/modules/telegram_module/db.py:28-60 | the answer is true exactly for a new user; only that user's row changes, to the inserted or updated row |
| TelegramDb.UserDb.GetLanguage | telegram/coman/modules/telegram_module/db.py:62-67 | reads the user's language as `LanguageOf` states it |
| TelegramDb.UserDb.SetLanguage | telegram/coman/modules/telegram_module/db.py:69-73 | a known user's language becomes the lower-cased language; an unknown user changes nothing |
| TelegramDb.UserDb.GetRole | telegram/coman/modules/telegram_module/db.py:75-80 | reads the user's role as `RoleOf` states it |
| TelegramDb.UserDb.SetRole | telegram/coman/modules/telegram_module/db.py:82-86 | a known user's role becomes the given role; an unknown user changes nothing |
| TelegramDb.NewUserDefaults | telegram/coman/modules/telegram_module/db.py:47-80 | a new user given no language and no role reads back the default language and the role `user` |
| TelegramDb.ReupsertKeepsLanguage | telegram/coman/modules/telegram_module/db.py:53-54 | upserting a known user without a language keeps the stored language |
| TelegramDb.SetThenGetLanguage | telegram/coman/modules/telegram_module/db.py:62-73 | after setting a non-empty language, reading it gives it lower-cased |
| TelegramDb.UpsertStoresLanguage | telegram/coman/modules/telegram_module/db.py:41-54 | a given non-empty language is stored lower-cased, for new and known users alike |
| NamedList.WithoutKeys | core/messages/manager.py:37 | the filter keeps exactly the entries whose key is not dropped, and nothing else |
| NamedList.WithoutKeysConcat | modules/orchestrator/module.py:30 | the filter keeps the surviving entries in their order |
| NamedList.WithoutKeysKeeps | modules/orchestrator/module.py:43 | a list holding none of the dropped keys is left as it is |
| NamedList.WithoutKeysUnique | modules/integration/module.py:44 | dropping entries keeps the names unique |
| NamedList.UpsertUnique | core/messages/manager.py:36-39 | an upsert keeps the names unique |
| NamedList.CountKey | modules/orchestrator/module.py:42-45 | the number of entries with a name is at most the length, and zero exactly when no entry has it |
| NamedList.WithoutKeyCount | modules/orchestrator/module.py:42-45 | removing a name shortens the list by exactly the number of entries with it |
| NamedList.FirstIndex | core/messages/manager.py:41-45 | the first position holding the name, or none exactly when no entry holds it |
| NamedList.FindFirst | core/messages/manager.py:41-45 | the first entry with the name, and none exactly when no entry has it |
| NamedList.FindLast | modules/manager/module.py:69-70 | a dictionary built from the list holds the last entry with the name, and none exactly when no entry has it |
| NamedList.FindFirstIsLast | core/messages/manager.py:41-45 | with at most one entry per name, the list lookup and the dictionary lookup agree |
| NamedList.CountKeyConcat | modules/orchestrator/module.py:30-31 | counts add up over a concatenation |
| NamedList.FindFirstConcat | core/messages/manager.py:41-45 | the first match in a concatenation is the left part's when it has one |
| NamedList.FindFirstTail | core/messages/manager.py:42-44 | the loop returns the head when it matches and otherwise searches the rest |
| NamedList.FindFirstWithout | core/messages/manager.py:37-45 | dropping other names does not change which entry is found |
| NamedList.Upsert | core/messages/manager.py:36-39 | the new entry is last, no other entry has its name, the others come from the old list, and every old entry with another name is kept |
| NamedList.FindAfterUpsert | core/messages/manager.py:36-45 | after an upsert the entry found under its name, first or last, is the new one |
| NamedList.UpsertKeepsOthers | core/messages/manager.py:36-45 | an upsert leaves the lookup of every other name as it was |
| NamedList.UpsertUniqueKey | core/messages/manager.py:36-39 | after an upsert exactly one entry has the new name |
| NamedList.UpsertIdempotent | core/messages/manager.py:36-39 | upserting the same entry twice is upserting it once |
| NamedList.KeysOf | core/messages/manager.py:47-48 | one name per entry, in list order |
| NamedList.KeysOfUpsert | core/messages/manager.py:36-48 | after an upsert the names are the other entries' names in order, then the new name |
| PyValue.SortedNames | core/base_module.py:358 | never empty: "<none>" when no name is non-empty, otherwise the names in sorted order joined with ", " |
| PyValue.StripValue | core/messages/manager.py:71 | only a string can be stripped; anything else raises `AttributeError` |
| PyValue.StripOr | core/messages/orchestrator.py:23 | `(v or d).strip() or d` succeeds exactly on a falsy value or a string, and a non-empty fallback gives a non-empty result |
| PyValue.StripOrCases | core/messages/orchestrator.py:23 | with a stripped fallback: the result is stripped; a non-blank string gives its stripped form; a falsy value or blank string gives the fallback |
| PyValue.StripOrIdempotent | core/messages/orchestrator.py:23 | normalising an already normalised value again changes nothing |
| Collections.Dedup | core/config.py:10-13 | the loop keeps every element once: same elements, no duplicates, never longer, in the order of first occurrence |
| Collections.FirstIndex | core/config.py:12-13 | the position holding the first occurrence of the element |
| Collections.DedupHead | core/config.py:10-13 | the first element stays first |
| Collections.DedupOfDistinct | core/config.py:10-13 | a list without duplicates is left as it is |
| Collections.LexLeTotal | core/base_module.py:29 | Python's string order is total |
| Collections.LexLeAntisymmetric | core/base_module.py:29 | Python's string order is antisymmetric |
| Collections.LexLeTransitive | core/base_module.py:29 | Python's string order is transitive |
| Collections.LeastExists | core/base_module.py:29 | a non-empty set of strings has a least element |
| Collections.LeastUnique | core/base_module.py:29 | the least element is unique |
| Collections.Least | core/base_module.py:29 | the result is in the set and below every element |
| Collections.SortedSet | core/base_module.py:29 | `sorted` of a set: the same elements, once each, strictly ascending |
| Collections.InsertBy | modules/logic_app/module.py:39 | inserting into a sorted list keeps it sorted and adds exactly the element |
| Collections.ConsSorted | modules/logic_app/module.py:39 | a head whose key is below all the others keeps the list sorted |
| Collections.SortBy | modules/logic_app/module.py:39 | `sort(key=...)`: sorted by the key and a permutation of the input |
| Collections.SortedHeadIsLeast | modules/logic_app/module.py:39-40 | the head of a sorted list has the least key |
| Wrappers.MapAll | core/messages/integration.py:55-60 | the conversion succeeds exactly when every element converts, and then holds each converted element in order |
| Wrappers.MapAllFailureSticks | core/messages/integration.py:55-60 | once a prefix fails to convert, the whole conversion fails with that error |
| Text.LTrim | core/base_module.py:297-301 | `lstrip` removes exactly the longest prefix of trimmed characters |
| Text.RTrim | core/base_module.py:298 | `rstrip` removes exactly the longest suffix of trimmed characters |
| Text.TrimKeeps | core/base_module.py:298 | a text with no trimmed character at either end is left alone |
| Text.TrimEnds | core/base_module.py:298 | neither end of a trimmed text is a trimmed character |
| Text.StripIsInfix | modules/text_module/app/main.py:15 | stripping adds no character |
| Text.StripIsStripped | modules/text_module/app/main.py:15 | `strip()` produces stripped text and leaves stripped text alone |
| Text.StripIdempotent | modules/text_module/app/main.py:15 | stripping twice is stripping once |
| Text.TrimEmptyIff | modules/text_module/app/main.py:22 | a text strips to nothing exactly when every character is trimmed |
| Text.TrimIsSlice | modules/text_module/app/main.py:15 | a stripped text is a contiguous slice of the original |
| Text.LowerIsLower | modules/analysis_module/module.py:10 | `lower()` keeps the length and leaves no upper-case letter |
| Text.LowerOfLowerCase | modules/analysis_module/module.py:10 | lower-casing lower-case text changes nothing |
| Text.LowerOfUpper | modules/text_module/app/main.py:42 | lower-casing after upper-casing is lower-casing |
| Text.UpperIdempotent | modules/text_module/app/main.py:42 | upper-casing twice is upper-casing once |
| Text.LowerIdempotent | modules/analysis_module/module.py:10 | lower-casing twice is lower-casing once |
| Text.LowerConcat | modules/analysis_module/module.py:10 | lower-casing works character by character over a concatenation |
| Text.LowerKeepsSpaces | modules/analysis_module/module.py:10 | lower-casing leaves whitespace exactly where it was |
| Text.LTrimUpper | modules/text_module/app/main.py:15-42 | upper-casing and stripping leading whitespace commute |
| Text.RTrimUpper | modules/text_module/app/main.py:15-42 | upper-casing and stripping trailing whitespace commute |
| Text.StripUpper | modules/text_module/app/main.py:15-42 | upper-casing and stripping commute |
| Text.Word | modules/analysis_module/module.py:10 | the first word is the longest whitespace-free prefix |
| Text.Words | modules/analysis_module/module.py:10 | every word of `split()` is non-empty and holds no whitespace |
| Text.LowerEach | modules/analysis_module/module.py:10 | one lower-cased word per word, in order |
| Text.WordsOfLower | modules/analysis_module/module.py:10 | splitting a lower-cased text gives the lower-cased words |
| Text.WordOfLower | modules/analysis_module/module.py:10 | the first word of a lower-cased text is the lower-cased first word |
| Text.WordsOfBlank | modules/analysis_module/module.py:10 | an all-whitespace text has no words |
| Text.WordsSkipLeading | modules/analysis_module/module.py:10 | leading whitespace does not change the words |
| Text.WordOfConcat | modules/analysis_module/module.py:10 | a word ends where whitespace follows, whatever comes after |
| Text.WordsDropTrailing | modules/analysis_module/module.py:10 | trailing whitespace does not change the words |
| Text.WordsOfStrip | modules/analysis_module/app/main.py:16-42 | stripping a text does not change its words |
| Text.Split | core/config.py:5 | `split(sep)` gives at least one part and no part holds the separator |
| Text.JoinSplit | core/config.py:5 | joining the parts of a split gives back the text |
| Text.SplitConcat | core/config.py:5 | splitting a joined text splits each side |
| Text.SplitWithoutSep | core/config.py:5 | a text without the separator is one part |
| Text.SplitJoin | core/config.py:5 | splitting a join of separator-free parts gives the parts back |
| Text.StrippedNonBlank | core/config.py:5 | the kept parts are non-empty and stripped, and no more than the input parts |
| Text.StrippedNonBlankMembers | core/config.py:5 | a text is kept exactly when it is the non-empty stripped form of some part |
| Text.StrippedNonBlankAvoids | core/config.py:5 | a character found in no part is found in no kept part |
| Text.StrippedNonBlankKeeps | core/config.py:5 | stripped non-empty parts pass through unchanged |
| Text.SplitStripped | core/config.py:5 | every kept part is non-empty, stripped and free of the separator |
| Text.SplitStrippedOfJoin | core/config.py:5 | stripped non-empty separator-free parts joined by the separator are read back as themselves |
| Text.ReplaceChar | telegram/coman/modules/telegram_module/config.py:7 | replacing a character keeps the length, leaves every other character, and removes every occurrence |
| Text.CollapseSlashPairs | fastapi/routing.py:29 | `replace("//", "/")` never lengthens the text and keeps a leading slash |
| Text.CollapseWithoutPairs | fastapi/routing.py:29 | a text without a doubled slash is left as it is |
| Text.CollapseAfterPlain | fastapi/routing.py:29 | a text without a doubled slash and not ending in `/` passes through unchanged ahead of what follows |
| Text.CollapseOnePair | fastapi/routing.py:29 | one `//` between texts that hold none becomes `/`, and nothing else changes |
| Text.CollapseAtJoin | fastapi/routing.py:29 | texts without `//`, the first ending and the second starting with `/`, meet in one slash |
| Text.TrimPadded | telegram/coman/modules/telegram_module/config.py:8 | trimming a text padded on both sides with trimmed characters gives back the text when its own ends are kept |
| Text.JoinWithEmpty | core/base_module.py:358 | with a non-empty separator, a join is empty only for no parts or one empty part |
| Text.InfixAt | core/base_module.py:300 | a slice equal to the text makes it a substring |
| Text.NatToString | modules/orchestrator/module.py:38 | `str(n)` is a non-empty run of digits |
| Text.ParseInt | telegram/coman/modules/telegram_module/config.py:12 | a text that reads as an integer starts with a digit or a sign |
| Text.DigitsValueOfNat | telegram/coman/modules/telegram_module/config.py:12 | the digits of `str(n)` have the value `n` |
| Text.ParseIntOfNat | telegram/coman/modules/telegram_module/config.py:12 | `int(str(n))` is `n` for a natural number |
| Text.ParseIntOfNegative | telegram/coman/modules/telegram_module/config.py:12 | a minus sign before the digits of `n` reads as `-n` |
| Text.ParseIntOfString | telegram/coman/modules/telegram_module/config.py:12 | `int(str(i))` is `i` |
| PyValue.Get | modules/manager/module.py:49-50 | `get` gives the stored value, or `None` when the key is absent |
| PyValue.GetOr | modules/logic_app/module.py:41 | `get(k, d)` gives the stored value, or `d` when the key is absent |
| PyValue.Update | core/messages/base.py:55 | `update`: every key of either dictionary, the second one's values winning |
| PyValue.Repr | modules/integration/module.py:39 | `repr` of a string is `StrRepr` of it; of anything else it is `str()` |
| PyValue.QuoteFor | modules/main.py:160 | the repr of a string is double-quoted exactly when the text holds `'` and no `"` |
| PyValue.EscapeChar | modules/main.py:160 | a character is written with a backslash exactly when it is a backslash, the chosen quote, a tab, newline or carriage return, or a control or non-printable Latin-1 character (`\xNN`) |
| PyValue.StrRepr | modules/main.py:160 | the repr starts and ends with the chosen quote and holds the escaped text between them |
| PyValue.UnescapeChar | modules/main.py:160 | each escape reads back as the character it was made from |
| PyValue.UnescapeEscape | modules/main.py:160 | the escaped text reads back as the original string |
| PyValue.StrReprInjective | modules/logic_app/module.py:10-11 | different strings have different reprs |
| PyValue.StrReprOfPlain | modules/main.py:160 | a text with nothing to escape is single-quoted, or double-quoted when it holds `'` and no `"` |
| PyValue.ListStrStart | modules/logic_app/module.py:10-11 | `str()` of a list starting with a string starts with `[` and that string's quote |
| PyValue.ExceptionStr | modules/main.py:159-160 | `str()` of a `KeyError` is the repr of its message, which reads back as the message; of an `HTTPException` it is `str()` of the detail; of the others the message |
| PyValue.KeyErrorStrDoubleQuoted | core/base_module.py:359 | a `KeyError` message holding `'`, no `"` and nothing else to escape prints between double quotes |
| PyValue.PyStr | modules/logic_app/module.py:11 | `str()`: a string is returned as is, `None`, `True` and `False` by name, an integer as text that reads back as it, a float as its repr text; a non-string is never empty |
| PyValue.ReprOfNonString | modules/logic_app/module.py:11 | `repr` and `str` agree on everything but strings |
| PyValue.StrOfIntParses | telegram/coman/modules/telegram_module/config.py:12 | `int(str(i))` is `i` |
| PyValue.StripValueOfStripped | core/messages/manager.py:71 | a stripped string strips to itself |
| PyValue.StripOrOfText | core/messages/orchestrator.py:23 | a non-blank string gives its stripped form |
| PyValue.StripOrFalsy | core/messages/orchestrator.py:23 | a falsy value gives the stripped fallback |
| PyValue.StripOrBlank | core/messages/orchestrator.py:23 | a blank string gives the stripped fallback |
| PyValue.StripOrStripped | core/messages/orchestrator.py:23 | a string comes out stripped when the fallback is |
| PyValue.StripOrOfStripped | core/messages/orchestrator.py:23 | a stripped string is its own normal form |

## Left out

- The import shims that put the repository on `sys.path`, and the branch of `pydantic/__init__.py` that loads the real library when it is installed: they are interpreter plumbing.
- The argument parser and `main` of `modules/main.py`, `run_api` (uvicorn), `run_telegram_bot` (its thread), logging and the printing of `list_modules`: process start-up and console I/O. The helpers they call are modelled.
- The lifespan hooks of the FastAPI application in `core/app.py`: they only start and stop the framework.
- OpenTelemetry exporters, instrumentors and the span context manager inside the traced call: foreign libraries. The model keeps their bookkeeping (which provider is cached, what was instrumented) and the span's name and attributes.
- Dictionary insertion order: dictionaries are maps, and listings that the code returns in insertion order are returned sorted by key.
- The sqlite databases of the logic and Telegram modules are maps and sequences held by objects; `AUTOINCREMENT` is a counter, and the row order of an unordered `SELECT` is not modelled.
- HTTP calls, regular-expression search, `json.loads`, `os.path.realpath`/`abspath`/`join`, `importlib` and `getattr`, `inspect.signature`, SHA-256 and the subprocess runner are parameters of the members that use them; their own behaviour is not modelled.
- Floats are represented by their `repr` text, which `json.loads` (a parameter) produces; float arithmetic and the choice of that text are not modelled.
- StrRepr: characters above U+00A0 other than the soft hyphen are written as they are; Python escapes those among them that are not printable (other separators, format characters, unassigned code points) as `\xNN`, `\uNNNN` or `\UNNNNNNNN`.
- SortBy: the order it gives items with equal keys is not stated, while Python's sort is stable; the rules it orders carry unique ids, so no two keys are equal.
- LegacyUppercase: over HTTP a blank text on the deprecated route is an unhandled validation error (status 500), since the request is built inside the handler, while the current route answers 422 (`TextApp.UppercaseStatus`); the model states the shared validation error, not the 500.
- Letter case and whitespace are ASCII only, and `int()` does not accept underscores or non-ASCII digits.
- Settings that the source reads from the environment when a module is imported are parameters.
- `modules/text_module/module.py`, which only upper-cases a string, is not modelled separately from the text application's handler.
- The test client's `Response.json()` is the response's data field; no JSON encoding is modelled.
- The conversion of raw payloads in the constructor of the integration registry is the separate operation `MessagesIntegration.EnsureModels`.
- The orchestrator's `reload_ext` and capability listing, the logic application's `rulesx_add` proxy, the integration module's listing and scaffold file writes, and the manager's `tools` listing: these only read or copy files, or forward to a modelled operation.
- Reading and writing the JSON registry files: each file is the state of an object, and a missing or unreadable file is the empty state.
- httpx timeouts and transport errors: an HTTP call either answers or fails, as its parameter says.
- `asyncio.run` of a coroutine result: the endpoint's value is used directly.
- Error messages whose text depends on the Python version.

=== FILE: analysis.dfy ===
/**
 * The analysis module's word frequency: the whitespace-separated words of a
 * text, lower-cased, counted as `collections.Counter` counts them.
 */
module Analysis {
  import opened Text

  /**
   * `[w.lower() for w in text.split() if w.strip()]`. The filter keeps every
   * word, because `split()` yields only words without whitespace
   * (`WordsAreNotBlank`).
   */
  function Tokens(text: string): (r: seq<string>)
    ensures |r| == |Words(text)|
    ensures forall i :: 0 <= i < |r| ==> r[i] == Lower(Words(text)[i]) && r[i] != "" && IsLower(r[i])
  {
    LowerEach(Words(text))
  }

  /** Every word `split()` yields is its own stripped form and is not empty, so `w.strip()` is truthy. */
  lemma WordsAreNotBlank(text: string)
    ensures forall i :: 0 <= i < |Words(text)| ==> Strip(Words(text)[i]) == Words(text)[i] != ""
  {
    forall i | 0 <= i < |Words(text)|
      ensures Strip(Words(text)[i]) == Words(text)[i] != ""
    {
      StripIsStripped(Words(text)[i]);
    }
  }

  /** `dict(Counter(tokens))`: each distinct token mapped to its number of occurrences. */
  function Count(tokens: seq<string>): (m: map<string, nat>)
    ensures forall k :: k in m <==> k in tokens
    ensures forall k :: k in m ==> m[k] == multiset(tokens)[k]
  {
    if tokens == [] then map[]
    else
      var init := tokens[..|tokens| - 1];
      var last := tokens[|tokens| - 1];
      assert tokens == init + [last];
      var m := Count(init);
      m[last := if last in m then m[last] + 1 else 1]
  }

  /** The frequency map of a text. */
  function Frequency(text: string): (r: map<string, nat>)
    ensures forall k :: k in r ==> k != "" && IsLower(k) && r[k] >= 1
    ensures forall k :: k in r <==> k in Tokens(text)
  {
    Count(Tokens(text))
  }

  /** The sum of the values of a map. */
  ghost function Total(m: map<string, nat>): nat
    decreases |m|
  {
    if m == map[] then 0
    else
      var k :| k in m;
      m[k] + Total(m - {k})
  }

  /** The sum may be taken by removing any key first. */
  lemma {:induction false} TotalRemove(m: map<string, nat>, k: string)
    requires k in m
    ensures Total(m) == m[k] + Total(m - {k})
    decreases |m|
  {
    var j :| j in m && Total(m) == m[j] + Total(m - {j});
    if j != k {
      assert |m - {j}| < |m| && |m - {k}| < |m| by {
        assert j in m.Keys && k in m.Keys;
        assert (m - {j}).Keys == m.Keys - {j} && (m - {k}).Keys == m.Keys - {k};
      }
      TotalRemove(m - {j}, k);
      TotalRemove(m - {k}, j);
      assert m - {j} - {k} == m - {k} - {j};
    }
  }

  /** Raising one entry by one raises the sum by one. */
  lemma TotalBump(m: map<string, nat>, k: string)
    ensures Total(m[k := if k in m then m[k] + 1 else 1]) == Total(m) + 1
  {
    var m' := m[k := if k in m then m[k] + 1 else 1];
    TotalRemove(m', k);
    if k in m {
      TotalRemove(m, k);
      assert m' - {k} == m - {k};
    } else {
      assert m' - {k} == m;
    }
  }

  /** The counts add up to the number of tokens. */
  lemma {:induction false} CountTotal(tokens: seq<string>)
    ensures Total(Count(tokens)) == |tokens|
  {
    if tokens != [] {
      var init := tokens[..|tokens| - 1];
      CountTotal(init);
      TotalBump(Count(init), tokens[|tokens| - 1]);
    }
  }

  /** The counts of a text add up to its number of words. */
  lemma FrequencyTotal(text: string)
    ensures Total(Frequency(text)) == |Words(text)|
  {
    CountTotal(Tokens(text));
  }

  /** A text that is empty or only whitespace has no words to count. */
  lemma FrequencyOfBlank(text: string)
    requires Strip(text) == ""
    ensures Frequency(text) == map[]
  {
    TrimEmptyIff(text, Whitespace);
    WordsOfBlank(text);
  }

  /** Case variants of a word share one count: lower-casing the text first changes nothing. */
  lemma FrequencyIgnoresCase(text: string)
    ensures Frequency(Lower(text)) == Frequency(text)
  {
    WordsOfLower(text);
    forall i | 0 <= i < |Words(text)|
      ensures Tokens(Lower(text))[i] == Tokens(text)[i]
    {
      LowerIdempotent(Words(text)[i]);
    }
    assert Tokens(Lower(text)) == Tokens(text);
  }
}

=== FILE: analysis_app.dfy ===
/**
 * The analysis module's standalone application: the validated request of
 * `POST /v1/analysis/frequency`, the handler, and the deprecated
 * `POST /analysis/frequency` that delegates to it.
 *
 * The request model strips surrounding whitespace from `text` before its
 * validator runs; a validation error is answered with status 422.
 */
module AnalysisApp {
  import opened Wrappers
  import opened Text
  import opened PyValue
  import Analysis

  datatype FrequencyRequest = FrequencyRequest(text: string)

  datatype FrequencyResponse = FrequencyResponse(counts: map<string, nat>)

  /** The validation error a blank text raises. */
  const BlankError := ValidationError("Value error, text must contain at least one non-whitespace character")

  /** `FrequencyRequest(text=...)`: the text is stripped, and a blank text is rejected. */
  function NewFrequencyRequest(text: string): (r: Result<FrequencyRequest, Exception>)
    ensures r.Ok? <==> Strip(text) != ""
    ensures r.Ok? ==> r.value.text == Strip(text) && IsStripped(r.value.text)
    ensures r.Err? ==> r.error == BlankError
  {
    assert IsStripped(Strip(text)) by {
      StripIsStripped(text);
    }
    if Strip(text) == "" then Err(BlankError)
    else Ok(FrequencyRequest(Strip(text)))
  }

  /** `frequency`: the counts of the request's lower-cased words. */
  function Frequency(payload: FrequencyRequest): (r: FrequencyResponse)
    ensures forall k :: k in r.counts ==> k != "" && IsLower(k)
    ensures forall k :: k in r.counts ==> r.counts[k] == multiset(Analysis.Tokens(payload.text))[k]
    ensures forall k :: k in r.counts <==> k in Analysis.Tokens(payload.text)
  {
    FrequencyResponse(Analysis.Frequency(payload.text))
  }

  /** `legacy_frequency`: the same handler under the deprecated path. */
  function LegacyFrequency(payload: FrequencyRequest): (r: FrequencyResponse)
    ensures r == Frequency(payload)
  {
    Frequency(payload)
  }

  /** The status of a request with the given text: 422 for a blank text, else 200. */
  function FrequencyStatus(text: string): (code: int)
    ensures code == 422 <==> Strip(text) == ""
    ensures code == 200 <==> Strip(text) != ""
  {
    match NewFrequencyRequest(text)
    case Err(_) => 422
    case Ok(_) => 200
  }

  /** Stripping the text does not change the words, so the counts are those of the raw text. */
  lemma FrequencyOfRequest(text: string)
    requires Strip(text) != ""
    ensures Frequency(NewFrequencyRequest(text).value).counts == Analysis.Frequency(text)
    ensures Analysis.Total(Frequency(NewFrequencyRequest(text).value).counts) == |Words(text)|
  {
    WordsOfStrip(text);
    Analysis.FrequencyTotal(text);
  }
}

=== FILE: app.dfy ===
/**
 * The application object of the bundled web-framework stand-in: the route
 * table gathered from routers, the first-match lookup, and the handling of
 * one request (keyword arguments from the query, the JSON body and the
 * handler's declared defaults, and the mapping of the handler's outcome to a
 * response).
 */
module App {
  import opened Wrappers
  import opened PyValue
  import opened Handlers
  import opened Routing

  /** Whether a route answers the given method and path. */
  predicate RouteMatches(r: Route, verb: string, path: string)
  {
    r.verb == verb && r.path == path
  }

  /** `routes[i]` is the first route answering the method and path. */
  predicate FirstMatchAt(routes: seq<Route>, verb: string, path: string, i: int)
  {
    0 <= i < |routes| && RouteMatches(routes[i], verb, path)
    && forall j :: 0 <= j < i ==> !RouteMatches(routes[j], verb, path)
  }

  /** The route `_match_route` returns: the first one whose method and path both match, else none. */
  function FindRoute(routes: seq<Route>, verb: string, path: string): (r: Option<Route>)
    ensures r.None? <==> forall i :: 0 <= i < |routes| ==> !RouteMatches(routes[i], verb, path)
    ensures r.Some? ==> exists i :: FirstMatchAt(routes, verb, path, i) && routes[i] == r.value
  {
    if routes == [] then None
    else if RouteMatches(routes[0], verb, path) then
      assert FirstMatchAt(routes, verb, path, 0);
      Some(routes[0])
    else
      var rest := FindRoute(routes[1..], verb, path);
      assert rest.Some? ==> exists i :: FirstMatchAt(routes, verb, path, i) && routes[i] == rest.value by {
        if rest.Some? {
          var i :| FirstMatchAt(routes[1..], verb, path, i) && routes[1..][i] == rest.value;
          assert FirstMatchAt(routes, verb, path, i + 1);
        }
      }
      rest
  }

  /** Routes appended later are searched only when no earlier route matches. */
  lemma {:induction false} FindRouteConcat(a: seq<Route>, b: seq<Route>, verb: string, path: string)
    ensures FindRoute(a + b, verb, path) == if FindRoute(a, verb, path).Some? then FindRoute(a, verb, path) else FindRoute(b, verb, path)
  {
    if a == [] {
      assert a + b == b;
    } else {
      assert (a + b)[0] == a[0] && (a + b)[1..] == a[1..] + b;
      FindRouteConcat(a[1..], b, verb, path);
    }
  }

  /**
   * After registering a handler for some methods, a request for any of those
   * methods (in any letter case) on the registered path finds a route, and it
   * finds the new handler unless an earlier route already answered it.
   */
  lemma RegisteredRouteIsFound(routes: seq<Route>, methods: seq<string>, fullPath: string, endpoint: Endpoint, k: nat)
    requires k < |methods|
    ensures FindRoute(routes + RoutesFor(methods, fullPath, endpoint), Text.Upper(methods[k]), fullPath).Some?
    ensures FindRoute(routes, Text.Upper(methods[k]), fullPath).None? ==>
      FindRoute(routes + RoutesFor(methods, fullPath, endpoint), Text.Upper(methods[k]), fullPath).value.endpoint == endpoint
  {
    var added := RoutesFor(methods, fullPath, endpoint);
    RoutesForAt(methods, fullPath, endpoint);
    assert RouteMatches(added[k], Text.Upper(methods[k]), fullPath);
    FindRouteConcat(routes, added, Text.Upper(methods[k]), fullPath);
    var f := FindRoute(added, Text.Upper(methods[k]), fullPath);
    if f.Some? {
      var i :| FirstMatchAt(added, Text.Upper(methods[k]), fullPath, i) && added[i] == f.value;
    }
  }

  /** The response to a request no route answers. */
  const NotFound: Response := Response(404, Dict(map["detail" := Str("Not Found")]))

  /** The keys of the JSON body when it is an object, else none. */
  function BodyEntries(jsonBody: Value): map<string, Value>
  {
    if jsonBody.Dict? then jsonBody.entries else map[]
  }

  /** The default a declared default stands for: a body marker gives its `.default`, anything else itself. */
  function DefaultValue(d: DefaultObject): Value
  {
    if d.classModule == "fastapi.params" && d.className == "_Body" then d.inner.GetOr(Null) else d.value
  }

  /** The declared defaults of a signature, keyed by parameter name. */
  function DefaultsOf(params: seq<Param>): (d: map<string, Value>)
    ensures d.Keys == set p | p in params && p.default.Some? :: p.name
  {
    if params == [] then map[]
    else
      var init := params[..|params| - 1];
      var last := params[|params| - 1];
      var d := DefaultsOf(init);
      assert forall p :: p in params <==> p in init || p == last;
      if last.default.Some? then d[last.name := DefaultValue(last.default.value)] else d
  }

  /** Each parameter of a signature with a default maps to that default's value. */
  lemma {:induction false} DefaultsOfAt(params: seq<Param>, i: nat)
    requires DistinctNames(params) && i < |params| && params[i].default.Some?
    ensures DefaultsOf(params)[params[i].name] == DefaultValue(params[i].default.value)
  {
    var init := params[..|params| - 1];
    if i < |params| - 1 {
      assert init[i] == params[i];
      DefaultsOfAt(init, i);
    }
  }

  /**
   * The keyword arguments a handler receives: the query parameters, then the
   * body keys not already present, then the declared defaults of names still
   * absent.
   */
  function CallKwargs(params: map<string, Value>, jsonBody: Value, signature: seq<Param>): (kw: map<string, Value>)
    ensures kw.Keys == params.Keys + BodyEntries(jsonBody).Keys + DefaultsOf(signature).Keys
    ensures forall k :: k in params ==> kw[k] == params[k]
    ensures forall k :: k !in params && k in BodyEntries(jsonBody) ==> kw[k] == BodyEntries(jsonBody)[k]
    ensures forall k :: k !in params && k !in BodyEntries(jsonBody) && k in DefaultsOf(signature) ==> kw[k] == DefaultsOf(signature)[k]
  {
    DefaultsOf(signature) + (BodyEntries(jsonBody) + params)
  }

  /** The response for the handler's outcome: 200 with its result, or the status and detail of an `HTTPException`; any other exception propagates. */
  function Respond(outcome: Result<Value, Exception>): (r: Result<Response, Exception>)
    ensures outcome.Ok? ==> r == Ok(Response(200, outcome.value))
    ensures outcome.Err? && outcome.error.HTTPException? ==>
      r == Ok(Response(outcome.error.status, Dict(map["detail" := outcome.error.detail])))
    ensures outcome.Err? && !outcome.error.HTTPException? ==> r == Err(outcome.error)
  {
    match outcome
    case Ok(v) => Ok(Response(200, v))
    case Err(e) => if e.HTTPException? then Ok(Response(e.status, Dict(map["detail" := e.detail]))) else Err(e)
  }

  /** `setdefault` for every entry of `extra`, one key at a time: keys already present keep their value. */
  method SetDefaults(kw: map<string, Value>, extra: map<string, Value>) returns (r: map<string, Value>)
    ensures r == extra + kw
  {
    r := kw;
    var pending := extra.Keys;
    while pending != {}
      invariant pending <= extra.Keys
      invariant r.Keys == kw.Keys + (extra.Keys - pending)
      invariant forall k :: k in kw ==> r[k] == kw[k]
      invariant forall k :: k in extra.Keys - pending && k !in kw ==> r[k] == extra[k]
      decreases pending
    {
      var k :| k in pending;
      if k !in r {
        r := r[k := extra[k]];
      }
      pending := pending - {k};
    }
    assert r.Keys == (extra + kw).Keys;
  }

  /** The `bound_defaults` loop: each declared default, by parameter name. */
  method SignatureDefaults(params: seq<Param>) returns (d: map<string, Value>)
    ensures d == DefaultsOf(params)
  {
    d := map[];
    var i := 0;
    while i < |params|
      invariant 0 <= i <= |params|
      invariant d == DefaultsOf(params[..i])
    {
      assert params[..i + 1][..i] == params[..i];
      var p := params[i];
      if p.default.Some? {
        d := d[p.name := DefaultValue(p.default.value)];
      }
      i := i + 1;
    }
    assert params[..i] == params;
  }

  /** `FastAPI`: the routes of every included router, in inclusion order. */
  class FastAPI {
    var routes: seq<Route>

    constructor ()
      ensures routes == []
    {
      routes := [];
    }

    /** `include_router`: the router's routes go after the existing ones. */
    method IncludeRouter(router: APIRouter)
      modifies this
      ensures routes == old(routes) + router.routes
    {
      routes := routes + router.routes;
    }

    /** `add_api_route`: registers through a fresh router without a prefix. */
    method AddApiRoute(path: string, endpoint: Endpoint, methods: seq<string>)
      modifies this
      ensures routes == old(routes) + RoutesFor(methods, FullPath("", path), endpoint)
    {
      var router := new APIRouter("", []);
      var _ := router.AddApiRoute(path, endpoint, methods);
      IncludeRouter(router);
    }

    /** `_match_route`: a linear search for the first route with the same method and path. */
    method MatchRoute(verb: string, path: string) returns (r: Option<Route>)
      ensures r == FindRoute(routes, verb, path)
    {
      var i := 0;
      while i < |routes|
        invariant 0 <= i <= |routes|
        invariant forall j :: 0 <= j < i ==> !RouteMatches(routes[j], verb, path)
      {
        if routes[i].verb == verb && routes[i].path == path {
          assert FirstMatchAt(routes, verb, path, i);
          return Some(routes[i]);
        }
        i := i + 1;
      }
      return None;
    }

    /**
     * `_handle_request`: 404 when no route matches; otherwise the handler is
     * called with the merged keyword arguments (`call` stands for calling
     * it) and its outcome becomes the response.
     */
    method HandleRequest(verb: string, path: string, params: map<string, Value>, jsonBody: Value,
                         call: (Endpoint, map<string, Value>) -> Result<Value, Exception>)
      returns (r: Result<Response, Exception>)
      ensures FindRoute(routes, verb, path).None? ==> r == Ok(NotFound)
      ensures FindRoute(routes, verb, path).Some? ==>
        var endpoint := FindRoute(routes, verb, path).value.endpoint;
        r == Respond(call(endpoint, CallKwargs(params, jsonBody, endpoint.params)))
    {
      var route := MatchRoute(verb, path);
      if route.None? {
        return Ok(NotFound);
      }
      var endpoint := route.value.endpoint;
      var kw := params;
      kw := SetDefaults(kw, BodyEntries(jsonBody));
      var defaults := SignatureDefaults(endpoint.params);
      kw := SetDefaults(kw, defaults);
      r := Respond(call(endpoint, kw));
    }
  }
}

=== FILE: base_module.dfy ===
/**
 * The module base class every Coman module derives from: route-attribute
 * normalisation, the console operations derived from a module's routes
 * (argument binding, the case-insensitive first-wins index, the
 * de-duplicated descriptions), the versioned and legacy routers, and the
 * mirroring of every versioned registration onto the deprecated legacy
 * router.
 *
 * A handler is an `Endpoint` record carrying its `__name__` and its declared
 * parameters; calling it is the function parameter `call`, and JSON decoding
 * is the function parameter `loads` (`None` when the text is not JSON).
 */
module ModuleBase {
  import opened Wrappers
  import opened Text
  import opened PyValue
  import opened Handlers
  import Collections
  import Tracing

  /** The platform version every module inherits unless it is overridden. */
  const ComanVersion := "1.0.0"
  /** The public API major version in versioned route prefixes. */
  const ApiMajorVersion := 1
  /** The planned sunset date of the legacy routes, in ISO format. */
  const LegacyRouteRemovalDate := "2025-09-30"

  /** `get_module_version`: the per-module override, else the platform version. */
  function GetModuleVersion(name: string, moduleVersions: map<string, string>): (v: string)
    ensures name in moduleVersions ==> v == moduleVersions[name]
    ensures name !in moduleVersions ==> v == ComanVersion
  {
    if name in moduleVersions then moduleVersions[name] else ComanVersion
  }

  /**
   * A route as the routers hold it. `methods` and `method` cover both route
   * shapes (a set of methods, or the single method of the small router);
   * "" and [] stand for an attribute that is absent or `None`.
   */
  datatype Route = Route(
    path: string,
    pathFormat: string,
    methods: seq<string>,
    singleMethod: string,
    endpoint: Option<Endpoint>,
    summary: string,
    deprecated: bool,
    includeInSchema: bool,
    openapiExtra: map<string, Value>)

  /** The methods the route declares: its `methods`, else its single `method`, else none. */
  function MethodSource(r: Route): seq<string>
  {
    if r.methods != [] then r.methods else if r.singleMethod != "" then [r.singleMethod] else []
  }

  /** `_normalise_route_methods`: the declared methods upper-cased, de-duplicated and sorted. */
  function NormaliseMethods(r: Route): (ms: seq<string>)
    ensures Collections.StrictlySorted(ms)
    ensures forall m :: m in ms <==> exists x :: x in MethodSource(r) && Upper(x) == m
    ensures forall m :: m in ms ==> Upper(m) == m
  {
    var ups := set x | x in MethodSource(r) :: Upper(x);
    forall m | m in ups ensures Upper(m) == m {
      var x :| x in MethodSource(r) && Upper(x) == m;
      UpperIdempotent(x);
    }
    Collections.SortedSet(ups)
  }

  /** `_normalise_route_path`: `path`, else `path_format`, else "". */
  function NormalisePath(r: Route): (p: string)
    ensures r.path != "" ==> p == r.path
    ensures r.path == "" ==> p == r.pathFormat
    ensures p == "" <==> r.path == "" && r.pathFormat == ""
  {
    if r.path != "" then r.path else r.pathFormat
  }

  /** `_is_fastapi_param`: the default's class comes from the framework or has a marker name. */
  predicate IsFrameworkParam(d: DefaultObject)
  {
    "fastapi" <= d.classModule || d.className in {"Body", "File", "Form", "Query", "Header", "Path"}
  }

  /**
   * `_coerce_parameter_value`: a string given for a list-typed parameter
   * becomes the decoded JSON array, a one-element list of the decoded value,
   * or a one-element list of the raw text; a string given for a dict-typed
   * parameter becomes the decoded JSON object or stays as it is.
   */
  function Coerce(value: Value, annotation: Annotation, loads: string -> Option<Value>): (r: Value)
    ensures annotation.Unannotated? || value.Null? || !value.Str? ==> r == value
    ensures annotation.ListType? && value.Str? ==> r.List?
    ensures annotation.ListType? && value.Str? && loads(value.s).None? ==> r == List([value])
    ensures annotation.ListType? && value.Str? && loads(value.s).Some? ==>
      r == (if loads(value.s).value.List? then loads(value.s).value else List([loads(value.s).value]))
    ensures annotation.DictType? && value.Str? ==>
      r == (if loads(value.s).Some? && loads(value.s).value.Dict? then loads(value.s).value else value)
    ensures annotation.OtherType? ==> r == value
  {
    if annotation.Unannotated? || value.Null? then value
    else if annotation.ListType? && value.Str? then
      match loads(value.s)
      case None => List([value])
      case Some(parsed) => if parsed.List? then parsed else List([parsed])
    else if annotation.DictType? && value.Str? then
      match loads(value.s)
      case None => value
      case Some(parsed) => if parsed.Dict? then parsed else value
    else value
  }

  /** Coercing an already coerced value changes nothing. */
  lemma CoerceIdempotent(value: Value, annotation: Annotation, loads: string -> Option<Value>)
    ensures Coerce(Coerce(value, annotation, loads), annotation, loads) == Coerce(value, annotation, loads)
  {
  }

  /** The text of the error raised for a parameter that has neither an argument nor a default. */
  function MissingArgumentMessage(param: string, operation: string): string
  {
    "Missing required argument '" + param + "' for operation '" + operation + "'"
  }

  /**
   * The value bound to one parameter before coercion: the supplied argument,
   * else the default (a framework marker gives its `.default`, or `None`),
   * else nothing.
   */
  function BindValue(p: Param, arguments: map<string, Value>): (v: Option<Value>)
    ensures p.name in arguments ==> v == Some(arguments[p.name])
    ensures p.name !in arguments ==> (v.None? <==> p.default.None?)
  {
    if p.name in arguments then Some(arguments[p.name])
    else match p.default
      case None => None
      case Some(d) => Some(if IsFrameworkParam(d) then d.inner.GetOr(Null) else d.value)
  }

  /** `params[i]` is the first parameter that gets no value. */
  predicate FirstMissing(params: seq<Param>, arguments: map<string, Value>, i: int)
  {
    0 <= i < |params| && BindValue(params[i], arguments).None?
    && forall j :: 0 <= j < i ==> BindValue(params[j], arguments).Some?
  }

  /**
   * The keyword arguments `invoke` passes to the handler, parameter by
   * parameter in declaration order; the first parameter without a value
   * stops the binding with a `TypeError` naming it and the operation.
   */
  function Bind(params: seq<Param>, arguments: map<string, Value>, operation: string, loads: string -> Option<Value>)
    : (r: Result<map<string, Value>, Exception>)
  {
    if params == [] then Ok(map[])
    else
      var init := params[..|params| - 1];
      var last := params[|params| - 1];
      match Bind(init, arguments, operation, loads)
      case Err(e) => Err(e)
      case Ok(bound) =>
        match BindValue(last, arguments)
        case None => Err(TypeError(MissingArgumentMessage(last.name, operation)))
        case Some(v) => Ok(bound[last.name := Coerce(v, last.annotation, loads)])
  }

  /**
   * Binding succeeds exactly when every parameter gets a value, and then it
   * binds exactly the declared parameter names.
   */
  lemma {:induction false} BindOk(params: seq<Param>, arguments: map<string, Value>, operation: string,
                                  loads: string -> Option<Value>)
    ensures Bind(params, arguments, operation, loads).Ok? <==> forall p :: p in params ==> BindValue(p, arguments).Some?
    ensures Bind(params, arguments, operation, loads).Ok? ==>
      Bind(params, arguments, operation, loads).value.Keys == ParamNames(params)
  {
    if params != [] {
      var init := params[..|params| - 1];
      var last := params[|params| - 1];
      assert forall p :: p in params <==> p in init || p == last;
      BindOk(init, arguments, operation, loads);
    }
  }

  /** A failed binding reports the first parameter that has no value, naming it and the operation. */
  lemma {:induction false} BindError(params: seq<Param>, arguments: map<string, Value>, operation: string,
                                     loads: string -> Option<Value>)
    requires Bind(params, arguments, operation, loads).Err?
    ensures exists i ::
      FirstMissing(params, arguments, i)
      && Bind(params, arguments, operation, loads).error == TypeError(MissingArgumentMessage(params[i].name, operation))
  {
    var init := params[..|params| - 1];
    if Bind(init, arguments, operation, loads).Err? {
      BindError(init, arguments, operation, loads);
      var i :| FirstMissing(init, arguments, i)
        && Bind(init, arguments, operation, loads).error == TypeError(MissingArgumentMessage(init[i].name, operation));
      assert FirstMissing(params, arguments, i);
    } else {
      var i := |params| - 1;
      BindOk(init, arguments, operation, loads);
      forall j | 0 <= j < i ensures BindValue(params[j], arguments).Some? {
        assert params[j] == init[j] && init[j] in init;
      }
      assert FirstMissing(params, arguments, i);
    }
  }

  /** Once a prefix of the parameters fails to bind, the whole binding fails with the same error. */
  lemma {:induction false} BindPrefixError(params: seq<Param>, arguments: map<string, Value>, operation: string,
                                           loads: string -> Option<Value>, k: nat)
    requires k <= |params| && Bind(params[..k], arguments, operation, loads).Err?
    ensures Bind(params, arguments, operation, loads) == Bind(params[..k], arguments, operation, loads)
  {
    if k < |params| {
      var init := params[..|params| - 1];
      assert init[..k] == params[..k];
      BindPrefixError(init, arguments, operation, loads, k);
    } else {
      assert params[..k] == params;
    }
  }

  /** A supplied argument wins over the default, coerced by its parameter's annotation. */
  lemma {:induction false} BindSupplied(params: seq<Param>, arguments: map<string, Value>, operation: string,
                                        loads: string -> Option<Value>, i: nat)
    requires DistinctNames(params) && i < |params| && params[i].name in arguments
    requires Bind(params, arguments, operation, loads).Ok?
    ensures params[i].name in Bind(params, arguments, operation, loads).value
    ensures Bind(params, arguments, operation, loads).value[params[i].name]
      == Coerce(arguments[params[i].name], params[i].annotation, loads)
  {
    BindAt(params, arguments, operation, loads, i);
  }

  /** Without an argument, a parameter is bound to its (unwrapped) default. */
  lemma {:induction false} BindDefault(params: seq<Param>, arguments: map<string, Value>, operation: string,
                                       loads: string -> Option<Value>, i: nat)
    requires DistinctNames(params) && i < |params| && params[i].name !in arguments
    requires Bind(params, arguments, operation, loads).Ok?
    ensures params[i].default.Some?
    ensures params[i].name in Bind(params, arguments, operation, loads).value
    ensures var d := params[i].default.value;
      Bind(params, arguments, operation, loads).value[params[i].name]
      == Coerce(if IsFrameworkParam(d) then d.inner.GetOr(Null) else d.value, params[i].annotation, loads)
  {
    BindAt(params, arguments, operation, loads, i);
  }

  /** Each bound parameter holds the coerced value `BindValue` chose for it. */
  lemma {:induction false} BindAt(params: seq<Param>, arguments: map<string, Value>, operation: string,
                                  loads: string -> Option<Value>, i: nat)
    requires DistinctNames(params) && i < |params|
    requires Bind(params, arguments, operation, loads).Ok?
    ensures BindValue(params[i], arguments).Some?
    ensures params[i].name in Bind(params, arguments, operation, loads).value
    ensures Bind(params, arguments, operation, loads).value[params[i].name]
      == Coerce(BindValue(params[i], arguments).value, params[i].annotation, loads)
  {
    assert params[i] in params;
    var init := params[..|params| - 1];
    if i < |params| - 1 {
      assert init[i] == params[i];
      BindAt(init, arguments, operation, loads, i);
    }
  }

  /** Arguments that name no parameter do not influence the binding. */
  lemma {:induction false} BindIgnoresExtra(params: seq<Param>, arguments: map<string, Value>, operation: string,
                                            loads: string -> Option<Value>)
    ensures Bind(params, arguments, operation, loads)
      == Bind(params, map k | k in arguments && k in ParamNames(params) :: arguments[k], operation, loads)
  {
    var restricted := map k | k in arguments && k in ParamNames(params) :: arguments[k];
    if params != [] {
      var init := params[..|params| - 1];
      var last := params[|params| - 1];
      var initRestricted := map k | k in arguments && k in ParamNames(init) :: arguments[k];
      BindIgnoresExtra(init, arguments, operation, loads);
      BindIgnoresExtra(init, restricted, operation, loads);
      assert (map k | k in restricted && k in ParamNames(init) :: restricted[k]) == initRestricted;
      assert BindValue(last, arguments) == BindValue(last, restricted);
    }
  }

  /** A console operation: its name, the route it came from, its handler and its module. */
  datatype ConsoleOperation = ConsoleOperation(name: string, route: Route, endpoint: Endpoint, moduleName: string)

  /** The fields `describe` reports for an operation. */
  datatype Description = Description(name: string, path: string, methods: seq<string>, summary: string)

  /** `ConsoleOperation.describe`. */
  function Describe(op: ConsoleOperation): (d: Description)
    ensures d.name == op.name && d.summary == op.route.summary
    ensures d.path == NormalisePath(op.route) && d.methods == NormaliseMethods(op.route)
  {
    Description(op.name, NormalisePath(op.route), NormaliseMethods(op.route), op.route.summary)
  }

  /** The outcome of `invoke` as a function: the handler is called only when binding succeeds. */
  function InvokeResult(op: ConsoleOperation, arguments: map<string, Value>, loads: string -> Option<Value>,
                        call: (Endpoint, map<string, Value>) -> Result<Value, Exception>): Result<Value, Exception>
  {
    match Bind(op.endpoint.params, arguments, op.name, loads)
    case Err(e) => Err(e)
    case Ok(bound) => call(op.endpoint, bound)
  }

  /**
   * `ConsoleOperation.invoke`: binds the parameters in declaration order and
   * calls the handler with the bound keyword arguments. A missing argument
   * raises before the handler is called.
   */
  method Invoke(op: ConsoleOperation, arguments: map<string, Value>, loads: string -> Option<Value>,
                call: (Endpoint, map<string, Value>) -> Result<Value, Exception>)
    returns (r: Result<Value, Exception>)
    ensures r == InvokeResult(op, arguments, loads, call)
  {
    var params := op.endpoint.params;
    var bound: map<string, Value> := map[];
    var i := 0;
    while i < |params|
      invariant 0 <= i <= |params|
      invariant Bind(params[..i], arguments, op.name, loads) == Ok(bound)
    {
      var p := params[i];
      assert params[..i + 1][..i] == params[..i];
      var value: Value;
      if p.name in arguments {
        value := arguments[p.name];
      } else if p.default.Some? {
        var d := p.default.value;
        if IsFrameworkParam(d) {
          value := d.inner.GetOr(Null);
        } else {
          value := d.value;
        }
      } else {
        r := Err(TypeError(MissingArgumentMessage(p.name, op.name)));
        BindPrefixError(params, arguments, op.name, loads, i + 1);
        return;
      }
      bound := bound[p.name := Coerce(value, p.annotation, loads)];
      i := i + 1;
    }
    assert params[..i] == params;
    r := call(op.endpoint, bound);
  }

  /** `[k for k in keys if k]`. */
  function NonEmpty(keys: seq<string>): (r: seq<string>)
    ensures forall k :: k in r <==> k in keys && k != ""
  {
    if keys == [] then []
    else (if keys[0] != "" then [keys[0]] else []) + NonEmpty(keys[1..])
  }

  /** The handler's `__name__`, "" when the route has no handler or the handler no name. */
  function EndpointName(r: Route): string
  {
    if r.endpoint.Some? then r.endpoint.value.name else ""
  }

  /** The path relative to the router prefix, without leading slashes; "" when the path is not under the prefix. */
  function ShortPath(path: string, prefix: string): string
  {
    if prefix != "" && prefix <= path then LTrim(path[|prefix|..], Slash) else ""
  }

  /**
   * The keys of a route: its handler name, its path without leading
   * slashes, its path without slashes at either end, and its path relative
   * to the router prefix; none of them empty.
   */
  predicate IsOperationKey(r: Route, prefix: string, k: string)
  {
    k != "" &&
    (k == EndpointName(r)
     || (NormalisePath(r) != "" && (k == LTrim(NormalisePath(r), Slash) || k == Trim(NormalisePath(r), Slash)))
     || k == ShortPath(NormalisePath(r), prefix))
  }

  /** The non-empty keys among a handler name, two path forms (when the path is not empty) and a relative path, in that order. */
  function KeyList(name: string, path: string, lpath: string, tpath: string, short: string): (keys: seq<string>)
    ensures forall k :: k in keys <==> k != "" && (k == name || (path != "" && (k == lpath || k == tpath)) || k == short)
    ensures name != "" ==> keys != [] && keys[0] == name
  {
    var named := if name != "" then [name] else [];
    var pathKeys := if path != "" then [lpath, tpath] else [];
    var shortKeys := if short != "" then [short] else [];
    var all := named + pathKeys + shortKeys;
    assert forall k :: k in all <==> k in named || k in pathKeys || k in shortKeys;
    assert name != "" ==> all[0] == name;
    NonEmpty(all)
  }

  /** `_operation_keys`: the handler name first, then the path-derived keys. */
  function OperationKeys(r: Route, prefix: string): (keys: seq<string>)
    ensures forall k :: k in keys <==> IsOperationKey(r, prefix, k)
    ensures EndpointName(r) != "" ==> keys != [] && keys[0] == EndpointName(r)
  {
    var path := NormalisePath(r);
    KeyList(EndpointName(r), path, LTrim(path, Slash), Trim(path, Slash), ShortPath(path, prefix))
  }

  /** How a key is stored in the index, and how a looked-up name is matched: stripped, lower-cased. */
  function IndexKey(k: string): string
  {
    Lower(Strip(k))
  }

  /** The index keys a route claims: its non-blank operation keys, stripped and lower-cased. */
  function RouteKeys(r: Route, prefix: string): set<string>
  {
    if r.endpoint.None? then {}
    else ClaimedKeys(OperationKeys(r, prefix))
  }

  /**
   * The operation built for a route in `get_console_operations`: named after
   * the handler, else the path, with slashes stripped, else after the module.
   */
  function OperationOf(r: Route, moduleName: string): (op: ConsoleOperation)
    requires r.endpoint.Some?
    ensures op.route == r && op.endpoint == r.endpoint.value && op.moduleName == moduleName
    ensures op.name != "" || moduleName == ""
  {
    var base := if EndpointName(r) != "" then EndpointName(r) else NormalisePath(r);
    var stripped := Trim(base, Slash);
    ConsoleOperation(if stripped != "" then stripped else moduleName, r, r.endpoint.value, moduleName)
  }

  /** The inner loop of `get_console_operations`: each key not claimed yet goes to `op`. */
  function Claim(ops: map<string, ConsoleOperation>, keys: seq<string>, op: ConsoleOperation)
    : map<string, ConsoleOperation>
  {
    if keys == [] then ops
    else
      var prev := Claim(ops, keys[..|keys| - 1], op);
      var key := Strip(keys[|keys| - 1]);
      if key == "" || Lower(key) in prev then prev else prev[Lower(key) := op]
  }

  /** The index keys of the non-blank entries, one entry at a time. */
  function ClaimedKeys(keys: seq<string>): set<string>
  {
    if keys == [] then {}
    else
      var last := keys[|keys| - 1];
      ClaimedKeys(keys[..|keys| - 1]) + (if Strip(last) != "" then {IndexKey(last)} else {})
  }

  /** The claimed keys are exactly the index keys of the entries that are not blank. */
  lemma {:induction false} ClaimedKeysMembers(keys: seq<string>)
    ensures forall k :: k in ClaimedKeys(keys) <==> exists x :: x in keys && Strip(x) != "" && k == IndexKey(x)
  {
    if keys != [] {
      var init := keys[..|keys| - 1];
      ClaimedKeysMembers(init);
      assert forall x :: x in keys <==> x in init || x == keys[|keys| - 1];
    }
  }

  /** Claiming keeps every existing entry and gives exactly the new keys to `op`. */
  lemma {:induction false} ClaimSpec(ops: map<string, ConsoleOperation>, keys: seq<string>, op: ConsoleOperation)
    ensures Claim(ops, keys, op).Keys == ops.Keys + ClaimedKeys(keys)
    ensures forall k :: k in ops ==> Claim(ops, keys, op)[k] == ops[k]
    ensures forall k :: k in ClaimedKeys(keys) && k !in ops ==> Claim(ops, keys, op)[k] == op
  {
    if keys != [] {
      var init := keys[..|keys| - 1];
      var prev := Claim(ops, init, op);
      var key := Strip(keys[|keys| - 1]);
      ClaimSpec(ops, init, op);
      ClaimStep(ops, ClaimedKeys(init), prev, key, op);
      assert ClaimedKeys(keys) == ClaimedKeys(init) + (if key != "" then {Lower(key)} else {});
      assert Claim(ops, keys, op) == if key == "" || Lower(key) in prev then prev else prev[Lower(key) := op];
    }
  }

  /** One more entry keeps the shape `ClaimSpec` states. */
  lemma ClaimStep(ops: map<string, ConsoleOperation>, claimed: set<string>, prev: map<string, ConsoleOperation>,
                  key: string, op: ConsoleOperation)
    requires prev.Keys == ops.Keys + claimed
    requires forall k :: k in ops ==> prev[k] == ops[k]
    requires forall k :: k in claimed && k !in ops ==> prev[k] == op
    ensures var next := if key == "" || Lower(key) in prev then prev else prev[Lower(key) := op];
      var more := claimed + (if key != "" then {Lower(key)} else {});
      next.Keys == ops.Keys + more
      && (forall k :: k in ops ==> next[k] == ops[k])
      && (forall k :: k in more && k !in ops ==> next[k] == op)
  {
  }

  /** What one route contributes to the index: the keys it claims and, if it has a handler, its operation. */
  datatype Claimant = Claimant(keys: set<string>, op: Option<ConsoleOperation>)

  function ClaimantOf(r: Route, prefix: string, moduleName: string): (c: Claimant)
    ensures c.keys == RouteKeys(r, prefix)
    ensures c.op.Some? <==> r.endpoint.Some?
    ensures r.endpoint.Some? ==> c.op.value == OperationOf(r, moduleName)
  {
    if r.endpoint.None? then Claimant({}, None)
    else Claimant(RouteKeys(r, prefix), Some(OperationOf(r, moduleName)))
  }

  /** A claimant's keys that are still free go to its operation. */
  function AddClaims(ops: map<string, ConsoleOperation>, c: Claimant): map<string, ConsoleOperation>
  {
    if c.op.None? then ops
    else ops + map k | k in c.keys && k !in ops :: c.op.value
  }

  /** The index built from claimants in order; earlier claims are never overwritten. */
  function IndexOf(cs: seq<Claimant>): map<string, ConsoleOperation>
  {
    if cs == [] then map[] else AddClaims(IndexOf(cs[..|cs| - 1]), cs[|cs| - 1])
  }

  function Claimants(routes: seq<Route>, prefix: string, moduleName: string): (cs: seq<Claimant>)
    ensures |cs| == |routes|
    ensures forall i :: 0 <= i < |routes| ==> cs[i] == ClaimantOf(routes[i], prefix, moduleName)
  {
    seq(|routes|, i requires 0 <= i < |routes| => ClaimantOf(routes[i], prefix, moduleName))
  }

  /** The index `get_console_operations` builds, route by route in router order. */
  function Index(routes: seq<Route>, prefix: string, moduleName: string): map<string, ConsoleOperation>
  {
    IndexOf(Claimants(routes, prefix, moduleName))
  }

  predicate ClaimedAt(cs: seq<Claimant>, k: string, i: int)
  {
    0 <= i < |cs| && cs[i].op.Some? && k in cs[i].keys
  }

  lemma {:induction false} IndexOfKeys(cs: seq<Claimant>, k: string)
    ensures k in IndexOf(cs) <==> exists i :: ClaimedAt(cs, k, i)
  {
    if cs != [] {
      var init := cs[..|cs| - 1];
      var c := cs[|cs| - 1];
      IndexOfKeys(init, k);
      assert k in IndexOf(cs) <==> k in IndexOf(init) || (c.op.Some? && k in c.keys);
      if c.op.Some? && k in c.keys {
        assert ClaimedAt(cs, k, |cs| - 1);
      }
      if exists i :: ClaimedAt(cs, k, i) {
        var i :| ClaimedAt(cs, k, i);
        if i < |init| {
          assert ClaimedAt(init, k, i);
        }
      }
      if exists i :: ClaimedAt(init, k, i) {
        var i :| ClaimedAt(init, k, i);
        assert ClaimedAt(cs, k, i);
      }
    }
  }

  lemma {:induction false} IndexOfFirst(cs: seq<Claimant>, i: nat, k: string)
    requires ClaimedAt(cs, k, i)
    requires forall j :: 0 <= j < i ==> !ClaimedAt(cs, k, j)
    ensures k in IndexOf(cs) && IndexOf(cs)[k] == cs[i].op.value
  {
    var init := cs[..|cs| - 1];
    if i < |cs| - 1 {
      assert ClaimedAt(init, k, i);
      forall j | 0 <= j < i ensures !ClaimedAt(init, k, j) {
        assert !ClaimedAt(cs, k, j);
      }
      IndexOfFirst(init, i, k);
    } else {
      IndexOfKeys(init, k);
      forall j | 0 <= j < |init| ensures !ClaimedAt(init, k, j) {
        assert !ClaimedAt(cs, k, j);
      }
    }
  }

  /** A key is in the index exactly when some route claims it. */
  lemma IndexKeys(routes: seq<Route>, prefix: string, moduleName: string, k: string)
    ensures k in Index(routes, prefix, moduleName) <==>
      exists i :: 0 <= i < |routes| && routes[i].endpoint.Some? && k in RouteKeys(routes[i], prefix)
  {
    var cs := Claimants(routes, prefix, moduleName);
    IndexOfKeys(cs, k);
    if exists i :: 0 <= i < |routes| && routes[i].endpoint.Some? && k in RouteKeys(routes[i], prefix) {
      var i :| 0 <= i < |routes| && routes[i].endpoint.Some? && k in RouteKeys(routes[i], prefix);
      assert ClaimedAt(cs, k, i);
    }
  }

  /**
   * First writer wins: a key belongs to the operation of the first route
   * that claims it, whatever later routes claim.
   */
  lemma IndexFirstWins(routes: seq<Route>, prefix: string, moduleName: string, i: nat, k: string)
    requires i < |routes| && routes[i].endpoint.Some? && k in RouteKeys(routes[i], prefix)
    requires forall j :: 0 <= j < i && routes[j].endpoint.Some? ==> k !in RouteKeys(routes[j], prefix)
    ensures k in Index(routes, prefix, moduleName)
    ensures Index(routes, prefix, moduleName)[k] == OperationOf(routes[i], moduleName)
  {
    var cs := Claimants(routes, prefix, moduleName);
    assert ClaimedAt(cs, k, i);
    IndexOfFirst(cs, i, k);
  }

  /** The `KeyError` text for an unknown operation, listing the available keys. */
  function UnknownOperationMessage(name: string, keys: set<string>): string
  {
    "Unknown operation '" + name + "'. Available operations: " + SortedNames(keys)
  }

  /**
   * `str()` of the unknown-operation `KeyError`: the message holds `'`, so its
   * repr is double-quoted, and with nothing to escape in the name and the
   * listing it is the message between double quotes.
   */
  lemma UnknownOperationText(name: string, keys: set<string>)
    requires PlainText(name) && PlainText(SortedNames(keys))
    requires '"' !in name && '"' !in SortedNames(keys)
    ensures ExceptionStr(KeyError(UnknownOperationMessage(name, keys))) == "\"" + UnknownOperationMessage(name, keys) + "\""
  {
    var head, mid, listing := "Unknown operation '", "'. Available operations: ", SortedNames(keys);
    var m := UnknownOperationMessage(name, keys);
    assert m == head + name + mid + listing;
    assert '\'' in m by {
      assert m[|head| - 1] == head[|head| - 1] == '\'';
    }
    assert '"' !in m by {
      assert '"' !in head && '"' !in mid;
    }
    assert PlainText(m) by {
      LiteralsPlain();
      PlainConcat(head, name);
      PlainConcat(head + name, mid);
      PlainConcat(head + name + mid, listing);
    }
    KeyErrorStrDoubleQuoted(m);
  }

  /** The fixed parts of the unknown-operation message have nothing to escape. */
  lemma LiteralsPlain()
    ensures PlainText("Unknown operation '") && PlainText("'. Available operations: ")
  {
  }

  /** The name `describe_console_operations` gives a route's operation. */
  function DescribeName(r: Route, moduleName: string): string
  {
    if EndpointName(r) != "" then EndpointName(r)
    else if Trim(NormalisePath(r), Slash) != "" then Trim(NormalisePath(r), Slash)
    else moduleName
  }

  function DescriptionOf(r: Route, moduleName: string): Description
    requires r.endpoint.Some?
  {
    Describe(ConsoleOperation(DescribeName(r, moduleName), r, r.endpoint.value, moduleName))
  }

  /** Descriptions are told apart by path and methods. */
  function DescKey(d: Description): (string, seq<string>)
  {
    (d.path, d.methods)
  }

  function DescKeys(ds: seq<Description>): set<(string, seq<string>)>
  {
    set d | d in ds :: DescKey(d)
  }

  /** The description of each route that has a handler, `None` for the others. */
  function Candidates(routes: seq<Route>, moduleName: string): (cs: seq<Option<Description>>)
    ensures |cs| == |routes|
    ensures forall i :: 0 <= i < |routes| ==>
      cs[i] == if routes[i].endpoint.Some? then Some(DescriptionOf(routes[i], moduleName)) else None
  {
    seq(|routes|, i requires 0 <= i < |routes| =>
      if routes[i].endpoint.Some? then Some(DescriptionOf(routes[i], moduleName)) else None)
  }

  /** The first description for each (path, methods) pair, in order. */
  function FirstByKey(cs: seq<Option<Description>>): (ds: seq<Description>)
    ensures forall i, j :: 0 <= i < j < |ds| ==> DescKey(ds[i]) != DescKey(ds[j])
    ensures |ds| <= |cs|
  {
    if cs == [] then []
    else
      var prev := FirstByKey(cs[..|cs| - 1]);
      match cs[|cs| - 1]
      case None => prev
      case Some(d) =>
        if DescKey(d) in DescKeys(prev) then prev
        else
          assert forall i :: 0 <= i < |prev| ==> DescKey(prev[i]) in DescKeys(prev);
          prev + [d]
  }

  /** `describe_console_operations`: the first description for each (path, methods) pair, in route order. */
  function Descriptions(routes: seq<Route>, moduleName: string): seq<Description>
  {
    FirstByKey(Candidates(routes, moduleName))
  }

  /** One more candidate: a new key appends its description, anything else changes nothing. */
  lemma FirstByKeyStep(cs: seq<Option<Description>>, i: nat)
    requires i < |cs|
    ensures FirstByKey(cs[..i + 1]) ==
      if cs[i].Some? && DescKey(cs[i].value) !in DescKeys(FirstByKey(cs[..i]))
      then FirstByKey(cs[..i]) + [cs[i].value] else FirstByKey(cs[..i])
  {
    assert cs[..i + 1][..i] == cs[..i];
  }

  lemma DescKeysSnoc(ds: seq<Description>, d: Description)
    ensures DescKeys(ds + [d]) == DescKeys(ds) + {DescKey(d)}
  {
    assert forall e :: e in ds + [d] <==> e in ds || e == d;
  }

  lemma {:induction false} FirstByKeyCover(cs: seq<Option<Description>>, i: nat)
    requires i < |cs| && cs[i].Some?
    ensures DescKey(cs[i].value) in DescKeys(FirstByKey(cs))
  {
    var init := cs[..|cs| - 1];
    if i < |cs| - 1 {
      assert init[i] == cs[i];
      FirstByKeyCover(init, i);
    }
  }

  predicate FirstWithKey(cs: seq<Option<Description>>, d: Description, i: int)
  {
    0 <= i < |cs| && cs[i] == Some(d)
    && forall j :: 0 <= j < i && cs[j].Some? ==> DescKey(cs[j].value) != DescKey(d)
  }

  lemma {:induction false} FirstByKeyFirst(cs: seq<Option<Description>>, n: nat)
    requires n < |FirstByKey(cs)|
    ensures exists i :: FirstWithKey(cs, FirstByKey(cs)[n], i)
  {
    var init := cs[..|cs| - 1];
    var prev := FirstByKey(init);
    var d := FirstByKey(cs)[n];
    if n < |prev| {
      FirstByKeyFirst(init, n);
      var i :| FirstWithKey(init, prev[n], i);
      assert FirstWithKey(cs, d, i) by {
        forall j | 0 <= j < i && cs[j].Some? ensures DescKey(cs[j].value) != DescKey(d) {
          assert cs[j] == init[j];
        }
      }
    } else {
      var i := |cs| - 1;
      forall j | 0 <= j < i && cs[j].Some? ensures DescKey(cs[j].value) != DescKey(d) {
        assert cs[j] == init[j];
        FirstByKeyCover(init, j);
      }
      assert FirstWithKey(cs, d, i);
    }
  }

  /** Every route with a handler is represented by a description with its path and methods. */
  lemma DescriptionsCover(routes: seq<Route>, moduleName: string, i: nat)
    requires i < |routes| && routes[i].endpoint.Some?
    ensures DescKey(DescriptionOf(routes[i], moduleName)) in DescKeys(Descriptions(routes, moduleName))
  {
    FirstByKeyCover(Candidates(routes, moduleName), i);
  }

  /** Every description is that of the first route with its path and methods. */
  lemma DescriptionsFirst(routes: seq<Route>, moduleName: string, n: nat)
    requires n < |Descriptions(routes, moduleName)|
    ensures exists i ::
      0 <= i < |routes| && routes[i].endpoint.Some?
      && Descriptions(routes, moduleName)[n] == DescriptionOf(routes[i], moduleName)
      && forall j :: 0 <= j < i && routes[j].endpoint.Some? ==>
        DescKey(DescriptionOf(routes[j], moduleName)) != DescKey(DescriptionOf(routes[i], moduleName))
  {
    var cs := Candidates(routes, moduleName);
    FirstByKeyFirst(cs, n);
    var i :| FirstWithKey(cs, FirstByKey(cs)[n], i);
    forall j | 0 <= j < i && routes[j].endpoint.Some?
      ensures DescKey(DescriptionOf(routes[j], moduleName)) != DescKey(DescriptionOf(routes[i], moduleName))
    {
      assert cs[j].Some?;
    }
  }

  /** Operation names are matched without regard to letter case. */
  lemma IndexKeyIgnoresCase(name: string)
    ensures IndexKey(Upper(name)) == IndexKey(name)
  {
    StripUpper(name);
    LowerOfUpper(Strip(name));
  }

  /** A claimed key is stored as it is looked up: stripped and lower-cased. */
  lemma RouteKeysAreLookupKeys(r: Route, prefix: string, k: string)
    requires k in RouteKeys(r, prefix)
    ensures exists x :: IsOperationKey(r, prefix, x) && Strip(x) != "" && k == IndexKey(x)
  {
    ClaimedKeysMembers(OperationKeys(r, prefix));
  }

  /** The route FastAPI registers on the versioned router: the prefixed path, the given methods or GET. */
  function VersionedRoute(prefix: string, path: string, endpoint: Endpoint, summary: string, deprecated: bool,
                          openapiExtra: map<string, Value>, includeInSchema: bool, methods: seq<string>): Route
  {
    Route(prefix + path, "", if methods == [] then ["GET"] else methods, "", Some(endpoint),
          summary, deprecated, includeInSchema, openapiExtra)
  }

  /** The legacy methods: the explicit list, else the versioned route's sorted methods, else GET. */
  function LegacyMethods(methods: seq<string>, versioned: Route): (ms: seq<string>)
    ensures methods != [] ==> ms == methods
    ensures methods == [] && NormaliseMethods(versioned) != [] ==> ms == NormaliseMethods(versioned)
    ensures ms != []
  {
    if methods != [] then methods
    else if NormaliseMethods(versioned) != [] then NormaliseMethods(versioned)
    else ["GET"]
  }

  /**
   * The legacy `openapi_extra`: the caller's keys kept as given, with the
   * module's `sunset` added only where the caller did not set one.
   */
  function LegacyExtra(openapiExtra: map<string, Value>, legacyExtra: Option<map<string, Value>>): (m: map<string, Value>)
    ensures forall k :: k in openapiExtra ==> k in m && m[k] == openapiExtra[k]
    ensures legacyExtra.Some? && legacyExtra.value != map[] ==>
      m.Keys == openapiExtra.Keys + {"sunset"}
      && ("sunset" !in openapiExtra ==> m["sunset"] == Get(legacyExtra.value, "sunset"))
    ensures !(legacyExtra.Some? && legacyExtra.value != map[]) ==> m == openapiExtra
  {
    var sunset := legacyExtra.Some? && legacyExtra.value != map[];
    if openapiExtra != map[] || sunset then
      if sunset && "sunset" !in openapiExtra then openapiExtra["sunset" := Get(legacyExtra.value, "sunset")]
      else openapiExtra
    else map[]
  }

  /** `_mirror_route_to_legacy`: the deprecated copy of a versioned registration. */
  function MirroredRoute(legacyPrefix: string, path: string, endpoint: Endpoint, summary: string,
                         openapiExtra: map<string, Value>, includeInSchema: bool, methods: seq<string>,
                         versioned: Route, legacyExtra: Option<map<string, Value>>): (r: Route)
    ensures r.path == legacyPrefix + path
    ensures r.endpoint == Some(endpoint)
    ensures r.deprecated
    ensures r.includeInSchema == includeInSchema
    ensures summary != "" ==> r.summary == "[Deprecated] " + summary
    ensures summary == "" ==> r.summary == ""
    ensures r.methods == LegacyMethods(methods, versioned)
    ensures r.openapiExtra == LegacyExtra(openapiExtra, legacyExtra)
  {
    Route(legacyPrefix + path, "", LegacyMethods(methods, versioned), "", Some(endpoint),
          if summary != "" then "[Deprecated] " + summary else "",
          true, includeInSchema, LegacyExtra(openapiExtra, legacyExtra))
  }

  /** Claiming a route's keys one by one gives the route's claims as a whole. */
  lemma ClaimIsAddClaims(ops: map<string, ConsoleOperation>, r: Route, prefix: string, moduleName: string)
    requires r.endpoint.Some?
    ensures Claim(ops, OperationKeys(r, prefix), OperationOf(r, moduleName)) == AddClaims(ops, ClaimantOf(r, prefix, moduleName))
  {
    var keys := OperationKeys(r, prefix);
    var op := OperationOf(r, moduleName);
    ClaimAsAddClaims(ops, keys, op);
    assert ClaimantOf(r, prefix, moduleName) == Claimant(ClaimedKeys(keys), Some(op));
  }

  lemma ClaimAsAddClaims(ops: map<string, ConsoleOperation>, keys: seq<string>, op: ConsoleOperation)
    ensures Claim(ops, keys, op) == AddClaims(ops, Claimant(ClaimedKeys(keys), Some(op)))
  {
    ClaimSpec(ops, keys, op);
    var a := Claim(ops, keys, op);
    var b := AddClaims(ops, Claimant(ClaimedKeys(keys), Some(op)));
    assert a.Keys == b.Keys;
    forall k | k in a ensures a[k] == b[k] {
    }
  }

  /** The inner loop of `get_console_operations`: every stripped, lower-cased key not yet taken goes to `op`. */
  method ClaimKeys(ops: map<string, ConsoleOperation>, keys: seq<string>, op: ConsoleOperation)
    returns (result: map<string, ConsoleOperation>)
    ensures result == Claim(ops, keys, op)
  {
    result := ops;
    var j := 0;
    while j < |keys|
      invariant 0 <= j <= |keys|
      invariant result == Claim(ops, keys[..j], op)
    {
      assert keys[..j + 1][..j] == keys[..j];
      var key := Strip(keys[j]);
      if key != "" {
        var lower := Lower(key);
        if lower !in result {
          result := result[lower := op];
        }
      }
      j := j + 1;
    }
    assert keys[..j] == keys;
  }

  /** `legacy` is the mirror of `versioned`: same handler, same relative path, deprecated. */
  predicate Mirrors(legacy: Route, versioned: Route, prefix: string, legacyPrefix: string)
  {
    prefix <= versioned.path
    && legacy.path == legacyPrefix + versioned.path[|prefix|..]
    && legacy.endpoint == versioned.endpoint
    && legacy.deprecated
    && (legacy.summary == "" <==> versioned.summary == "")
  }

  /**
   * A module: its name and version, its versioned router (prefix
   * `/v{major}/{name}`) and, when legacy routes are enabled, its legacy
   * router (prefix `/{name}`). Both routers' route lists are fields.
   */
  class BaseModule {
    const name: string
    const version: string
    const apiMajorVersion: int
    const enableLegacyRoutes: bool
    const prefix: string
    const legacyPrefix: Option<string>
    const legacyOpenapiExtra: Option<map<string, Value>>
    var routes: seq<Route>
    var legacyRoutes: seq<Route>
    /** The module's tracer, from the provider cached under its name. */
    const tracer: Tracing.Tracer
    /** The route class the versioned router was given. */
    const routerTracing: Tracing.Router
    /** The route class the legacy router was given, when there is one. */
    const legacyRouterTracing: Option<Tracing.Router>

    /** Every versioned route has exactly one mirror, at the same position, on the legacy router. */
    ghost predicate Valid()
      reads this
    {
      (legacyPrefix.Some? <==> enableLegacyRoutes)
      && |legacyRoutes| == (if enableLegacyRoutes then |routes| else 0)
      && forall i :: 0 <= i < |legacyRoutes| ==> Mirrors(legacyRoutes[i], routes[i], prefix, legacyPrefix.value)
    }

    /**
     * `BaseModule.__init__`: a missing version falls back to the module's
     * registered version; the legacy router exists only when legacy routes
     * are enabled, and carries the sunset date when there is one. Observability
     * is then set up for the versioned router and again for the legacy one:
     * the module's provider is cached once, and both routers get the traced
     * route class of the module's tracer. `installed` is the version of the
     * installed `coman` package, if any.
     */
    constructor (name: string, version: string, apiMajorVersion: int, enableLegacyRoutes: bool,
                 legacySunset: Option<string>, moduleVersions: map<string, string>,
                 tracing: Tracing.TracingState, installed: Option<string>)
      requires tracing.Valid()
      modifies tracing
      ensures tracing.Valid()
      ensures name in tracing.providers && tracer == Tracing.ModuleTracer(tracing.providers[name], name)
      ensures name in old(tracing.providers) ==> tracing.providers == old(tracing.providers)
      ensures name !in old(tracing.providers) ==>
        tracing.providers == old(tracing.providers)[name := Tracing.Provider(Tracing.BuildResource(name, Some(this.version), installed))]
      ensures tracing.global == old(tracing.global) && tracing.instrumentations == old(tracing.instrumentations)
      ensures tracing.httpxInstrumented == old(tracing.httpxInstrumented)
      ensures tracing.requestsInstrumented == old(tracing.requestsInstrumented)
      ensures fresh(routerTracing) && routerTracing.routeClass == Tracing.TracedRoute(name, tracer)
      ensures routerTracing.tracingTag == Some(routerTracing.routeClass)
      ensures legacyRouterTracing.Some? <==> enableLegacyRoutes
      ensures legacyRouterTracing.Some? ==> (fresh(legacyRouterTracing.value) && legacyRouterTracing.value != routerTracing
        && legacyRouterTracing.value.routeClass == Tracing.TracedRoute(name, tracer)
        && legacyRouterTracing.value.tracingTag == Some(legacyRouterTracing.value.routeClass))
      ensures this.name == name && this.apiMajorVersion == apiMajorVersion
      ensures this.enableLegacyRoutes == enableLegacyRoutes
      ensures this.version == if version != "" then version else GetModuleVersion(name, moduleVersions)
      ensures prefix == "/v" + IntToString(apiMajorVersion) + "/" + name
      ensures legacyPrefix == if enableLegacyRoutes then Some("/" + name) else None
      ensures legacyOpenapiExtra == if legacySunset.Some? then Some(map["sunset" := Str(legacySunset.value)]) else None
      ensures routes == [] && legacyRoutes == []
      ensures Valid()
    {
      this.name := name;
      this.version := if version != "" then version else GetModuleVersion(name, moduleVersions);
      this.apiMajorVersion := apiMajorVersion;
      this.enableLegacyRoutes := enableLegacyRoutes;
      prefix := "/v" + IntToString(apiMajorVersion) + "/" + name;
      legacyPrefix := if enableLegacyRoutes then Some("/" + name) else None;
      legacyOpenapiExtra := if legacySunset.Some? then Some(map["sunset" := Str(legacySunset.value)]) else None;
      routes := [];
      legacyRoutes := [];
      var moduleVersion := if version != "" then version else GetModuleVersion(name, moduleVersions);
      var versioned := new Tracing.Router();
      var t := Tracing.SetupModuleObservability(tracing, name, Some(moduleVersion), installed, Some(versioned));
      tracer := t;
      routerTracing := versioned;
      if enableLegacyRoutes {
        var legacy := new Tracing.Router();
        var _ := Tracing.SetupModuleObservability(tracing, name, Some(moduleVersion), installed, Some(legacy));
        legacyRouterTracing := Some(legacy);
      } else {
        legacyRouterTracing := None;
      }
    }

    /**
     * The wrapped `add_api_route`: registers the route on the versioned
     * router, then mirrors it onto the legacy router when there is one.
     */
    method AddApiRoute(path: string, endpoint: Endpoint, summary: string, deprecated: bool,
                       openapiExtra: map<string, Value>, includeInSchema: bool, methods: seq<string>)
      requires Valid()
      modifies this
      ensures Valid()
      ensures routes == old(routes)
        + [VersionedRoute(prefix, path, endpoint, summary, deprecated, openapiExtra, includeInSchema, methods)]
      ensures legacyRoutes == old(legacyRoutes) + (if enableLegacyRoutes then
        [MirroredRoute(legacyPrefix.value, path, endpoint, summary, openapiExtra, includeInSchema, methods,
                       routes[|routes| - 1], legacyOpenapiExtra)] else [])
    {
      var route := VersionedRoute(prefix, path, endpoint, summary, deprecated, openapiExtra, includeInSchema, methods);
      routes := routes + [route];
      if enableLegacyRoutes {
        var mirrored := MirroredRoute(legacyPrefix.value, path, endpoint, summary, openapiExtra, includeInSchema,
                                      methods, route, legacyOpenapiExtra);
        assert (prefix + path)[|prefix|..] == path;
        legacyRoutes := legacyRoutes + [mirrored];
      }
    }

    /** `get_routers`: the versioned router, then the legacy one if present, named by prefix. */
    function GetRouters(): (rs: seq<string>)
      reads this
      ensures |rs| >= 1 && rs[0] == prefix
      ensures |rs| == 2 <==> legacyPrefix.Some?
      ensures legacyPrefix.Some? ==> rs[1] == legacyPrefix.value
    {
      [prefix] + (if legacyPrefix.Some? then [legacyPrefix.value] else [])
    }

    /** `get_console_operations`: the case-insensitive, first-wins index of the versioned routes. */
    method GetConsoleOperations() returns (ops: map<string, ConsoleOperation>)
      ensures ops == Index(routes, prefix, name)
    {
      ghost var cs := Claimants(routes, prefix, name);
      ops := map[];
      var i := 0;
      while i < |routes|
        invariant 0 <= i <= |routes|
        invariant ops == IndexOf(cs[..i])
      {
        var r := routes[i];
        assert cs[..i + 1][..i] == cs[..i];
        if r.endpoint.Some? {
          ClaimIsAddClaims(ops, r, prefix, name);
          ops := ClaimKeys(ops, OperationKeys(r, prefix), OperationOf(r, name));
        }
        i := i + 1;
      }
      assert cs[..i] == cs;
    }

    /** `describe_console_operations`: one description per distinct (path, methods), in route order. */
    method DescribeConsoleOperations() returns (ds: seq<Description>)
      ensures ds == Descriptions(routes, name)
    {
      ghost var cs := Candidates(routes, name);
      ds := [];
      var seen: set<(string, seq<string>)> := {};
      var i := 0;
      while i < |routes|
        invariant 0 <= i <= |routes|
        invariant ds == FirstByKey(cs[..i])
        invariant seen == DescKeys(ds)
      {
        var r := routes[i];
        FirstByKeyStep(cs, i);
        if r.endpoint.Some? {
          var d := DescriptionOf(r, name);
          var key := DescKey(d);
          if key !in seen {
            DescKeysSnoc(ds, d);
            seen := seen + {key};
            ds := ds + [d];
          }
        }
        i := i + 1;
      }
      assert cs[..i] == cs;
    }

    /**
     * `invoke_console_operation`: looks the stripped, lower-cased name up in
     * the index; an unknown name raises a `KeyError` listing the sorted keys.
     */
    method InvokeConsoleOperation(operation: string, arguments: map<string, Value>, loads: string -> Option<Value>,
                                  call: (Endpoint, map<string, Value>) -> Result<Value, Exception>)
      returns (r: Result<Value, Exception>)
      ensures var ops := Index(routes, prefix, name);
        && (IndexKey(operation) !in ops ==> r == Err(KeyError(UnknownOperationMessage(operation, ops.Keys))))
        && (IndexKey(operation) in ops ==> r == InvokeResult(ops[IndexKey(operation)], arguments, loads, call))
    {
      var ops := GetConsoleOperations();
      var key := Lower(Strip(operation));
      if key !in ops {
        return Err(KeyError(UnknownOperationMessage(operation, ops.Keys)));
      }
      r := Invoke(ops[key], arguments, loads, call);
    }
  }
}

=== FILE: cli.dfy ===
/**
 * The helpers of the command-line entry point: `key=value` arguments, the
 * merge of a JSON payload with those arguments, the formatting of an
 * operation's result, the rewriting of the argument vector before parsing,
 * and the module lookup of the `call` command.
 *
 * `json.loads` is the parameter `loads` (`None` when the text is not JSON),
 * and the text of its decoding error is the parameter `jsonError`. The
 * methods a result object may have (`to_payload`, `model_dump`, `dict`) are
 * the parameter `call`: `call(name, v)` is `None` when `v` has no such
 * method, or what calling it returns or raises.
 */
module Cli {
  import opened Wrappers
  import opened Text
  import opened PyValue
  import ModuleBase

  /** A parsed argument: the dictionary `{key: value}` with its single entry. */
  datatype KeyValue = KeyValue(key: string, value: Value)

  /** `s.split(c, 1)` for a text that holds `c`: the part before the first `c` and the rest. */
  function SplitAtFirst(s: string, c: char): (r: (string, string))
    requires c in s
    ensures c !in r.0
    ensures s == r.0 + [c] + r.1
  {
    if s[0] == c then ([], s[1..])
    else
      var rest := SplitAtFirst(s[1..], c);
      assert s == [s[0]] + s[1..];
      ([s[0]] + rest.0, rest.1)
  }

  /** The split point is determined: a prefix free of `c` followed by `c` is what the split returns. */
  lemma {:induction false} SplitAtFirstUnique(a: string, b: string, c: char)
    requires c !in a
    ensures SplitAtFirst(a + [c] + b, c) == (a, b)
  {
    if a != [] {
      SplitAtFirstUnique(a[1..], b, c);
      assert (a + [c] + b)[0] == a[0] && a[0] != c;
      assert (a + [c] + b)[1..] == a[1..] + [c] + b;
      assert a == [a[0]] + a[1..];
    } else {
      assert a + [c] + b == [c] + b;
    }
  }

  /** `json.loads(text)`, falling back to the text itself when it is not JSON. */
  function DecodeOr(text: string, loads: string -> Option<Value>): (v: Value)
    ensures loads(text).Some? ==> v == loads(text).value
    ensures loads(text).None? ==> v == Str(text)
  {
    match loads(text)
    case Some(v) => v
    case None => Str(text)
  }

  /**
   * `_parse_kv`: an argument without `=`, or whose key is blank, exits with
   * a message naming the argument; otherwise the text is split at its first
   * `=`, both sides are stripped and the value is decoded as JSON when it
   * can be.
   */
  function ParseKv(arg: string, loads: string -> Option<Value>): (r: Result<KeyValue, Exception>)
    ensures r.Ok? <==> '=' in arg && Strip(SplitAtFirst(arg, '=').0) != ""
    ensures '=' !in arg ==> r == Err(SystemExit("Invalid argument '" + arg + "', expected key=value"))
    ensures '=' in arg && Strip(SplitAtFirst(arg, '=').0) == "" ==>
      r == Err(SystemExit("Invalid argument '" + arg + "', key cannot be empty"))
    ensures r.Ok? ==> r.value.key != "" && '=' !in r.value.key
  {
    if '=' !in arg then Err(SystemExit("Invalid argument '" + arg + "', expected key=value"))
    else
      var parts := SplitAtFirst(arg, '=');
      var key := Strip(parts.0);
      StripIsInfix(parts.0);
      if key == "" then Err(SystemExit("Invalid argument '" + arg + "', key cannot be empty"))
      else Ok(KeyValue(key, DecodeOr(Strip(parts.1), loads)))
  }

  /**
   * Writing a key and a value as `key=value` and parsing it gives them back:
   * the key must be stripped and free of `=`, while the value may itself hold
   * `=` since only the first one splits.
   */
  lemma ParseKvOfPair(key: string, value: string, loads: string -> Option<Value>)
    requires key != "" && IsStripped(key) && '=' !in key && IsStripped(value)
    ensures ParseKv(key + "=" + value, loads) == Ok(KeyValue(key, DecodeOr(value, loads)))
  {
    SplitAtFirstUnique(key, value, '=');
    assert key + "=" + value == key + ['='] + value;
    StripIsStripped(key);
    StripIsStripped(value);
  }

  /** `_parse_kv` as a function value, to convert a list of arguments. */
  function ParseWith(loads: string -> Option<Value>): string -> Result<KeyValue, Exception>
  {
    arg => ParseKv(arg, loads)
  }

  /** `data.update({key: value})` for each parsed argument in turn. */
  function Assign(data: map<string, Value>, kvs: seq<KeyValue>): (r: map<string, Value>)
    ensures data.Keys <= r.Keys
  {
    if kvs == [] then data
    else
      var last := kvs[|kvs| - 1];
      Assign(data, kvs[..|kvs| - 1])[last.key := last.value]
  }

  /** One more update on top of the earlier ones. */
  lemma AssignStep(data: map<string, Value>, kvs: seq<KeyValue>, kv: KeyValue)
    ensures Assign(data, kvs + [kv]) == Assign(data, kvs)[kv.key := kv.value]
  {
    assert (kvs + [kv])[..|kvs|] == kvs;
  }

  /**
   * After the updates a key is present exactly when the data or some argument
   * holds it; its value is the one of the last argument with that key, or
   * the data's own when no argument has it.
   */
  lemma {:induction false} AssignLastWins(data: map<string, Value>, kvs: seq<KeyValue>, k: string)
    ensures k in Assign(data, kvs) <==> k in data || exists i :: 0 <= i < |kvs| && kvs[i].key == k
    ensures (forall i :: 0 <= i < |kvs| ==> kvs[i].key != k) && k in data ==> Assign(data, kvs)[k] == data[k]
    ensures forall i :: 0 <= i < |kvs| && kvs[i].key == k && (forall j :: i < j < |kvs| ==> kvs[j].key != k) ==>
      Assign(data, kvs)[k] == kvs[i].value
  {
    if kvs != [] {
      var init := kvs[..|kvs| - 1];
      var last := kvs[|kvs| - 1];
      AssignLastWins(data, init, k);
      assert forall i :: 0 <= i < |init| ==> init[i] == kvs[i];
      if last.key != k {
        assert (exists i :: 0 <= i < |kvs| && kvs[i].key == k) ==> exists i :: 0 <= i < |init| && init[i].key == k;
      }
    }
  }

  /** The dictionary the JSON payload starts the arguments with: `{}` when the payload is absent or empty. */
  function PayloadData(jsonPayload: Option<string>, loads: string -> Option<Value>, jsonError: string -> string): (r: Result<map<string, Value>, Exception>)
    ensures jsonPayload.None? || jsonPayload.value == "" ==> r == Ok(map[])
    ensures jsonPayload.Some? && jsonPayload.value != "" ==> (r.Ok? <==> loads(jsonPayload.value).Some? && loads(jsonPayload.value).value.Dict?)
    ensures r.Ok? && jsonPayload.Some? && jsonPayload.value != "" ==> r.value == loads(jsonPayload.value).value.entries
    ensures jsonPayload.Some? && jsonPayload.value != "" && loads(jsonPayload.value).None? ==>
      r == Err(SystemExit("Invalid JSON payload: " + jsonError(jsonPayload.value)))
    ensures jsonPayload.Some? && jsonPayload.value != "" && loads(jsonPayload.value).Some? && !loads(jsonPayload.value).value.Dict? ==>
      r == Err(SystemExit("JSON payload must be an object with key/value pairs"))
  {
    if jsonPayload.None? || jsonPayload.value == "" then Ok(map[])
    else
      match loads(jsonPayload.value)
      case None => Err(SystemExit("Invalid JSON payload: " + jsonError(jsonPayload.value)))
      case Some(v) =>
        if v.Dict? then Ok(v.entries) else Err(SystemExit("JSON payload must be an object with key/value pairs"))
  }

  /**
   * The arguments parsed by `parse` and applied in order; the first argument
   * that does not parse stops the application with its error.
   */
  function ApplyArgs<A>(data: map<string, Value>, args: seq<A>, parse: A -> Result<KeyValue, Exception>): (r: Result<map<string, Value>, Exception>)
    ensures r.Ok? <==> forall i :: 0 <= i < |args| ==> parse(args[i]).Ok?
  {
    match MapAll(args, parse)
    case Err(e) => Err(e)
    case Ok(kvs) => Ok(Assign(data, kvs))
  }

  /** Later arguments override earlier ones and the data; a key no argument names keeps the data's value. */
  lemma ApplyArgsLaterWins<A>(data: map<string, Value>, args: seq<A>, parse: A -> Result<KeyValue, Exception>, k: string)
    requires ApplyArgs(data, args, parse).Ok?
    ensures forall i :: (0 <= i < |args| && parse(args[i]).value.key == k
      && (forall j :: i < j < |args| ==> parse(args[j]).value.key != k)) ==>
      k in ApplyArgs(data, args, parse).value && ApplyArgs(data, args, parse).value[k] == parse(args[i]).value.value
    ensures (forall i :: 0 <= i < |args| ==> parse(args[i]).value.key != k) ==>
      (k in ApplyArgs(data, args, parse).value <==> k in data)
    ensures (forall i :: 0 <= i < |args| ==> parse(args[i]).value.key != k) && k in data ==>
      k in ApplyArgs(data, args, parse).value && ApplyArgs(data, args, parse).value[k] == data[k]
  {
    var kvs := MapAll(args, parse).value;
    assert forall i :: 0 <= i < |args| ==> kvs[i] == parse(args[i]).value;
    AssignLastWins(data, kvs, k);
  }

  /** What `_merge_arguments` returns or raises: the payload's entries updated by every argument in order. */
  function Merged(jsonPayload: Option<string>, args: seq<string>, loads: string -> Option<Value>, jsonError: string -> string): (r: Result<map<string, Value>, Exception>)
    ensures r.Ok? <==> PayloadData(jsonPayload, loads, jsonError).Ok? && forall i :: 0 <= i < |args| ==> ParseWith(loads)(args[i]).Ok?
    ensures PayloadData(jsonPayload, loads, jsonError).Err? ==> r == PayloadData(jsonPayload, loads, jsonError)
    ensures PayloadData(jsonPayload, loads, jsonError).Ok? ==> r == ApplyArgs(PayloadData(jsonPayload, loads, jsonError).value, args, ParseWith(loads))
  {
    match PayloadData(jsonPayload, loads, jsonError)
    case Err(e) => Err(e)
    case Ok(data) => ApplyArgs(data, args, ParseWith(loads))
  }

  /**
   * `--arg` entries override the payload and each other in order: the value
   * under the key of an argument that no later argument repeats is that
   * argument's value, and a key no argument names keeps the payload's value.
   */
  lemma MergedLaterWins(jsonPayload: Option<string>, args: seq<string>, loads: string -> Option<Value>, jsonError: string -> string, k: string)
    requires Merged(jsonPayload, args, loads, jsonError).Ok?
    ensures forall i :: (0 <= i < |args| && ParseKv(args[i], loads).value.key == k
      && (forall j :: i < j < |args| ==> ParseKv(args[j], loads).value.key != k)) ==>
      k in Merged(jsonPayload, args, loads, jsonError).value
      && Merged(jsonPayload, args, loads, jsonError).value[k] == ParseKv(args[i], loads).value.value
    ensures (forall i :: 0 <= i < |args| ==> ParseKv(args[i], loads).value.key != k) ==>
      (k in Merged(jsonPayload, args, loads, jsonError).value <==> k in PayloadData(jsonPayload, loads, jsonError).value)
  {
    var parse := ParseWith(loads);
    assert forall i :: 0 <= i < |args| ==> parse(args[i]) == ParseKv(args[i], loads);
    ApplyArgsLaterWins(PayloadData(jsonPayload, loads, jsonError).value, args, parse, k);
  }

  /** The payload step of `_merge_arguments`: the entries `update` copies into the empty `data`. */
  method LoadPayload(jsonPayload: Option<string>, loads: string -> Option<Value>, jsonError: string -> string)
    returns (r: Result<map<string, Value>, Exception>)
    ensures r == PayloadData(jsonPayload, loads, jsonError)
  {
    var data: map<string, Value> := map[];
    if jsonPayload.Some? && jsonPayload.value != "" {
      var loaded := loads(jsonPayload.value);
      if loaded.None? {
        return Err(SystemExit("Invalid JSON payload: " + jsonError(jsonPayload.value)));
      }
      if !loaded.value.Dict? {
        return Err(SystemExit("JSON payload must be an object with key/value pairs"));
      }
      data := data + loaded.value.entries;
      assert data == loaded.value.entries;
    }
    return Ok(data);
  }

  /** The loop of `_merge_arguments`: each argument parsed and applied to `data` in order. */
  method UpdateWithArgs<A>(data: map<string, Value>, args: seq<A>, parse: A -> Result<KeyValue, Exception>)
    returns (r: Result<map<string, Value>, Exception>)
    ensures r == ApplyArgs(data, args, parse)
  {
    var current := data;
    ghost var kvs: seq<KeyValue> := [];
    var i := 0;
    while i < |args|
      invariant 0 <= i <= |args|
      invariant MapAll(args[..i], parse) == Ok(kvs)
      invariant current == Assign(data, kvs)
    {
      var parsed := parse(args[i]);
      MapAllStep(args, parse, i);
      if parsed.Err? {
        MapAllFailureSticks(args, parse, i + 1);
        return Err(parsed.error);
      }
      AssignStep(data, kvs, parsed.value);
      current := current[parsed.value.key := parsed.value.value];
      kvs := kvs + [parsed.value];
      i := i + 1;
    }
    assert args[..i] == args;
    return Ok(current);
  }

  /**
   * `_merge_arguments`: the payload's entries, then each `--arg` applied in
   * order with `update`; the first argument that does not parse stops the
   * merge with its exit.
   */
  method MergeArguments(jsonPayload: Option<string>, args: seq<string>, loads: string -> Option<Value>, jsonError: string -> string)
    returns (r: Result<map<string, Value>, Exception>)
    ensures r == Merged(jsonPayload, args, loads, jsonError)
  {
    var loaded := LoadPayload(jsonPayload, loads, jsonError);
    if loaded.Err? {
      return Err(loaded.error);
    }
    r := UpdateWithArgs(loaded.value, args, ParseWith(loads));
  }

  /** The names of the methods `_format_result` tries, in order. */
  const Converters: seq<string> := ["to_payload", "model_dump", "dict"]

  /** A converter that is missing, or whose call raises, is skipped. */
  predicate Skipped(call: (string, Value) -> Option<Result<Value, Exception>>, name: string, v: Value)
  {
    call(name, v).None? || call(name, v).value.Err?
  }

  /**
   * The first converter the value has whose call succeeds; a converter that
   * raises is skipped.
   */
  function Converted(v: Value, call: (string, Value) -> Option<Result<Value, Exception>>, names: seq<string>): (r: Option<Value>)
    ensures r.Some? ==> exists i :: (0 <= i < |names| && call(names[i], v) == Some(Ok(r.value))
      && forall j :: 0 <= j < i ==> Skipped(call, names[j], v))
    ensures r.None? ==> forall i :: 0 <= i < |names| ==> Skipped(call, names[i], v)
  {
    if names == [] then None
    else
      match call(names[0], v)
      case Some(Ok(p)) => Some(p)
      case _ =>
        var rest := Converted(v, call, names[1..]);
        assert forall i :: 1 <= i < |names| ==> names[i] == names[1..][i - 1];
        assert rest.Some? ==> exists i :: (0 <= i < |names| && call(names[i], v) == Some(Ok(rest.value))
          && forall j :: 0 <= j < i ==> Skipped(call, names[j], v)) by {
          if rest.Some? {
            var k :| (0 <= k < |names[1..]| && call(names[1..][k], v) == Some(Ok(rest.value))
              && forall j :: 0 <= j < k ==> Skipped(call, names[1..][j], v));
            assert call(names[k + 1], v) == Some(Ok(rest.value));
            assert forall j :: 0 <= j < k + 1 ==> Skipped(call, names[j], v) by {
              forall j | 0 <= j < k + 1
                ensures Skipped(call, names[j], v)
              {
                if j > 0 {
                  assert names[j] == names[1..][j - 1];
                }
              }
            }
          }
        }
        rest
  }

  /** Whether `_format_result` passes a value through: a string, a number, a boolean, a list or a dict. */
  predicate PassesThrough(v: Value)
  {
    v.Str? || v.Int? || v.Float? || v.Bool? || v.List? || v.Dict?
  }

  /**
   * `_format_result`: `None` becomes `{"ok": True}`; an object with a
   * converter gives what the first working converter returns; strings,
   * numbers, booleans, lists and dicts pass through; anything else becomes
   * its `repr`. Only `Model` values have converters: the built-in values
   * have none of those methods.
   */
  function FormatResult(result: Value, call: (string, Value) -> Option<Result<Value, Exception>>): (r: Value)
    ensures result.Null? ==> r == Dict(map["ok" := Bool(true)])
    ensures PassesThrough(result) ==> r == result
    ensures result.Tuple? ==> r == Str(Repr(result))
    ensures result.Model? && Converted(result, call, Converters).Some? ==> r == Converted(result, call, Converters).value
    ensures result.Model? && Converted(result, call, Converters).None? ==> r == Str(Repr(result))
  {
    if result.Null? then Dict(map["ok" := Bool(true)])
    else if result.Model? && Converted(result, call, Converters).Some? then Converted(result, call, Converters).value
    else if PassesThrough(result) then result
    else Str(Repr(result))
  }

  /** A result that is already formatted and printable as it is stays the same when formatted again. */
  lemma FormatResultIdempotent(result: Value, call: (string, Value) -> Option<Result<Value, Exception>>)
    requires PassesThrough(FormatResult(result, call))
    ensures FormatResult(FormatResult(result, call), call) == FormatResult(result, call)
  {
  }

  /** Without converters, the formatted result is always printable as it is. */
  lemma FormatResultPrintable(result: Value, call: (string, Value) -> Option<Result<Value, Exception>>)
    requires !result.Model?
    ensures PassesThrough(FormatResult(result, call))
  {
  }

  /** The first arguments that select a service directly. */
  const Services: set<string> := {"api", "telegram", "all"}

  /** `list(argv or sys.argv[1:])`: an absent or empty argument list falls back to the process's own. */
  function ArgvOrSys(argv: Option<seq<string>>, sysArgs: seq<string>): (r: seq<string>)
    ensures argv.Some? && argv.value != [] ==> r == argv.value
    ensures argv.None? || argv.value == [] ==> r == sysArgs
  {
    if argv.Some? && argv.value != [] then argv.value else sysArgs
  }

  /**
   * `_parse_args` before the parser runs: a list starting with a service
   * name gets `serve` put in front, and an empty list becomes `["serve"]`.
   */
  function RewriteArgv(argv: seq<string>): (r: seq<string>)
    ensures r != []
    ensures |r| == |argv| || |r| == |argv| + 1
    ensures r[|r| - |argv|..] == argv
    ensures |r| == |argv| + 1 <==> argv == [] || argv[0] in Services
    ensures |r| == |argv| + 1 ==> r[0] == "serve"
    ensures r[0] !in Services
  {
    if argv != [] && argv[0] in Services then ["serve"] + argv
    else if argv == [] then ["serve"]
    else argv
  }

  /** Rewriting an already rewritten list changes nothing. */
  lemma RewriteArgvIdempotent(argv: seq<string>)
    ensures RewriteArgv(RewriteArgv(argv)) == RewriteArgv(argv)
  {
  }

  /**
   * The module lookup of `call_module`: an unknown name exits with the
   * sorted list of the loaded module names, or `<none>`.
   */
  function FindModule<M>(modules: map<string, M>, name: string): (r: Result<M, Exception>)
    ensures r.Ok? <==> name in modules
    ensures r.Ok? ==> r.value == modules[name]
    ensures r.Err? ==> r.error == SystemExit("Unknown module '" + name + "'. Available modules: " + SortedNames(modules.Keys))
  {
    if name in modules then Ok(modules[name])
    else Err(SystemExit("Unknown module '" + name + "'. Available modules: " + SortedNames(modules.Keys)))
  }

  /** The start of the exit text of an operation that raises. */
  function FailurePrefix(moduleName: string, operation: string): string
  {
    "Failed to execute " + moduleName + "." + operation + ": "
  }

  /**
   * What `call_module` prints or raises: the module is looked up first, then
   * the arguments are merged, then the operation is invoked (a failure exits
   * naming the module and the operation), and the result is formatted.
   */
  function CallOutcome<M>(modules: map<string, M>, moduleName: string, operation: string,
                          jsonPayload: Option<string>, args: seq<string>,
                          loads: string -> Option<Value>, jsonError: string -> string,
                          invoke: (M, string, map<string, Value>) -> Result<Value, Exception>,
                          call: (string, Value) -> Option<Result<Value, Exception>>): (r: Result<Value, Exception>)
    ensures moduleName !in modules ==> r == Err(FindModule(modules, moduleName).error)
    ensures moduleName in modules && Merged(jsonPayload, args, loads, jsonError).Err? ==> r == Err(Merged(jsonPayload, args, loads, jsonError).error)
    ensures (moduleName in modules && Merged(jsonPayload, args, loads, jsonError).Ok?
      && invoke(modules[moduleName], operation, Merged(jsonPayload, args, loads, jsonError).value).Err?) ==>
      r == Err(SystemExit(FailurePrefix(moduleName, operation)
        + ExceptionStr(invoke(modules[moduleName], operation, Merged(jsonPayload, args, loads, jsonError).value).error)))
    ensures r.Ok? ==> (moduleName in modules && Merged(jsonPayload, args, loads, jsonError).Ok?
      && invoke(modules[moduleName], operation, Merged(jsonPayload, args, loads, jsonError).value).Ok?
      && r.value == FormatResult(invoke(modules[moduleName], operation, Merged(jsonPayload, args, loads, jsonError).value).value, call))
  {
    match FindModule(modules, moduleName)
    case Err(e) => Err(e)
    case Ok(m) =>
      match Merged(jsonPayload, args, loads, jsonError)
      case Err(e) => Err(e)
      case Ok(payload) =>
        match invoke(m, operation, payload)
        case Err(e) => Err(SystemExit(FailurePrefix(moduleName, operation) + ExceptionStr(e)))
        case Ok(result) => Ok(FormatResult(result, call))
  }

  /**
   * A call of an operation the module does not have exits with the
   * unknown-operation message in double quotes, as `str()` of its
   * `KeyError` gives it.
   */
  lemma CallOutcomeUnknownOperation<M>(modules: map<string, M>, moduleName: string, operation: string,
                                       jsonPayload: Option<string>, args: seq<string>,
                                       loads: string -> Option<Value>, jsonError: string -> string,
                                       invoke: (M, string, map<string, Value>) -> Result<Value, Exception>,
                                       call: (string, Value) -> Option<Result<Value, Exception>>, keys: set<string>)
    requires moduleName in modules && Merged(jsonPayload, args, loads, jsonError).Ok?
    requires invoke(modules[moduleName], operation, Merged(jsonPayload, args, loads, jsonError).value)
      == Err(KeyError(ModuleBase.UnknownOperationMessage(operation, keys)))
    requires PlainText(operation) && PlainText(SortedNames(keys)) && '"' !in operation && '"' !in SortedNames(keys)
    ensures CallOutcome(modules, moduleName, operation, jsonPayload, args, loads, jsonError, invoke, call)
      == Err(SystemExit(FailurePrefix(moduleName, operation) + ("\"" + ModuleBase.UnknownOperationMessage(operation, keys) + "\"")))
  {
    var m := ModuleBase.UnknownOperationMessage(operation, keys);
    var pre := FailurePrefix(moduleName, operation);
    var quoted := ExceptionStr(KeyError(m));
    assert quoted == "\"" + m + "\"" by {
      ModuleBase.UnknownOperationText(operation, keys);
    }
    assert CallOutcome(modules, moduleName, operation, jsonPayload, args, loads, jsonError, invoke, call)
      == Err(SystemExit(pre + quoted)) by {
      assert FindModule(modules, moduleName) == Ok(modules[moduleName]);
    }
  }
}

=== FILE: collections.dfy ===
/**
 * Sequence helpers shared by the modules: removing duplicates while keeping
 * first occurrences, Python's ordering of strings, `sorted(...)` of a set of
 * strings, and a sort by an integer pair key.
 */
module Collections {

  predicate NoDuplicates<T(==)>(s: seq<T>)
  {
    forall i, j :: 0 <= i < j < |s| ==> s[i] != s[j]
  }

  /** The position of the first occurrence of `x` in `s`. */
  function FirstIndex<T(==)>(s: seq<T>, x: T): (i: nat)
    requires x in s
    ensures i < |s| && s[i] == x && x !in s[..i]
    ensures forall j :: 0 <= j < i ==> s[j] != x
  {
    if s[0] == x then 0
    else
      var k := FirstIndex(s[1..], x);
      assert s[..k + 1] == [s[0]] + s[1..][..k];
      k + 1
  }

  /** A position holding `x` with no `x` before it is the first occurrence. */
  lemma FirstIndexUnique<T>(s: seq<T>, x: T, i: nat)
    requires i < |s| && s[i] == x
    requires forall j :: 0 <= j < i ==> s[j] != x
    ensures FirstIndex(s, x) == i
  {
  }

  /**
   * The loop `for x in s: if x not in out: out.append(x)`: every element
   * once, in the order of its first occurrence.
   */
  function Dedup<T(==,!new)>(s: seq<T>): (r: seq<T>)
    ensures forall x :: x in r <==> x in s
    ensures NoDuplicates(r)
    ensures |r| <= |s|
    ensures forall i, j :: 0 <= i < j < |r| ==> FirstIndex(s, r[i]) < FirstIndex(s, r[j])
  {
    if s == [] then []
    else
      var init, last := s[..|s| - 1], s[|s| - 1];
      var d := Dedup(init);
      assert forall x :: x in s <==> x in init || x == last;
      assert forall k :: 0 <= k < |d| ==> FirstIndex(s, d[k]) == FirstIndex(init, d[k]) by {
        forall k | 0 <= k < |d|
          ensures FirstIndex(s, d[k]) == FirstIndex(init, d[k])
        {
          FirstIndexOfInit(s, d[k]);
        }
      }
      if last in d then d
      else
        assert FirstIndex(s, last) == |s| - 1 by {
          assert last !in init;
          FirstIndexUnique(s, last, |s| - 1);
        }
        d + [last]
  }

  /** An element of all but the last item has the same first position in the whole. */
  lemma FirstIndexOfInit<T>(s: seq<T>, x: T)
    requires s != [] && x in s[..|s| - 1]
    ensures x in s && FirstIndex(s, x) == FirstIndex(s[..|s| - 1], x)
  {
    var init := s[..|s| - 1];
    var f := FirstIndex(init, x);
    assert forall j :: 0 <= j < f ==> s[j] == init[j];
    FirstIndexUnique(s, x, f);
  }

  /** One unfolding of `Dedup` on a non-empty sequence. */
  lemma DedupSnoc<T(!new)>(s: seq<T>)
    requires s != []
    ensures Dedup(s) == (if s[|s| - 1] in Dedup(s[..|s| - 1]) then Dedup(s[..|s| - 1])
                         else Dedup(s[..|s| - 1]) + [s[|s| - 1]])
  {
  }

  /** The first element survives deduplication in first place. */
  lemma {:induction false} DedupHead<T(!new)>(s: seq<T>)
    requires s != []
    ensures Dedup(s) != [] && Dedup(s)[0] == s[0]
  {
    if |s| > 1 {
      DedupHead(s[..|s| - 1]);
      assert s[..|s| - 1][0] == s[0];
    }
  }

  /** A sequence that has no duplicates is left as it is. */
  lemma {:induction false} DedupOfDistinct<T(!new)>(s: seq<T>)
    requires NoDuplicates(s)
    ensures Dedup(s) == s
  {
    if s != [] {
      var init, last := s[..|s| - 1], s[|s| - 1];
      DedupOfDistinct(init);
      assert last !in init by {
        assert forall k :: 0 <= k < |init| ==> init[k] == s[k] != s[|s| - 1];
      }
      DedupSnoc(s);
      assert s == init + [last];
    }
  }

  /** Python's `a <= b` on strings: lexicographic by code point, a prefix first. */
  predicate LexLe(a: string, b: string)
    decreases |a|
  {
    |a| == 0 || (|b| > 0 && (a[0] < b[0] || (a[0] == b[0] && LexLe(a[1..], b[1..]))))
  }

  lemma {:induction false} LexLeTotal(a: string, b: string)
    ensures LexLe(a, b) || LexLe(b, a)
    decreases |a|
  {
    if |a| > 0 && |b| > 0 && a[0] == b[0] {
      LexLeTotal(a[1..], b[1..]);
    }
  }

  lemma {:induction false} LexLeAntisymmetric(a: string, b: string)
    requires LexLe(a, b) && LexLe(b, a)
    ensures a == b
    decreases |a|
  {
    if |a| > 0 {
      LexLeAntisymmetric(a[1..], b[1..]);
      assert a == [a[0]] + a[1..] && b == [b[0]] + b[1..];
    }
  }

  lemma {:induction false} LexLeTransitive(a: string, b: string, c: string)
    requires LexLe(a, b) && LexLe(b, c)
    ensures LexLe(a, c)
    decreases |a|
  {
    if |a| > 0 && a[0] == b[0] && b[0] == c[0] {
      LexLeTransitive(a[1..], b[1..], c[1..]);
    }
  }

  lemma {:induction false} LeastExists(s: set<string>)
    requires s != {}
    ensures exists m :: m in s && forall y :: y in s ==> LexLe(m, y)
    decreases |s|
  {
    var x :| x in s;
    if s == {x} {
      LexLeTotal(x, x);
      assert forall y :: y in s ==> y == x;
    } else {
      LeastExists(s - {x});
      var m :| m in s - {x} && forall y :: y in s - {x} ==> LexLe(m, y);
      LexLeTotal(m, x);
      if LexLe(m, x) {
        assert forall y :: y in s ==> LexLe(m, y);
      } else {
        forall y | y in s ensures LexLe(x, y) {
          if y != x {
            LexLeTransitive(x, m, y);
          } else {
            LexLeTotal(x, x);
          }
        }
      }
    }
  }

  lemma LeastUnique(s: set<string>)
    ensures forall m, n ::
      (m in s && n in s && (forall y :: y in s ==> LexLe(m, y)) && (forall y :: y in s ==> LexLe(n, y)))
      ==> m == n
  {
    forall m, n | m in s && n in s && (forall y :: y in s ==> LexLe(m, y))
      && (forall y :: y in s ==> LexLe(n, y))
      ensures m == n
    {
      LexLeAntisymmetric(m, n);
    }
  }

  /** The least string of a non-empty set. */
  function Least(s: set<string>): (m: string)
    requires s != {}
    ensures m in s && forall y :: y in s ==> LexLe(m, y)
  {
    LeastExists(s);
    LeastUnique(s);
    var m :| m in s && forall y :: y in s ==> LexLe(m, y);
    m
  }

  predicate StrictlySorted(s: seq<string>)
  {
    forall i, j :: 0 <= i < j < |s| ==> LexLe(s[i], s[j]) && s[i] != s[j]
  }

  /** `sorted(s)` for a set of strings. */
  function SortedSet(s: set<string>): (r: seq<string>)
    ensures forall x :: x in r <==> x in s
    ensures |r| == |s|
    ensures StrictlySorted(r)
    decreases |s|
  {
    if s == {} then []
    else
      var m := Least(s);
      var rest := SortedSet(s - {m});
      [m] + rest
  }

  /** Python's tuple order on a pair of integers. */
  predicate RankLe(a: (int, int), b: (int, int))
  {
    a.0 < b.0 || (a.0 == b.0 && a.1 <= b.1)
  }

  predicate SortedBy<T>(s: seq<T>, key: T -> (int, int))
  {
    forall i, j :: 0 <= i < j < |s| ==> RankLe(key(s[i]), key(s[j]))
  }

  /** Inserts `x` before the first element whose key is not smaller. */
  function InsertBy<T(==)>(x: T, s: seq<T>, key: T -> (int, int)): (r: seq<T>)
    requires SortedBy(s, key)
    ensures SortedBy(r, key)
    ensures multiset(r) == multiset(s) + multiset{x}
  {
    if s == [] || RankLe(key(x), key(s[0])) then [x] + s
    else
      var rest := InsertBy(x, s[1..], key);
      assert s == [s[0]] + s[1..];
      ConsSorted(s[0], rest, x, s[1..], key);
      [s[0]] + rest
  }

  /** Prepending `a` keeps `rest` sorted when `a`'s key is below every element `rest` was built from. */
  lemma ConsSorted<T>(a: T, rest: seq<T>, x: T, tail: seq<T>, key: T -> (int, int))
    requires SortedBy(rest, key)
    requires multiset(rest) == multiset(tail) + multiset{x}
    requires RankLe(key(a), key(x))
    requires forall j :: 0 <= j < |tail| ==> RankLe(key(a), key(tail[j]))
    ensures SortedBy([a] + rest, key)
  {
    forall k | 0 <= k < |rest| ensures RankLe(key(a), key(rest[k])) {
      var y := rest[k];
      assert y in multiset(rest);
      if y != x {
        assert y in multiset(tail);
        var j :| 0 <= j < |tail| && tail[j] == y;
      }
    }
    var r := [a] + rest;
    forall i, j | 0 <= i < j < |r| ensures RankLe(key(r[i]), key(r[j])) {
      if i > 0 {
        assert r[i] == rest[i - 1] && r[j] == rest[j - 1];
      } else {
        assert r[j] == rest[j - 1];
      }
    }
  }

  /** `sorted(s, key=key)` as an insertion sort; the order it gives items with equal keys is not stated. */
  function SortBy<T(==)>(s: seq<T>, key: T -> (int, int)): (r: seq<T>)
    ensures SortedBy(r, key)
    ensures multiset(r) == multiset(s)
    ensures |r| == |s|
  {
    if s == [] then []
    else
      assert s == [s[0]] + s[1..];
      InsertBy(s[0], SortBy(s[1..], key), key)
  }

  /** The lists `f` gives for the elements of `s`, concatenated in order. */
  function FlatMap<T, U>(s: seq<T>, f: T -> seq<U>): (r: seq<U>)
    ensures s == [] ==> r == []
  {
    if s == [] then [] else f(s[0]) + FlatMap(s[1..], f)
  }

  /** The last element's list comes last. */
  lemma {:induction false} FlatMapSnoc<T, U>(s: seq<T>, f: T -> seq<U>)
    requires s != []
    ensures FlatMap(s, f) == FlatMap(s[..|s| - 1], f) + f(s[|s| - 1])
  {
    if |s| > 1 {
      var init := s[..|s| - 1];
      FlatMapSnoc(s[1..], f);
      assert s[1..][..|s| - 2] == init[1..] && init[0] == s[0];
      assert s[1..][|s| - 2] == s[|s| - 1];
    } else {
      assert s[1..] == [] && s[..0] == [];
    }
  }

  /** Whatever an element's list holds is in the concatenation. */
  lemma {:induction false} FlatMapHas<T, U>(s: seq<T>, f: T -> seq<U>, i: nat, y: U)
    requires i < |s| && y in f(s[i])
    ensures y in FlatMap(s, f)
  {
    if i > 0 {
      assert s[1..][i - 1] == s[i];
      FlatMapHas(s[1..], f, i - 1, y);
    }
  }

  /** The head of a sorted non-empty sequence has the least key of all its elements. */
  lemma SortedHeadIsLeast<T>(s: seq<T>, key: T -> (int, int))
    requires SortedBy(s, key) && s != []
    ensures forall x :: x in s ==> RankLe(key(s[0]), key(x))
  {
    forall x | x in s ensures RankLe(key(s[0]), key(x)) {
      var k :| 0 <= k < |s| && s[k] == x;
      if k == 0 {
      }
    }
  }
}

=== FILE: config.dfy ===
/**
 * The list of directories integrations may be loaded from, read from a
 * comma-separated setting.
 *
 * The process's working directory is the parameter `cwd`, and
 * `os.path.abspath` and `os.path.join` are the parameters `abspath` and
 * `join`.
 */
module Config {
  import opened Wrappers
  import opened Text
  import opened Collections

  /** `[p.strip() for p in (val or "").split(",") if p.strip()]`. */
  function PathParts(val: Option<string>): (r: seq<string>)
    ensures forall i :: 0 <= i < |r| ==> r[i] != "" && IsStripped(r[i]) && ',' !in r[i]
  {
    SplitStripped(val.GetOr(""), ',')
  }

  /** The parts, or the working directory, its `integrations` subdirectory and `.` when there are none. */
  function Candidates(val: Option<string>, cwd: string, join: (string, string) -> string): (r: seq<string>)
    ensures PathParts(val) != [] ==> r == PathParts(val)
    ensures PathParts(val) == [] ==> r == [cwd, join(cwd, "integrations"), "."]
  {
    var parts := PathParts(val);
    if parts != [] then parts else [cwd, join(cwd, "integrations"), "."]
  }

  /** Every candidate made absolute, in order. */
  function Absolute(parts: seq<string>, abspath: string -> string): (r: seq<string>)
    ensures |r| == |parts| && forall i :: 0 <= i < |parts| ==> r[i] == abspath(parts[i])
  {
    seq(|parts|, i requires 0 <= i < |parts| => abspath(parts[i]))
  }

  /** The candidates made absolute, each kept at its first occurrence only. */
  function DistinctAbsolute(parts: seq<string>, abspath: string -> string): (r: seq<string>)
    ensures NoDuplicates(r)
    ensures forall p :: p in r <==> exists i :: 0 <= i < |parts| && abspath(parts[i]) == p
    ensures forall p :: p in r <==> p in Absolute(parts, abspath)
    ensures forall i, j :: 0 <= i < j < |r| ==> FirstIndex(Absolute(parts, abspath), r[i]) < FirstIndex(Absolute(parts, abspath), r[j])
  {
    var abs := Absolute(parts, abspath);
    assert forall p :: p in abs <==> exists i :: 0 <= i < |abs| && abs[i] == p;
    Dedup(abs)
  }

  /** What `_split_paths` returns. */
  function SplitPathsSpec(val: Option<string>, cwd: string, abspath: string -> string, join: (string, string) -> string): seq<string>
  {
    DistinctAbsolute(Candidates(val, cwd, join), abspath)
  }

  /**
   * `_split_paths`: each candidate is made absolute and appended unless it
   * is already in the list.
   */
  method SplitPaths(val: Option<string>, cwd: string, abspath: string -> string, join: (string, string) -> string)
    returns (norm: seq<string>)
    ensures norm == SplitPathsSpec(val, cwd, abspath, join)
  {
    var parts := PathParts(val);
    if parts == [] {
      parts := [cwd, join(cwd, "integrations"), "."];
    }
    norm := AbsoluteDistinct(parts, abspath);
  }

  /** The loop of `_split_paths`: `ap = abspath(p)`, appended when not in `norm` yet. */
  method AbsoluteDistinct(parts: seq<string>, abspath: string -> string) returns (norm: seq<string>)
    ensures norm == DistinctAbsolute(parts, abspath)
  {
    norm := [];
    var i := 0;
    while i < |parts|
      invariant 0 <= i <= |parts|
      invariant norm == Dedup(Absolute(parts[..i], abspath))
    {
      var ap := abspath(parts[i]);
      assert Absolute(parts[..i + 1], abspath)[..i] == Absolute(parts[..i], abspath);
      if ap !in norm {
        norm := norm + [ap];
      }
      i := i + 1;
    }
    assert parts[..i] == parts;
  }

  /** An absent or empty setting has no parts. */
  lemma BlankSettingHasNoParts(val: Option<string>)
    requires val.None? || val.value == ""
    ensures PathParts(val) == []
  {
    assert Split("", ',') == [""];
    StrippedNonBlankMembers([""], Strip(""));
    TrimEmptyIff("", Whitespace);
  }

  /**
   * With the usual path semantics (the working directory and `.` are the
   * same absolute directory, and its `integrations` subdirectory is another),
   * the default list has exactly two entries, the working directory first.
   */
  lemma DefaultPaths(val: Option<string>, cwd: string, abspath: string -> string, join: (string, string) -> string)
    requires val.None? || val.value == ""
    requires abspath(cwd) == cwd && abspath(".") == cwd && abspath(join(cwd, "integrations")) != cwd
    ensures SplitPathsSpec(val, cwd, abspath, join) == [cwd, abspath(join(cwd, "integrations"))]
  {
    var second := abspath(join(cwd, "integrations"));
    var candidates := [cwd, join(cwd, "integrations"), "."];
    var abs := Absolute(candidates, abspath);
    assert Candidates(val, cwd, join) == candidates by {
      BlankSettingHasNoParts(val);
    }
    assert Dedup(abs) == [cwd, second] by {
      assert abs == [cwd, second, cwd];
      DedupRepeatFirst(cwd, second);
    }
  }

  /** A repeat of the first of two distinct entries is dropped. */
  lemma DedupRepeatFirst(a: string, b: string)
    requires a != b
    ensures Dedup([a, b, a]) == [a, b]
  {
    assert [a, b, a][..2] == [a, b];
    assert [a, b][..1] == [a];
    assert [a][..0] == [];
  }
}

=== FILE: handlers.dfy ===
/**
 * A request handler as the routers and the module base see it: the name
 * Python gives the function and the parameters its signature declares.
 * Calling a handler is left to the caller, as a function parameter.
 */
module Handlers {
  import opened Wrappers
  import opened PyValue

  /** What a parameter annotation says, as far as coercion is concerned. */
  datatype Annotation = Unannotated | ListType | DictType | OtherType

  /**
   * A parameter default: the module and name of its class, its `.default`
   * attribute when it has one, and the object itself as a value.
   */
  datatype DefaultObject = DefaultObject(classModule: string, className: string, inner: Option<Value>, value: Value)

  datatype Param = Param(name: string, annotation: Annotation, default: Option<DefaultObject>)

  /** A handler: an identity, its `__name__` ("" when it has none) and its declared parameters. */
  datatype Endpoint = Endpoint(id: nat, name: string, params: seq<Param>)

  function ParamNames(params: seq<Param>): set<string>
  {
    set p | p in params :: p.name
  }

  /** Parameter names of a Python signature are distinct. */
  predicate DistinctNames(params: seq<Param>)
  {
    forall i, j :: 0 <= i < j < |params| ==> params[i].name != params[j].name
  }
}

=== FILE: integration.dfy ===
/**
 * The integration module: registering external Python callables found under
 * allowed directories, and calling them.
 *
 * The registry file `integrations.json` is the state of an
 * `IntegrationStore` object: the list of registered entries, each written by
 * `register` with string fields. The interpreter's side of the module
 * becomes parameters: `realpath` is `os.path.realpath`, `sep` is `os.sep`,
 * `importError(module, attr)` is the exception importing the module and
 * reading the attribute raises (if any), `signature(module)` is the SHA-256
 * hex digest of the module's source file (`""` when there is none),
 * `invoke(module, function, kwargs)` is the in-process call and
 * `runSubprocess(module, function, kwargs)` is the reply of the subprocess
 * runner.
 */
module Integration {
  import opened Wrappers
  import opened PyValue
  import NamedList

  /** A registry entry. */
  datatype Entry = Entry(name: string, path: string, moduleName: string, callable: string, sig: string)

  function EntryName(e: Entry): string
  {
    e.name
  }

  /** Whether a resolved path is the resolved base itself or lies below it: `rp == rb or rp.startswith(rb + os.sep)`. */
  predicate Within(rp: string, rb: string, sep: char)
  {
    rp == rb || rb + [sep] <= rp
  }

  /** `_is_allowed`: whether the resolved path is within some resolved allowed base. */
  function IsAllowed(path: string, allowed: seq<string>, realpath: string -> string, sep: char): (r: bool)
    ensures r <==> exists i :: 0 <= i < |allowed| && Within(realpath(path), realpath(allowed[i]), sep)
  {
    if allowed == [] then false
    else
      assert forall i :: 1 <= i < |allowed| ==> allowed[i] == allowed[1..][i - 1];
      Within(realpath(path), realpath(allowed[0]), sep) || IsAllowed(path, allowed[1..], realpath, sep)
  }

  /** An allowed base, and every path that resolves to somewhere below it, are allowed. */
  lemma AllowedBelowBase(base: string, path: string, allowed: seq<string>, realpath: string -> string, sep: char)
    requires base in allowed
    ensures IsAllowed(base, allowed, realpath, sep)
    ensures realpath(base) + [sep] <= realpath(path) ==> IsAllowed(path, allowed, realpath, sep)
  {
    var i :| 0 <= i < |allowed| && allowed[i] == base;
    assert Within(realpath(base), realpath(allowed[i]), sep);
  }

  /**
   * A sibling whose name merely begins with the base's name is not within
   * the base: `/srv/app2` is not below `/srv/app`.
   */
  lemma SiblingNotWithin(rb: string, suffix: string, sep: char)
    requires suffix != [] && suffix[0] != sep
    ensures !Within(rb + suffix, rb, sep)
  {
    assert (rb + suffix)[|rb|] == suffix[0];
  }

  /** `target.rsplit(".", 1)` for a target holding a dot: the part before the last dot and the part after it. */
  function SplitAtLastDot(s: string): (r: (string, string))
    requires '.' in s
    ensures s == r.0 + "." + r.1
    ensures '.' !in r.1
  {
    if s[|s| - 1] == '.' then (s[..|s| - 1], "")
    else
      assert '.' in s[..|s| - 1] by {
        var i :| 0 <= i < |s| && s[i] == '.';
        assert s[..|s| - 1][i] == '.';
      }
      var p := SplitAtLastDot(s[..|s| - 1]);
      assert s == s[..|s| - 1] + [s[|s| - 1]];
      (p.0, p.1 + [s[|s| - 1]])
  }

  /** The split at the last dot is the only one whose right part has no dot. */
  lemma {:induction false} SplitAtLastDotUnique(a: string, b: string)
    requires '.' !in b
    ensures SplitAtLastDot(a + "." + b) == (a, b)
    decreases |b|
  {
    var s := a + "." + b;
    if b == [] {
      assert s[..|s| - 1] == a;
    } else {
      var b' := b[..|b| - 1];
      assert s[..|s| - 1] == a + "." + b';
      assert s[|s| - 1] == b[|b| - 1] != '.';
      SplitAtLastDotUnique(a, b');
      assert b' + [b[|b| - 1]] == b;
    }
  }

  /**
   * The keyword arguments of a call: `None` becomes `{}`, anything but a
   * dictionary is rejected, and `{"kwargs": {...}}` with no other key is
   * unwrapped once.
   */
  function CallKwargs(kwargs: Value): (r: Result<map<string, Value>, Exception>)
    ensures r.Err? <==> !kwargs.Null? && !kwargs.Dict?
    ensures r.Err? ==> r.error == HTTPException(400, Str("kwargs must be a JSON object"))
    ensures kwargs.Null? ==> r == Ok(map[])
    ensures kwargs.Dict? && kwargs.entries.Keys == {"kwargs"} && kwargs.entries["kwargs"].Dict? ==>
      r == Ok(kwargs.entries["kwargs"].entries)
    ensures kwargs.Dict? && !(kwargs.entries.Keys == {"kwargs"} && kwargs.entries["kwargs"].Dict?) ==>
      r == Ok(kwargs.entries)
  {
    if kwargs.Null? then Ok(map[])
    else if !kwargs.Dict? then Err(HTTPException(400, Str("kwargs must be a JSON object")))
    else
      var e := kwargs.entries;
      if "kwargs" in e && |e| == 1 && e["kwargs"].Dict? then
        assert e.Keys == {"kwargs"} by {
          var rest := e.Keys - {"kwargs"};
          assert e.Keys == rest + {"kwargs"} && rest * {"kwargs"} == {};
          assert |rest| == 0;
        }
        Ok(e["kwargs"].entries)
      else
        assert e.Keys == {"kwargs"} ==> |e| == 1;
        Ok(e)
  }

  /** Unwrapping happens once: a doubly wrapped dictionary keeps its inner wrapper. */
  lemma UnwrapOnce(inner: map<string, Value>)
    ensures CallKwargs(Dict(map["kwargs" := Dict(map["kwargs" := Dict(inner)])])) == Ok(map["kwargs" := Dict(inner)])
  {
    var once := map["kwargs" := Dict(inner)];
    assert map["kwargs" := Dict(once)].Keys == {"kwargs"};
  }

  /**
   * The module and the function to call: the explicit callable, or else the
   * registered one; a dotted name must name the registered module before
   * its last dot.
   */
  function Target(callable: Option<string>, entry: Entry): (r: Result<(string, string), Exception>)
    ensures callable.Some? && callable.value != "" && '.' !in callable.value ==> r == Ok((entry.moduleName, callable.value))
    ensures (callable.None? || callable.value == "") && entry.callable == "" ==>
      r == Err(HTTPException(400, Str("callable not specified")))
    ensures (callable.None? || callable.value == "") && entry.callable != "" && '.' !in entry.callable ==>
      r == Ok((entry.moduleName, entry.callable))
    ensures r.Ok? ==> r.value.0 == entry.moduleName && '.' !in r.value.1
    ensures r.Err? ==> (r.error == HTTPException(400, Str("callable not specified"))
      || r.error == HTTPException(400, Str("callable must belong to the registered module")))
  {
    var target := if callable.Some? && callable.value != "" then callable.value else entry.callable;
    if target == "" then Err(HTTPException(400, Str("callable not specified")))
    else if '.' in target then
      var parts := SplitAtLastDot(target);
      if parts.0 != entry.moduleName then Err(HTTPException(400, Str("callable must belong to the registered module")))
      else Ok(parts)
    else Ok((entry.moduleName, target))
  }

  /** A dotted callable is accepted exactly when its module part is the registered module. */
  lemma DottedTarget(modulePart: string, functionName: string, entry: Entry)
    requires '.' !in functionName
    ensures var r := Target(Some(modulePart + "." + functionName), entry);
      (r.Ok? <==> modulePart == entry.moduleName)
      && (r.Ok? ==> r.value == (modulePart, functionName))
      && (r.Err? ==> r.error == HTTPException(400, Str("callable must belong to the registered module")))
  {
    SplitAtLastDotUnique(modulePart, functionName);
    assert '.' in modulePart + "." + functionName by {
      assert (modulePart + "." + functionName)[|modulePart|] == '.';
    }
  }

  /** Without a callable in the request the registered one is used, exactly as if it had been given. */
  lemma TargetFallsBack(callable: Option<string>, entry: Entry)
    requires callable.None? || callable.value == ""
    ensures Target(callable, entry) == Target(Some(entry.callable), entry)
  {
  }

  /** A dotted registered callable is accepted exactly when its module part is the registered module. */
  lemma RegisteredDottedTarget(modulePart: string, functionName: string, entry: Entry)
    requires '.' !in functionName && entry.callable == modulePart + "." + functionName
    ensures var r := Target(None, entry);
      (r.Ok? <==> modulePart == entry.moduleName)
      && (r.Ok? ==> r.value == (modulePart, functionName))
      && (r.Err? ==> r.error == HTTPException(400, Str("callable must belong to the registered module")))
  {
    TargetFallsBack(None, entry);
    DottedTarget(modulePart, functionName, entry);
  }

  /** `register`'s error when the path is outside the allowed directories; the list prints as Python's `str` of it. */
  function NotAllowedMessage(path: string, allowed: seq<string>): string
  {
    "path '" + path + "' is not in allowed list: " + PyStr(List(seq(|allowed|, i requires 0 <= i < |allowed| => Str(allowed[i]))))
  }

  /** The registry file of the integration module. */
  class IntegrationStore {
    var integrations: seq<Entry>

    /** `load_reg` with no file yet: no integrations. */
    constructor ()
      ensures integrations == []
    {
      integrations := [];
    }

    /** Whether no two entries share a name, as `register` keeps it. */
    predicate Valid()
      reads this
    {
      NamedList.UniqueKeys(integrations, EntryName)
    }

    /**
     * `register`: a path outside the allowed directories is rejected, the
     * module must import and hold the callable, and the new entry, with the
     * module's current signature, replaces every entry of the same name and
     * goes last.
     */
    method Register(name: string, path: string, moduleName: string, callable: string, allowed: seq<string>,
                    realpath: string -> string, sep: char, importError: (string, string) -> Option<Exception>,
                    signature: string -> string)
      returns (r: Result<Value, Exception>)
      modifies this
      ensures !IsAllowed(path, allowed, realpath, sep) ==>
        r == Err(HTTPException(400, Str(NotAllowedMessage(path, allowed)))) && integrations == old(integrations)
      ensures IsAllowed(path, allowed, realpath, sep) && importError(moduleName, callable).Some? ==>
        r == Err(importError(moduleName, callable).value) && integrations == old(integrations)
      ensures r.Ok? <==> IsAllowed(path, allowed, realpath, sep) && importError(moduleName, callable).None?
      ensures r.Ok? ==> integrations == NamedList.Upsert(old(integrations), EntryName, Entry(name, path, moduleName, callable, signature(moduleName)))
      ensures r.Ok? ==> r.value == Dict(map["ok" := Bool(true), "sig" := Str(signature(moduleName))])
      ensures old(Valid()) ==> Valid()
    {
      if !IsAllowed(path, allowed, realpath, sep) {
        return Err(HTTPException(400, Str(NotAllowedMessage(path, allowed))));
      }
      var failure := importError(moduleName, callable);
      if failure.Some? {
        return Err(failure.value);
      }
      var sig := signature(moduleName);
      var entry := Entry(name, path, moduleName, callable, sig);
      if Valid() {
        NamedList.UpsertUnique(integrations, EntryName, entry);
      }
      integrations := NamedList.Upsert(integrations, EntryName, entry);
      r := Ok(Dict(map["ok" := Bool(true), "sig" := Str(sig)]));
    }

    /**
     * `call`: finds the first entry with the name, re-checks its path,
     * compares signatures when asked to, normalises the keyword arguments,
     * resolves the callable and runs it in process (`mode == "inproc"`) or
     * through the subprocess runner.
     */
    method Call(name: string, callable: Option<string>, kwargs: Value, mode: string, verifySig: int,
                allowed: seq<string>, realpath: string -> string, sep: char, signature: string -> string,
                invoke: (string, string, map<string, Value>) -> Result<Value, Exception>,
                runSubprocess: (string, string, map<string, Value>) -> Value)
      returns (r: Result<Value, Exception>)
      ensures NamedList.FindFirst(integrations, EntryName, name).None? ==> r == Err(HTTPException(404, Str("integration not found")))
      ensures r.Ok? ==> NamedList.FindFirst(integrations, EntryName, name).Some?
      ensures r.Ok? ==> var it := NamedList.FindFirst(integrations, EntryName, name).value;
        IsAllowed(it.path, allowed, realpath, sep)
        && (verifySig == 0 || signature(it.moduleName) == "" || signature(it.moduleName) == it.sig)
        && CallKwargs(kwargs).Ok? && Target(callable, it).Ok?
        && (mode == "inproc" ==> (invoke(Target(callable, it).value.0, Target(callable, it).value.1, CallKwargs(kwargs).value).Ok?
          && r.value == Dict(map["result" := invoke(Target(callable, it).value.0, Target(callable, it).value.1, CallKwargs(kwargs).value).value])))
        && (mode != "inproc" ==> r.value == runSubprocess(Target(callable, it).value.0, Target(callable, it).value.1, CallKwargs(kwargs).value))
      ensures NamedList.FindFirst(integrations, EntryName, name).Some? ==>
        var it := NamedList.FindFirst(integrations, EntryName, name).value;
        (IsAllowed(it.path, allowed, realpath, sep) && verifySig != 0 && signature(it.moduleName) != ""
          && signature(it.moduleName) != it.sig) ==> r == Err(HTTPException(400, Str("signature mismatch")))
      ensures NamedList.FindFirst(integrations, EntryName, name).Some? ==>
        var it := NamedList.FindFirst(integrations, EntryName, name).value;
        !IsAllowed(it.path, allowed, realpath, sep) ==> r == Err(HTTPException(400, Str("path '" + it.path + "' is not allowed anymore")))
      ensures NamedList.FindFirst(integrations, EntryName, name).Some? ==>
        var it := NamedList.FindFirst(integrations, EntryName, name).value;
        var args, target := CallKwargs(kwargs), Target(callable, it);
        (IsAllowed(it.path, allowed, realpath, sep) && (verifySig == 0 || signature(it.moduleName) == "" || signature(it.moduleName) == it.sig)) ==>
          (args.Err? ==> r == Err(args.error))
          && (args.Ok? && target.Err? ==> r == Err(target.error))
          && (args.Ok? && target.Ok? && mode == "inproc" && invoke(target.value.0, target.value.1, args.value).Err? ==>
            r == Err(invoke(target.value.0, target.value.1, args.value).error))
          && (args.Ok? && target.Ok? && mode == "inproc" && invoke(target.value.0, target.value.1, args.value).Ok? ==>
            r == Ok(Dict(map["result" := invoke(target.value.0, target.value.1, args.value).value])))
          && (args.Ok? && target.Ok? && mode != "inproc" ==> r == Ok(runSubprocess(target.value.0, target.value.1, args.value)))
    {
      var found := NamedList.FindFirst(integrations, EntryName, name);
      if found.None? {
        return Err(HTTPException(404, Str("integration not found")));
      }
      var it := found.value;
      if !IsAllowed(it.path, allowed, realpath, sep) {
        return Err(HTTPException(400, Str("path '" + it.path + "' is not allowed anymore")));
      }
      if verifySig != 0 {
        var cur := signature(it.moduleName);
        if cur != "" && cur != it.sig {
          return Err(HTTPException(400, Str("signature mismatch")));
        }
      }
      var args := CallKwargs(kwargs);
      if args.Err? {
        return Err(args.error);
      }
      var target := Target(callable, it);
      if target.Err? {
        return Err(target.error);
      }
      var moduleName := target.value.0;
      var functionName := target.value.1;
      if mode == "inproc" {
        var result := invoke(moduleName, functionName, args.value);
        if result.Err? {
          return Err(result.error);
        }
        r := Ok(Dict(map["result" := result.value]));
      } else {
        r := Ok(runSubprocess(moduleName, functionName, args.value));
      }
    }
  }

  /** A freshly registered integration is the one a call by its name finds. */
  lemma RegisterThenFind(integrations: seq<Entry>, entry: Entry)
    ensures NamedList.FindFirst(NamedList.Upsert(integrations, EntryName, entry), EntryName, entry.name) == Some(entry)
  {
    NamedList.FindAfterUpsert(integrations, EntryName, entry);
  }
}

=== FILE: logic_app.dfy ===
/**
 * The logic application: the JSON rule language and the endpoint that picks
 * the best matching extended rule and calls the integration it names.
 *
 * `json.loads` is the parameter `loads` (`None` when the text is not JSON)
 * and the message of its decoding error is the parameter `jsonError`. The
 * two HTTP calls become parameters as well: the rules come as the rows the
 * logic module's `rulesx_list` reports, and the integration call is the
 * function `callIntegration` from the integration name, the callable name
 * and the keyword arguments to the decoded response.
 */
module LogicApp {
  import opened Wrappers
  import opened Text
  import opened Collections
  import opened PyValue
  import opened LogicModule

  /**
   * `for x in v`: the items of a list or tuple, the keys of a dictionary
   * and the characters of a string, each as a string value. Dictionary keys
   * come in sorted order. Any other value is not iterable.
   */
  function Iterate(v: Value): (r: Result<seq<Value>, Exception>)
    ensures r.Ok? <==> v.List? || v.Tuple? || v.Dict? || v.Str?
    ensures v.List? || v.Tuple? ==> r == Ok(v.items)
    ensures v.Str? ==> r.Ok? && |r.value| == |v.s|
    ensures v.Dict? ==> r.Ok? && |r.value| == |v.entries.Keys|
    ensures r.Err? ==> r.error == TypeError("'" + TypeName(v) + "' object is not iterable")
  {
    match v
    case List(items) => Ok(items)
    case Tuple(items) => Ok(items)
    case Dict(entries) =>
      var keys := SortedSet(entries.Keys);
      Ok(seq(|keys|, i requires 0 <= i < |keys| => Str(keys[i])))
    case Str(s) => Ok(seq(|s|, i requires 0 <= i < |s| => Str([s[i]])))
    case _ => Err(TypeError("'" + TypeName(v) + "' object is not iterable"))
  }

  /** `a, b = v`: exactly two items, or the error Python raises. */
  function Unpack2(v: Value): (r: Result<(Value, Value), Exception>)
    ensures r.Ok? <==> Iterate(v).Ok? && |Iterate(v).value| == 2
    ensures r.Ok? ==> Iterate(v).value == [r.value.0, r.value.1]
    ensures Iterate(v).Err? ==> r == Err(TypeError("cannot unpack non-iterable " + TypeName(v) + " object"))
    ensures Iterate(v).Ok? && |Iterate(v).value| < 2 ==>
      r == Err(ValueError("not enough values to unpack (expected 2, got " + NatToString(|Iterate(v).value|) + ")"))
    ensures Iterate(v).Ok? && |Iterate(v).value| > 2 ==> r == Err(ValueError("too many values to unpack (expected 2)"))
  {
    match Iterate(v)
    case Err(_) => Err(TypeError("cannot unpack non-iterable " + TypeName(v) + " object"))
    case Ok(items) =>
      if |items| == 2 then Ok((items[0], items[1]))
      else if |items| < 2 then Err(ValueError("not enough values to unpack (expected 2, got " + NatToString(|items|) + ")"))
      else Err(ValueError("too many values to unpack (expected 2)"))
  }

  /** The type name of the first part of `v` that cannot be hashed, if any. */
  function Unhashable(v: Value): Option<string>
  {
    match v
    case List(_) => Some("list")
    case Dict(_) => Some("dict")
    case Tuple(items) => FirstUnhashable(items)
    case _ => None
  }

  function FirstUnhashable(items: seq<Value>): Option<string>
  {
    if items == [] then None
    else if Unhashable(items[0]).Some? then Unhashable(items[0])
    else FirstUnhashable(items[1..])
  }

  /**
   * `ctx.get(k)` on the request's context, whose keys are strings: a
   * string key is looked up, any other hashable key is absent, and an
   * unhashable key raises `TypeError`.
   */
  function ContextGet(ctx: map<string, Value>, k: Value): (r: Result<Value, Exception>)
    ensures k.Str? ==> r == Ok(Get(ctx, k.s))
    ensures r.Err? <==> Unhashable(k).Some?
    ensures !k.Str? && r.Ok? ==> r.value == Null
  {
    match Unhashable(k)
    case Some(name) => Err(TypeError("unhashable type: '" + name + "'"))
    case None => if k.Str? then Ok(Get(ctx, k.s)) else Ok(Null)
  }

  /** The operands of `eq` and `neq`: `str(ctx.get(k))` and `str(v)`. */
  function Comparands(pair: Value, ctx: map<string, Value>): (r: Result<(string, string), Exception>)
    ensures r.Ok? <==> Unpack2(pair).Ok? && ContextGet(ctx, Unpack2(pair).value.0).Ok?
    ensures r.Ok? ==> r.value == (PyStr(ContextGet(ctx, Unpack2(pair).value.0).value), PyStr(Unpack2(pair).value.1))
  {
    match Unpack2(pair)
    case Err(e) => Err(e)
    case Ok(kv) =>
      match ContextGet(ctx, kv.0)
      case Err(e) => Err(e)
      case Ok(got) => Ok((PyStr(got), PyStr(kv.1)))
  }

  /** The operands of `in`: `str(ctx.get(k))` and `[str(a) for a in arr]`. */
  function Membership(pair: Value, ctx: map<string, Value>): (r: Result<bool, Exception>)
    ensures r.Ok? <==> Unpack2(pair).Ok? && ContextGet(ctx, Unpack2(pair).value.0).Ok? && Iterate(Unpack2(pair).value.1).Ok?
    ensures r.Ok? ==> (r.value <==> exists i :: (0 <= i < |Iterate(Unpack2(pair).value.1).value|
      && PyStr(Iterate(Unpack2(pair).value.1).value[i]) == PyStr(ContextGet(ctx, Unpack2(pair).value.0).value)))
  {
    match Unpack2(pair)
    case Err(e) => Err(e)
    case Ok(kv) =>
      match ContextGet(ctx, kv.0)
      case Err(e) => Err(e)
      case Ok(got) =>
        match Iterate(kv.1)
        case Err(e) => Err(e)
        case Ok(arr) =>
          var strs := seq(|arr|, i requires 0 <= i < |arr| => PyStr(arr[i]));
          assert forall i :: 0 <= i < |arr| ==> strs[i] == PyStr(arr[i]);
          Ok(PyStr(got) in strs)
  }

  /**
   * `_eval_expr`: anything but a dictionary is false; otherwise the first
   * of the keys `all`, `any`, `eq`, `neq` and `in` that is present decides,
   * and a dictionary with none of them is false.
   */
  function EvalExpr(expr: Value, ctx: map<string, Value>): (r: Result<bool, Exception>)
    ensures !expr.Dict? ==> r == Ok(false)
    ensures (expr.Dict? && "all" !in expr.entries && "any" !in expr.entries && "eq" !in expr.entries
      && "neq" !in expr.entries && "in" !in expr.entries) ==> r == Ok(false)
    decreases expr, 2
  {
    if !expr.Dict? then Ok(false)
    else
      var e := expr.entries;
      if "all" in e then EvalAll(e["all"], ctx)
      else if "any" in e then EvalAny(e["any"], ctx)
      else if "eq" in e then
        match Comparands(e["eq"], ctx)
        case Err(x) => Err(x)
        case Ok(p) => Ok(p.0 == p.1)
      else if "neq" in e then
        match Comparands(e["neq"], ctx)
        case Err(x) => Err(x)
        case Ok(p) => Ok(p.0 != p.1)
      else if "in" in e then Membership(e["in"], ctx)
      else Ok(false)
  }

  /**
   * `all(_eval_expr(x, ctx) for x in c)`. The keys of a dictionary and the
   * characters of a string are strings, which evaluate to false, so such a
   * container gives true only when it is empty.
   */
  function EvalAll(c: Value, ctx: map<string, Value>): (r: Result<bool, Exception>)
    ensures Iterate(c).Err? ==> r == Err(Iterate(c).error)
    decreases c, 1
  {
    match c
    case List(_) => AllFrom(c, 0, ctx)
    case Tuple(_) => AllFrom(c, 0, ctx)
    case Dict(entries) => Ok(entries == map[])
    case Str(s) => Ok(s == [])
    case _ => Err(Iterate(c).error)
  }

  /** `any(_eval_expr(x, ctx) for x in c)`; keys and characters never make it true. */
  function EvalAny(c: Value, ctx: map<string, Value>): (r: Result<bool, Exception>)
    ensures Iterate(c).Err? ==> r == Err(Iterate(c).error)
    decreases c, 1
  {
    match c
    case List(_) => AnyFrom(c, 0, ctx)
    case Tuple(_) => AnyFrom(c, 0, ctx)
    case Dict(_) => Ok(false)
    case Str(_) => Ok(false)
    case _ => Err(Iterate(c).error)
  }

  /** `all` over the items from index `i` on, stopping at the first false item or the first error. */
  function AllFrom(c: Value, i: nat, ctx: map<string, Value>): Result<bool, Exception>
    requires c.List? || c.Tuple?
    requires i <= |c.items|
    decreases c, 0, |c.items| - i
  {
    if i == |c.items| then Ok(true)
    else
      match EvalExpr(c.items[i], ctx)
      case Err(e) => Err(e)
      case Ok(b) => if !b then Ok(false) else AllFrom(c, i + 1, ctx)
  }

  /** `any` over the items from index `i` on, stopping at the first true item or the first error. */
  function AnyFrom(c: Value, i: nat, ctx: map<string, Value>): Result<bool, Exception>
    requires c.List? || c.Tuple?
    requires i <= |c.items|
    decreases c, 0, |c.items| - i
  {
    if i == |c.items| then Ok(false)
    else
      match EvalExpr(c.items[i], ctx)
      case Err(e) => Err(e)
      case Ok(b) => if b then Ok(true) else AnyFrom(c, i + 1, ctx)
  }

  /** When no item raises, `all` is the conjunction of the items; an empty list gives true. */
  lemma {:induction false} AllIsConjunction(c: Value, i: nat, ctx: map<string, Value>)
    requires c.List? || c.Tuple?
    requires i <= |c.items|
    requires forall j :: i <= j < |c.items| ==> EvalExpr(c.items[j], ctx).Ok?
    ensures AllFrom(c, i, ctx) == Ok(forall j :: i <= j < |c.items| ==> EvalExpr(c.items[j], ctx) == Ok(true))
    decreases |c.items| - i
  {
    if i < |c.items| {
      AllIsConjunction(c, i + 1, ctx);
    }
  }

  /** When no item raises, `any` is the disjunction of the items; an empty list gives false. */
  lemma {:induction false} AnyIsDisjunction(c: Value, i: nat, ctx: map<string, Value>)
    requires c.List? || c.Tuple?
    requires i <= |c.items|
    requires forall j :: i <= j < |c.items| ==> EvalExpr(c.items[j], ctx).Ok?
    ensures AnyFrom(c, i, ctx) == Ok(exists j :: i <= j < |c.items| && EvalExpr(c.items[j], ctx) == Ok(true))
    decreases |c.items| - i
  {
    if i < |c.items| {
      AnyIsDisjunction(c, i + 1, ctx);
    }
  }

  /** `all` stops at the first false item: items after it are never evaluated, so they cannot raise. */
  lemma {:induction false} AllStopsAtFalse(c: Value, i: nat, k: nat, ctx: map<string, Value>)
    requires c.List? || c.Tuple?
    requires i <= k < |c.items|
    requires forall j :: i <= j < k ==> EvalExpr(c.items[j], ctx) == Ok(true)
    requires EvalExpr(c.items[k], ctx) == Ok(false)
    ensures AllFrom(c, i, ctx) == Ok(false)
    decreases k - i
  {
    if i < k {
      assert EvalExpr(c.items[i], ctx) == Ok(true);
      AllStopsAtFalse(c, i + 1, k, ctx);
    } else {
      assert EvalExpr(c.items[k], ctx) == Ok(false);
    }
  }

  /** `neq` is the negation of `eq` on the same operands, and raises exactly when `eq` does. */
  lemma NeqIsNotEq(pair: Value, ctx: map<string, Value>)
    ensures EvalExpr(Dict(map["neq" := pair]), ctx).Ok? <==> EvalExpr(Dict(map["eq" := pair]), ctx).Ok?
    ensures EvalExpr(Dict(map["eq" := pair]), ctx).Ok? ==>
      EvalExpr(Dict(map["neq" := pair]), ctx).value == !EvalExpr(Dict(map["eq" := pair]), ctx).value
  {
  }

  /** `eq` of a present string key compares the string forms of the stored and the given value. */
  lemma EqOfPresentKey(key: string, v: Value, ctx: map<string, Value>)
    requires key in ctx
    ensures EvalExpr(Dict(map["eq" := List([Str(key), v])]), ctx) == Ok(PyStr(ctx[key]) == PyStr(v))
  {
    assert Iterate(List([Str(key), v])) == Ok([Str(key), v]);
  }

  /**
   * `eq` compares the text Python prints, quotes included: the list `['a', 'b']`
   * is not equal to the one-item list holding the string `a', 'b`, whose repr
   * is double-quoted.
   */
  lemma EqSeesReprQuotes(key: string, ctx: map<string, Value>)
    requires key in ctx && ctx[key] == List([Str("a"), Str("b")])
    ensures EvalExpr(Dict(map["eq" := List([Str(key), List([Str("a', 'b")])])]), ctx) == Ok(false)
  {
    EqOfPresentKey(key, List([Str("a', 'b")]), ctx);
    ListStrStart([Str("a"), Str("b")]);
    ListStrStart([Str("a', 'b")]);
    assert QuoteFor("a") == '\'';
    assert QuoteFor("a', 'b") == '"' by {
      assert "a', 'b"[1] == '\'' && '"' !in "a', 'b";
    }
  }

  /**
   * Key precedence: the result of an expression depends only on its
   * highest-ranked key among `all`, `any`, `eq`, `neq` and `in`.
   */
  lemma Precedence(e: map<string, Value>, ctx: map<string, Value>)
    ensures "all" in e ==> EvalExpr(Dict(e), ctx) == EvalExpr(Dict(map["all" := e["all"]]), ctx)
    ensures "all" !in e && "any" in e ==> EvalExpr(Dict(e), ctx) == EvalExpr(Dict(map["any" := e["any"]]), ctx)
    ensures "all" !in e && "any" !in e && "eq" in e ==> EvalExpr(Dict(e), ctx) == EvalExpr(Dict(map["eq" := e["eq"]]), ctx)
    ensures "all" !in e && "any" !in e && "eq" !in e && "neq" in e ==>
      EvalExpr(Dict(e), ctx) == EvalExpr(Dict(map["neq" := e["neq"]]), ctx)
    ensures "all" !in e && "any" !in e && "eq" !in e && "neq" !in e && "in" in e ==>
      EvalExpr(Dict(e), ctx) == EvalExpr(Dict(map["in" := e["in"]]), ctx)
  {
  }

  /** A rule that matched, as the endpoint records it. */
  datatype Applied = Applied(id: int, name: string, priority: int, action: Value)

  /** The endpoint's answer: the matched rules in sorted order, the chosen one and the integration's reply. */
  datatype Decision = Decision(applied: seq<Applied>, chosen: Applied, integrationResult: Value)

  /** `json.loads(text)`; a decoding failure raises `ValueError`. */
  function Decode(text: string, loads: string -> Option<Value>, jsonError: string -> string): (r: Result<Value, Exception>)
    ensures r.Ok? <==> loads(text).Some?
    ensures r.Ok? ==> r.value == loads(text).value
    ensures r.Err? ==> r.error == ValueError(jsonError(text))
  {
    match loads(text)
    case Some(v) => Ok(v)
    case None => Err(ValueError(jsonError(text)))
  }

  /**
   * One iteration of the rule loop: a disabled rule is skipped; otherwise
   * its expression is decoded and evaluated against the context, and when
   * it holds, its action is decoded and the rule is recorded.
   */
  function Consider(rule: RuleRow, ctx: map<string, Value>, loads: string -> Option<Value>, jsonError: string -> string)
    : (r: Result<Option<Applied>, Exception>)
    ensures !rule.enabled ==> r == Ok(None)
    ensures r.Ok? && r.value.Some? ==> (rule.enabled && loads(rule.exprJson).Some?
      && EvalExpr(loads(rule.exprJson).value, ctx) == Ok(true) && loads(rule.actionJson).Some?
      && r.value.value == Applied(rule.id, rule.name, rule.priority, loads(rule.actionJson).value))
    ensures rule.enabled && loads(rule.exprJson).None? ==> r == Err(ValueError(jsonError(rule.exprJson)))
  {
    if !rule.enabled then Ok(None)
    else
      match Decode(rule.exprJson, loads, jsonError)
      case Err(e) => Err(e)
      case Ok(expr) =>
        match EvalExpr(expr, ctx)
        case Err(e) => Err(e)
        case Ok(holds) =>
          if !holds then Ok(None)
          else
            match Decode(rule.actionJson, loads, jsonError)
            case Err(e) => Err(e)
            case Ok(act) => Ok(Some(Applied(rule.id, rule.name, rule.priority, act)))
  }

  /**
   * The `applied` list the rule loop builds, or the first error it meets.
   * Only rules `Consider` records appear, in rule order; the list is empty
   * exactly when no rule is recorded.
   */
  function Matching(rules: seq<RuleRow>, ctx: map<string, Value>, loads: string -> Option<Value>, jsonError: string -> string)
    : (r: Result<seq<Applied>, Exception>)
    ensures r.Ok? <==> forall i :: 0 <= i < |rules| ==> Consider(rules[i], ctx, loads, jsonError).Ok?
    ensures r.Ok? ==> forall j :: 0 <= j < |r.value| ==>
      exists i :: 0 <= i < |rules| && Consider(rules[i], ctx, loads, jsonError) == Ok(Some(r.value[j]))
    ensures r.Ok? ==> (r.value == [] <==> forall i :: 0 <= i < |rules| ==> Consider(rules[i], ctx, loads, jsonError) == Ok(None))
  {
    if rules == [] then Ok([])
    else
      var init := rules[..|rules| - 1];
      var prior := Matching(init, ctx, loads, jsonError);
      var c := Consider(rules[|rules| - 1], ctx, loads, jsonError);
      var r := if prior.Err? then Err(prior.error)
               else if c.Err? then Err(c.error)
               else if c.value.None? then Ok(prior.value)
               else Ok(prior.value + [c.value.value]);
      MatchingExtend(rules, ctx, loads, jsonError, prior, c, r);
      r
  }

  /** The contract of `Matching` carries over from all rules but the last to all of them. */
  lemma MatchingExtend(rules: seq<RuleRow>, ctx: map<string, Value>, loads: string -> Option<Value>, jsonError: string -> string,
                       prior: Result<seq<Applied>, Exception>, c: Result<Option<Applied>, Exception>, r: Result<seq<Applied>, Exception>)
    requires rules != []
    requires var init := rules[..|rules| - 1];
      prior.Ok? <==> forall i :: 0 <= i < |init| ==> Consider(init[i], ctx, loads, jsonError).Ok?
    requires var init := rules[..|rules| - 1];
      prior.Ok? ==> forall j :: 0 <= j < |prior.value| ==>
        exists i :: 0 <= i < |init| && Consider(init[i], ctx, loads, jsonError) == Ok(Some(prior.value[j]))
    requires var init := rules[..|rules| - 1];
      prior.Ok? ==> (prior.value == [] <==> forall i :: 0 <= i < |init| ==> Consider(init[i], ctx, loads, jsonError) == Ok(None))
    requires c == Consider(rules[|rules| - 1], ctx, loads, jsonError)
    requires r == if prior.Err? then Err(prior.error)
                  else if c.Err? then Err(c.error)
                  else if c.value.None? then Ok(prior.value)
                  else Ok(prior.value + [c.value.value])
    ensures r.Ok? <==> forall i :: 0 <= i < |rules| ==> Consider(rules[i], ctx, loads, jsonError).Ok?
    ensures r.Ok? ==> forall j :: 0 <= j < |r.value| ==>
      exists i :: 0 <= i < |rules| && Consider(rules[i], ctx, loads, jsonError) == Ok(Some(r.value[j]))
    ensures r.Ok? ==> (r.value == [] <==> forall i :: 0 <= i < |rules| ==> Consider(rules[i], ctx, loads, jsonError) == Ok(None))
  {
    var n := |rules| - 1;
    var init := rules[..n];
    assert forall i :: 0 <= i < |init| ==> init[i] == rules[i];
    if r.Ok? && c.value.Some? {
      forall j | 0 <= j < |r.value|
        ensures exists i :: 0 <= i < |rules| && Consider(rules[i], ctx, loads, jsonError) == Ok(Some(r.value[j]))
      {
        if j == |prior.value| {
          assert Consider(rules[n], ctx, loads, jsonError) == Ok(Some(r.value[j]));
        } else {
          assert r.value[j] == prior.value[j];
        }
      }
    }
  }

  /** What one rule contributes to the `applied` list: its record when `Consider` makes one, else nothing. */
  function Entry(rule: RuleRow, ctx: map<string, Value>, loads: string -> Option<Value>, jsonError: string -> string): seq<Applied>
  {
    var c := Consider(rule, ctx, loads, jsonError);
    if c.Ok? && c.value.Some? then [c.value.value] else []
  }

  /** The records of the rules, in rule order. */
  function Recorded(rules: seq<RuleRow>, ctx: map<string, Value>, loads: string -> Option<Value>, jsonError: string -> string)
    : seq<Applied>
  {
    Collections.FlatMap(rules, rule => Entry(rule, ctx, loads, jsonError))
  }

  /**
   * When the rule loop gets through, its `applied` list is exactly the
   * records of the rules, in rule order.
   */
  lemma {:induction false} MatchingIsRecorded(rules: seq<RuleRow>, ctx: map<string, Value>, loads: string -> Option<Value>,
                                              jsonError: string -> string)
    requires Matching(rules, ctx, loads, jsonError).Ok?
    ensures Matching(rules, ctx, loads, jsonError).value == Recorded(rules, ctx, loads, jsonError)
  {
    if rules != [] {
      var init := rules[..|rules| - 1];
      assert forall i :: 0 <= i < |init| ==> init[i] == rules[i];
      MatchingIsRecorded(init, ctx, loads, jsonError);
      Collections.FlatMapSnoc(rules, rule => Entry(rule, ctx, loads, jsonError));
    }
  }

  /** When the rule loop gets through, every rule `Consider` records is in the `applied` list. */
  lemma MatchingComplete(rules: seq<RuleRow>, ctx: map<string, Value>, loads: string -> Option<Value>,
                         jsonError: string -> string)
    requires Matching(rules, ctx, loads, jsonError).Ok?
    ensures forall i :: (0 <= i < |rules| && Consider(rules[i], ctx, loads, jsonError).Ok?
      && Consider(rules[i], ctx, loads, jsonError).value.Some?) ==>
      Consider(rules[i], ctx, loads, jsonError).value.value in Matching(rules, ctx, loads, jsonError).value
  {
    MatchingIsRecorded(rules, ctx, loads, jsonError);
    forall i | 0 <= i < |rules| && Consider(rules[i], ctx, loads, jsonError).Ok? && Consider(rules[i], ctx, loads, jsonError).value.Some?
      ensures Consider(rules[i], ctx, loads, jsonError).value.value in Recorded(rules, ctx, loads, jsonError)
    {
      Collections.FlatMapHas(rules, rule => Entry(rule, ctx, loads, jsonError), i, Consider(rules[i], ctx, loads, jsonError).value.value);
    }
  }

  /** One more rule after a prefix the loop got through. */
  lemma MatchingStep(rules: seq<RuleRow>, ctx: map<string, Value>, loads: string -> Option<Value>, jsonError: string -> string, i: nat)
    requires i < |rules| && Matching(rules[..i], ctx, loads, jsonError).Ok?
    ensures var c := Consider(rules[i], ctx, loads, jsonError);
      var done := Matching(rules[..i], ctx, loads, jsonError).value;
      Matching(rules[..i + 1], ctx, loads, jsonError)
        == if c.Err? then Err(c.error) else if c.value.None? then Ok(done) else Ok(done + [c.value.value])
  {
    assert rules[..i + 1][..i] == rules[..i];
  }

  /** Once the loop has failed on a prefix of the rules, the whole loop fails with the same error. */
  lemma {:induction false} MatchingFailureSticks(rules: seq<RuleRow>, ctx: map<string, Value>, loads: string -> Option<Value>,
                                                 jsonError: string -> string, i: nat)
    requires i <= |rules| && Matching(rules[..i], ctx, loads, jsonError).Err?
    ensures Matching(rules, ctx, loads, jsonError) == Matching(rules[..i], ctx, loads, jsonError)
    decreases |rules| - i
  {
    if i < |rules| {
      assert rules[..i + 1][..i] == rules[..i];
      MatchingFailureSticks(rules, ctx, loads, jsonError, i + 1);
    } else {
      assert rules[..i] == rules;
    }
  }

  /** The sort key `(-priority, id)`. */
  function Rank(a: Applied): (int, int)
  {
    (-a.priority, a.id)
  }

  /**
   * `act.get("set", {}).get("use_integration")` and `.get("use_callable")`;
   * both must be truthy. Calling `.get` on something that is not a
   * dictionary raises `AttributeError`.
   */
  function Target(act: Value): (r: Result<(Value, Value), Exception>)
    ensures r.Ok? ==> act.Dict? && GetOr(act.entries, "set", Dict(map[])).Dict?
    ensures r.Ok? ==> Truthy(r.value.0) && Truthy(r.value.1)
    ensures r.Ok? ==> (r.value.0 == Get(GetOr(act.entries, "set", Dict(map[])).entries, "use_integration")
      && r.value.1 == Get(GetOr(act.entries, "set", Dict(map[])).entries, "use_callable"))
    ensures act.Dict? && GetOr(act.entries, "set", Dict(map[])).Dict? && r.Err? ==>
      r.error == HTTPException(400, Str("rule action missing use_integration/use_callable"))
    ensures act.Dict? && GetOr(act.entries, "set", Dict(map[])).Dict? ==>
      (r.Ok? <==> (Truthy(Get(GetOr(act.entries, "set", Dict(map[])).entries, "use_integration"))
                   && Truthy(Get(GetOr(act.entries, "set", Dict(map[])).entries, "use_callable"))))
    ensures !act.Dict? ==> r == Err(AttributeError("'" + TypeName(act) + "' object has no attribute 'get'"))
    ensures act.Dict? && !GetOr(act.entries, "set", Dict(map[])).Dict? ==>
      r == Err(AttributeError("'" + TypeName(GetOr(act.entries, "set", Dict(map[]))) + "' object has no attribute 'get'"))
  {
    if !act.Dict? then Err(AttributeError("'" + TypeName(act) + "' object has no attribute 'get'"))
    else
      var settings := GetOr(act.entries, "set", Dict(map[]));
      if !settings.Dict? then Err(AttributeError("'" + TypeName(settings) + "' object has no attribute 'get'"))
      else
        var integ := Get(settings.entries, "use_integration");
        var call := Get(settings.entries, "use_callable");
        if !(Truthy(integ) && Truthy(call)) then Err(HTTPException(400, Str("rule action missing use_integration/use_callable")))
        else Ok((integ, call))
  }

  /**
   * `decide_and_call_advanced`: collects the enabled rules whose expression
   * holds for the context, sorts them by priority descending and id
   * ascending, and calls the integration named by the first one's action.
   */
  method DecideAndCallAdvanced(context: map<string, Value>, rules: seq<RuleRow>, loads: string -> Option<Value>,
                               jsonError: string -> string, callIntegration: (Value, Value, map<string, Value>) -> Value)
    returns (r: Result<Decision, Exception>)
    ensures Matching(rules, context, loads, jsonError).Err? ==> r == Err(Matching(rules, context, loads, jsonError).error)
    ensures Matching(rules, context, loads, jsonError) == Ok([]) ==> r == Err(HTTPException(400, Str("no matching rule")))
    ensures r.Ok? ==> (Matching(rules, context, loads, jsonError).Ok?
      && r.value.applied == SortBy(Matching(rules, context, loads, jsonError).value, Rank))
    ensures r.Ok? ==> (r.value.chosen in r.value.applied
      && forall a :: a in r.value.applied ==>
        r.value.chosen.priority > a.priority || (r.value.chosen.priority == a.priority && r.value.chosen.id <= a.id))
    ensures r.Ok? ==> (Target(r.value.chosen.action).Ok?
      && r.value.integrationResult == callIntegration(Target(r.value.chosen.action).value.0, Target(r.value.chosen.action).value.1, context))
    ensures (Matching(rules, context, loads, jsonError).Ok? && Matching(rules, context, loads, jsonError).value != []
      && Target(SortBy(Matching(rules, context, loads, jsonError).value, Rank)[0].action).Err?) ==>
      r == Err(Target(SortBy(Matching(rules, context, loads, jsonError).value, Rank)[0].action).error)
    ensures (Matching(rules, context, loads, jsonError).Ok? && Matching(rules, context, loads, jsonError).value != []
      && Target(SortBy(Matching(rules, context, loads, jsonError).value, Rank)[0].action).Ok?) ==> r.Ok?
    ensures r.Ok? ==> r.value.applied == SortBy(Recorded(rules, context, loads, jsonError), Rank)
    ensures r.Ok? ==> forall i :: (0 <= i < |rules| && Consider(rules[i], context, loads, jsonError).Ok?
      && Consider(rules[i], context, loads, jsonError).value.Some?) ==>
      Outranks(r.value.chosen, Consider(rules[i], context, loads, jsonError).value.value)
  {
    var applied: seq<Applied> := [];
    var i := 0;
    while i < |rules|
      invariant 0 <= i <= |rules|
      invariant Matching(rules[..i], context, loads, jsonError) == Ok(applied)
    {
      MatchingStep(rules, context, loads, jsonError, i);
      var step := Consider(rules[i], context, loads, jsonError);
      if step.Err? {
        MatchingFailureSticks(rules, context, loads, jsonError, i + 1);
        return Err(step.error);
      }
      if step.value.Some? {
        applied := applied + [step.value.value];
      }
      i := i + 1;
    }
    assert rules[..i] == rules;
    MatchingIsRecorded(rules, context, loads, jsonError);
    r := Dispatch(applied, context, callIntegration);
    if r.Ok? {
      ChosenOutranksRecorded(rules, context, loads, jsonError, r.value.chosen);
    }
  }

  /** Whether `c` comes no later than `a` in the sorted list: a higher priority, or the same priority and an id no larger. */
  predicate Outranks(c: Applied, a: Applied)
  {
    c.priority > a.priority || (c.priority == a.priority && c.id <= a.id)
  }

  /** A record that outranks every entry of the sorted `applied` list outranks the record of every rule. */
  lemma ChosenOutranksRecorded(rules: seq<RuleRow>, ctx: map<string, Value>, loads: string -> Option<Value>,
                               jsonError: string -> string, chosen: Applied)
    requires Matching(rules, ctx, loads, jsonError).Ok?
    requires forall a :: a in SortBy(Matching(rules, ctx, loads, jsonError).value, Rank) ==>
      chosen.priority > a.priority || (chosen.priority == a.priority && chosen.id <= a.id)
    ensures forall i :: (0 <= i < |rules| && Consider(rules[i], ctx, loads, jsonError).Ok?
      && Consider(rules[i], ctx, loads, jsonError).value.Some?) ==>
      Outranks(chosen, Consider(rules[i], ctx, loads, jsonError).value.value)
  {
    var applied := Matching(rules, ctx, loads, jsonError).value;
    MatchingComplete(rules, ctx, loads, jsonError);
    forall x | x in applied
      ensures x in SortBy(applied, Rank)
    {
      assert x in multiset(applied);
    }
  }

  /**
   * The tail of `decide_and_call_advanced` once the rule loop is done: no
   * matched rule is a 400; otherwise the sorted list's first rule names the
   * integration to call.
   */
  method Dispatch(applied: seq<Applied>, context: map<string, Value>, callIntegration: (Value, Value, map<string, Value>) -> Value)
    returns (r: Result<Decision, Exception>)
    ensures applied == [] ==> r == Err(HTTPException(400, Str("no matching rule")))
    ensures r.Ok? ==> r.value.applied == SortBy(applied, Rank)
    ensures r.Ok? ==> (r.value.chosen in r.value.applied
      && forall a :: a in r.value.applied ==>
        r.value.chosen.priority > a.priority || (r.value.chosen.priority == a.priority && r.value.chosen.id <= a.id))
    ensures r.Ok? ==> (Target(r.value.chosen.action).Ok?
      && r.value.integrationResult == callIntegration(Target(r.value.chosen.action).value.0, Target(r.value.chosen.action).value.1, context))
    ensures applied != [] && Target(SortBy(applied, Rank)[0].action).Err? ==> r == Err(Target(SortBy(applied, Rank)[0].action).error)
    ensures applied != [] && Target(SortBy(applied, Rank)[0].action).Ok? ==> r.Ok?
  {
    if applied == [] {
      return Err(HTTPException(400, Str("no matching rule")));
    }
    var sorted := SortBy(applied, Rank);
    SortedHeadIsLeast(sorted, Rank);
    var chosen := sorted[0];
    var target := Target(chosen.action);
    if target.Err? {
      return Err(target.error);
    }
    var integrationResult := callIntegration(target.value.0, target.value.1, context);
    r := Ok(Decision(sorted, chosen, integrationResult));
  }
}

=== FILE: logic_module.dfy ===
/**
 * The logic module: a table of facts, a table of simple if-then rules, the
 * forward-chaining `infer` pass over them, and the table of extended rules
 * whose conditions are expressions of the JSON rule language.
 *
 * The sqlite database is the state of a `LogicStore` object. Each table is a
 * sequence of rows in row-id order. `INSERT OR REPLACE` on the unique
 * `label` column deletes the row that holds the label and inserts a new row,
 * which gets a new, larger row id: the fact moves to the end of the table,
 * exactly as a name-keyed upsert does.
 */
module LogicModule {
  import opened PyValue
  import opened Collections
  import NamedList

  /** A row of the `facts` table. */
  datatype Fact = Fact(key: string, value: string)

  /** A row of the `rules` table: when `ifLabel` holds `ifValue`, `thenLabel` gets `thenValue`. */
  datatype Rule = Rule(name: string, ifLabel: string, ifValue: string, thenLabel: string, thenValue: string)

  /** A row of the `rules_ext` table; `enabled` is stored as an integer. */
  datatype ExtRule = ExtRule(id: int, name: string, exprJson: string, actionJson: string, priority: int, enabled: int)

  /** An extended rule as `rulesx_list` reports it, with `enabled` as a boolean. */
  datatype RuleRow = RuleRow(id: int, name: string, exprJson: string, actionJson: string, priority: int, enabled: bool)

  function LabelOf(f: Fact): string
  {
    f.key
  }

  /**
   * `{label: value for (label, value) in rows}`: the facts as a dictionary;
   * a later row overrides an earlier one with the same label.
   */
  function Snapshot(facts: seq<Fact>): map<string, string>
  {
    if facts == [] then map[]
    else
      var last := facts[|facts| - 1];
      Snapshot(facts[..|facts| - 1])[last.key := last.value]
  }

  /** Dropping the facts with one label drops that label from the snapshot and keeps the rest. */
  lemma {:induction false} SnapshotWithout(facts: seq<Fact>, lbl: string)
    ensures Snapshot(NamedList.WithoutKeys(facts, LabelOf, {lbl})) == Snapshot(facts) - {lbl}
  {
    if facts != [] {
      var init := facts[..|facts| - 1];
      var last := facts[|facts| - 1];
      assert facts == init + [last];
      NamedList.WithoutKeysConcat(init, [last], LabelOf, {lbl});
      SnapshotWithout(init, lbl);
      SnapshotWithoutStep(init, last, lbl);
    }
  }

  /** The step of `SnapshotWithout` for one more row. */
  lemma SnapshotWithoutStep(init: seq<Fact>, last: Fact, lbl: string)
    requires Snapshot(NamedList.WithoutKeys(init, LabelOf, {lbl})) == Snapshot(init) - {lbl}
    ensures Snapshot(NamedList.WithoutKeys(init, LabelOf, {lbl}) + NamedList.WithoutKeys([last], LabelOf, {lbl}))
      == Snapshot(init + [last]) - {lbl}
  {
    SnapshotSnoc(init, last);
    if last.key == lbl {
      SnapshotWithoutDropped(init, last, lbl);
    } else {
      SnapshotWithoutKept(init, last, lbl);
    }
  }

  lemma SnapshotWithoutDropped(init: seq<Fact>, last: Fact, lbl: string)
    requires last.key == lbl
    ensures NamedList.WithoutKeys(init, LabelOf, {lbl}) + NamedList.WithoutKeys([last], LabelOf, {lbl})
      == NamedList.WithoutKeys(init, LabelOf, {lbl})
    ensures Snapshot(init)[last.key := last.value] - {lbl} == Snapshot(init) - {lbl}
  {
    assert NamedList.WithoutKeys([last], LabelOf, {lbl}) == [];
  }

  lemma SnapshotWithoutKept(init: seq<Fact>, last: Fact, lbl: string)
    requires last.key != lbl
    requires Snapshot(NamedList.WithoutKeys(init, LabelOf, {lbl})) == Snapshot(init) - {lbl}
    ensures Snapshot(NamedList.WithoutKeys(init, LabelOf, {lbl}) + NamedList.WithoutKeys([last], LabelOf, {lbl}))
      == Snapshot(init)[last.key := last.value] - {lbl}
  {
    var kept := NamedList.WithoutKeys(init, LabelOf, {lbl});
    assert NamedList.WithoutKeys([last], LabelOf, {lbl}) == [last];
    SnapshotSnoc(kept, last);
    UpdateOutsideRemoved(Snapshot(init), last.key, last.value, lbl);
  }

  /** Setting a key other than the removed one commutes with the removal. */
  lemma UpdateOutsideRemoved(m: map<string, string>, k: string, v: string, d: string)
    requires k != d
    ensures (m - {d})[k := v] == m[k := v] - {d}
  {
  }

  /** Appending a row sets its label in the snapshot. */
  lemma SnapshotSnoc(facts: seq<Fact>, f: Fact)
    ensures Snapshot(facts + [f]) == Snapshot(facts)[f.key := f.value]
  {
    assert (facts + [f])[..|facts|] == facts;
  }

  /** After `INSERT OR REPLACE` of a fact, the label holds the new value and every other label is unchanged. */
  lemma SnapshotOfUpsert(facts: seq<Fact>, f: Fact)
    ensures Snapshot(NamedList.Upsert(facts, LabelOf, f)) == Snapshot(facts)[f.key := f.value]
  {
    SnapshotWithout(facts, f.key);
    SnapshotSnoc(NamedList.WithoutKeys(facts, LabelOf, {f.key}), f);
  }

  /** Whether a rule's condition holds in a snapshot: `facts.get(if_l) == if_v`. */
  predicate Fires(snapshot: map<string, string>, rule: Rule)
  {
    rule.ifLabel in snapshot && snapshot[rule.ifLabel] == rule.ifValue
  }

  /** The number of rules whose condition holds in the snapshot. */
  function FiredCount(snapshot: map<string, string>, rules: seq<Rule>): (n: nat)
    ensures n <= |rules|
    ensures n == 0 <==> forall i :: 0 <= i < |rules| ==> !Fires(snapshot, rules[i])
  {
    if rules == [] then 0
    else
      var init := rules[..|rules| - 1];
      assert forall i :: 0 <= i < |init| ==> init[i] == rules[i];
      FiredCount(snapshot, init) + if Fires(snapshot, rules[|rules| - 1]) then 1 else 0
  }

  /**
   * The facts after one `infer` pass over `rules`, every condition judged
   * against `snapshot`, the facts as they were before the pass.
   */
  function Derive(snapshot: map<string, string>, facts: map<string, string>, rules: seq<Rule>): map<string, string>
  {
    if rules == [] then facts
    else
      var derived := Derive(snapshot, facts, rules[..|rules| - 1]);
      var last := rules[|rules| - 1];
      if Fires(snapshot, last) then derived[last.thenLabel := last.thenValue] else derived
  }

  /** A label that no firing rule sets keeps its value. */
  lemma {:induction false} DeriveUntouched(snapshot: map<string, string>, facts: map<string, string>, rules: seq<Rule>, lbl: string)
    requires forall i :: 0 <= i < |rules| && Fires(snapshot, rules[i]) ==> rules[i].thenLabel != lbl
    ensures lbl in Derive(snapshot, facts, rules) <==> lbl in facts
    ensures lbl in facts ==> Derive(snapshot, facts, rules)[lbl] == facts[lbl]
  {
    if rules != [] {
      var init := rules[..|rules| - 1];
      assert forall i :: 0 <= i < |init| ==> init[i] == rules[i];
      DeriveUntouched(snapshot, facts, init, lbl);
    }
  }

  /**
   * When several firing rules set the same label, the last of them decides
   * its value.
   */
  lemma {:induction false} DeriveLaterWins(snapshot: map<string, string>, facts: map<string, string>, rules: seq<Rule>, j: nat)
    requires j < |rules| && Fires(snapshot, rules[j])
    requires forall i :: j < i < |rules| && Fires(snapshot, rules[i]) ==> rules[i].thenLabel != rules[j].thenLabel
    ensures rules[j].thenLabel in Derive(snapshot, facts, rules)
    ensures Derive(snapshot, facts, rules)[rules[j].thenLabel] == rules[j].thenValue
    decreases |rules|
  {
    var init := rules[..|rules| - 1];
    if j < |rules| - 1 {
      assert init[j] == rules[j];
      assert forall i :: j < i < |init| ==> init[i] == rules[i];
      DeriveLaterWins(snapshot, facts, init, j);
    }
  }

  /** Rows of the facts table after the pass: each firing rule upserts its derived fact. */
  function DeriveRows(snapshot: map<string, string>, facts: seq<Fact>, rules: seq<Rule>): seq<Fact>
  {
    if rules == [] then facts
    else
      var derived := DeriveRows(snapshot, facts, rules[..|rules| - 1]);
      var last := rules[|rules| - 1];
      if Fires(snapshot, last) then NamedList.Upsert(derived, LabelOf, Fact(last.thenLabel, last.thenValue)) else derived
  }

  /** The table rows after the pass agree with the dictionary view of the pass. */
  lemma {:induction false} DeriveRowsSnapshot(snapshot: map<string, string>, facts: seq<Fact>, rules: seq<Rule>)
    ensures Snapshot(DeriveRows(snapshot, facts, rules)) == Derive(snapshot, Snapshot(facts), rules)
  {
    if rules != [] {
      var init := rules[..|rules| - 1];
      var last := rules[|rules| - 1];
      DeriveRowsSnapshot(snapshot, facts, init);
      if Fires(snapshot, last) {
        SnapshotOfUpsert(DeriveRows(snapshot, facts, init), Fact(last.thenLabel, last.thenValue));
      }
    }
  }

  /** `rulesx_list` order: priority descending, then id ascending. */
  function ExtRank(r: ExtRule): (int, int)
  {
    (-r.priority, r.id)
  }

  /** A stored extended rule as reported, with `enabled` read as `bool(enabled)`. */
  function RowOf(r: ExtRule): (row: RuleRow)
    ensures row.enabled <==> r.enabled != 0
    ensures row.id == r.id && row.name == r.name && row.priority == r.priority
    ensures row.exprJson == r.exprJson && row.actionJson == r.actionJson
  {
    RuleRow(r.id, r.name, r.exprJson, r.actionJson, r.priority, r.enabled != 0)
  }

  /**
   * `SELECT ... ORDER BY priority DESC, id ASC`: every row, ordered by
   * priority descending and then by id ascending, with `enabled` as a
   * boolean.
   */
  function ReportOrder(exts: seq<ExtRule>): (r: seq<RuleRow>)
    ensures |r| == |exts|
    ensures forall i, j :: 0 <= i < j < |r| ==>
      r[i].priority > r[j].priority || (r[i].priority == r[j].priority && r[i].id <= r[j].id)
    ensures forall i :: 0 <= i < |exts| ==> RowOf(exts[i]) in r
    ensures forall i :: 0 <= i < |r| ==> exists j :: 0 <= j < |exts| && r[i] == RowOf(exts[j])
  {
    var sorted := SortBy(exts, ExtRank);
    RowsOfSorted(exts, sorted);
    Rows(sorted)
  }

  function Rows(exts: seq<ExtRule>): (r: seq<RuleRow>)
    ensures |r| == |exts| && forall i :: 0 <= i < |exts| ==> r[i] == RowOf(exts[i])
  {
    seq(|exts|, i requires 0 <= i < |exts| => RowOf(exts[i]))
  }

  /** The rows of a sorted permutation of the table are in report order and are the rows of the table. */
  lemma RowsOfSorted(exts: seq<ExtRule>, sorted: seq<ExtRule>)
    requires SortedBy(sorted, ExtRank) && multiset(sorted) == multiset(exts)
    ensures forall i, j :: 0 <= i < j < |sorted| ==>
      Rows(sorted)[i].priority > Rows(sorted)[j].priority
      || (Rows(sorted)[i].priority == Rows(sorted)[j].priority && Rows(sorted)[i].id <= Rows(sorted)[j].id)
    ensures forall i :: 0 <= i < |exts| ==> RowOf(exts[i]) in Rows(sorted)
    ensures forall i :: 0 <= i < |sorted| ==> exists j :: 0 <= j < |exts| && Rows(sorted)[i] == RowOf(exts[j])
  {
    var r := Rows(sorted);
    assert forall i, j :: 0 <= i < j < |sorted| ==> RankLe(ExtRank(sorted[i]), ExtRank(sorted[j]));
    forall i | 0 <= i < |sorted| ensures exists j :: 0 <= j < |exts| && r[i] == RowOf(exts[j]) {
      assert sorted[i] in multiset(exts);
      var j :| 0 <= j < |exts| && exts[j] == sorted[i];
    }
    forall i | 0 <= i < |exts| ensures RowOf(exts[i]) in r {
      assert exts[i] in multiset(sorted);
      var j :| 0 <= j < |sorted| && sorted[j] == exts[i];
      assert r[j] == RowOf(exts[i]);
    }
  }

  /** `{"label": ..., "value": ...}`, one record of `list_facts`. */
  function FactRecord(f: Fact): Value
  {
    Dict(map["label" := Str(f.key), "value" := Str(f.value)])
  }

  /** The sqlite database of the logic module. */
  class LogicStore {
    var facts: seq<Fact>
    var rules: seq<Rule>
    var rulesExt: seq<ExtRule>
    /** The largest id `AUTOINCREMENT` has handed out for `rules_ext`; deleting rows does not lower it. */
    var lastExtId: nat

    /** `init_db` on a new database: three empty tables. */
    constructor ()
      ensures facts == [] && rules == [] && rulesExt == [] && lastExtId == 0
      ensures Valid()
    {
      facts := [];
      rules := [];
      rulesExt := [];
      lastExtId := 0;
    }

    /** Labels are unique, and extended rule ids increase along the table up to the last id handed out. */
    predicate Valid()
      reads this
    {
      NamedList.UniqueKeys(facts, LabelOf)
      && (forall i, j :: 0 <= i < j < |rulesExt| ==> rulesExt[i].id < rulesExt[j].id)
      && (forall i :: 0 <= i < |rulesExt| ==> 0 < rulesExt[i].id <= lastExtId)
    }

    /** `add_fact`: `INSERT OR REPLACE`; afterwards the label holds the value and every other fact is unchanged. */
    method AddFact(key: string, value: string)
      requires Valid()
      modifies this
      ensures facts == NamedList.Upsert(old(facts), LabelOf, Fact(key, value))
      ensures Snapshot(facts) == old(Snapshot(facts))[key := value]
      ensures rules == old(rules) && rulesExt == old(rulesExt) && lastExtId == old(lastExtId)
      ensures Valid()
    {
      SnapshotOfUpsert(facts, Fact(key, value));
      NamedList.UpsertUnique(facts, LabelOf, Fact(key, value));
      facts := NamedList.Upsert(facts, LabelOf, Fact(key, value));
    }

    /** `list_facts`: one record per stored fact, in row order. */
    function ListFacts(): (r: seq<Value>)
      reads this
      ensures |r| == |facts|
      ensures forall i :: 0 <= i < |facts| ==> r[i] == FactRecord(facts[i])
    {
      seq(|facts|, i requires 0 <= i < |facts| reads this => FactRecord(facts[i]))
    }

    /** `add_rule`: the rule is appended to the rules table. */
    method AddRule(name: string, ifLabel: string, ifValue: string, thenLabel: string, thenValue: string)
      modifies this
      ensures rules == old(rules) + [Rule(name, ifLabel, ifValue, thenLabel, thenValue)]
      ensures facts == old(facts) && rulesExt == old(rulesExt) && lastExtId == old(lastExtId)
      ensures old(Valid()) ==> Valid()
    {
      rules := rules + [Rule(name, ifLabel, ifValue, thenLabel, thenValue)];
    }

    /**
     * `infer`: every rule is judged against the facts as they were before
     * the pass, so facts derived in the pass do not make other rules fire in
     * it. Each firing rule upserts its derived fact and is counted.
     */
    method Infer() returns (applied: nat)
      requires Valid()
      modifies this
      ensures applied == FiredCount(old(Snapshot(facts)), rules)
      ensures facts == DeriveRows(old(Snapshot(facts)), old(facts), rules)
      ensures Snapshot(facts) == Derive(old(Snapshot(facts)), old(Snapshot(facts)), rules)
      ensures rules == old(rules) && rulesExt == old(rulesExt) && lastExtId == old(lastExtId)
      ensures Valid()
    {
      var snapshot := Snapshot(facts);
      ghost var before := facts;
      applied := 0;
      var i := 0;
      while i < |rules|
        invariant 0 <= i <= |rules|
        invariant applied == FiredCount(snapshot, rules[..i])
        invariant facts == DeriveRows(snapshot, before, rules[..i])
        invariant Valid()
        invariant rules == old(rules) && rulesExt == old(rulesExt) && lastExtId == old(lastExtId)
      {
        var rule := rules[i];
        assert rules[..i + 1][..i] == rules[..i];
        if rule.ifLabel in snapshot && snapshot[rule.ifLabel] == rule.ifValue {
          var f := Fact(rule.thenLabel, rule.thenValue);
          NamedList.UpsertUnique(facts, LabelOf, f);
          facts := NamedList.Upsert(facts, LabelOf, f);
          applied := applied + 1;
        }
        i := i + 1;
      }
      assert rules[..i] == rules;
      DeriveRowsSnapshot(snapshot, before, rules);
    }

    /** `rulesx_add`: the rule is appended under the next `AUTOINCREMENT` id. */
    method RulesxAdd(name: string, exprJson: string, actionJson: string, priority: int, enabled: int)
      requires Valid()
      modifies this
      ensures lastExtId == old(lastExtId) + 1
      ensures rulesExt == old(rulesExt) + [ExtRule(lastExtId, name, exprJson, actionJson, priority, enabled)]
      ensures facts == old(facts) && rules == old(rules)
      ensures Valid()
    {
      lastExtId := lastExtId + 1;
      rulesExt := rulesExt + [ExtRule(lastExtId, name, exprJson, actionJson, priority, enabled)];
    }

    /** `rulesx_list`: the stored extended rules as reported, in report order. */
    function RulesxList(): (r: seq<RuleRow>)
      reads this
      ensures |r| == |rulesExt|
      ensures forall i, j :: 0 <= i < j < |r| ==>
        r[i].priority > r[j].priority || (r[i].priority == r[j].priority && r[i].id <= r[j].id)
      ensures forall i :: 0 <= i < |rulesExt| ==> RowOf(rulesExt[i]) in r
      ensures forall i :: 0 <= i < |r| ==> exists j :: 0 <= j < |rulesExt| && r[i] == RowOf(rulesExt[j])
    {
      ReportOrder(rulesExt)
    }

    /** `rulesx_clear`: no extended rule is left; the id counter is kept. */
    method RulesxClear()
      requires Valid()
      modifies this
      ensures rulesExt == []
      ensures facts == old(facts) && rules == old(rules) && lastExtId == old(lastExtId)
      ensures Valid()
    {
      rulesExt := [];
    }
  }
}

=== FILE: manager.dfy ===
/**
 * The manager module: the tool file `coman/data/tools.json` that
 * `register_tool` rewrites, and the `run` endpoint that picks a tool for a
 * goal, builds the tool's query and normalises the tool's answer.
 *
 * The tool file is the state of a `ToolsFile` object. The regular-expression
 * engine, the JSON decoder and the HTTP client are parameters: `search(p, t)`
 * stands for `re.compile(p, re.I).search(t)` and yields the text of the first
 * match's first group, `loads` for `json.loads`, and `send` for the HTTP call
 * together with `r.json()` and `r.text`.
 */
module Manager {
  import opened Wrappers
  import opened Text
  import opened PyValue
  import NamedList
  import MessagesManager

  /** An entry of the tool file, as `register_tool` writes it. */
  datatype Tool = Tool(name: string, verb: string, path: string, params: seq<string>, desc: string)

  function ToolName(t: Tool): string
  {
    t.name
  }

  /** `[p for p in params.split(",") if p]`: the parts are not stripped. */
  function ParamList(params: string): (r: seq<string>)
    ensures forall i :: 0 <= i < |r| ==> r[i] != "" && ',' !in r[i]
    ensures params == "" ==> r == []
  {
    var parts := Split(params, ',');
    assert forall x :: x in parts ==> ',' !in x;
    assert params == "" ==> parts == [""];
    MessagesManager.DropEmpty(parts)
  }

  /** Non-empty names without commas, written comma-separated, are read back as they were. */
  lemma ParamListOfJoin(parts: seq<string>)
    requires |parts| >= 1
    requires forall i :: 0 <= i < |parts| ==> parts[i] != "" && ',' !in parts[i]
    ensures ParamList(Join(parts, ',')) == parts
  {
    SplitJoin(parts, ',');
    NamedList.WithoutKeysKeeps(parts, MessagesManager.Itself, {""});
  }

  /**
   * Comma-free names, some of them empty or padded, written comma-separated:
   * the empty ones are dropped and the others are read back as written, in order.
   */
  lemma ParamListDropsEmpty(parts: seq<string>)
    requires |parts| >= 1
    requires forall i :: 0 <= i < |parts| ==> ',' !in parts[i]
    ensures ParamList(Join(parts, ',')) == MessagesManager.DropEmpty(parts)
    ensures forall i :: 0 <= i < |parts| && parts[i] != "" ==> parts[i] in ParamList(Join(parts, ','))
  {
    SplitJoin(parts, ',');
  }

  /** The record `register_tool` writes for a tool. */
  function ToolRecord(t: Tool): Value
  {
    Dict(map[
      "name" := Str(t.name), "method" := Str(t.verb), "path" := Str(t.path),
      "params" := List(seq(|t.params|, i requires 0 <= i < |t.params| => Str(t.params[i]))),
      "desc" := Str(t.desc)])
  }

  /** `load_tools()`: the whole tool file. */
  function KnownTools(tools: seq<Tool>): Value
  {
    Dict(map["tools" := List(seq(|tools|, i requires 0 <= i < |tools| => ToolRecord(tools[i])))])
  }

  /** The tool a goal containing a URL is sent to. */
  const TitleTool := "webscraper.title"

  /** `URL_RX`. */
  const UrlPattern := @"(https?://[^\s\]\)\}\,;""]+)"

  /** A goal heuristic: a pattern and the tool it selects. */
  datatype Heuristic = Heuristic(pattern: string, tool: string)

  /** `HEURISTICS`, in the order they are tried. */
  const Heuristics: seq<Heuristic> := [
    Heuristic(@"\btitle\b|\burl\b", TitleTool),
    Heuristic(@"\bupper(case)?\b", "text.uppercase"),
    Heuristic(@"\b(cpu|memory|ram)\b", "resources.snapshot")
  ]

  /**
   * A case-insensitive `pattern.search(goal)`: `Some` with the matched text when the
   * pattern occurs in the goal, `None` otherwise. For `URL_RX` the one group spans
   * the whole match, so `m.group(1)` is that text; the heuristics only test for a match.
   */
  type Search = (string, string) -> Option<string>

  /** What the HTTP call gives back: the decoded JSON body, when `r.json()` succeeds, and the text. */
  datatype HttpResponse = HttpResponse(json: Option<Value>, text: string)

  /** The HTTP call: the verb, the URL and the query parameters. */
  type Send = (string, string, map<string, Value>) -> HttpResponse

  /**
   * The goal of a run: `payload["goal"]` when the payload is a dictionary
   * and the goal is truthy, otherwise the `goal_q` query parameter, otherwise
   * "". A truthy goal that is not a string makes the pattern search raise.
   */
  function GoalOf(payload: Value, goalQ: Option<string>): (r: Result<string, Exception>)
    ensures payload.Dict? && "goal" in payload.entries && payload.entries["goal"].Str? && payload.entries["goal"].s != ""
      ==> r == Ok(payload.entries["goal"].s)
    ensures (!payload.Dict? || !Truthy(Get(payload.entries, "goal"))) ==> r == Ok(goalQ.GetOr(""))
    ensures r.Err? <==> payload.Dict? && Truthy(Get(payload.entries, "goal")) && !Get(payload.entries, "goal").Str?
  {
    var g := if payload.Dict? then Get(payload.entries, "goal") else Null;
    if !Truthy(g) then Ok(goalQ.GetOr(""))
    else if g.Str? then Ok(g.s)
    else Err(TypeError("expected string or bytes-like object, got '" + TypeName(g) + "'"))
  }

  /** The `inputs` of a run: `payload.get("inputs")` for a dictionary payload, else `{}`. */
  function InputsOf(payload: Value): Value
  {
    if payload.Dict? then Get(payload.entries, "inputs") else Dict(map[])
  }

  /**
   * `p in (inputs or {})` followed by `inputs[p]`: a falsy `inputs` holds
   * nothing; a dictionary is looked up; a list, tuple or string that holds
   * `p` cannot be indexed by it; any other truthy value cannot be searched.
   */
  function InputsLookup(inputs: Value, p: string): (r: Result<Option<Value>, Exception>)
    ensures !Truthy(inputs) ==> r == Ok(None)
    ensures inputs.Dict? ==> r == Ok(if p in inputs.entries then Some(inputs.entries[p]) else None)
    ensures r.Ok? && r.value.Some? ==> inputs.Dict? && p in inputs.entries
  {
    if !Truthy(inputs) then Ok(None)
    else
      match inputs
      case Dict(entries) => Ok(if p in entries then Some(entries[p]) else None)
      case List(items) =>
        if Str(p) in items then Err(TypeError("list indices must be integers or slices, not str")) else Ok(None)
      case Tuple(items) =>
        if Str(p) in items then Err(TypeError("tuple indices must be integers or slices, not str")) else Ok(None)
      case Str(s) =>
        if IsInfix(p, s) then Err(TypeError("string indices must be integers, not 'str'")) else Ok(None)
      case _ => Err(TypeError("argument of type '" + TypeName(inputs) + "' is not iterable"))
  }

  /**
   * The query value of one tool parameter: the `inputs` value when there is
   * one, else the goal for `s`, else the URL found in the goal for `url`,
   * else nothing.
   */
  function ParamValue(p: string, inputs: Value, goal: string, url: Option<string>): (r: Result<Option<Value>, Exception>)
    ensures inputs.Dict? && p in inputs.entries ==> r == Ok(Some(inputs.entries[p]))
    ensures InputsLookup(inputs, p) == Ok(None) ==>
      r == Ok(if p == "s" then Some(Str(goal))
              else if p == "url" && url.Some? && url.value != "" then Some(Str(url.value))
              else None)
    ensures r.Err? <==> InputsLookup(inputs, p).Err?
  {
    match InputsLookup(inputs, p)
    case Err(e) => Err(e)
    case Ok(Some(v)) => Ok(Some(v))
    case Ok(None) =>
      if p == "s" then Ok(Some(Str(goal)))
      else if p == "url" && url.Some? && url.value != "" then Ok(Some(Str(url.value)))
      else Ok(None)
  }

  /** Whether parameter `p` gets a value in the query. */
  predicate Supplied(p: string, inputs: Value, goal: string, url: Option<string>)
  {
    ParamValue(p, inputs, goal, url).Ok? && ParamValue(p, inputs, goal, url).value.Some?
  }

  /** The query built for a tool's parameters, in order; the first failing lookup stops it. */
  function QueryOf(params: seq<string>, inputs: Value, goal: string, url: Option<string>): (r: Result<map<string, Value>, Exception>)
    ensures r.Ok? <==> forall i :: 0 <= i < |params| ==> ParamValue(params[i], inputs, goal, url).Ok?
    ensures r.Ok? ==> forall p :: p in r.value ==> p in params && ParamValue(p, inputs, goal, url) == Ok(Some(r.value[p]))
    ensures r.Ok? ==> forall i :: 0 <= i < |params| && Supplied(params[i], inputs, goal, url) ==> params[i] in r.value
  {
    if params == [] then Ok(map[])
    else
      var init := params[..|params| - 1];
      var last := params[|params| - 1];
      assert forall i :: 0 <= i < |init| ==> init[i] == params[i];
      match QueryOf(init, inputs, goal, url)
      case Err(e) => Err(e)
      case Ok(q) =>
        match ParamValue(last, inputs, goal, url)
        case Err(e) => Err(e)
        case Ok(None) => Ok(q)
        case Ok(Some(v)) => Ok(q[last := v])
  }

  /** Once the query of a prefix fails, the query of the whole list fails with the same error. */
  lemma {:induction false} QueryOfFailureSticks(params: seq<string>, inputs: Value, goal: string, url: Option<string>, i: nat)
    requires i <= |params| && QueryOf(params[..i], inputs, goal, url).Err?
    ensures QueryOf(params, inputs, goal, url) == QueryOf(params[..i], inputs, goal, url)
    decreases |params| - i
  {
    if i < |params| {
      var next := params[..i + 1];
      assert next[..i] == params[..i];
      assert QueryOf(next, inputs, goal, url) == QueryOf(params[..i], inputs, goal, url);
      QueryOfFailureSticks(params, inputs, goal, url, i + 1);
    } else {
      assert params[..i] == params;
    }
  }

  /** The tool of the first heuristic whose pattern is found in a non-empty goal. */
  function FirstHeuristic(goal: string, hs: seq<Heuristic>, search: Search): (r: Option<string>)
    ensures r.Some? ==> exists i :: (0 <= i < |hs| && r.value == hs[i].tool && goal != "" && search(hs[i].pattern, goal).Some?
      && forall j :: 0 <= j < i ==> search(hs[j].pattern, goal).None?)
    ensures r.None? <==> goal == "" || forall i :: 0 <= i < |hs| ==> search(hs[i].pattern, goal).None?
  {
    if hs == [] then None
    else if goal != "" && search(hs[0].pattern, goal).Some? then Some(hs[0].tool)
    else
      var r := FirstHeuristic(goal, hs[1..], search);
      assert forall i :: 1 <= i < |hs| ==> hs[i] == hs[1..][i - 1];
      if r.Some? then
        var k :| 0 <= k < |hs[1..]| && r.value == hs[1..][k].tool && goal != "" && search(hs[1..][k].pattern, goal).Some?
          && forall j :: 0 <= j < k ==> search(hs[1..][j].pattern, goal).None?;
        assert r.value == hs[k + 1].tool && forall j :: 0 <= j < k + 1 ==> search(hs[j].pattern, goal).None?;
        r
      else r
  }

  /** The tool chosen for a goal: a URL forces the title tool, otherwise the first heuristic decides. */
  function ToolFor(goal: string, search: Search): (r: Option<string>)
    ensures search(UrlPattern, goal).Some? ==> r == Some(TitleTool)
    ensures search(UrlPattern, goal).None? ==>
      (r.None? <==> goal == "" || forall i :: 0 <= i < |Heuristics| ==> search(Heuristics[i].pattern, goal).None?)
    ensures r.Some? ==> r.value == TitleTool || exists i :: 0 <= i < |Heuristics| && r.value == Heuristics[i].tool
    ensures search(UrlPattern, goal).None? ==> r == FirstHeuristic(goal, Heuristics, search)
  {
    if search(UrlPattern, goal).Some? then Some(TitleTool) else FirstHeuristic(goal, Heuristics, search)
  }

  /** Without a URL, a goal that matches the uppercase heuristic and not the title one selects the uppercase tool. */
  lemma UppercaseGoal(goal: string, search: Search)
    requires goal != ""
    requires search(UrlPattern, goal).None?
    requires search(Heuristics[0].pattern, goal).None? && search(Heuristics[1].pattern, goal).Some?
    ensures ToolFor(goal, search) == Some("text.uppercase")
  {
    assert Heuristics[1..][0] == Heuristics[1];
  }

  /** Whether a stripped body text is bracketed like a JSON object or array. */
  predicate Bracketed(s: string)
  {
    s != [] && ((s[0] == '{' && s[|s| - 1] == '}') || (s[0] == '[' && s[|s| - 1] == ']'))
  }

  /**
   * The normalised tool answer: the decoded JSON body, else the text; a
   * string whose stripped form is bracketed is decoded when it can be; a
   * string left over is wrapped as `{"text": ...}`.
   */
  function NormaliseBody(resp: HttpResponse, loads: string -> Result<Value, Exception>): (r: Value)
    ensures !r.Str?
    ensures resp.json.Some? && !resp.json.value.Str? ==> r == resp.json.value
    ensures (resp.json.None? || resp.json.value.Str?) ==> (
      var s := if resp.json.Some? then resp.json.value.s else resp.text;
      if Bracketed(Strip(s)) && loads(Strip(s)).Ok? && !loads(Strip(s)).value.Str? then r == loads(Strip(s)).value
      else r == Dict(map["text" := Str(if Bracketed(Strip(s)) && loads(Strip(s)).Ok? then loads(Strip(s)).value.s else s)]))
  {
    var body := if resp.json.Some? then resp.json.value else Str(resp.text);
    var decoded :=
      if body.Str? && Bracketed(Strip(body.s)) && loads(Strip(body.s)).Ok? then loads(Strip(body.s)).value else body;
    if decoded.Str? then Dict(map["text" := decoded]) else decoded
  }

  /** A normalised answer that is fed back as a decoded body is left as it is. */
  lemma NormaliseBodyIdempotent(resp: HttpResponse, loads: string -> Result<Value, Exception>, text: string)
    ensures NormaliseBody(HttpResponse(Some(NormaliseBody(resp, loads)), text), loads) == NormaliseBody(resp, loads)
  {
  }

  /** A plain text answer that is not bracketed comes back wrapped, unstripped. */
  lemma PlainTextIsWrapped(text: string, loads: string -> Result<Value, Exception>)
    requires !Bracketed(Strip(text))
    ensures NormaliseBody(HttpResponse(None, text), loads) == Dict(map["text" := Str(text)])
  {
  }

  /** The answer when no tool fits the goal. */
  function NoToolAnswer(goal: string, tools: seq<Tool>): Value
  {
    Dict(map["goal" := Str(goal), "error" := Str("no_tool"), "message" := Str("No matching tool found"),
      "known_tools" := KnownTools(tools)])
  }

  /** The answer when the chosen tool is not in the tool file. */
  function UnknownToolAnswer(name: string): Value
  {
    Dict(map["error" := Str("unknown_tool"), "name" := Str(name)])
  }

  /** The HTTP verb a tool is called with: `GET` for `GET`, `POST` for anything else. */
  function VerbOf(t: Tool): (v: string)
    ensures v == "GET" || v == "POST"
    ensures v == "GET" <==> t.verb == "GET"
  {
    if t.verb == "GET" then "GET" else "POST"
  }

  class ToolsFile {
    var tools: seq<Tool>

    /** `load_tools` with no file yet: no tools. */
    constructor ()
      ensures tools == []
    {
      tools := [];
    }

    /**
     * `register_tool`: every tool with the name is removed and the new tool,
     * its method upper-cased and its parameter text split on `,` with empty
     * parts dropped, is appended last.
     */
    method RegisterTool(name: string, verb: string, path: string, params: string, desc: string) returns (r: Value)
      modifies this
      ensures tools == NamedList.Upsert(old(tools), ToolName, Tool(name, Upper(verb), path, ParamList(params), desc))
      ensures r == Dict(map["ok" := Bool(true)])
    {
      var t := Tool(name, Upper(verb), path, ParamList(params), desc);
      tools := NamedList.WithoutKeys(tools, ToolName, {name}) + [t];
      r := Dict(map["ok" := Bool(true)]);
    }

    /**
     * `run`: the goal is read, a tool is chosen for it, the tool is looked up
     * in the tool file (the last entry with the name wins, as in a dictionary
     * built from the list), its query is built parameter by parameter, the
     * tool is called at `apiBase` + its path, and the answer is normalised.
     */
    method Run(payload: Value, goalQ: Option<string>, search: Search, apiBase: string, send: Send,
               loads: string -> Result<Value, Exception>)
      returns (r: Result<Value, Exception>)
      ensures GoalOf(payload, goalQ).Err? ==> r == Err(GoalOf(payload, goalQ).error)
      ensures GoalOf(payload, goalQ).Ok? && ToolFor(GoalOf(payload, goalQ).value, search).None? ==>
        r == Ok(NoToolAnswer(GoalOf(payload, goalQ).value, tools))
      ensures GoalOf(payload, goalQ).Ok? && ToolFor(GoalOf(payload, goalQ).value, search).Some? ==> (
        var goal := GoalOf(payload, goalQ).value;
        var name := ToolFor(goal, search).value;
        match NamedList.FindLast(tools, ToolName, name)
        case None => r == Ok(UnknownToolAnswer(name))
        case Some(t) =>
          match QueryOf(t.params, InputsOf(payload), goal, search(UrlPattern, goal))
          case Err(e) => r == Err(e)
          case Ok(q) => r == Ok(Dict(map["goal" := Str(goal), "tool" := Str(name), "query" := Dict(q),
            "result" := NormaliseBody(send(VerbOf(t), apiBase + t.path, q), loads)])))
    {
      var g := GoalOf(payload, goalQ);
      if g.Err? {
        return Err(g.error);
      }
      var goal := g.value;
      var url := search(UrlPattern, goal);
      var toolName := ChooseTool(goal, search);
      if toolName.None? {
        return Ok(NoToolAnswer(goal, tools));
      }
      var name := toolName.value;
      var found := NamedList.FindLast(tools, ToolName, name);
      if found.None? {
        return Ok(UnknownToolAnswer(name));
      }
      var tool := found.value;
      var query := BuildQuery(tool.params, InputsOf(payload), goal, url);
      if query.Err? {
        return Err(query.error);
      }
      var resp := send(VerbOf(tool), apiBase + tool.path, query.value);
      r := Ok(Dict(map["goal" := Str(goal), "tool" := Str(name), "query" := Dict(query.value),
        "result" := NormaliseBody(resp, loads)]));
    }
  }

  /** The tool choice of `run`: a URL forces the title tool, otherwise the heuristics are tried in order. */
  method ChooseTool(goal: string, search: Search) returns (toolName: Option<string>)
    ensures toolName == ToolFor(goal, search)
  {
    if search(UrlPattern, goal).Some? {
      return Some(TitleTool);
    }
    toolName := None;
    var i := 0;
    while i < |Heuristics| && toolName.None?
      invariant 0 <= i <= |Heuristics|
      invariant toolName.None? ==> FirstHeuristic(goal, Heuristics[i..], search) == FirstHeuristic(goal, Heuristics, search)
      invariant toolName.Some? ==> toolName == FirstHeuristic(goal, Heuristics, search)
    {
      assert Heuristics[i..][1..] == Heuristics[i + 1..];
      if goal != "" && search(Heuristics[i].pattern, goal).Some? {
        toolName := Some(Heuristics[i].tool);
      }
      i := i + 1;
    }
  }

  /** The query loop of `run`: each parameter adds its value, if it has one; a failing lookup stops the loop. */
  method BuildQuery(params: seq<string>, inputs: Value, goal: string, url: Option<string>)
    returns (r: Result<map<string, Value>, Exception>)
    ensures r == QueryOf(params, inputs, goal, url)
  {
    var query: map<string, Value> := map[];
    var j := 0;
    while j < |params|
      invariant 0 <= j <= |params|
      invariant QueryOf(params[..j], inputs, goal, url) == Ok(query)
    {
      var p := params[j];
      assert params[..j + 1][..j] == params[..j];
      var v := ParamValue(p, inputs, goal, url);
      if v.Err? {
        QueryOfFailureSticks(params, inputs, goal, url, j + 1);
        return Err(v.error);
      }
      if v.value.Some? {
        query := query[p := v.value.value];
      }
      j := j + 1;
    }
    assert params[..j] == params;
    r := Ok(query);
  }

  /** A registered tool is the one a run finds under its name. */
  lemma RegisteredToolIsFound(tools: seq<Tool>, name: string, verb: string, path: string, params: string, desc: string)
    ensures NamedList.FindLast(NamedList.Upsert(tools, ToolName, Tool(name, Upper(verb), path, ParamList(params), desc)), ToolName, name)
      == Some(Tool(name, Upper(verb), path, ParamList(params), desc))
  {
    NamedList.FindAfterUpsert(tools, ToolName, Tool(name, Upper(verb), path, ParamList(params), desc));
  }

  /** A tool whose only parameter is `s`, given no inputs, is queried with the goal. */
  lemma GoalOnlyQuery(goal: string, url: Option<string>)
    ensures QueryOf(["s"], Dict(map[]), goal, url) == Ok(map["s" := Str(goal)])
  {
    assert ["s"][..0] == [];
  }
}

=== FILE: messages_base.dfy ===
/**
 * The base class of the messages modules exchange, on top of the small
 * data-model stand-in: building a message from an arbitrary payload,
 * turning it back into a payload, and cloning it with updates.
 *
 * A message is an instance `Value.Model` of a `ModelClass` whose
 * constructor is the plain one (a class that rewrites its fields in
 * `__init__` has its own normaliser elsewhere).
 */
module MessagesBase {
  import opened Wrappers
  import opened PyValue
  import opened Pydantic

  /** Whether a value is an instance of the class. */
  predicate IsInstance(v: Value, c: ModelClass)
  {
    v.Model? && v.cls == c.name && v.fields == c.fields
  }

  /** The fallback payload: only the keys that are declared fields, and nothing when the payload is not a dictionary. */
  function KnownKeys(c: ModelClass, payload: Value): (data: map<string, Value>)
    ensures payload.Dict? ==> data.Keys == payload.entries.Keys * (set k | k in c.fields)
    ensures !payload.Dict? ==> data == map[]
    ensures forall k :: k in data ==> data[k] == payload.entries[k]
  {
    if payload.Dict? then map k | k in c.fields && k in payload.entries :: payload.entries[k] else map[]
  }

  /**
   * `from_payload`: an instance of the class is returned as it is; `None`
   * stands for an empty payload; otherwise `model_validate`, and when that
   * raises a `ValidationError`, `model_validate` of the known keys only.
   */
  function FromPayload(c: ModelClass, payload: Value): (m: Value)
    ensures IsInstance(payload, c) ==> m == payload
    ensures !IsInstance(payload, c) && payload.Dict? ==> m == Constructed(c, payload.entries)
    ensures !IsInstance(payload, c) && payload.Null? ==> m == Constructed(c, map[])
    ensures !IsInstance(payload, c) && !payload.Dict? ==> m == Constructed(c, map[])
    ensures IsInstance(m, c)
  {
    if IsInstance(payload, c) then payload
    else
      var p := if payload.Null? then Dict(map[]) else payload;
      match ModelValidate(c, p)
      case Ok(v) => v
      case Err(_) => ModelValidate(c, Dict(KnownKeys(c, p))).value
  }

  /** `to_payload`: the fields of the message that are not `None`, normalised. */
  function ToPayload(m: Value): (p: map<string, Value>)
    requires m.Model?
    ensures p.Keys == set k | k in m.fields && Get(m.attrs, k) != Null
    ensures forall k :: k in p ==> p[k] == Normalise(m.attrs[k], true)
  {
    var d := ToDictOf(m, true).entries;
    assert forall k :: k in d ==> d[k] == NormaliseAttr(m, k, true);
    d
  }

  /** `clone`: the payload of the message with the updates applied on top, read back by the same class. */
  function Clone(c: ModelClass, m: Value, updates: map<string, Value>): (r: Value)
    requires IsInstance(m, c)
    ensures IsInstance(r, c)
  {
    FromPayload(c, Dict(Update(ToPayload(m), updates)))
  }

  /** A clone holds every update, keeps every other field the original set to something other than `None`, and defaults the rest. */
  lemma CloneFields(c: ModelClass, m: Value, updates: map<string, Value>, k: string)
    requires IsInstance(m, c) && k in c.fields
    ensures k in updates ==> Clone(c, m, updates).attrs[k] == updates[k]
    ensures k !in updates && Get(m.attrs, k) != Null ==> Clone(c, m, updates).attrs[k] == Normalise(m.attrs[k], true)
    ensures k !in updates && Get(m.attrs, k) == Null ==> Clone(c, m, updates).attrs[k] == DefaultFor(c, k)
  {
    var p := ToPayload(m);
    assert !IsInstance(Dict(Update(p, updates)), c);
  }

  /** Keys that name no field never reach a payload: building from a payload and reading it back keeps only declared fields. */
  lemma UnknownKeysIgnored(c: ModelClass, payload: Value, k: string)
    requires k !in c.fields
    ensures k !in ToPayload(FromPayload(c, payload))
  {
  }

  /**
   * A message whose attributes are exactly its fields, none of them `None`
   * and none holding a nested message, survives the round trip through its
   * payload.
   */
  lemma PayloadRoundTrip(c: ModelClass, m: Value)
    requires IsInstance(m, c)
    requires m.attrs.Keys == set k | k in c.fields
    requires forall k :: k in m.attrs ==> m.attrs[k] != Null && ModelFree(m.attrs[k])
    ensures FromPayload(c, Dict(ToPayload(m))) == m
  {
    var p := ToPayload(m);
    forall k | k in p ensures p[k] == m.attrs[k] {
      NormaliseModelFree(m.attrs[k], true);
    }
    assert p == m.attrs;
    var r := FromPayload(c, Dict(p));
    assert r.attrs == m.attrs;
  }
}

=== FILE: messages_integration.dfy ===
/**
 * The integration messages: the definition of an integration adapter, the
 * registry of definitions (which may also hold raw payloads until they are
 * converted), and the request to call an integration.
 *
 * Constructors take the keyword arguments as a dictionary of Python values;
 * the data-model stand-in performs no type coercion, so a field that is not a
 * string reaches `.strip()` as it is and raises `AttributeError`.
 */
module MessagesIntegration {
  import opened Wrappers
  import opened Text
  import opened PyValue
  import NamedList

  datatype IntegrationDefinition = IntegrationDefinition(name: string, path: string, moduleName: string, callable: string, sig: Value)

  /** An entry of the registry: a definition, or a payload not converted yet. */
  datatype Entry = Def(definition: IntegrationDefinition) | Raw(payload: Value)

  /** The key of a definition in the registry. */
  function DefName(d: IntegrationDefinition): string
  {
    d.name
  }

  /** `self.sig.strip()` when `self.sig` is truthy; a falsy signature is kept as it is. */
  function StripSig(sig: Value): (r: Result<Value, Exception>)
    ensures !Truthy(sig) ==> r == Ok(sig)
    ensures Truthy(sig) && sig.Str? ==> r == Ok(Str(Strip(sig.s)))
    ensures Truthy(sig) && !sig.Str? ==> r == Err(AttributeError(NoStripMessage(sig)))
  {
    if !Truthy(sig) then Ok(sig)
    else
      match StripValue(sig)
      case Ok(s) => Ok(Str(s))
      case Err(e) => Err(e)
  }

  /**
   * `IntegrationDefinition(**data)`: `name`, `path`, `module` and `callable`
   * are stripped in that order (an absent one is `None`, which has no
   * `strip`), and `sig` is stripped only when it is truthy.
   */
  function NewIntegrationDefinition(data: map<string, Value>): (r: Result<IntegrationDefinition, Exception>)
    ensures r.Ok? <==> (Get(data, "name").Str? && Get(data, "path").Str? && Get(data, "module").Str?
      && Get(data, "callable").Str? && (!Truthy(Get(data, "sig")) || Get(data, "sig").Str?))
    ensures r.Ok? ==> (r.value.name == Strip(Get(data, "name").s) && r.value.path == Strip(Get(data, "path").s)
      && r.value.moduleName == Strip(Get(data, "module").s) && r.value.callable == Strip(Get(data, "callable").s))
    ensures r.Ok? ==> Ok(r.value.sig) == StripSig(Get(data, "sig"))
    ensures !Get(data, "name").Str? ==> r == Err(AttributeError(NoStripMessage(Get(data, "name"))))
    ensures Get(data, "name").Str? && !Get(data, "path").Str? ==> r == Err(AttributeError(NoStripMessage(Get(data, "path"))))
  {
    var name := StripValue(Get(data, "name"));
    var path := StripValue(Get(data, "path"));
    var mod := StripValue(Get(data, "module"));
    var callable := StripValue(Get(data, "callable"));
    var sig := StripSig(Get(data, "sig"));
    if name.Err? then Err(name.error)
    else if path.Err? then Err(path.error)
    else if mod.Err? then Err(mod.error)
    else if callable.Err? then Err(callable.error)
    else if sig.Err? then Err(sig.error)
    else Ok(IntegrationDefinition(name.value, path.value, mod.value, callable.value, sig.value))
  }

  /** Whether a definition is in the form the constructor produces. */
  predicate Normalised(d: IntegrationDefinition)
  {
    IsStripped(d.name) && IsStripped(d.path) && IsStripped(d.moduleName) && IsStripped(d.callable)
    && (Truthy(d.sig) ==> d.sig.Str? && IsStripped(d.sig.s))
  }

  /** The keyword arguments that rebuild a definition. */
  function FieldsOf(d: IntegrationDefinition): map<string, Value>
  {
    map["name" := Str(d.name), "path" := Str(d.path), "module" := Str(d.moduleName), "callable" := Str(d.callable), "sig" := d.sig]
  }

  /** Every definition the constructor produces is normalised. */
  lemma NewIntegrationDefinitionNormalised(data: map<string, Value>)
    requires NewIntegrationDefinition(data).Ok?
    ensures Normalised(NewIntegrationDefinition(data).value)
  {
    StripIsStripped(Get(data, "name").s);
    StripIsStripped(Get(data, "path").s);
    StripIsStripped(Get(data, "module").s);
    StripIsStripped(Get(data, "callable").s);
    if Truthy(Get(data, "sig")) {
      StripIsStripped(Get(data, "sig").s);
    }
  }

  /** Each field read back from `FieldsOf`. */
  lemma FieldsOfGet(d: IntegrationDefinition)
    ensures Get(FieldsOf(d), "name") == Str(d.name) && Get(FieldsOf(d), "path") == Str(d.path)
    ensures Get(FieldsOf(d), "module") == Str(d.moduleName) && Get(FieldsOf(d), "callable") == Str(d.callable)
    ensures Get(FieldsOf(d), "sig") == d.sig
  {
  }

  /** Rebuilding a normalised definition from its own fields gives it back. */
  lemma NewIntegrationDefinitionIdempotent(d: IntegrationDefinition)
    requires Normalised(d)
    ensures NewIntegrationDefinition(FieldsOf(d)) == Ok(d)
  {
    FieldsOfGet(d);
    StripValueOfStripped(d.name);
    StripValueOfStripped(d.path);
    StripValueOfStripped(d.moduleName);
    StripValueOfStripped(d.callable);
    if Truthy(d.sig) {
      StripValueOfStripped(d.sig.s);
    }
  }

  /**
   * `IntegrationDefinition.from_payload(item)`: a definition is kept; a
   * dictionary is passed to the constructor; `None`, and anything that fails
   * validation as not being a mapping, falls back to an empty payload.
   */
  function DefinitionFromPayload(e: Entry): (r: Result<IntegrationDefinition, Exception>)
    ensures e.Def? ==> r == Ok(e.definition)
    ensures e.Raw? && e.payload.Dict? ==> r == NewIntegrationDefinition(e.payload.entries)
    ensures e.Raw? && !e.payload.Dict? ==> r == Err(AttributeError(NoStripMessage(Null)))
  {
    match e
    case Def(d) => Ok(d)
    case Raw(v) => NewIntegrationDefinition(if v.Dict? then v.entries else map[])
  }

  /** The conversion `_ensure_models` computes: every entry converted, or the first failure. */
  function ConvertAll(entries: seq<Entry>): (r: Result<seq<IntegrationDefinition>, Exception>)
    ensures r.Ok? <==> forall i :: 0 <= i < |entries| ==> DefinitionFromPayload(entries[i]).Ok?
    ensures r.Ok? ==> |r.value| == |entries|
    ensures r.Ok? ==> forall i :: 0 <= i < |entries| ==> r.value[i] == DefinitionFromPayload(entries[i]).value
  {
    MapAll(entries, DefinitionFromPayload)
  }

  /** Definitions as registry entries. */
  function AsEntries(ds: seq<IntegrationDefinition>): (r: seq<Entry>)
    ensures |r| == |ds| && forall i :: 0 <= i < |ds| ==> r[i] == Def(ds[i])
  {
    seq(|ds|, i requires 0 <= i < |ds| => Def(ds[i]))
  }

  /** Converting entries that are all definitions gives the definitions back. */
  lemma ConvertAllOfDefinitions(ds: seq<IntegrationDefinition>)
    ensures ConvertAll(AsEntries(ds)) == Ok(ds)
  {
    var r := ConvertAll(AsEntries(ds));
    assert r.value == ds;
  }

  /** The registry of integrations. */
  class IntegrationRegistry {
    var integrations: seq<Entry>

    /**
     * `IntegrationRegistry(integrations=entries)` up to its `_ensure_models`
     * call: the entries as given. The conversion `__init__` then runs is
     * `EnsureModels`, whose error is the constructor's.
     */
    constructor FromEntries(entries: seq<Entry>)
      ensures integrations == entries
    {
      integrations := entries;
    }

    /**
     * `_ensure_models`: converts every raw entry; the list is replaced only
     * when every entry converts, otherwise the exception is returned and the
     * list is left as it was.
     */
    method EnsureModels() returns (err: Option<Exception>)
      modifies this
      ensures ConvertAll(old(integrations)).Ok? ==> err.None? && integrations == AsEntries(ConvertAll(old(integrations)).value)
      ensures ConvertAll(old(integrations)).Err? ==>
        err == Some(ConvertAll(old(integrations)).error) && integrations == old(integrations)
    {
      var converted: seq<IntegrationDefinition> := [];
      var i := 0;
      while i < |integrations|
        invariant 0 <= i <= |integrations|
        invariant MapAll(integrations[..i], DefinitionFromPayload) == Ok(converted)
      {
        var d := DefinitionFromPayload(integrations[i]);
        assert integrations[..i + 1][..i] == integrations[..i];
        if d.Err? {
          MapAllFailureSticks(integrations, DefinitionFromPayload, i + 1);
          return Some(d.error);
        }
        converted := converted + [d.value];
        i := i + 1;
      }
      assert integrations[..i] == integrations;
      assert ConvertAll(integrations) == Ok(converted);
      integrations := AsEntries(converted);
      return None;
    }

    /** `upsert`: after the conversion, every definition with the same name is removed and the new one appended. */
    method Upsert(integration: IntegrationDefinition) returns (err: Option<Exception>)
      modifies this
      ensures ConvertAll(old(integrations)).Ok? ==>
        err.None? && integrations == AsEntries(NamedList.Upsert(ConvertAll(old(integrations)).value, DefName, integration))
      ensures ConvertAll(old(integrations)).Err? ==>
        err == Some(ConvertAll(old(integrations)).error) && integrations == old(integrations)
    {
      err := EnsureModels();
      if err.None? {
        ConvertAllOfDefinitions(ConvertAll(old(integrations)).value);
        var current := ConvertAll(integrations).value;
        integrations := AsEntries(NamedList.WithoutKeys(current, DefName, {integration.name}) + [integration]);
      }
    }

    /** `find`: after the conversion, the first definition with the name, or `None`. */
    method Find(name: string) returns (r: Result<Option<IntegrationDefinition>, Exception>)
      modifies this
      ensures ConvertAll(old(integrations)).Ok? ==>
        r == Ok(NamedList.FindFirst(ConvertAll(old(integrations)).value, DefName, name))
        && integrations == AsEntries(ConvertAll(old(integrations)).value)
      ensures ConvertAll(old(integrations)).Err? ==>
        r == Err(ConvertAll(old(integrations)).error) && integrations == old(integrations)
    {
      var err := EnsureModels();
      if err.Some? {
        return Err(err.value);
      }
      var found := FirstDefinition(integrations, ConvertAll(old(integrations)).value, name);
      return Ok(found);
    }
  }

  /** The search `find` runs over converted entries: the first definition with the name. */
  method FirstDefinition(entries: seq<Entry>, ghost defs: seq<IntegrationDefinition>, name: string) returns (r: Option<IntegrationDefinition>)
    requires entries == AsEntries(defs)
    ensures r == NamedList.FindFirst(defs, DefName, name)
  {
    var i := 0;
    while i < |entries|
      invariant 0 <= i <= |entries|
      invariant forall j :: 0 <= j < i ==> defs[j].name != name
    {
      if entries[i].definition.name == name {
        return Some(entries[i].definition);
      }
      i := i + 1;
    }
    return None;
  }

  /** After a successful upsert of `d`, finding `d.name` gives `d`. */
  lemma UpsertThenFind(defs: seq<IntegrationDefinition>, d: IntegrationDefinition)
    ensures ConvertAll(AsEntries(NamedList.Upsert(defs, DefName, d))) == Ok(NamedList.Upsert(defs, DefName, d))
    ensures NamedList.FindFirst(NamedList.Upsert(defs, DefName, d), DefName, d.name) == Some(d)
  {
    ConvertAllOfDefinitions(NamedList.Upsert(defs, DefName, d));
    NamedList.FindAfterUpsert(defs, DefName, d);
  }

  datatype IntegrationCallRequest = IntegrationCallRequest(name: Value, callable: Value, kwargs: map<string, Value>, mode: string, verifySig: Value)

  /**
   * The keyword-argument rule: `None`, falsy and non-dictionary values give
   * `{}`; a dictionary whose only key is `kwargs` holding a dictionary is
   * unwrapped once; any other dictionary is kept.
   */
  function UnwrapKwargs(v: Value): (m: map<string, Value>)
    ensures !v.Dict? ==> m == map[]
    ensures v.Dict? && |v.entries| == 1 && "kwargs" in v.entries && v.entries["kwargs"].Dict? ==> m == v.entries["kwargs"].entries
    ensures v.Dict? && !(|v.entries| == 1 && "kwargs" in v.entries && v.entries["kwargs"].Dict?) ==> m == v.entries
  {
    var kw := if Truthy(v) && v.Dict? then v.entries else map[];
    if "kwargs" in kw && |kw| == 1 && kw["kwargs"].Dict? then kw["kwargs"].entries else kw
  }

  /** Unwrapping happens once: a wrapped `{"kwargs": {...}}` inside the wrapper is kept as it is. */
  lemma UnwrapKwargsOnce(inner: map<string, Value>)
    ensures UnwrapKwargs(Dict(map["kwargs" := Dict(inner)])) == inner
    ensures UnwrapKwargs(Dict(map["kwargs" := Dict(map["kwargs" := Dict(inner)])])) == map["kwargs" := Dict(inner)]
  {
    assert |map["kwargs" := Dict(inner)]| == 1 by {
      assert map["kwargs" := Dict(inner)].Keys == {"kwargs"};
    }
    assert |map["kwargs" := Dict(map["kwargs" := Dict(inner)])]| == 1 by {
      assert map["kwargs" := Dict(map["kwargs" := Dict(inner)])].Keys == {"kwargs"};
    }
  }

  /**
   * `IntegrationCallRequest(**data)`: the keyword arguments follow
   * `UnwrapKwargs`, and the mode is stripped with `inproc` for an absent,
   * falsy or blank mode.
   */
  function NewIntegrationCallRequest(data: map<string, Value>): (r: Result<IntegrationCallRequest, Exception>)
    ensures r.Ok? <==> StripOr(GetOr(data, "mode", Str("inproc")), "inproc").Ok?
    ensures r.Ok? ==> r.value.kwargs == UnwrapKwargs(Get(data, "kwargs"))
    ensures r.Ok? ==> r.value.mode != "" && r.value.mode == StripOr(GetOr(data, "mode", Str("inproc")), "inproc").value
    ensures r.Ok? ==> r.value.name == Get(data, "name") && r.value.callable == Get(data, "callable")
    ensures r.Ok? ==> r.value.verifySig == GetOr(data, "verify_sig", Bool(true))
  {
    match StripOr(GetOr(data, "mode", Str("inproc")), "inproc")
    case Err(e) => Err(e)
    case Ok(mode) =>
      Ok(IntegrationCallRequest(Get(data, "name"), Get(data, "callable"), UnwrapKwargs(Get(data, "kwargs")), mode,
        GetOr(data, "verify_sig", Bool(true))))
  }

  /** An absent or blank mode becomes `inproc`, and a mode that is a non-blank string is stripped. */
  lemma CallRequestMode(data: map<string, Value>)
    ensures "mode" !in data ==> NewIntegrationCallRequest(data).value.mode == "inproc"
    ensures "mode" in data && data["mode"].Str? && Strip(data["mode"].s) == "" ==> NewIntegrationCallRequest(data).value.mode == "inproc"
    ensures "mode" in data && data["mode"].Str? && Strip(data["mode"].s) != "" ==> NewIntegrationCallRequest(data).value.mode == Strip(data["mode"].s)
  {
    assert IsStripped("inproc");
    StripOrCases(GetOr(data, "mode", Str("inproc")), "inproc");
  }
}

=== FILE: messages_manager.dfy ===
/**
 * The manager's messages: the definition of a callable tool, the registry of
 * tools keyed by name, the request of the manager's `/run` endpoint and the
 * result it returns.
 *
 * A tool definition is built from typed arguments: the data-model stand-in
 * performs no type coercion, so the fields are taken to hold the types they
 * are annotated with.
 */
module MessagesManager {
  import opened Wrappers
  import opened Text
  import opened PyValue
  import NamedList

  datatype ToolDefinition = ToolDefinition(name: string, verb: string, path: string, params: seq<string>, desc: string)

  /** The `params` argument of a tool definition: a comma-separated text, a list, or absent (or `None`). */
  datatype ParamsArg = ParamsText(text: string) | ParamsList(items: seq<string>) | ParamsAbsent

  /** The key of a tool in a registry. */
  function ToolName(t: ToolDefinition): string
  {
    t.name
  }

  /** A string as its own key, to filter out empty strings. */
  function Itself(s: string): string
  {
    s
  }

  /** `[p for p in xs if p]`. */
  function DropEmpty(xs: seq<string>): (r: seq<string>)
    ensures forall i :: 0 <= i < |r| ==> r[i] != "" && r[i] in xs
    ensures forall i :: 0 <= i < |xs| && xs[i] != "" ==> xs[i] in r
  {
    NamedList.WithoutKeys(xs, Itself, {""})
  }

  /** The parameter list the constructor ends with, before empty entries are dropped. */
  function ParamsOf(params: ParamsArg): seq<string>
  {
    match params
    case ParamsText(text) => SplitStripped(text, ',')
    case ParamsList(items) => items
    case ParamsAbsent => []
  }

  /**
   * `ToolDefinition(**data)`: a text `params` is split on `,` with each part
   * stripped and empty parts dropped; the method defaults to `GET` when
   * absent or empty and is upper-cased; empty parameter names are dropped.
   */
  function NewToolDefinition(name: string, verb: Option<string>, path: string, params: ParamsArg, desc: string): (t: ToolDefinition)
    ensures t.name == name && t.path == path && t.desc == desc
    ensures t.verb != "" && Upper(t.verb) == t.verb
    ensures verb.Some? && verb.value != "" ==> t.verb == Upper(verb.value) && Lower(t.verb) == Lower(verb.value)
    ensures verb.None? || verb.value == "" ==> t.verb == "GET"
    ensures forall i :: 0 <= i < |t.params| ==> t.params[i] != ""
    ensures params.ParamsText? ==> t.params == SplitStripped(params.text, ',')
    ensures params.ParamsList? ==> t.params == DropEmpty(params.items)
    ensures params.ParamsAbsent? ==> t.params == []
  {
    var v := if verb.None? || verb.value == "" then "GET" else verb.value;
    UpperIdempotent(v);
    LowerOfUpper(v);
    assert Upper("GET") == "GET" by {
      assert Upper("GET")[0] == 'G' && Upper("GET")[1] == 'E' && Upper("GET")[2] == 'T';
    }
    var ps := ParamsOf(params);
    assert params.ParamsText? ==> DropEmpty(ps) == ps by {
      if params.ParamsText? {
        NamedList.WithoutKeysKeeps(ps, Itself, {""});
      }
    }
    assert params.ParamsAbsent? ==> DropEmpty(ps) == [];
    ToolDefinition(name, Upper(v), path, DropEmpty(ps), desc)
  }

  /** Whether a tool definition is in the form the constructor produces. */
  predicate Normalised(t: ToolDefinition)
  {
    t.verb != "" && Upper(t.verb) == t.verb && forall i :: 0 <= i < |t.params| ==> t.params[i] != ""
  }

  /** Building a definition from the fields of a normalised one gives it back. */
  lemma NewToolDefinitionIdempotent(t: ToolDefinition)
    requires Normalised(t)
    ensures NewToolDefinition(t.name, Some(t.verb), t.path, ParamsList(t.params), t.desc) == t
  {
    NamedList.WithoutKeysKeeps(t.params, Itself, {""});
  }

  /**
   * Parameter names that are stripped and free of commas survive being
   * written as a comma-separated text and read back.
   */
  lemma ParamsTextRoundTrip(t: ToolDefinition)
    requires Normalised(t) && t.params != []
    requires forall i :: 0 <= i < |t.params| ==> IsStripped(t.params[i]) && ',' !in t.params[i]
    ensures NewToolDefinition(t.name, Some(t.verb), t.path, ParamsText(Join(t.params, ',')), t.desc) == t
  {
    SplitStrippedOfJoin(t.params, ',');
  }

  /** The registry of tools, in registration order. */
  class ToolRegistry {
    var tools: seq<ToolDefinition>

    /** `ToolRegistry()`: no tools. */
    constructor ()
      ensures tools == []
    {
      tools := [];
    }

    /** `ToolRegistry.from_tools(tools)`: the tools in the order given. */
    constructor FromTools(tools: seq<ToolDefinition>)
      ensures this.tools == tools
    {
      this.tools := tools;
    }

    /** `upsert`: every tool with the same name is removed and the new tool is appended last. */
    method Upsert(tool: ToolDefinition)
      modifies this
      ensures tools == NamedList.Upsert(old(tools), ToolName, tool)
    {
      tools := NamedList.WithoutKeys(tools, ToolName, {tool.name}) + [tool];
    }

    /** `find`: the first tool with the name, or `None`. */
    method Find(name: string) returns (r: Option<ToolDefinition>)
      ensures r == NamedList.FindFirst(tools, ToolName, name)
    {
      var i := 0;
      while i < |tools|
        invariant 0 <= i <= |tools|
        invariant forall j :: 0 <= j < i ==> tools[j].name != name
      {
        if tools[i].name == name {
          return Some(tools[i]);
        }
        i := i + 1;
      }
      return None;
    }

    /** `names`: the tool names in registry order. */
    function Names(): (r: seq<string>)
      reads this
      ensures |r| == |tools|
      ensures forall i :: 0 <= i < |tools| ==> r[i] == tools[i].name
    {
      NamedList.KeysOf(tools, ToolName)
    }
  }

  /** After `upsert(t)`, `find(t.name)` returns `t` and the other names find what they found before. */
  lemma UpsertThenFind(tools: seq<ToolDefinition>, t: ToolDefinition, name: string)
    ensures NamedList.FindFirst(NamedList.Upsert(tools, ToolName, t), ToolName, t.name) == Some(t)
    ensures name != t.name ==>
      NamedList.FindFirst(NamedList.Upsert(tools, ToolName, t), ToolName, name) == NamedList.FindFirst(tools, ToolName, name)
  {
    NamedList.FindAfterUpsert(tools, ToolName, t);
    if name != t.name {
      NamedList.UpsertKeepsOthers(tools, ToolName, t, name);
    }
  }

  datatype ManagerRunRequest = ManagerRunRequest(goal: string, inputs: map<string, Value>, metadata: map<string, Value>)

  /** `data.get(k) or {}`, with anything but a dictionary replaced by `{}`. */
  function DictOrEmpty(data: map<string, Value>, k: string): (m: map<string, Value>)
    ensures k in data && data[k].Dict? ==> m == data[k].entries
    ensures !(k in data && data[k].Dict?) ==> m == map[]
  {
    var v := Get(data, k);
    if v.Dict? then v.entries else map[]
  }

  /**
   * `ManagerRunRequest(**data)`: `inputs` and `metadata` that are not
   * dictionaries become `{}`, and the goal is stripped (`None` or absent
   * gives ""); a goal that is neither falsy nor a string has no `strip` and
   * raises `AttributeError`.
   */
  function NewManagerRunRequest(data: map<string, Value>): (r: Result<ManagerRunRequest, Exception>)
    ensures r.Ok? <==> !Truthy(Get(data, "goal")) || Get(data, "goal").Str?
    ensures r.Ok? ==> IsStripped(r.value.goal)
    ensures r.Ok? && Get(data, "goal").Str? ==> r.value.goal == Strip(Get(data, "goal").s)
    ensures r.Ok? && !Truthy(Get(data, "goal")) ==> r.value.goal == ""
    ensures r.Ok? ==> r.value.inputs == DictOrEmpty(data, "inputs") && r.value.metadata == DictOrEmpty(data, "metadata")
    ensures r.Err? ==> r.error == AttributeError(NoStripMessage(Get(data, "goal")))
  {
    var g := Get(data, "goal");
    StripOrCases(g, "");
    match StripOr(g, "")
    case Ok(goal) => Ok(ManagerRunRequest(goal, DictOrEmpty(data, "inputs"), DictOrEmpty(data, "metadata")))
    case Err(e) => Err(e)
  }

  /** A request rebuilt from its own fields is the same request. */
  lemma ManagerRunRequestIdempotent(data: map<string, Value>)
    requires NewManagerRunRequest(data).Ok?
    ensures var q := NewManagerRunRequest(data).value;
      NewManagerRunRequest(map["goal" := Str(q.goal), "inputs" := Dict(q.inputs), "metadata" := Dict(q.metadata)]) == Ok(q)
  {
    var q := NewManagerRunRequest(data).value;
    var again := map["goal" := Str(q.goal), "inputs" := Dict(q.inputs), "metadata" := Dict(q.metadata)];
    assert Get(again, "goal") == Str(q.goal);
    assert IsStripped(q.goal);
    StripOrOfStripped(q.goal, "");
    assert StripOr(Get(again, "goal"), "") == Ok(q.goal);
    assert DictOrEmpty(again, "inputs") == q.inputs && DictOrEmpty(again, "metadata") == q.metadata;
  }

  /** The manager's result. */
  class ManagerRunResult {
    var goal: string
    var tool: Option<string>
    var query: map<string, Value>
    var result: Value
    var error: Option<string>
    var message: Option<string>
    var knownTools: Option<ToolRegistry>

    /** A result with every field at its default. */
    constructor ()
      ensures goal == "" && tool.None? && query == map[] && result == Null
      ensures error.None? && message.None? && knownTools.None?
    {
      goal := "";
      tool := None;
      query := map[];
      result := Null;
      error := None;
      message := None;
      knownTools := None;
    }

    /** `set_known_tools`: records the registry and returns the same result object. */
    method SetKnownTools(registry: ToolRegistry) returns (r: ManagerRunResult)
      modifies this
      ensures r == this
      ensures knownTools == Some(registry)
      ensures goal == old(goal) && tool == old(tool) && query == old(query) && result == old(result)
      ensures error == old(error) && message == old(message)
    {
      knownTools := Some(registry);
      return this;
    }
  }
}

=== FILE: messages_orchestrator.dfy ===
/**
 * The orchestrator's messages: the description of a capability a module
 * exposes, and the registry that collects them in the order they are added.
 *
 * As for the other messages, the keyword arguments are a dictionary of
 * Python values and the data-model stand-in performs no type coercion: a
 * field that is not a string reaches `.strip()` as it is.
 */
module MessagesOrchestrator {
  import opened Wrappers
  import opened Text
  import opened PyValue

  /** A capability; `name` is stored as given, the other fields are stripped. */
  datatype Capability = Capability(name: Value, kind: string, endpoint: string, description: string)

  /**
   * `Capability(**data)`: the kind is `(kind or "webhook").strip() or
   * "webhook"`, then the endpoint and the description are stripped, each
   * defaulting to "". The first field that cannot be stripped raises
   * `AttributeError`.
   */
  function NewCapability(data: map<string, Value>): (r: Result<Capability, Exception>)
    ensures r.Ok? <==> (StripOr(GetOr(data, "kind", Str("webhook")), "webhook").Ok?
      && GetOr(data, "endpoint", Str("")).Str? && GetOr(data, "description", Str("")).Str?)
    ensures r.Ok? ==> r.value.name == Get(data, "name")
    ensures r.Ok? ==> r.value.kind != "" && r.value.kind == StripOr(GetOr(data, "kind", Str("webhook")), "webhook").value
    ensures r.Ok? ==> (r.value.endpoint == Strip(GetOr(data, "endpoint", Str("")).s)
      && r.value.description == Strip(GetOr(data, "description", Str("")).s))
    ensures StripOr(GetOr(data, "kind", Str("webhook")), "webhook").Err? ==>
      r == Err(AttributeError(NoStripMessage(GetOr(data, "kind", Str("webhook")))))
    ensures (StripOr(GetOr(data, "kind", Str("webhook")), "webhook").Ok? && !GetOr(data, "endpoint", Str("")).Str?) ==>
      r == Err(AttributeError(NoStripMessage(GetOr(data, "endpoint", Str("")))))
  {
    var kind := StripOr(GetOr(data, "kind", Str("webhook")), "webhook");
    var endpoint := StripValue(GetOr(data, "endpoint", Str("")));
    var description := StripValue(GetOr(data, "description", Str("")));
    if kind.Err? then Err(kind.error)
    else if endpoint.Err? then Err(endpoint.error)
    else if description.Err? then Err(description.error)
    else Ok(Capability(Get(data, "name"), kind.value, endpoint.value, description.value))
  }

  /** Whether a capability is in the form the constructor produces. */
  predicate Normalised(c: Capability)
  {
    c.kind != "" && IsStripped(c.kind) && IsStripped(c.endpoint) && IsStripped(c.description)
  }

  /** The fields of a capability as keyword arguments. */
  function FieldsOf(c: Capability): map<string, Value>
  {
    map["name" := c.name, "kind" := Str(c.kind), "endpoint" := Str(c.endpoint), "description" := Str(c.description)]
  }

  /** Looking up the keyword arguments of a capability gives its fields back. */
  lemma FieldsOfGet(c: Capability)
    ensures Get(FieldsOf(c), "name") == c.name
    ensures GetOr(FieldsOf(c), "kind", Str("webhook")) == Str(c.kind)
    ensures GetOr(FieldsOf(c), "endpoint", Str("")) == Str(c.endpoint)
    ensures GetOr(FieldsOf(c), "description", Str("")) == Str(c.description)
  {
  }

  /** Every capability the constructor builds is normalised. */
  lemma NewCapabilityNormalised(data: map<string, Value>)
    ensures NewCapability(data).Ok? ==> Normalised(NewCapability(data).value)
  {
    var kind := GetOr(data, "kind", Str("webhook"));
    var endpoint := GetOr(data, "endpoint", Str(""));
    var description := GetOr(data, "description", Str(""));
    assert IsStripped("webhook");
    StripOrCases(kind, "webhook");
    if endpoint.Str? {
      StripIsStripped(endpoint.s);
    }
    if description.Str? {
      StripIsStripped(description.s);
    }
  }

  /** Rebuilding a normalised capability from its own fields gives it back unchanged. */
  lemma NewCapabilityIdempotent(c: Capability)
    requires Normalised(c)
    ensures NewCapability(FieldsOf(c)) == Ok(c)
  {
    var d := FieldsOf(c);
    FieldsOfGet(c);
    assert IsStripped("webhook");
    assert StripOr(GetOr(d, "kind", Str("webhook")), "webhook") == Ok(c.kind) by {
      StripOrOfStripped(c.kind, "webhook");
    }
    assert StripValue(GetOr(d, "endpoint", Str(""))) == Ok(c.endpoint) by {
      StripValueOfStripped(c.endpoint);
    }
    assert StripValue(GetOr(d, "description", Str(""))) == Ok(c.description) by {
      StripValueOfStripped(c.description);
    }
  }

  /** The registry of capabilities, in the order they were added. */
  class CapabilityRegistry {
    var capabilities: seq<Capability>

    /** `CapabilityRegistry()`: the default factory gives an empty list. */
    constructor ()
      ensures capabilities == []
    {
      capabilities := [];
    }

    /** Whether every capability held is normalised. */
    predicate Valid()
      reads this
    {
      forall i :: 0 <= i < |capabilities| ==> Normalised(capabilities[i])
    }

    /** `add`: the capability is appended; nothing is replaced or deduplicated. */
    method Add(capability: Capability)
      modifies this
      ensures capabilities == old(capabilities) + [capability]
      ensures old(Valid()) && Normalised(capability) ==> Valid()
    {
      capabilities := capabilities + [capability];
    }
  }
}

=== FILE: named_list.dfy ===
/**
 * Lists of entries keyed by a name, as the registries keep them: dropping
 * every entry whose key is in a set, finding the first (or the last) entry
 * with a key, and the upsert that removes every entry with the new entry's
 * key and appends the new entry last.
 *
 * The key of an entry is given by a function, so the same definitions serve
 * typed records (`t.name`) and raw dictionaries (`x.get("name")`).
 */
module NamedList {
  import opened Wrappers

  /** `[x for x in xs if key(x) not in ks]`. */
  function WithoutKeys<T, K(==)>(xs: seq<T>, keyOf: T -> K, ks: set<K>): (r: seq<T>)
    ensures |r| <= |xs|
    ensures forall i :: 0 <= i < |r| ==> keyOf(r[i]) !in ks
    ensures forall i :: 0 <= i < |r| ==> r[i] in xs
    ensures forall i :: 0 <= i < |xs| && keyOf(xs[i]) !in ks ==> xs[i] in r
  {
    if xs == [] then []
    else
      assert xs == [xs[0]] + xs[1..];
      (if keyOf(xs[0]) in ks then [] else [xs[0]]) + WithoutKeys(xs[1..], keyOf, ks)
  }

  /** Dropping from a list with a known first entry. */
  lemma WithoutKeysCons<T, K>(x: T, rest: seq<T>, keyOf: T -> K, ks: set<K>)
    ensures WithoutKeys([x] + rest, keyOf, ks) == (if keyOf(x) in ks then [] else [x]) + WithoutKeys(rest, keyOf, ks)
  {
    assert ([x] + rest)[0] == x;
    assert ([x] + rest)[1..] == rest;
  }

  /** Dropping distributes over concatenation: the kept entries stay in their order. */
  lemma {:induction false} WithoutKeysConcat<T, K>(a: seq<T>, b: seq<T>, keyOf: T -> K, ks: set<K>)
    ensures WithoutKeys(a + b, keyOf, ks) == WithoutKeys(a, keyOf, ks) + WithoutKeys(b, keyOf, ks)
  {
    if a != [] {
      var head := if keyOf(a[0]) in ks then [] else [a[0]];
      var wa, wb := WithoutKeys(a[1..], keyOf, ks), WithoutKeys(b, keyOf, ks);
      calc {
        WithoutKeys(a + b, keyOf, ks);
        { assert a + b == [a[0]] + (a[1..] + b);
          WithoutKeysCons(a[0], a[1..] + b, keyOf, ks); }
        head + WithoutKeys(a[1..] + b, keyOf, ks);
        { WithoutKeysConcat(a[1..], b, keyOf, ks); }
        head + (wa + wb);
        (head + wa) + wb;
        { assert [a[0]] + a[1..] == a;
          WithoutKeysCons(a[0], a[1..], keyOf, ks); }
        WithoutKeys(a, keyOf, ks) + wb;
      }
    } else {
      assert a + b == b;
    }
  }

  /** A list holding none of the keys is left as it is. */
  lemma {:induction false} WithoutKeysKeeps<T, K>(xs: seq<T>, keyOf: T -> K, ks: set<K>)
    requires forall i :: 0 <= i < |xs| ==> keyOf(xs[i]) !in ks
    ensures WithoutKeys(xs, keyOf, ks) == xs
  {
    if xs != [] {
      WithoutKeysKeeps(xs[1..], keyOf, ks);
    }
  }

  /** No two entries share a key. */
  predicate UniqueKeys<T, K(==)>(xs: seq<T>, keyOf: T -> K)
  {
    forall i, j :: 0 <= i < j < |xs| ==> keyOf(xs[i]) != keyOf(xs[j])
  }

  /** Dropping entries keeps the keys of a list unique. */
  lemma {:induction false} WithoutKeysUnique<T, K>(xs: seq<T>, keyOf: T -> K, ks: set<K>)
    requires UniqueKeys(xs, keyOf)
    ensures UniqueKeys(WithoutKeys(xs, keyOf, ks), keyOf)
  {
    if xs != [] {
      var tail := xs[1..];
      assert UniqueKeys(tail, keyOf) by {
        forall i, j | 0 <= i < j < |tail| ensures keyOf(tail[i]) != keyOf(tail[j]) {
          assert tail[i] == xs[i + 1] && tail[j] == xs[j + 1];
        }
      }
      WithoutKeysUnique(tail, keyOf, ks);
      var rest := WithoutKeys(tail, keyOf, ks);
      if keyOf(xs[0]) !in ks {
        forall i | 0 <= i < |rest| ensures keyOf(rest[i]) != keyOf(xs[0]) {
          var j :| 0 <= j < |tail| && tail[j] == rest[i];
          assert tail[j] == xs[j + 1];
        }
        var r := [xs[0]] + rest;
        forall i, j | 0 <= i < j < |r| ensures keyOf(r[i]) != keyOf(r[j]) {
          assert r[j] == rest[j - 1];
          if i > 0 {
            assert r[i] == rest[i - 1];
          }
        }
      } else {
        assert [] + rest == rest;
      }
    }
  }

  /** An upsert keeps the keys of a list unique. */
  lemma UpsertUnique<T, K>(xs: seq<T>, keyOf: T -> K, t: T)
    requires UniqueKeys(xs, keyOf)
    ensures UniqueKeys(Upsert(xs, keyOf, t), keyOf)
  {
    WithoutKeysUnique(xs, keyOf, {keyOf(t)});
  }

  /** The number of entries whose key is `k`. */
  function CountKey<T, K(==)>(xs: seq<T>, keyOf: T -> K, k: K): (n: nat)
    ensures n <= |xs|
    ensures n == 0 <==> forall i :: 0 <= i < |xs| ==> keyOf(xs[i]) != k
  {
    if xs == [] then 0
    else
      assert forall i :: 1 <= i < |xs| ==> xs[i] == xs[1..][i - 1];
      (if keyOf(xs[0]) == k then 1 else 0) + CountKey(xs[1..], keyOf, k)
  }

  /** Dropping one key removes exactly the entries that hold it. */
  lemma {:induction false} WithoutKeyCount<T, K>(xs: seq<T>, keyOf: T -> K, k: K)
    ensures |WithoutKeys(xs, keyOf, {k})| == |xs| - CountKey(xs, keyOf, k)
  {
    if xs != [] {
      WithoutKeyCount(xs[1..], keyOf, k);
    }
  }

  /** The position of the first entry with key `k`, if any. */
  function FirstIndex<T, K(==)>(xs: seq<T>, keyOf: T -> K, k: K): (r: Option<nat>)
    ensures r.None? <==> forall i :: 0 <= i < |xs| ==> keyOf(xs[i]) != k
    ensures r.Some? ==> r.value < |xs| && keyOf(xs[r.value]) == k
    ensures r.Some? ==> forall j :: 0 <= j < r.value ==> keyOf(xs[j]) != k
  {
    if xs == [] then None
    else if keyOf(xs[0]) == k then Some(0)
    else
      assert forall i :: 1 <= i < |xs| ==> xs[i] == xs[1..][i - 1];
      match FirstIndex(xs[1..], keyOf, k)
      case None => None
      case Some(i) => Some(i + 1)
  }

  /** The first entry with key `k`, or `None`. */
  function FindFirst<T, K(==)>(xs: seq<T>, keyOf: T -> K, k: K): (r: Option<T>)
    ensures r.None? <==> forall i :: 0 <= i < |xs| ==> keyOf(xs[i]) != k
    ensures r.Some? ==> keyOf(r.value) == k && r.value in xs
  {
    match FirstIndex(xs, keyOf, k)
    case None => None
    case Some(i) => Some(xs[i])
  }

  /** The entry a dictionary comprehension `{key(x): x for x in xs}` keeps for `k`: the last one. */
  function FindLast<T, K(==)>(xs: seq<T>, keyOf: T -> K, k: K): (r: Option<T>)
    ensures r.None? <==> forall i :: 0 <= i < |xs| ==> keyOf(xs[i]) != k
    ensures r.Some? ==> keyOf(r.value) == k && r.value in xs
  {
    if xs == [] then None
    else if keyOf(xs[|xs| - 1]) == k then Some(xs[|xs| - 1])
    else
      assert forall i :: 0 <= i < |xs| - 1 ==> xs[i] == xs[..|xs| - 1][i];
      FindLast(xs[..|xs| - 1], keyOf, k)
  }

  /** With at most one entry per key, the first and the last entry with a key are the same. */
  lemma {:induction false} FindFirstIsLast<T, K>(xs: seq<T>, keyOf: T -> K, k: K)
    requires CountKey(xs, keyOf, k) <= 1
    ensures FindFirst(xs, keyOf, k) == FindLast(xs, keyOf, k)
  {
    if xs != [] {
      var init := xs[..|xs| - 1];
      var last := xs[|xs| - 1];
      CountKeyConcat(init, [last], keyOf, k);
      assert init + [last] == xs;
      FindFirstConcat(init, [last], keyOf, k);
      FindFirstIsLast(init, keyOf, k);
    }
  }

  /** The count over a concatenation is the sum of the counts. */
  lemma {:induction false} CountKeyConcat<T, K>(a: seq<T>, b: seq<T>, keyOf: T -> K, k: K)
    ensures CountKey(a + b, keyOf, k) == CountKey(a, keyOf, k) + CountKey(b, keyOf, k)
  {
    if a != [] {
      CountKeyConcat(a[1..], b, keyOf, k);
      assert (a + b)[1..] == a[1..] + b;
    } else {
      assert a + b == b;
    }
  }

  /** The first match in a concatenation is the first match in its left part, if there is one. */
  lemma {:induction false} FindFirstConcat<T, K>(a: seq<T>, b: seq<T>, keyOf: T -> K, k: K)
    ensures FindFirst(a + b, keyOf, k) == if FindFirst(a, keyOf, k).Some? then FindFirst(a, keyOf, k) else FindFirst(b, keyOf, k)
  {
    if a == [] {
      assert a + b == b;
    } else {
      FindFirstConcat(a[1..], b, keyOf, k);
      assert (a + b)[1..] == a[1..] + b;
      assert (a + b)[0] == a[0];
      FindFirstTail(a, keyOf, k);
      FindFirstTail(a + b, keyOf, k);
    }
  }

  /** Unfolding of `FindFirst` at the head of a list. */
  lemma FindFirstTail<T, K>(xs: seq<T>, keyOf: T -> K, k: K)
    requires xs != []
    ensures FindFirst(xs, keyOf, k) == if keyOf(xs[0]) == k then Some(xs[0]) else FindFirst(xs[1..], keyOf, k)
  {
    if keyOf(xs[0]) != k {
      match FirstIndex(xs[1..], keyOf, k)
      case None =>
      case Some(i) => assert xs[1..][i] == xs[i + 1];
    }
  }

  /** Dropping other keys does not change which entry is found first. */
  lemma {:induction false} FindFirstWithout<T, K>(xs: seq<T>, keyOf: T -> K, ks: set<K>, k: K)
    requires k !in ks
    ensures FindFirst(WithoutKeys(xs, keyOf, ks), keyOf, k) == FindFirst(xs, keyOf, k)
  {
    if xs != [] {
      var head := if keyOf(xs[0]) in ks then [] else [xs[0]];
      FindFirstWithout(xs[1..], keyOf, ks, k);
      FindFirstConcat(head, WithoutKeys(xs[1..], keyOf, ks), keyOf, k);
      FindFirstTail(xs, keyOf, k);
      if head != [] {
        FindFirstTail(head, keyOf, k);
      }
    }
  }

  /** `upsert`: every entry with the new entry's key is removed, and the new entry is appended last. */
  function Upsert<T, K(==)>(xs: seq<T>, keyOf: T -> K, t: T): (r: seq<T>)
    ensures |r| >= 1 && r[|r| - 1] == t
    ensures forall i :: 0 <= i < |r| - 1 ==> keyOf(r[i]) != keyOf(t)
    ensures forall i :: 0 <= i < |r| - 1 ==> r[i] in xs
    ensures forall i :: 0 <= i < |xs| && keyOf(xs[i]) != keyOf(t) ==> xs[i] in r
  {
    WithoutKeys(xs, keyOf, {keyOf(t)}) + [t]
  }

  /** After an upsert, the entry found under its key is the new entry. */
  lemma FindAfterUpsert<T, K>(xs: seq<T>, keyOf: T -> K, t: T)
    ensures FindFirst(Upsert(xs, keyOf, t), keyOf, keyOf(t)) == Some(t)
    ensures FindLast(Upsert(xs, keyOf, t), keyOf, keyOf(t)) == Some(t)
  {
    var rest := WithoutKeys(xs, keyOf, {keyOf(t)});
    FindFirstConcat(rest, [t], keyOf, keyOf(t));
    FindFirstTail([t], keyOf, keyOf(t));
  }

  /** An upsert leaves the lookup of every other key as it was. */
  lemma UpsertKeepsOthers<T, K>(xs: seq<T>, keyOf: T -> K, t: T, k: K)
    requires k != keyOf(t)
    ensures FindFirst(Upsert(xs, keyOf, t), keyOf, k) == FindFirst(xs, keyOf, k)
  {
    var rest := WithoutKeys(xs, keyOf, {keyOf(t)});
    FindFirstConcat(rest, [t], keyOf, k);
    FindFirstWithout(xs, keyOf, {keyOf(t)}, k);
  }

  /** After an upsert exactly one entry holds the new entry's key. */
  lemma UpsertUniqueKey<T, K>(xs: seq<T>, keyOf: T -> K, t: T)
    ensures CountKey(Upsert(xs, keyOf, t), keyOf, keyOf(t)) == 1
  {
    var rest := WithoutKeys(xs, keyOf, {keyOf(t)});
    CountKeyConcat(rest, [t], keyOf, keyOf(t));
  }

  /** Upserting the same entry twice is the same as upserting it once. */
  lemma UpsertIdempotent<T, K>(xs: seq<T>, keyOf: T -> K, t: T)
    ensures Upsert(Upsert(xs, keyOf, t), keyOf, t) == Upsert(xs, keyOf, t)
  {
    var rest := WithoutKeys(xs, keyOf, {keyOf(t)});
    WithoutKeysConcat(rest, [t], keyOf, {keyOf(t)});
    WithoutKeysKeeps(rest, keyOf, {keyOf(t)});
  }

  /** The keys of the entries, in list order. */
  function KeysOf<T, K(==)>(xs: seq<T>, keyOf: T -> K): (r: seq<K>)
    ensures |r| == |xs|
    ensures forall i :: 0 <= i < |xs| ==> r[i] == keyOf(xs[i])
  {
    seq(|xs|, i requires 0 <= i < |xs| => keyOf(xs[i]))
  }

  /** The keys after an upsert are those of the other entries in their order, then the new key. */
  lemma KeysOfUpsert<T, K>(xs: seq<T>, keyOf: T -> K, t: T)
    ensures KeysOf(Upsert(xs, keyOf, t), keyOf) == KeysOf(WithoutKeys(xs, keyOf, {keyOf(t)}), keyOf) + [keyOf(t)]
  {
  }
}

=== FILE: orchestrator.dfy ===
/**
 * The orchestrator module's capability file `capabilities.json`: the list
 * of registered capabilities that `cap_register` and `cap_delete` rewrite.
 *
 * The file is the state of a `CapabilityFile` object; each entry is the
 * record `cap_register` writes.
 */
module Orchestrator {
  import opened Wrappers
  import opened PyValue
  import NamedList

  /** An entry of the capability file. */
  datatype CapabilityEntry = CapabilityEntry(name: string, kind: string, endpoint: string, description: string)

  function NameOf(c: CapabilityEntry): string
  {
    c.name
  }

  /** The names a registration replaces: the new name, and the original name when it is given and non-empty. */
  function TargetNames(name: string, originalName: Option<string>): (r: set<string>)
    ensures name in r
    ensures originalName.Some? && originalName.value != "" ==> r == {name, originalName.value}
    ensures originalName.None? || originalName.value == "" ==> r == {name}
  {
    if originalName.Some? && originalName.value != "" then {name, originalName.value} else {name}
  }

  class CapabilityFile {
    var capabilities: seq<CapabilityEntry>

    /** `load_caps` with no file yet: no capabilities. */
    constructor ()
      ensures capabilities == []
    {
      capabilities := [];
    }

    /**
     * `cap_register`: every entry named `name` or `original_name` is
     * removed, the new entry is appended last, and the answer reports the
     * new length of the list.
     */
    method Register(name: string, kind: string, endpoint: string, description: string, originalName: Option<string>)
      returns (r: Value)
      modifies this
      ensures capabilities == NamedList.WithoutKeys(old(capabilities), NameOf, TargetNames(name, originalName))
        + [CapabilityEntry(name, kind, endpoint, description)]
      ensures forall i :: 0 <= i < |capabilities| - 1 ==> capabilities[i].name !in TargetNames(name, originalName)
      ensures forall c :: c in old(capabilities) && c.name !in TargetNames(name, originalName) ==> c in capabilities
      ensures r == Dict(map["ok" := Bool(true), "count" := Int(|capabilities|)])
    {
      var targets := TargetNames(name, originalName);
      capabilities := NamedList.WithoutKeys(capabilities, NameOf, targets) + [CapabilityEntry(name, kind, endpoint, description)];
      r := Dict(map["ok" := Bool(true), "count" := Int(|capabilities|)]);
    }

    /**
     * `cap_delete`: every entry with the name is removed, and the answer
     * reports how many there were.
     */
    method Delete(name: string) returns (r: Value)
      modifies this
      ensures capabilities == NamedList.WithoutKeys(old(capabilities), NameOf, {name})
      ensures forall i :: 0 <= i < |capabilities| ==> capabilities[i].name != name
      ensures r == Dict(map["ok" := Bool(true), "deleted" := Int(NamedList.CountKey(old(capabilities), NameOf, name))])
      ensures NamedList.CountKey(old(capabilities), NameOf, name) == 0 ==> capabilities == old(capabilities)
    {
      var before := |capabilities|;
      NamedList.WithoutKeyCount(capabilities, NameOf, name);
      if NamedList.CountKey(capabilities, NameOf, name) == 0 {
        NamedList.WithoutKeysKeeps(capabilities, NameOf, {name});
      }
      capabilities := NamedList.WithoutKeys(capabilities, NameOf, {name});
      r := Dict(map["ok" := Bool(true), "deleted" := Int(before - |capabilities|)]);
    }
  }

  /** A registration leaves exactly one entry with the new name, and it is the last one. */
  lemma RegisterLeavesOne(caps: seq<CapabilityEntry>, entry: CapabilityEntry, originalName: Option<string>)
    ensures NamedList.CountKey(NamedList.WithoutKeys(caps, NameOf, TargetNames(entry.name, originalName)) + [entry], NameOf, entry.name) == 1
  {
    var rest := NamedList.WithoutKeys(caps, NameOf, TargetNames(entry.name, originalName));
    NamedList.CountKeyConcat(rest, [entry], NameOf, entry.name);
  }

  /** Renaming removes the entry under the original name. */
  lemma RenameRemovesOriginal(caps: seq<CapabilityEntry>, entry: CapabilityEntry, original: string)
    requires original != "" && original != entry.name
    ensures NamedList.CountKey(NamedList.WithoutKeys(caps, NameOf, TargetNames(entry.name, Some(original))) + [entry], NameOf, original) == 0
  {
    var rest := NamedList.WithoutKeys(caps, NameOf, TargetNames(entry.name, Some(original)));
    NamedList.CountKeyConcat(rest, [entry], NameOf, original);
  }
}

=== FILE: py_value.dfy ===
/**
 * The Python values the modules exchange, the exceptions they raise, and the
 * few built-ins the rest of the model needs: truthiness, `str()` and `repr()`.
 *
 * A dictionary is a `map` from string keys, so its insertion order is not
 * represented; `repr` of a dictionary lists its keys in sorted order.
 * Instances of the small `BaseModel` class are `Model` values that carry the
 * class name, the annotated field names in declaration order and the
 * attribute values. A float is represented by its `repr` text (such as
 * `1.5`, `1e+100` or `inf`), which is all the modelled code observes of it.
 */
module PyValue {
  import opened Wrappers
  import opened Text
  import Collections

  /** The `repr` text of a float, which is never empty. */
  type FloatText = t: string | t != [] witness "0.0"

  datatype Value =
    | Null
    | Bool(b: bool)
    | Int(i: int)
    | Float(text: FloatText)
    | Str(s: string)
    | List(items: seq<Value>)
    | Tuple(items: seq<Value>)
    | Dict(entries: map<string, Value>)
    | Model(cls: string, fields: seq<string>, attrs: map<string, Value>)

  /** Exceptions raised by the modelled code; `HTTPException` carries a status and a detail. */
  datatype Exception =
    | HTTPException(status: int, detail: Value)
    | TypeError(msg: string)
    | ValueError(msg: string)
    | KeyError(msg: string)
    | AttributeError(msg: string)
    | RuntimeError(msg: string)
    | SystemExit(msg: string)
    | ValidationError(msg: string)

  /** Python's `bool(v)`. */
  predicate Truthy(v: Value)
  {
    match v
    case Null => false
    case Bool(b) => b
    case Int(i) => i != 0
    case Float(t) => t != "0.0" && t != "-0.0"
    case Str(s) => s != []
    case List(items) => items != []
    case Tuple(items) => items != []
    case Dict(entries) => entries != map[]
    case Model(_, _, _) => true
  }

  /** `d.get(k)` on a dictionary value: `None` when absent. */
  function Get(entries: map<string, Value>, k: string): (r: Value)
    ensures k !in entries ==> r == Null
    ensures k in entries ==> r == entries[k]
  {
    if k in entries then entries[k] else Null
  }

  /** `entries.get(k, d)`: the value under `k`, or `d` when there is none. */
  function GetOr(entries: map<string, Value>, k: string, d: Value): (r: Value)
    ensures k !in entries ==> r == d
    ensures k in entries ==> r == entries[k]
  {
    if k in entries then entries[k] else d
  }

  /** Dictionary update `a.update(b)`: keys of `b` win. */
  function Update(a: map<string, Value>, b: map<string, Value>): (r: map<string, Value>)
    ensures r.Keys == a.Keys + b.Keys
    ensures forall k :: k in b ==> r[k] == b[k]
    ensures forall k :: k in a && k !in b ==> r[k] == a[k]
  {
    a + b
  }

  /** Items joined with `, ` as Python's container reprs do. */
  function CommaJoin(parts: seq<string>): string
  {
    JoinWith(parts, ", ")
  }

  /** The quote `repr` puts around a string: `"` when the text holds `'` but no `"`, otherwise `'`. */
  function QuoteFor(s: string): (q: char)
    ensures q == '"' || q == '\''
    ensures q == '"' <==> '\'' in s && '"' !in s
  {
    if '\'' in s && '"' !in s then '"' else '\''
  }

  /** The lower-case hexadecimal digit of `d`. */
  function HexDigit(d: nat): char
    requires d < 16
  {
    if d < 10 then ('0' as int + d) as char else ('a' as int + d - 10) as char
  }

  /** The value of a lower-case hexadecimal digit. */
  function HexValue(c: char): Option<nat>
  {
    if '0' <= c <= '9' then Some(c as int - '0' as int)
    else if 'a' <= c <= 'f' then Some(c as int - 'a' as int + 10)
    else None
  }

  /**
   * The characters `repr` writes as `\xNN`: the control characters other
   * than tab, newline and carriage return, DEL, and the Latin-1 characters
   * that are not printable (U+0080 to U+00A0 and the soft hyphen U+00AD).
   */
  predicate HexEscaped(c: char)
  {
    (c as int < 0x20 && c != '\t' && c != '\n' && c != '\r') || 0x7f <= c as int <= 0xa0 || c as int == 0xad
  }

  /** Whether `repr` escapes a character whatever the quote: a backslash, tab, newline, carriage return or a `\xNN` character. */
  predicate NeedsEscape(c: char)
  {
    c == '\\' || c == '\t' || c == '\n' || c == '\r' || HexEscaped(c)
  }

  /** A text in which `repr` escapes nothing except, perhaps, the quote. */
  predicate PlainText(s: string)
  {
    forall i :: 0 <= i < |s| ==> !NeedsEscape(s[i])
  }

  /** Plain texts stay plain when joined. */
  lemma PlainConcat(a: string, b: string)
    requires PlainText(a) && PlainText(b)
    ensures PlainText(a + b)
  {
    forall i | 0 <= i < |a + b|
      ensures !NeedsEscape((a + b)[i])
    {
      if i >= |a| {
        assert (a + b)[i] == b[i - |a|];
      }
    }
  }

  /** One character as `repr` writes it between the quotes `q`. */
  function EscapeChar(c: char, q: char): (r: string)
    ensures r != []
    ensures r[0] == '\\' <==> NeedsEscape(c) || c == q
  {
    if c == '\\' || c == q then ['\\', c]
    else if c == '\n' then "\\n"
    else if c == '\r' then "\\r"
    else if c == '\t' then "\\t"
    else if HexEscaped(c) then ['\\', 'x', HexDigit(c as int / 16), HexDigit(c as int % 16)]
    else [c]
  }

  /** The characters of a string as `repr` writes them between the quotes `q`. */
  function Escape(s: string, q: char): string
  {
    if s == [] then [] else EscapeChar(s[0], q) + Escape(s[1..], q)
  }

  /**
   * Python's `repr(s)` of a string: the quote `QuoteFor(s)` chooses, the
   * escaped characters, and the quote again. Characters above U+00A0 other
   * than the soft hyphen are written as they are.
   */
  function StrRepr(s: string): (r: string)
    ensures |r| >= 2 && r[0] == r[|r| - 1] == QuoteFor(s)
    ensures r[1..|r| - 1] == Escape(s, QuoteFor(s))
  {
    var q := QuoteFor(s);
    [q] + Escape(s, q) + [q]
  }

  /** `c` in front of a text that may have failed to read. */
  function Cons(c: char, o: Option<string>): Option<string>
  {
    if o.Some? then Some([c] + o.value) else None
  }

  /** Reads back the text between the quotes of a string repr, undoing its escapes; `None` for a dangling or unknown escape. */
  function Unescape(t: string): Option<string>
    decreases |t|
  {
    if t == [] then Some([])
    else if t[0] != '\\' then Cons(t[0], Unescape(t[1..]))
    else if |t| < 2 then None
    else if t[1] == '\\' || t[1] == '\'' || t[1] == '"' then Cons(t[1], Unescape(t[2..]))
    else if t[1] == 'n' then Cons('\n', Unescape(t[2..]))
    else if t[1] == 'r' then Cons('\r', Unescape(t[2..]))
    else if t[1] == 't' then Cons('\t', Unescape(t[2..]))
    else if t[1] == 'x' && |t| >= 4 && HexValue(t[2]).Some? && HexValue(t[3]).Some? then
      Cons((16 * HexValue(t[2]).value + HexValue(t[3]).value) as char, Unescape(t[4..]))
    else None
  }

  /** Reading back one escaped character. */
  lemma UnescapeChar(c: char, q: char, rest: string)
    requires q == '"' || q == '\''
    ensures Unescape(EscapeChar(c, q) + rest) == Cons(c, Unescape(rest))
  {
    var t := EscapeChar(c, q) + rest;
    if c == '\\' || c == q {
      assert t[2..] == rest;
    } else if c == '\n' || c == '\r' || c == '\t' {
      assert t[2..] == rest;
    } else if HexEscaped(c) {
      var hi, lo := c as int / 16, c as int % 16;
      assert HexValue(HexDigit(hi)) == Some(hi) && HexValue(HexDigit(lo)) == Some(lo);
      assert t[4..] == rest;
    } else {
      assert t[1..] == rest;
    }
  }

  /** The escapes read back to the text they were made from. */
  lemma {:induction false} UnescapeEscape(s: string, q: char)
    requires q == '"' || q == '\''
    ensures Unescape(Escape(s, q)) == Some(s)
  {
    if s != [] {
      UnescapeChar(s[0], q, Escape(s[1..], q));
      UnescapeEscape(s[1..], q);
      assert [s[0]] + s[1..] == s;
    }
  }

  /** Different strings have different reprs: the quote and the escapes determine the text. */
  lemma StrReprInjective(a: string, b: string)
    requires StrRepr(a) == StrRepr(b)
    ensures a == b
  {
    UnescapeEscape(a, QuoteFor(a));
    UnescapeEscape(b, QuoteFor(b));
  }

  /** A text with nothing to escape is written as it is. */
  lemma {:induction false} EscapePlain(s: string, q: char)
    requires forall i :: 0 <= i < |s| ==> !NeedsEscape(s[i]) && s[i] != q
    ensures Escape(s, q) == s
  {
    if s != [] {
      EscapePlain(s[1..], q);
      assert [s[0]] + s[1..] == s;
    }
  }

  /**
   * Without backslashes and control characters, a string's repr is the text
   * in single quotes, or in double quotes when it holds `'` and no `"`.
   */
  lemma StrReprOfPlain(s: string)
    requires PlainText(s)
    ensures '\'' !in s ==> StrRepr(s) == "'" + s + "'"
    ensures '\'' in s && '"' !in s ==> StrRepr(s) == "\"" + s + "\""
  {
    var q := QuoteFor(s);
    if q == '\'' {
      if '\'' !in s {
        EscapePlain(s, q);
      }
    } else {
      EscapePlain(s, q);
    }
  }

  /** Python's `repr(v)`; a string is quoted and escaped, anything else is its `str()`. */
  function Repr(v: Value): (r: string)
    ensures r != []
    ensures v.Str? ==> r == StrRepr(v.s)
    ensures !v.Str? ==> r == PyStr(v)
    decreases v, 1
  {
    if v.Str? then StrRepr(v.s) else PyStr(v)
  }

  /** Python's `str(v)`; a string is returned unchanged. */
  function PyStr(v: Value): (r: string)
    ensures !v.Str? ==> r != []
    ensures v.Str? ==> r == v.s
    ensures v.Null? ==> r == "None"
    ensures v.Bool? ==> r == (if v.b then "True" else "False")
    ensures v.Int? ==> ParseInt(r) == Some(v.i)
    ensures v.Float? ==> r == v.text
    decreases v, 0
  {
    match v
    case Null => "None"
    case Bool(b) => if b then "True" else "False"
    case Int(i) => ParseIntOfString(i); IntToString(i)
    case Float(t) => t
    case Str(s) => s
    case List(items) =>
      "[" + CommaJoin(seq(|items|, k requires 0 <= k < |items| => Repr(items[k]))) + "]"
    case Tuple(items) =>
      "(" + CommaJoin(seq(|items|, k requires 0 <= k < |items| => Repr(items[k])))
        + (if |items| == 1 then ",)" else ")")
    case Dict(entries) =>
      var keys := Collections.SortedSet(entries.Keys);
      "{" + CommaJoin(seq(|keys|, k requires 0 <= k < |keys| => StrRepr(keys[k]) + ": " + Repr(entries[keys[k]]))) + "}"
    case Model(cls, fields, attrs) =>
      cls + "(" + CommaJoin(seq(|fields|, k requires 0 <= k < |fields| =>
        fields[k] + "=" + (if fields[k] in attrs then Repr(attrs[fields[k]]) else "None"))) + ")"
  }

  /**
   * `", ".join(sorted(keys)) or "<none>"`: the names in sorted order, or
   * "<none>" when the join is empty.
   */
  function SortedNames(keys: set<string>): (s: string)
    ensures s != ""
    ensures keys == {} || keys == {""} ==> s == "<none>"
    ensures keys != {} && keys != {""} ==> s == JoinWith(Collections.SortedSet(keys), ", ")
  {
    var sorted := Collections.SortedSet(keys);
    JoinWithEmpty(sorted, ", ");
    assert keys == {""} ==> sorted == [""] by {
      if keys == {""} {
        assert |sorted| == 1 && sorted[0] in keys;
      }
    }
    assert sorted == [""] ==> keys == {""} by {
      if sorted == [""] {
        assert forall x :: x in keys <==> x == "";
      }
    }
    var joined := JoinWith(sorted, ", ");
    if joined == "" then "<none>" else joined
  }

  /**
   * `str(exc)`: the message of an exception. `KeyError` gives the repr of
   * its message, and `HTTPException` gives `str()` of its detail.
   */
  function ExceptionStr(e: Exception): (r: string)
    ensures e.KeyError? ==> r == StrRepr(e.msg) && Unescape(r[1..|r| - 1]) == Some(e.msg)
    ensures e.HTTPException? ==> r == PyStr(e.detail)
    ensures !e.KeyError? && !e.HTTPException? ==> r == e.msg
  {
    match e
    case HTTPException(_, detail) => PyStr(detail)
    case KeyError(msg) => UnescapeEscape(msg, QuoteFor(msg)); StrRepr(msg)
    case TypeError(msg) => msg
    case ValueError(msg) => msg
    case AttributeError(msg) => msg
    case RuntimeError(msg) => msg
    case SystemExit(msg) => msg
    case ValidationError(msg) => msg
  }

  /** A `KeyError` whose message holds `'` but no `"` and nothing else to escape shows the message in double quotes. */
  lemma KeyErrorStrDoubleQuoted(m: string)
    requires PlainText(m) && '\'' in m && '"' !in m
    ensures ExceptionStr(KeyError(m)) == "\"" + m + "\""
  {
    StrReprOfPlain(m);
  }

  /** `str()` of a list whose first item is a string starts with `[` and that string's quote. */
  lemma ListStrStart(items: seq<Value>)
    requires |items| >= 1 && items[0].Str?
    ensures |PyStr(List(items))| >= 2 && PyStr(List(items))[1] == QuoteFor(items[0].s)
  {
    var parts := seq(|items|, k requires 0 <= k < |items| => Repr(items[k]));
    assert parts[0] == StrRepr(items[0].s);
    CommaJoinStart(parts);
    var j := CommaJoin(parts);
    assert PyStr(List(items)) == "[" + j + "]";
    assert PyStr(List(items))[1] == j[0] == parts[0][0];
  }

  /** A comma-joined list starts with its first item. */
  lemma CommaJoinStart(parts: seq<string>)
    requires |parts| >= 1
    ensures |CommaJoin(parts)| >= |parts[0]| && CommaJoin(parts)[..|parts[0]|] == parts[0]
  {
    if |parts| > 1 {
      assert CommaJoin(parts) == parts[0] + (", " + JoinWith(parts[1..], ", "));
    }
  }

  /** `type(v).__name__`. */
  function TypeName(v: Value): string
  {
    match v
    case Null => "NoneType"
    case Bool(_) => "bool"
    case Int(_) => "int"
    case Float(_) => "float"
    case Str(_) => "str"
    case List(_) => "list"
    case Tuple(_) => "tuple"
    case Dict(_) => "dict"
    case Model(cls, _, _) => cls
  }

  /** The message of the `AttributeError` raised by `v.strip()` on a value that is not a string. */
  function NoStripMessage(v: Value): string
  {
    "'" + TypeName(v) + "' object has no attribute 'strip'"
  }

  /** `v.strip()`: only a string has the method; anything else raises `AttributeError`. */
  function StripValue(v: Value): (r: Result<string, Exception>)
    ensures r.Ok? <==> v.Str?
    ensures r.Ok? ==> r.value == Strip(v.s)
    ensures r.Err? ==> r.error == AttributeError(NoStripMessage(v))
  {
    match v
    case Str(s) => Ok(Strip(s))
    case _ => Err(AttributeError(NoStripMessage(v)))
  }

  /** A stripped string strips to itself. */
  lemma StripValueOfStripped(s: string)
    requires IsStripped(s)
    ensures StripValue(Str(s)) == Ok(s)
  {
    StripIsStripped(s);
  }

  /** `(v or d).strip() or d`: a falsy value or a blank string gives the fallback `d`. */
  function StripOr(v: Value, d: string): (r: Result<string, Exception>)
    ensures r.Ok? <==> !Truthy(v) || v.Str?
    ensures r.Ok? && d != "" ==> r.value != ""
  {
    if Truthy(v) && !v.Str? then Err(AttributeError(NoStripMessage(v)))
    else
      var s := if Truthy(v) then Strip(v.s) else Strip(d);
      Ok(if s == "" then d else s)
  }

  /** A string that is not blank is stripped. */
  lemma StripOrOfText(v: Value, d: string)
    requires v.Str? && Strip(v.s) != ""
    ensures StripOr(v, d) == Ok(Strip(v.s))
  {
  }

  /** A falsy value gives the (stripped) fallback. */
  lemma StripOrFalsy(v: Value, d: string)
    requires IsStripped(d) && !Truthy(v)
    ensures StripOr(v, d) == Ok(d)
  {
    StripIsStripped(d);
  }

  /** A blank string gives the (stripped) fallback. */
  lemma StripOrBlank(v: Value, d: string)
    requires IsStripped(d) && v.Str? && Strip(v.s) == ""
    ensures StripOr(v, d) == Ok(d)
  {
    StripIsStripped(d);
  }

  /** A string value comes out stripped when the fallback is. */
  lemma StripOrStripped(v: Value, d: string)
    requires IsStripped(d) && v.Str?
    ensures IsStripped(StripOr(v, d).value)
  {
    if Truthy(v) {
      StripIsStripped(v.s);
    } else {
      StripOrFalsy(v, d);
    }
  }

  /** The cases of `StripOr` with a stripped fallback, together. */
  lemma StripOrCases(v: Value, d: string)
    requires IsStripped(d)
    ensures StripOr(v, d).Ok? ==> IsStripped(StripOr(v, d).value)
    ensures v.Str? && Strip(v.s) != "" ==> StripOr(v, d) == Ok(Strip(v.s))
    ensures !Truthy(v) || (v.Str? && Strip(v.s) == "") ==> StripOr(v, d) == Ok(d)
  {
    if v.Str? {
      StripOrStripped(v, d);
      if Strip(v.s) != "" {
        StripOrOfText(v, d);
      } else {
        StripOrBlank(v, d);
      }
    } else if !Truthy(v) {
      StripOrFalsy(v, d);
    }
  }

  /** A stripped string is its own normal form. */
  lemma StripOrOfStripped(s: string, d: string)
    requires IsStripped(s) && IsStripped(d) && (s != "" || d == "")
    ensures StripOr(Str(s), d) == Ok(s)
  {
    StripIsStripped(s);
    if s == "" {
      StripOrFalsy(Str(s), d);
    }
  }

  /** Normalising an already normalised value with the same fallback changes nothing. */
  lemma StripOrIdempotent(v: Value, d: string)
    requires IsStripped(d) && StripOr(v, d).Ok?
    ensures StripOr(Str(StripOr(v, d).value), d) == StripOr(v, d)
  {
    var s := StripOr(v, d).value;
    if v.Str? {
      StripOrStripped(v, d);
    } else {
      StripOrFalsy(v, d);
    }
    StripOrOfStripped(s, d);
  }

  /** `str()` of an integer parses back to the same integer. */
  lemma StrOfIntParses(i: int)
    ensures ParseInt(PyStr(Int(i))) == Some(i)
  {
    ParseIntOfString(i);
  }

  /** `str()` and `repr()` agree on every value that is not a string. */
  lemma ReprOfNonString(v: Value)
    requires !v.Str?
    ensures Repr(v) == PyStr(v)
  {
  }
}

=== FILE: pydantic.dfy ===
/**
 * The small stand-in for the data-model library that the repository ships
 * for when the real one is not installed: `Field`, model construction with
 * defaults, `parse_obj`/`model_validate`, and the conversion of a model
 * back to a dictionary.
 *
 * A model class is its name, its annotated field names in declaration order
 * and what the class itself holds under those names; an instance is a
 * `Value.Model` carrying the class name, the same field names and the
 * instance attributes.
 */
module Pydantic {
  import opened Wrappers
  import opened PyValue
  import Collections

  /** What a class holds under a field name: a `FieldInfo` from `Field(...)`, or a plain value. */
  datatype ClassAttr =
    | FieldInfo(default: Option<Value>, factory: Option<Value>)
    | Plain(value: Value)

  /**
   * A model class. `factory` holds the value the default factory produces
   * (the factories in use are `list` and `dict`).
   */
  datatype ModelClass = ModelClass(name: string, fields: seq<string>, attrs: map<string, ClassAttr>)

  /** Annotations form a dictionary, so field names are distinct. */
  predicate WellFormed(c: ModelClass)
  {
    Collections.NoDuplicates(c.fields)
  }

  /** `Field(default=..., default_factory=...)`: giving both is a `ValueError`. */
  function Field(default: Option<Value>, factory: Option<Value>): (r: Result<ClassAttr, Exception>)
    ensures r.Err? <==> default.Some? && factory.Some?
    ensures r.Err? ==> r.error == ValueError("Specify either default or default_factory")
    ensures r.Ok? ==> r.value == FieldInfo(default, factory)
  {
    if default.Some? && factory.Some? then Err(ValueError("Specify either default or default_factory"))
    else Ok(FieldInfo(default, factory))
  }

  /** `_default_for`: the factory's value, else the explicit default, else `None`; a plain class attribute is its own default. */
  function DefaultFor(c: ModelClass, name: string): (v: Value)
    ensures name !in c.attrs ==> v == Null
    ensures name in c.attrs && c.attrs[name].Plain? ==> v == c.attrs[name].value
    ensures name in c.attrs && c.attrs[name].FieldInfo? && c.attrs[name].factory.Some? ==> v == c.attrs[name].factory.value
    ensures name in c.attrs && c.attrs[name].FieldInfo? && c.attrs[name].factory.None? ==> v == c.attrs[name].default.GetOr(Null)
  {
    if name !in c.attrs then Null
    else match c.attrs[name]
      case Plain(value) => value
      case FieldInfo(default, factory) =>
        if factory.Some? then factory.value else if default.Some? then default.value else Null
  }

  /** A field declared with `Field(...)` defaults to what was given, or to `None` when nothing was. */
  lemma FieldDefault(c: ModelClass, name: string, default: Option<Value>, factory: Option<Value>)
    requires Field(default, factory).Ok? && name in c.attrs && c.attrs[name] == Field(default, factory).value
    ensures factory.Some? ==> DefaultFor(c, name) == factory.value
    ensures default.Some? ==> DefaultFor(c, name) == default.value
    ensures default.None? && factory.None? ==> DefaultFor(c, name) == Null
  {
  }

  /**
   * The instance `cls(**data)` builds: every annotated field from `data`,
   * else its default, and every other key of `data` as an extra attribute.
   */
  function Constructed(c: ModelClass, data: map<string, Value>): (v: Value)
    ensures v.Model? && v.cls == c.name && v.fields == c.fields
    ensures v.attrs.Keys == data.Keys + (set k | k in c.fields)
    ensures forall k :: k in data ==> v.attrs[k] == data[k]
    ensures forall k :: k in c.fields && k !in data ==> v.attrs[k] == DefaultFor(c, k)
  {
    Model(c.name, c.fields, data + map k | k in c.fields && k !in data :: DefaultFor(c, k))
  }

  /** The annotated fields `__init__` sets: each from `data` when present there, else its default. */
  function FieldValues(c: ModelClass, data: map<string, Value>): map<string, Value>
  {
    map k | k in c.fields :: if k in data then data[k] else DefaultFor(c, k)
  }

  /** The keys of `data` that name no annotated field: what `remaining` holds after the pass over the annotations. */
  function Leftover(c: ModelClass, data: map<string, Value>): map<string, Value>
  {
    map k | k in data && k !in c.fields :: data[k]
  }

  /** The attributes `cls(**data)` sets are the field values and the leftover keys. */
  lemma ConstructedParts(c: ModelClass, data: map<string, Value>)
    ensures Constructed(c, data).attrs == FieldValues(c, data) + Leftover(c, data)
  {
    assert Constructed(c, data).attrs.Keys == (FieldValues(c, data) + Leftover(c, data)).Keys;
  }

  /** The pass over the annotations: each field is popped from `remaining` or defaulted. */
  method AnnotatedPass(c: ModelClass, data: map<string, Value>) returns (remaining: map<string, Value>, attrs: map<string, Value>)
    requires WellFormed(c)
    ensures remaining == Leftover(c, data)
    ensures attrs == FieldValues(c, data)
  {
    remaining := data;
    attrs := map[];
    var i := 0;
    while i < |c.fields|
      invariant 0 <= i <= |c.fields|
      invariant remaining.Keys == data.Keys - (set k | k in c.fields[..i])
      invariant forall k :: k in remaining ==> remaining[k] == data[k]
      invariant attrs.Keys == set k | k in c.fields[..i]
      invariant forall k :: k in attrs ==> attrs[k] == (if k in data then data[k] else DefaultFor(c, k))
    {
      var name := c.fields[i];
      assert name !in c.fields[..i];
      assert c.fields[..i + 1] == c.fields[..i] + [name];
      var value;
      if name in remaining {
        value := remaining[name];
        remaining := remaining - {name};
      } else {
        value := DefaultFor(c, name);
      }
      attrs := attrs[name := value];
      i := i + 1;
    }
    assert c.fields[..i] == c.fields;
  }

  /** `setattr` for every leftover key. */
  method SetLeftovers(attrs: map<string, Value>, leftover: map<string, Value>) returns (r: map<string, Value>)
    ensures r == attrs + leftover
  {
    r := attrs;
    var pending := leftover.Keys;
    while pending != {}
      invariant pending <= leftover.Keys
      invariant r.Keys == attrs.Keys + (leftover.Keys - pending)
      invariant forall k :: k in r ==> r[k] == (if k in leftover.Keys - pending then leftover[k] else attrs[k])
      decreases pending
    {
      var key :| key in pending;
      r := r[key := leftover[key]];
      pending := pending - {key};
    }
  }

  /** `BaseModel.__init__`: a pass over the annotations, then the keys left over. */
  method Construct(c: ModelClass, data: map<string, Value>) returns (v: Value)
    requires WellFormed(c)
    ensures v == Constructed(c, data)
  {
    var remaining, attrs := AnnotatedPass(c, data);
    attrs := SetLeftovers(attrs, remaining);
    v := Model(c.name, c.fields, attrs);
    ConstructedParts(c, data);
  }

  /** `parse_obj`: a mapping builds an instance; anything else is a `ValidationError`. */
  function ParseObj(c: ModelClass, obj: Value): (r: Result<Value, Exception>)
    ensures r.Ok? <==> obj.Dict?
    ensures r.Ok? ==> r.value == Constructed(c, obj.entries)
    ensures r.Err? ==> r.error == ValidationError("Expected mapping for parse_obj")
  {
    if obj.Dict? then Ok(Constructed(c, obj.entries)) else Err(ValidationError("Expected mapping for parse_obj"))
  }

  /** `model_validate`: the same as `parse_obj`, with its own error text. */
  function ModelValidate(c: ModelClass, obj: Value): (r: Result<Value, Exception>)
    ensures r.Ok? <==> obj.Dict?
    ensures r.Ok? ==> r.value == Constructed(c, obj.entries)
    ensures r.Err? ==> r.error == ValidationError("Expected mapping for model_validate")
  {
    if obj.Dict? then Ok(Constructed(c, obj.entries)) else Err(ValidationError("Expected mapping for model_validate"))
  }

  /** A value that holds no model instance at any depth. */
  predicate ModelFree(v: Value)
  {
    match v
    case Model(_, _, _) => false
    case List(items) => forall k :: 0 <= k < |items| ==> ModelFree(items[k])
    case Tuple(items) => forall k :: 0 <= k < |items| ==> ModelFree(items[k])
    case Dict(entries) => forall k :: k in entries ==> ModelFree(entries[k])
    case _ => true
  }

  /** The fields `_to_dict` emits: every annotated field, except those holding `None` when `exclude_none` is set. */
  function KeptFields(v: Value, excludeNone: bool): set<string>
    requires v.Model?
  {
    set k | k in v.fields && !(excludeNone && Get(v.attrs, k).Null?)
  }

  /** `_to_dict`: the kept fields, each normalised. */
  function ToDictOf(v: Value, excludeNone: bool): (d: Value)
    requires v.Model?
    ensures d.Dict? && d.entries.Keys == KeptFields(v, excludeNone)
    decreases v, 1
  {
    Dict(map k | k in KeptFields(v, excludeNone) :: NormaliseAttr(v, k, excludeNone))
  }

  /** One attribute of an instance, normalised; a missing attribute reads as `None`. */
  function NormaliseAttr(v: Value, k: string, excludeNone: bool): Value
    requires v.Model?
    decreases v, 0
  {
    if k in v.attrs then Normalise(v.attrs[k], excludeNone) else Null
  }

  /** `_normalise`: instances become dictionaries, containers are rebuilt element by element, anything else is kept. */
  function Normalise(v: Value, excludeNone: bool): (r: Value)
    ensures v.List? ==> r.List? && |r.items| == |v.items|
    ensures v.Tuple? ==> r.Tuple? && |r.items| == |v.items|
    ensures v.Dict? ==> r.Dict? && r.entries.Keys == v.entries.Keys
    ensures v.Model? ==> r.Dict?
    ensures !v.List? && !v.Tuple? && !v.Dict? && !v.Model? ==> r == v
    decreases v, 2
  {
    match v
    case Model(_, _, _) => ToDictOf(v, excludeNone)
    case List(items) => List(seq(|items|, k requires 0 <= k < |items| => Normalise(items[k], excludeNone)))
    case Tuple(items) => Tuple(seq(|items|, k requires 0 <= k < |items| => Normalise(items[k], excludeNone)))
    case Dict(entries) => Dict(map k | k in entries :: Normalise(entries[k], excludeNone))
    case _ => v
  }

  /** Normalising leaves no instance anywhere in the result. */
  lemma {:induction false} NormaliseIsModelFree(v: Value, excludeNone: bool)
    ensures ModelFree(Normalise(v, excludeNone))
    decreases v, 2
  {
    match v
    case Model(_, _, _) => ToDictIsModelFree(v, excludeNone);
    case List(items) =>
      forall k | 0 <= k < |items| ensures ModelFree(Normalise(v, excludeNone).items[k]) {
        NormaliseIsModelFree(items[k], excludeNone);
      }
    case Tuple(items) =>
      forall k | 0 <= k < |items| ensures ModelFree(Normalise(v, excludeNone).items[k]) {
        NormaliseIsModelFree(items[k], excludeNone);
      }
    case Dict(entries) =>
      forall k | k in entries ensures ModelFree(Normalise(v, excludeNone).entries[k]) {
        NormaliseIsModelFree(entries[k], excludeNone);
      }
    case _ =>
  }

  lemma {:induction false} ToDictIsModelFree(v: Value, excludeNone: bool)
    requires v.Model?
    ensures ModelFree(ToDictOf(v, excludeNone))
    decreases v, 1
  {
    var d := ToDictOf(v, excludeNone);
    forall k | k in d.entries ensures ModelFree(d.entries[k]) {
      assert d.entries[k] == NormaliseAttr(v, k, excludeNone);
      if k in v.attrs {
        NormaliseIsModelFree(v.attrs[k], excludeNone);
      }
    }
  }

  /** A value without instances is already normalised. */
  lemma {:induction false} NormaliseModelFree(v: Value, excludeNone: bool)
    requires ModelFree(v)
    ensures Normalise(v, excludeNone) == v
  {
    match v
    case List(items) =>
      forall k | 0 <= k < |items| ensures Normalise(items[k], excludeNone) == items[k] {
        NormaliseModelFree(items[k], excludeNone);
      }
      assert Normalise(v, excludeNone).items == items;
    case Tuple(items) =>
      forall k | 0 <= k < |items| ensures Normalise(items[k], excludeNone) == items[k] {
        NormaliseModelFree(items[k], excludeNone);
      }
      assert Normalise(v, excludeNone).items == items;
    case Dict(entries) =>
      forall k | k in entries ensures Normalise(entries[k], excludeNone) == entries[k] {
        NormaliseModelFree(entries[k], excludeNone);
      }
      assert Normalise(v, excludeNone).entries == entries;
    case _ =>
  }

  /** Normalising twice is normalising once. */
  lemma NormaliseIdempotent(v: Value, excludeNone: bool)
    ensures Normalise(Normalise(v, excludeNone), excludeNone) == Normalise(v, excludeNone)
  {
    NormaliseIsModelFree(v, excludeNone);
    NormaliseModelFree(Normalise(v, excludeNone), excludeNone);
  }

  /** `_to_dict` as the loop over the annotated fields that fills `result`. */
  method ToDict(v: Value, excludeNone: bool) returns (d: map<string, Value>)
    requires v.Model?
    ensures Dict(d) == ToDictOf(v, excludeNone)
  {
    d := map[];
    var i := 0;
    while i < |v.fields|
      invariant 0 <= i <= |v.fields|
      invariant d.Keys == set k | k in v.fields[..i] && !(excludeNone && Get(v.attrs, k).Null?)
      invariant forall k :: k in d ==> d[k] == NormaliseAttr(v, k, excludeNone)
    {
      var name := v.fields[i];
      assert v.fields[..i + 1] == v.fields[..i] + [name];
      var value := Get(v.attrs, name);
      if !(excludeNone && value.Null?) {
        d := d[name := Normalise(value, excludeNone)];
      }
      i := i + 1;
    }
    assert v.fields[..i] == v.fields;
  }
}

=== FILE: registry.dfy ===
/**
 * The module registry: a `Core` holds the loaded modules by name, and
 * `load_modules` walks the discovered packages of the modules package,
 * importing `<package>.module` and instantiating its `Module` class. A
 * package whose import or instantiation fails, or that has no `Module`
 * class, is skipped; the walk goes on.
 *
 * Discovery is the sequence of package entries; importing and instantiating
 * is the function parameter `load`.
 */
module Registry {
  import opened Wrappers

  /** A loaded module object: its identity and its declared `name`. */
  datatype ModuleInstance = ModuleInstance(id: nat, name: string)

  /** One entry of `pkgutil.iter_modules`: a dotted name and whether it is a package. */
  datatype PackageInfo = PackageInfo(name: string, isPkg: bool)

  /** What importing `<package>.module` and instantiating its `Module` class gives. */
  datatype LoadOutcome = Raised(msg: string) | NoModuleClass | Loaded(instance: ModuleInstance)

  /** The submodule imported for a package. */
  function ModuleName(p: PackageInfo): string
  {
    p.name + ".module"
  }

  /** Whether an entry registers a module. */
  predicate Registers(p: PackageInfo, load: string -> LoadOutcome)
  {
    p.isPkg && load(ModuleName(p)).Loaded?
  }

  /** The module map after loading `packages` into `init`, entry by entry. */
  function LoadAll(packages: seq<PackageInfo>, load: string -> LoadOutcome, init: map<string, ModuleInstance>)
    : (m: map<string, ModuleInstance>)
  {
    if packages == [] then init
    else
      var prev := LoadAll(packages[..|packages| - 1], load, init);
      var last := packages[|packages| - 1];
      if Registers(last, load) then
        var inst := load(ModuleName(last)).instance;
        prev[inst.name := inst]
      else prev
  }

  /** Loading two runs of entries is loading the second run onto the result of the first. */
  lemma {:induction false} LoadAllConcat(a: seq<PackageInfo>, b: seq<PackageInfo>, load: string -> LoadOutcome,
                                         init: map<string, ModuleInstance>)
    ensures LoadAll(a + b, load, init) == LoadAll(b, load, LoadAll(a, load, init))
  {
    if b == [] {
      assert a + b == a;
    } else {
      assert (a + b)[..|a + b| - 1] == a + b[..|b| - 1];
      LoadAllConcat(a, b[..|b| - 1], load, init);
    }
  }

  /**
   * An entry that registers nothing (not a package, an import or
   * instantiation error, no `Module` class) leaves the result as if it were
   * not there: a failure skips only that entry.
   */
  lemma SkippedEntry(packages: seq<PackageInfo>, i: nat, load: string -> LoadOutcome, init: map<string, ModuleInstance>)
    requires i < |packages| && !Registers(packages[i], load)
    ensures LoadAll(packages, load, init) == LoadAll(packages[..i] + packages[i + 1..], load, init)
  {
    assert packages == packages[..i] + [packages[i]] + packages[i + 1..];
    LoadAllConcat(packages[..i] + [packages[i]], packages[i + 1..], load, init);
    LoadAllConcat(packages[..i], [packages[i]], load, init);
    assert [packages[i]][..0] == [];
    LoadAllConcat(packages[..i], packages[i + 1..], load, init);
  }

  /** Names registered by the entries. */
  predicate RegistersName(packages: seq<PackageInfo>, load: string -> LoadOutcome, name: string, i: int)
  {
    0 <= i < |packages| && Registers(packages[i], load) && load(ModuleName(packages[i])).instance.name == name
  }

  /**
   * A name is in the map exactly when it was there before or some entry
   * registered an instance declaring it; the instance kept is the one of the
   * last such entry, so a later module of the same name overwrites an
   * earlier one.
   */
  lemma {:induction false} LoadAllLastWins(packages: seq<PackageInfo>, load: string -> LoadOutcome,
                                          init: map<string, ModuleInstance>, name: string)
    ensures name in LoadAll(packages, load, init) <==>
      name in init || exists i :: RegistersName(packages, load, name, i)
    ensures forall i :: RegistersName(packages, load, name, i) && (forall j :: i < j < |packages| ==> !RegistersName(packages, load, name, j)) ==>
      LoadAll(packages, load, init)[name] == load(ModuleName(packages[i])).instance
    ensures (forall i :: !RegistersName(packages, load, name, i)) && name in init ==>
      LoadAll(packages, load, init)[name] == init[name]
  {
    LoadAllHas(packages, load, init, name);
    forall i | RegistersName(packages, load, name, i) && (forall j :: i < j < |packages| ==> !RegistersName(packages, load, name, j))
      ensures LoadAll(packages, load, init)[name] == load(ModuleName(packages[i])).instance
    {
      LoadAllLast(packages, load, init, name, i);
    }
    if (forall i :: !RegistersName(packages, load, name, i)) && name in init {
      LoadAllUntouched(packages, load, init, name);
    }
  }

  /** A name is in the map exactly when it was there before or some entry registered it. */
  lemma {:induction false} LoadAllHas(packages: seq<PackageInfo>, load: string -> LoadOutcome,
                                      init: map<string, ModuleInstance>, name: string)
    ensures name in LoadAll(packages, load, init) <==>
      name in init || exists i :: RegistersName(packages, load, name, i)
  {
    if packages != [] {
      var n := |packages| - 1;
      var prefix := packages[..n];
      LoadAllHas(prefix, load, init, name);
      var prev := LoadAll(prefix, load, init);
      if name in LoadAll(packages, load, init) && name !in init && !RegistersName(packages, load, name, n) {
        assert name in prev;
        var i :| RegistersName(prefix, load, name, i);
        assert RegistersName(packages, load, name, i);
      }
      if exists i :: RegistersName(packages, load, name, i) {
        var i :| RegistersName(packages, load, name, i);
        if i < n {
          assert RegistersName(prefix, load, name, i);
          assert name in prev;
        }
      }
    }
  }

  /** The instance kept under a name is the one of the last entry registering it. */
  lemma {:induction false} LoadAllLast(packages: seq<PackageInfo>, load: string -> LoadOutcome,
                                       init: map<string, ModuleInstance>, name: string, i: int)
    requires RegistersName(packages, load, name, i)
    requires forall j :: i < j < |packages| ==> !RegistersName(packages, load, name, j)
    ensures name in LoadAll(packages, load, init)
    ensures LoadAll(packages, load, init)[name] == load(ModuleName(packages[i])).instance
  {
    var n := |packages| - 1;
    if i < n {
      var prefix := packages[..n];
      assert RegistersName(prefix, load, name, i);
      assert !RegistersName(packages, load, name, n);
      forall j | i < j < |prefix| ensures !RegistersName(prefix, load, name, j) {
        assert !RegistersName(packages, load, name, j);
      }
      LoadAllLast(prefix, load, init, name, i);
    }
  }

  /** A name no entry registers keeps its earlier instance. */
  lemma {:induction false} LoadAllUntouched(packages: seq<PackageInfo>, load: string -> LoadOutcome,
                                            init: map<string, ModuleInstance>, name: string)
    requires forall i :: !RegistersName(packages, load, name, i)
    requires name in init
    ensures name in LoadAll(packages, load, init)
    ensures LoadAll(packages, load, init)[name] == init[name]
  {
    if packages != [] {
      var n := |packages| - 1;
      var prefix := packages[..n];
      forall i ensures !RegistersName(prefix, load, name, i) {
        assert RegistersName(prefix, load, name, i) ==> RegistersName(packages, load, name, i);
      }
      assert !RegistersName(packages, load, name, n);
      LoadAllUntouched(prefix, load, init, name);
    }
  }

  /** `Core`: the loaded modules by name, and the scheduler (none until one is attached). */
  class Core {
    var modules: map<string, ModuleInstance>
    var scheduler: Option<nat>

    constructor ()
      ensures modules == map[] && scheduler.None?
    {
      modules := map[];
      scheduler := None;
    }
  }

  /** `load_modules`: each discovered package in order; only a successfully instantiated `Module` is stored, under its own name. */
  method LoadModules(core: Core, packages: seq<PackageInfo>, load: string -> LoadOutcome)
    modifies core
    ensures core.modules == LoadAll(packages, load, old(core.modules))
    ensures core.scheduler == old(core.scheduler)
  {
    var i := 0;
    while i < |packages|
      invariant 0 <= i <= |packages|
      invariant core.modules == LoadAll(packages[..i], load, old(core.modules))
      invariant core.scheduler == old(core.scheduler)
    {
      assert packages[..i + 1][..i] == packages[..i];
      var info := packages[i];
      if info.isPkg {
        var outcome := load(ModuleName(info));
        if outcome.Loaded? {
          core.modules := core.modules[outcome.instance.name := outcome.instance];
        }
      }
      i := i + 1;
    }
    assert packages[..i] == packages;
  }
}

=== FILE: routing.dfy ===
/**
 * The small router of the bundled web-framework stand-in: prefix
 * normalisation, the joining of a prefix and a route path, the registration
 * of one route per HTTP method, and the response object the test client
 * returns.
 */
module Routing {
  import opened Wrappers
  import opened Text
  import opened PyValue
  import opened Handlers

  /** A registered route: one HTTP method, the full path and the handler. */
  datatype Route = Route(verb: string, path: string, endpoint: Endpoint)

  /** The router prefix: trailing slashes removed, and a leading slash added to a non-empty prefix that lacks one. */
  function NormalisePrefix(prefix: string): (p: string)
    ensures p == "" <==> RTrim(prefix, Slash) == ""
    ensures p != "" ==> p[0] == '/' && p[|p| - 1] != '/'
    ensures p != "" ==> LTrim(p, Slash) == LTrim(RTrim(prefix, Slash), Slash)
  {
    var q := RTrim(prefix, Slash);
    if q != "" && q[0] != '/' then
      assert ("/" + q)[1..] == q;
      "/" + q
    else q
  }

  /** Normalising an already normalised prefix changes nothing. */
  lemma NormalisePrefixIdempotent(prefix: string)
    ensures NormalisePrefix(NormalisePrefix(prefix)) == NormalisePrefix(prefix)
  {
    var p := NormalisePrefix(prefix);
    TrimKeeps(p, {});
    if p != "" {
      assert |RTrim(p, Slash)| == |p|;
    }
  }

  /** The route path stripped of surrounding whitespace, with a leading slash. */
  function Rooted(path: string): (p: string)
    ensures p != [] && p[0] == '/'
    ensures p == Strip(path) || p == "/" + Strip(path)
  {
    var s := Strip(path);
    if s != [] && s[0] == '/' then s else "/" + s
  }

  /** `_full_path`: the rooted path; under a prefix, "/" is the prefix itself and any other path is appended to it with each pair of slashes collapsed. */
  function FullPath(prefix: string, path: string): (r: string)
    ensures prefix == "" ==> r == Rooted(path)
    ensures prefix != "" && Rooted(path) == "/" ==> r == prefix
    ensures prefix != "" && prefix[0] == '/' ==> r != [] && r[0] == '/'
  {
    var p := Rooted(path);
    if prefix != "" then
      if p == "/" then prefix else CollapseSlashPairs(prefix + p)
    else p
  }

  /** Under a prefix, a path with no doubled slash anywhere is simply appended to the prefix. */
  lemma FullPathAppends(prefix: string, path: string)
    requires prefix != "" && Rooted(path) != "/"
    requires !HasDoubleSlash(prefix + Rooted(path))
    ensures FullPath(prefix, path) == prefix + Rooted(path)
    ensures prefix <= FullPath(prefix, path)
  {
    CollapseWithoutPairs(prefix + Rooted(path));
  }

  /** A prefix ending with a slash and a rooted path meet in a single slash. */
  lemma FullPathJoinsSlashes(prefix: string, path: string)
    requires prefix != "" && prefix[|prefix| - 1] == '/' && !HasDoubleSlash(prefix)
    requires Rooted(path) != "/" && !HasDoubleSlash(Rooted(path))
    ensures FullPath(prefix, path) == prefix + Rooted(path)[1..]
  {
    CollapseAtJoin(prefix, Rooted(path));
  }

  /** A path written with a doubled leading slash is joined to a prefix with a single one. */
  lemma FullPathOfDoubledPath(prefix: string, path: string, b: string)
    requires prefix != "" && !HasDoubleSlash(prefix + "/")
    requires Rooted(path) == "//" + b && !HasDoubleSlash("/" + b)
    ensures FullPath(prefix, path) == prefix + "/" + b
  {
    assert prefix + Rooted(path) == prefix + "//" + b;
    CollapseOnePair(prefix, b);
  }

  /** Under the prefix "/api", the path "//x" is registered as "/api/x". */
  lemma FullPathOfApiExample()
    ensures FullPath("/api", "//x") == "/api/x"
  {
    TrimKeeps("//x", Whitespace);
    assert !HasDoubleSlash("/api/") by {
      var s := "/api/";
      assert forall i :: 0 <= i < |s| - 1 ==> s[i] != '/' || s[i + 1] != '/';
    }
    FullPathOfDoubledPath("/api", "//x", "x");
  }

  /** Rooting a rooted path changes nothing, so without a prefix the full path is its own full path. */
  lemma FullPathIdempotent(path: string)
    ensures FullPath("", FullPath("", path)) == FullPath("", path)
  {
    var p := Rooted(path);
    assert IsStripped(p) by {
      var s := Strip(path);
      StripIsStripped(path);
      assert '/' !in Whitespace;
      if !(s != [] && s[0] == '/') {
        assert p == "/" + s && p[0] == '/';
        assert s != [] ==> p[|p| - 1] == s[|s| - 1];
      }
    }
    StripIsStripped(p);
  }

  /** The routes `add_api_route` appends: one per method, upper-cased, in the given order, all with the same path and handler. */
  function RoutesFor(methods: seq<string>, fullPath: string, endpoint: Endpoint): (rs: seq<Route>)
  {
    if methods == [] then []
    else RoutesFor(methods[..|methods| - 1], fullPath, endpoint) + [Route(Upper(methods[|methods| - 1]), fullPath, endpoint)]
  }

  /** Every appended route carries the upper-cased method at its position, the full path and the handler. */
  lemma {:induction false} RoutesForAt(methods: seq<string>, fullPath: string, endpoint: Endpoint)
    ensures |RoutesFor(methods, fullPath, endpoint)| == |methods|
    ensures forall i :: 0 <= i < |methods| ==> RoutesFor(methods, fullPath, endpoint)[i] == Route(Upper(methods[i]), fullPath, endpoint)
  {
    if methods != [] {
      RoutesForAt(methods[..|methods| - 1], fullPath, endpoint);
    }
  }

  /** `APIRouter`: a normalised prefix, its tags and the routes registered so far. */
  class APIRouter {
    const prefix: string
    const tags: seq<string>
    var routes: seq<Route>

    constructor (prefix: string, tags: seq<string>)
      ensures this.prefix == NormalisePrefix(prefix) && this.tags == tags && routes == []
    {
      this.prefix := NormalisePrefix(prefix);
      this.tags := tags;
      routes := [];
    }

    /** `add_api_route`: appends one route per method and hands the handler back unchanged. */
    method AddApiRoute(path: string, endpoint: Endpoint, methods: seq<string>) returns (e: Endpoint)
      modifies this
      ensures e == endpoint
      ensures routes == old(routes) + RoutesFor(methods, FullPath(prefix, path), endpoint)
    {
      var fullPath := FullPath(prefix, path);
      var i := 0;
      while i < |methods|
        invariant 0 <= i <= |methods|
        invariant routes == old(routes) + RoutesFor(methods[..i], fullPath, endpoint)
      {
        assert methods[..i + 1][..i] == methods[..i];
        routes := routes + [Route(Upper(methods[i]), fullPath, endpoint)];
        i := i + 1;
      }
      assert methods[..i] == methods;
      e := endpoint;
    }

    /** The `get` decorator: registers the handler for GET. */
    method Get(path: string, endpoint: Endpoint) returns (e: Endpoint)
      modifies this
      ensures e == endpoint
      ensures routes == old(routes) + [Route("GET", FullPath(prefix, path), endpoint)]
    {
      SingleRoute("GET", FullPath(prefix, path), endpoint);
      e := AddApiRoute(path, endpoint, ["GET"]);
    }

    /** The `post` decorator: registers the handler for POST. */
    method Post(path: string, endpoint: Endpoint) returns (e: Endpoint)
      modifies this
      ensures e == endpoint
      ensures routes == old(routes) + [Route("POST", FullPath(prefix, path), endpoint)]
    {
      SingleRoute("POST", FullPath(prefix, path), endpoint);
      e := AddApiRoute(path, endpoint, ["POST"]);
    }
  }

  /** A single upper-case method gives a single route with that method. */
  lemma SingleRoute(m: string, fullPath: string, endpoint: Endpoint)
    requires m == "GET" || m == "POST"
    ensures RoutesFor([m], fullPath, endpoint) == [Route(m, fullPath, endpoint)]
  {
    assert [m][..0] == [];
    assert Upper(m) == m by {
      UpperIdempotent(m);
      if m == "GET" {
        assert Upper("GET")[0] == 'G' && Upper("GET")[1] == 'E' && Upper("GET")[2] == 'T';
      } else {
        assert Upper("POST")[0] == 'P' && Upper("POST")[1] == 'O' && Upper("POST")[2] == 'S' && Upper("POST")[3] == 'T';
      }
    }
  }

  /** A response: the status code and the data `json()` returns. */
  datatype Response = Response(statusCode: int, data: Value)

  /** `Response.text`: JSON text for a dictionary or a list (`dumps` stands for `json.dumps`), `str()` of anything else. */
  function ResponseText(r: Response, dumps: Value -> string): (t: string)
    ensures r.data.Dict? || r.data.List? ==> t == dumps(r.data)
    ensures r.data.Str? ==> t == r.data.s
    ensures r.data.Null? ==> t == "None"
    ensures r.data.Bool? ==> t == (if r.data.b then "True" else "False")
    ensures r.data.Float? ==> t == r.data.text
    ensures r.data.Tuple? || r.data.Model? ==> t == PyStr(r.data) && t != []
  {
    if r.data.Dict? || r.data.List? then dumps(r.data) else PyStr(r.data)
  }

  /** The text of an integer response reads back as the integer. */
  lemma ResponseTextOfInt(status: int, i: int, dumps: Value -> string)
    ensures ParseInt(ResponseText(Response(status, Int(i)), dumps)) == Some(i)
  {
    StrOfIntParses(i);
  }
}

=== FILE: telegram_config.dfy ===
/**
 * The Telegram module's configuration: the list of administrator ids read
 * from `TELEGRAM_ADMIN_IDS`, and `load_config`, which requires a bot token.
 *
 * The environment is a map from variable names to values. The optional
 * settings, which the source reads from the environment when its module is
 * imported, are a `Defaults` value given to `LoadConfig`.
 */
module TelegramConfig {
  import opened Wrappers
  import opened Text
  import opened PyValue

  /** `int(part.strip())` for a part that is not blank; `None` for a blank part or one that is not an integer. */
  function ReadId(part: string): (r: Option<int>)
    ensures Strip(part) == "" ==> r.None?
    ensures r.None? ==> Strip(part) == "" || ParseInt(Strip(part)).None?
    ensures r.Some? ==> ParseInt(Strip(part)) == r
  {
    var p := Strip(part);
    if p == "" then None else ParseInt(p)
  }

  /** An integer written with whitespace around it is read back as that integer. */
  lemma ReadIdOfPadded(w1: string, n: int, w2: string)
    requires forall i :: 0 <= i < |w1| ==> w1[i] in Whitespace
    requires forall i :: 0 <= i < |w2| ==> w2[i] in Whitespace
    ensures ReadId(w1 + IntToString(n) + w2) == Some(n)
  {
    var m := IntToString(n);
    var digits := NatToString(if n < 0 then -n else n);
    assert m[|m| - 1] == digits[|digits| - 1];
    assert m[0] == '-' || m[0] == digits[0];
    TrimPadded(w1, m, w2, Whitespace);
    ParseIntOfString(n);
  }

  /** The integers of the parts, in order: blank parts and parts that are not integers are skipped. */
  function IdsOfParts(parts: seq<string>): (ids: seq<int>)
    ensures |ids| <= |parts|
  {
    if parts == [] then []
    else
      var init := IdsOfParts(parts[..|parts| - 1]);
      match ReadId(parts[|parts| - 1])
      case None => init
      case Some(n) => init + [n]
  }

  /** `(value or "").replace(";", ",").split(",")`. */
  function AdminParts(value: Option<string>): (parts: seq<string>)
    ensures value.None? || value.value == "" ==> parts == [""]
  {
    Split(ReplaceChar(value.GetOr(""), ';', ','), ',')
  }

  /** What `_parse_admin_ids(value)` returns. */
  function AdminIds(value: Option<string>): (ids: seq<int>)
    ensures value.None? || value.value == "" ==> ids == []
  {
    var parts := AdminParts(value);
    assert (value.None? || value.value == "") ==> ReadId(parts[0]).None? && parts[..0] == [] by {
      if value.None? || value.value == "" {
        assert Strip("") == "";
      }
    }
    IdsOfParts(parts)
  }

  /** `_parse_admin_ids`: the parts are visited in order, and only those that read as integers are kept. */
  method ParseAdminIds(value: Option<string>) returns (ids: seq<int>)
    ensures ids == AdminIds(value)
  {
    var parts := Split(ReplaceChar(value.GetOr(""), ';', ','), ',');
    ids := [];
    var i := 0;
    while i < |parts|
      invariant 0 <= i <= |parts|
      invariant ids == IdsOfParts(parts[..i])
    {
      var part := Strip(parts[i]);
      var next := ids;
      if part != "" {
        var n := ParseInt(part);
        if n.Some? {
          next := ids + [n.value];
        }
      }
      IdsOfPartsStep(parts, i, ids, next);
      ids := next;
      i := i + 1;
    }
    assert parts[..i] == parts;
    assert parts == AdminParts(value);
  }

  /** One step of `_parse_admin_ids`: the part at `i` adds its integer, if it has one, to the ids of the earlier parts. */
  lemma IdsOfPartsStep(parts: seq<string>, i: nat, ids: seq<int>, next: seq<int>)
    requires i < |parts| && ids == IdsOfParts(parts[..i])
    requires next == if Strip(parts[i]) != "" && ParseInt(Strip(parts[i])).Some? then ids + [ParseInt(Strip(parts[i])).value] else ids
    ensures next == IdsOfParts(parts[..i + 1])
  {
    assert parts[..i + 1][..i] == parts[..i];
    assert parts[..i + 1][i] == parts[i];
  }

  /** The ids of two runs of parts are the ids of the first run followed by those of the second. */
  lemma {:induction false} IdsOfPartsConcat(a: seq<string>, b: seq<string>)
    ensures IdsOfParts(a + b) == IdsOfParts(a) + IdsOfParts(b)
    decreases |b|
  {
    if b == [] {
      assert a + b == a;
    } else {
      var b' := b[..|b| - 1];
      assert (a + b)[..|a + b| - 1] == a + b';
      assert (a + b)[|a + b| - 1] == b[|b| - 1];
      IdsOfPartsConcat(a, b');
    }
  }

  /** A printed integer has no surrounding whitespace and reads back as itself. */
  lemma PrintedIdReadsBack(n: int)
    ensures Strip(IntToString(n)) == IntToString(n) != ""
    ensures IdsOfParts([IntToString(n)]) == [n]
  {
    var s := IntToString(n);
    assert s[0] !in Whitespace && s[|s| - 1] !in Whitespace by {
      if n < 0 {
        assert s == "-" + NatToString(-n);
        assert s[|s| - 1] == NatToString(-n)[|NatToString(-n)| - 1];
        assert IsDigit(NatToString(-n)[|NatToString(-n)| - 1]);
      } else {
        assert IsDigit(s[0]) && IsDigit(s[|s| - 1]);
      }
    }
    StripIsStripped(s);
    ParseIntOfString(n);
    assert [s][..0] == [];
  }

  /** The printed forms of some ids. */
  function Printed(ns: seq<int>): (r: seq<string>)
    ensures |r| == |ns|
    ensures forall i :: 0 <= i < |ns| ==> r[i] == IntToString(ns[i])
  {
    seq(|ns|, i requires 0 <= i < |ns| => IntToString(ns[i]))
  }

  /** Ids of printed integers are those integers, in order and with repetitions. */
  lemma {:induction false} IdsOfPrinted(ns: seq<int>)
    ensures IdsOfParts(Printed(ns)) == ns
  {
    if ns != [] {
      var init := ns[..|ns| - 1];
      assert ns == init + [ns[|ns| - 1]];
      IdsOfPrinted(init);
      assert Printed(ns) == Printed(init) + [IntToString(ns[|ns| - 1])];
      IdsOfPartsConcat(Printed(init), [IntToString(ns[|ns| - 1])]);
      PrintedIdReadsBack(ns[|ns| - 1]);
    }
  }

  /** A printed integer holds neither separator. */
  lemma PrintedHasNoSeparator(n: int)
    ensures ',' !in IntToString(n) && ';' !in IntToString(n)
  {
    var s := IntToString(n);
    if n < 0 {
      assert s == "-" + NatToString(-n);
      assert forall c :: c in NatToString(-n) ==> IsDigit(c);
    } else {
      assert forall c :: c in s ==> IsDigit(c);
    }
  }

  /** A comma-separated list of ids is read back as the list, order and duplicates kept. */
  lemma AdminIdsOfJoin(ns: seq<int>)
    requires ns != []
    ensures AdminIds(Some(Join(Printed(ns), ','))) == ns
  {
    var text := Join(Printed(ns), ',');
    forall i | 0 <= i < |ns|
      ensures ',' !in Printed(ns)[i]
    {
      PrintedHasNoSeparator(ns[i]);
    }
    JoinHasNoChar(Printed(ns), ',', ';');
    ReplaceCharAbsent(text, ';', ',');
    SplitJoin(Printed(ns), ',');
    IdsOfPrinted(ns);
  }

  /** Joining parts that lack a character other than the separator gives a text that lacks it. */
  lemma {:induction false} JoinHasNoChar(parts: seq<string>, sep: char, c: char)
    requires |parts| >= 1 && c != sep
    requires forall i :: 0 <= i < |parts| ==> c !in parts[i]
    ensures c !in Join(parts, sep)
  {
    if |parts| > 1 {
      JoinHasNoChar(parts[1..], sep, c);
    }
  }

  /** Replacing a character that does not occur changes nothing. */
  lemma ReplaceCharAbsent(s: string, from: char, to: char)
    requires from !in s
    ensures ReplaceChar(s, from, to) == s
  {
  }

  /** A semicolon separates ids just as a comma does. */
  lemma SemicolonIsComma(s: string)
    ensures AdminIds(Some(s)) == AdminIds(Some(ReplaceChar(s, ';', ',')))
  {
    var once := ReplaceChar(s, ';', ',');
    assert ReplaceChar(once, ';', ',') == once;
  }

  /** The settings read from the environment when the module is imported. */
  datatype Defaults = Defaults(dbPath: string, defaultLang: string, apiBaseUrl: string, apiToken: string, requestTimeoutS: int)

  datatype Config = Config(telegramToken: string, dbPath: string, defaultLang: string, adminIds: seq<int>,
                           apiBaseUrl: string, apiToken: string, requestTimeoutS: int)

  /** `os.getenv(name)`. */
  function Env(env: map<string, string>, name: string): Option<string>
  {
    if name in env then Some(env[name]) else None
  }

  /**
   * `load_config`: the stripped `TELEGRAM_BOT_TOKEN` must not be empty; the
   * administrator ids come from `TELEGRAM_ADMIN_IDS`.
   */
  function LoadConfig(env: map<string, string>, defaults: Defaults): (r: Result<Config, Exception>)
    ensures r.Err? <==> Strip(Env(env, "TELEGRAM_BOT_TOKEN").GetOr("")) == ""
    ensures r.Err? ==> r.error == RuntimeError("Env TELEGRAM_BOT_TOKEN is required")
    ensures r.Ok? ==> r.value.telegramToken == Strip(env["TELEGRAM_BOT_TOKEN"]) && IsStripped(r.value.telegramToken)
    ensures r.Ok? ==> r.value.adminIds == AdminIds(Some(Env(env, "TELEGRAM_ADMIN_IDS").GetOr("")))
    ensures r.Ok? ==> (r.value.dbPath == defaults.dbPath && r.value.defaultLang == defaults.defaultLang
      && r.value.apiBaseUrl == defaults.apiBaseUrl && r.value.apiToken == defaults.apiToken
      && r.value.requestTimeoutS == defaults.requestTimeoutS)
  {
    var token := Strip(Env(env, "TELEGRAM_BOT_TOKEN").GetOr(""));
    assert IsStripped(token) by {
      StripIsStripped(Env(env, "TELEGRAM_BOT_TOKEN").GetOr(""));
    }
    if token == "" then Err(RuntimeError("Env TELEGRAM_BOT_TOKEN is required"))
    else
      Ok(Config(token, defaults.dbPath, defaults.defaultLang, AdminIds(Some(Env(env, "TELEGRAM_ADMIN_IDS").GetOr(""))),
                defaults.apiBaseUrl, defaults.apiToken, defaults.requestTimeoutS))
  }
}

=== FILE: telegram_db.dfy ===
/**
 * The Telegram module's `users` table, keyed by `user_id`, and the `DB`
 * object that reads and writes it.
 *
 * The table is a map held by a `UserDb` object; a column may hold `NULL`,
 * which is `None` here. The connection, the SQL text and the file itself are
 * not represented: the table the file already holds is given to the
 * constructor.
 */
module TelegramDb {
  import opened Wrappers
  import opened Text

  /** A row of the `users` table. */
  datatype User = User(username: Option<string>, language: Option<string>, role: Option<string>)

  /** `(default_lang or "ru").lower()`. */
  function DefaultLanguage(defaultLang: Option<string>): (l: string)
    ensures l != "" && IsLower(l)
    ensures defaultLang.Some? && defaultLang.value != "" ==> l == Lower(defaultLang.value)
    ensures defaultLang.None? || defaultLang.value == "" ==> l == "ru"
  {
    var l := Lower(if defaultLang.Some? && defaultLang.value != "" then defaultLang.value else "ru");
    LowerIsLower(if defaultLang.Some? && defaultLang.value != "" then defaultLang.value else "ru");
    l
  }

  /** `(language or default_lang).lower()`. */
  function NormalisedLanguage(language: Option<string>, defaultLang: string): string
  {
    Lower(if language.Some? && language.value != "" then language.value else defaultLang)
  }

  /**
   * The row `upsert_user` leaves: a new user is inserted with the normalised
   * language and the role, or `user`; then the language, the role and the
   * user name that are given overwrite what the row holds.
   */
  function Upserted(users: map<int, User>, userId: int, username: Option<string>, language: Option<string>,
                    role: Option<string>, defaultLang: string): User
  {
    var lang := NormalisedLanguage(language, defaultLang);
    var row := if userId in users then users[userId]
               else User(username, Some(lang), Some(if role.Some? && role.value != "" then role.value else "user"));
    var row := if language.Some? then row.(language := Some(lang)) else row;
    var row := if role.Some? then row.(role := role) else row;
    if username.Some? then row.(username := username) else row
  }

  /** `get_language`: the stored language, or the default when it is missing or empty, lower-cased. */
  function LanguageOf(users: map<int, User>, userId: int, defaultLang: string): (r: string)
    ensures userId in users && users[userId].language.Some? && users[userId].language.value != ""
      ==> r == Lower(users[userId].language.value)
    ensures !(userId in users && users[userId].language.Some? && users[userId].language.value != "")
      ==> r == Lower(defaultLang)
    ensures IsLower(r)
  {
    var stored := if userId in users then users[userId].language else None;
    var l := if stored.Some? && stored.value != "" then stored.value else defaultLang;
    LowerIsLower(l);
    Lower(l)
  }

  /** `get_role`: the stored role, or `user` when it is missing or empty. */
  function RoleOf(users: map<int, User>, userId: int): (r: string)
    ensures r != ""
    ensures userId in users && users[userId].role.Some? && users[userId].role.value != "" ==> r == users[userId].role.value
    ensures !(userId in users && users[userId].role.Some? && users[userId].role.value != "") ==> r == "user"
  {
    var stored := if userId in users then users[userId].role else None;
    if stored.Some? && stored.value != "" then stored.value else "user"
  }

  class UserDb {
    var path: string
    var defaultLang: string
    var users: map<int, User>

    /** The default language is lower-case and not empty. */
    predicate Valid()
      reads this
    {
      defaultLang != "" && IsLower(defaultLang)
    }

    /** `DB(path, default_lang)`: opens the table the file at `path` holds (`existing`), creating it when absent. */
    constructor (path: string, defaultLang: Option<string>, existing: map<int, User>)
      ensures Valid()
      ensures this.path == path && this.defaultLang == DefaultLanguage(defaultLang) && users == existing
    {
      this.path := path;
      this.defaultLang := DefaultLanguage(defaultLang);
      users := existing;
    }

    /**
     * `upsert_user`: inserts the user when absent, then overwrites the
     * language, role and user name that are given; the answer says whether
     * the user is new. No other row changes.
     */
    method UpsertUser(userId: int, username: Option<string>, language: Option<string>, role: Option<string>)
      returns (created: bool)
      requires Valid()
      modifies this
      ensures Valid() && path == old(path) && defaultLang == old(defaultLang)
      ensures created <==> userId !in old(users)
      ensures users == old(users)[userId := Upserted(old(users), userId, username, language, role, defaultLang)]
    {
      var lang := NormalisedLanguage(language, defaultLang);
      var known := userId in users;
      if !known {
        users := users[userId := User(username, Some(lang), Some(if role.Some? && role.value != "" then role.value else "user"))];
      }
      if language.Some? {
        users := users[userId := users[userId].(language := Some(lang))];
      }
      if role.Some? {
        users := users[userId := users[userId].(role := role)];
      }
      if username.Some? {
        users := users[userId := users[userId].(username := username)];
      }
      created := !known;
    }

    /** `get_language`. */
    function GetLanguage(userId: int): (r: string)
      reads this
      ensures r == LanguageOf(users, userId, defaultLang)
    {
      LanguageOf(users, userId, defaultLang)
    }

    /** `set_language`: stores the lower-cased language of an existing user; an unknown user changes nothing. */
    method SetLanguage(userId: int, lang: string)
      requires Valid()
      modifies this
      ensures Valid() && path == old(path) && defaultLang == old(defaultLang)
      ensures userId in old(users) ==> users == old(users)[userId := old(users)[userId].(language := Some(Lower(lang)))]
      ensures userId !in old(users) ==> users == old(users)
    {
      if userId in users {
        users := users[userId := users[userId].(language := Some(Lower(lang)))];
      }
    }

    /** `get_role`. */
    function GetRole(userId: int): (r: string)
      reads this
      ensures r == RoleOf(users, userId)
    {
      RoleOf(users, userId)
    }

    /** `set_role`: stores the role of an existing user; an unknown user changes nothing. */
    method SetRole(userId: int, role: string)
      requires Valid()
      modifies this
      ensures Valid() && path == old(path) && defaultLang == old(defaultLang)
      ensures userId in old(users) ==> users == old(users)[userId := old(users)[userId].(role := Some(role))]
      ensures userId !in old(users) ==> users == old(users)
    {
      if userId in users {
        users := users[userId := users[userId].(role := Some(role))];
      }
    }
  }

  /** A new user given neither language nor role reads back the default language and the role `user`. */
  lemma NewUserDefaults(users: map<int, User>, userId: int, username: Option<string>, defaultLang: string)
    requires userId !in users && defaultLang != "" && IsLower(defaultLang)
    ensures var after := users[userId := Upserted(users, userId, username, None, None, defaultLang)];
      LanguageOf(after, userId, defaultLang) == defaultLang && RoleOf(after, userId) == "user"
  {
    LowerOfLowerCase(defaultLang);
  }

  /** Upserting a known user without a language keeps the language stored before. */
  lemma ReupsertKeepsLanguage(users: map<int, User>, userId: int, username: Option<string>, role: Option<string>, defaultLang: string)
    requires userId in users
    ensures var after := users[userId := Upserted(users, userId, username, None, role, defaultLang)];
      LanguageOf(after, userId, defaultLang) == LanguageOf(users, userId, defaultLang)
  {
  }

  /** After `set_language` on a known user with a non-empty language, `get_language` reads it back lower-cased. */
  lemma SetThenGetLanguage(users: map<int, User>, userId: int, lang: string, defaultLang: string)
    requires userId in users && lang != ""
    ensures LanguageOf(users[userId := users[userId].(language := Some(Lower(lang)))], userId, defaultLang) == Lower(lang)
  {
    LowerIdempotent(lang);
  }

  /** A given language is stored lower-cased, for new and known users alike. */
  lemma UpsertStoresLanguage(users: map<int, User>, userId: int, username: Option<string>, language: string,
                             role: Option<string>, defaultLang: string)
    requires language != ""
    ensures var after := users[userId := Upserted(users, userId, username, Some(language), role, defaultLang)];
      LanguageOf(after, userId, defaultLang) == Lower(language)
  {
    LowerIdempotent(language);
  }
}

=== FILE: telegram_i18n.dfy ===
/**
 * The Telegram module's message catalogue: a Russian and an English table of
 * interface texts, and the lookup `t(lang, key)` with its fallbacks.
 */
module TelegramI18n {
  import opened Wrappers
  import opened Text

  const RuTable: map<string, string> := map[
    "welcome" := "Добро пожаловать! Выберите действие из меню:",
    "btn_get_data" := "Получить данные",
    "btn_send_data" := "Отправить данные",
    "btn_about" := "О боте",
    "btn_settings" := "Настройки",
    "btn_admin" := "Админ-панель",
    "enter_text" := "Введите текст, который хотите отправить:",
    "sent_ok" := "Данные успешно отправлены!",
    "send_err" := "Ошибка при отправке данных",
    "fetch_err" := "Ошибка при получении данных",
    "data_from_api" := "Данные из API",
    "about_text" := "Этот бот — модуль Telegram проекта Coman.\nВерсия: o1\nРоль: интерфейс к ядру/оркестратору.",
    "settings" := "Настройки:",
    "lang_ru" := "Русский",
    "lang_en" := "English",
    "back" := "Назад",
    "lang_changed" := "Язык изменён!",
    "choose_menu" := "Пожалуйста, выберите действие из меню (/start).",
    "admin_welcome" := "Добро пожаловать в админ-панель. Здесь можно управлять пользователями и интеграциями.",
    "not_authorized" := "Недостаточно прав для выполнения действия."
  ]

  const EnTable: map<string, string> := map[
    "welcome" := "Welcome! Choose an action from the menu:",
    "btn_get_data" := "Get data",
    "btn_send_data" := "Send data",
    "btn_about" := "About",
    "btn_settings" := "Settings",
    "btn_admin" := "Admin Panel",
    "enter_text" := "Type the text you want to send:",
    "sent_ok" := "Data sent successfully!",
    "send_err" := "Error sending data",
    "fetch_err" := "Error fetching data",
    "data_from_api" := "Data from API",
    "about_text" := "This bot is the Telegram module of the Coman project.\nVersion: o1\nRole: interface to the core/orchestrator.",
    "settings" := "Settings:",
    "lang_ru" := "Русский",
    "lang_en" := "English",
    "back" := "Back",
    "lang_changed" := "Language changed!",
    "choose_menu" := "Please choose an action from the menu (/start).",
    "admin_welcome" := "Welcome to the admin panel. You can manage users and integrations here.",
    "not_authorized" := "You are not authorized to perform this action."
  ]
  /** `_STRINGS`: the tables by language code. */
  const Strings: map<string, map<string, string>> := map["ru" := RuTable, "en" := EnTable]

  /** The table `t` reads: the language lower-cased, `ru` when absent or empty, `en` when not supported. */
  function TableLanguage(lang: Option<string>): (l: string)
    ensures l in Strings
    ensures lang.None? || lang.value == "" ==> l == "ru"
    ensures lang.Some? && Lower(lang.value) in Strings ==> l == Lower(lang.value)
    ensures lang.Some? && lang.value != "" && Lower(lang.value) !in Strings ==> l == "en"
  {
    var l := Lower(if lang.Some? && lang.value != "" then lang.value else "ru");
    assert Lower("ru") == "ru";
    if l in Strings then l else "en"
  }

  /**
   * `t(lang, key)`: the entry of the chosen table, else the English entry,
   * else the key itself.
   */
  function T(lang: Option<string>, key: string): (r: string)
    ensures key in Strings[TableLanguage(lang)] ==> r == Strings[TableLanguage(lang)][key]
    ensures key !in Strings[TableLanguage(lang)] && key in EnTable ==> r == EnTable[key]
    ensures key !in Strings[TableLanguage(lang)] && key !in EnTable ==> r == key
  {
    var table := Strings[TableLanguage(lang)];
    if key in table then table[key] else if key in EnTable then EnTable[key] else key
  }

  /** Both tables define the same keys, so the English fallback is only reached for unknown keys. */
  lemma TablesAgreeOnKeys()
    ensures RuTable.Keys == EnTable.Keys
  {
  }

  /** An unknown key comes back as itself, whatever the language. */
  lemma UnknownKeyIsItself(lang: Option<string>, key: string)
    requires key !in EnTable
    ensures T(lang, key) == key
  {
    TablesAgreeOnKeys();
  }

  /** The language code is read without regard to the case of its letters. */
  lemma LanguageIgnoresCase(lang: string, key: string)
    ensures T(Some(lang), key) == T(Some(Lower(lang)), key)
  {
    LowerIdempotent(lang);
    assert Lower(lang) == "" <==> lang == "";
  }

  /** Without a language the Russian table is used. */
  lemma DefaultIsRussian(key: string)
    ensures T(None, key) == T(Some("ru"), key)
    ensures T(Some(""), key) == T(Some("ru"), key)
  {
    assert Lower("ru") == "ru";
  }

  /** An unsupported language reads the English table. */
  lemma UnsupportedIsEnglish(lang: string, key: string)
    requires lang != "" && Lower(lang) !in Strings
    ensures T(Some(lang), key) == T(Some("en"), key)
  {
    assert Lower("en") == "en";
  }
}

=== FILE: text.dfy ===
/**
 * String operations of Python's `str` that the rest of the model relies on,
 * restricted to ASCII: whitespace is the ASCII part of `str.isspace()`, and
 * `lower()`/`upper()` change only the letters A-Z and a-z.
 */
module Text {
  import opened Wrappers

  /** The ASCII characters for which Python's `str.isspace()` holds. */
  const Whitespace: set<char> :=
    {' ', '\t', '\n', '\r', '\U{000B}', '\U{000C}', '\U{001C}', '\U{001D}', '\U{001E}', '\U{001F}'}

  /** The characters `strip("/")`, `lstrip("/")` and `rstrip("/")` remove. */
  const Slash: set<char> := {'/'}

  /** `s.lstrip(chars)`: the longest prefix made of characters in `cs` is removed. */
  function LTrim(s: string, cs: set<char>): (r: string)
    ensures |r| <= |s| && r == s[|s| - |r|..]
    ensures r == [] || r[0] !in cs
    ensures forall i :: 0 <= i < |s| - |r| ==> s[i] in cs
  {
    if s != [] && s[0] in cs then
      var r := LTrim(s[1..], cs);
      assert s[|s| - |r|..] == s[1..][|s| - 1 - |r|..];
      assert forall i :: 1 <= i < |s| - |r| ==> s[i] == s[1..][i - 1];
      r
    else s
  }

  /** `s.rstrip(chars)`: the longest suffix made of characters in `cs` is removed. */
  function RTrim(s: string, cs: set<char>): (r: string)
    ensures |r| <= |s| && r == s[..|r|]
    ensures r == [] || r[|r| - 1] !in cs
    ensures forall i :: |r| <= i < |s| ==> s[i] in cs
  {
    if s != [] && s[|s| - 1] in cs then
      var r := RTrim(s[..|s| - 1], cs);
      assert s[..|r|] == s[..|s| - 1][..|r|];
      assert forall i :: |r| <= i < |s| - 1 ==> s[i] == s[..|s| - 1][i];
      r
    else s
  }

  /** `s.strip(chars)`. */
  function Trim(s: string, cs: set<char>): string
  {
    RTrim(LTrim(s, cs), cs)
  }

  /** Trimming leaves a text alone when neither end holds a trimmed character. */
  lemma TrimKeeps(s: string, cs: set<char>)
    requires s == [] || (s[0] !in cs && s[|s| - 1] !in cs)
    ensures LTrim(s, cs) == s && RTrim(s, cs) == s && Trim(s, cs) == s
  {
    if s != [] {
      assert |LTrim(s, cs)| == |s|;
      assert |RTrim(s, cs)| == |s|;
    }
  }

  /** Neither end of a trimmed text is a trimmed character. */
  lemma TrimEnds(s: string, cs: set<char>)
    ensures var t := Trim(s, cs); t == [] || (t[0] !in cs && t[|t| - 1] !in cs)
  {
    var l := LTrim(s, cs);
    var r := RTrim(l, cs);
    if r != [] {
      assert r[0] == l[0];
    }
  }

  /** `s.strip()`. */
  function Strip(s: string): string
  {
    Trim(s, Whitespace)
  }

  /** Every character of `Strip(s)` is a character of `s`. */
  lemma StripIsInfix(s: string)
    ensures forall c :: c in Strip(s) ==> c in s
  {
    var l := LTrim(s, Whitespace);
    assert forall c :: c in l ==> c in s;
  }

  /** Neither end of the text is whitespace: what `strip()` produces. */
  predicate IsStripped(s: string)
  {
    s == [] || (s[0] !in Whitespace && s[|s| - 1] !in Whitespace)
  }

  /** `strip()` produces stripped text, and leaves stripped text alone. */
  lemma StripIsStripped(s: string)
    ensures IsStripped(Strip(s))
    ensures IsStripped(s) ==> Strip(s) == s
  {
    var l := LTrim(s, Whitespace);
    var r := RTrim(l, Whitespace);
    if r != [] {
      assert r[0] == l[0];
    }
    if IsStripped(s) {
      TrimKeeps(s, Whitespace);
    }
  }

  /** Stripping a stripped text changes nothing. */
  lemma StripIdempotent(s: string)
    ensures Strip(Strip(s)) == Strip(s)
  {
    StripIsStripped(s);
    StripIsStripped(Strip(s));
  }

  /** A string is blank when stripping it leaves nothing. */
  lemma {:induction false} TrimEmptyIff(s: string, cs: set<char>)
    ensures Trim(s, cs) == [] <==> forall i :: 0 <= i < |s| ==> s[i] in cs
  {
  }

  /** Stripped text keeps what lies between its first and last kept character. */
  lemma TrimIsSlice(s: string, cs: set<char>)
    ensures exists a, b :: 0 <= a <= b <= |s| && Trim(s, cs) == s[a..b]
  {
    var l := LTrim(s, cs);
    var r := RTrim(l, cs);
    assert r == s[|s| - |l|..|s| - |l| + |r|];
  }

  /** Trimming a text padded on both sides with trimmed characters gives back the text, when its own ends are kept. */
  lemma TrimPadded(w1: string, m: string, w2: string, cs: set<char>)
    requires forall i :: 0 <= i < |w1| ==> w1[i] in cs
    requires forall i :: 0 <= i < |w2| ==> w2[i] in cs
    requires m != [] && m[0] !in cs && m[|m| - 1] !in cs
    ensures Trim(w1 + m + w2, cs) == m
  {
    var s := w1 + m + w2;
    var l := LTrim(s, cs);
    assert s[|w1|] == m[0];
    assert forall i :: 0 <= i < |w1| ==> s[i] == w1[i];
    assert |l| == |m| + |w2|;
    assert l == m + w2;
    var r := RTrim(l, cs);
    assert l[|m| - 1] == m[|m| - 1];
    assert forall i :: |m| <= i < |l| ==> l[i] == w2[i - |m|];
    assert |r| == |m|;
  }

  function LowerChar(c: char): char
  {
    if 'A' <= c <= 'Z' then (c as int + 32) as char else c
  }

  function UpperChar(c: char): char
  {
    if 'a' <= c <= 'z' then (c as int - 32) as char else c
  }

  /** `s.lower()` on ASCII letters. */
  function Lower(s: string): string
  {
    seq(|s|, i requires 0 <= i < |s| => LowerChar(s[i]))
  }

  /** `s.upper()` on ASCII letters. */
  function Upper(s: string): string
  {
    seq(|s|, i requires 0 <= i < |s| => UpperChar(s[i]))
  }

  predicate IsLower(s: string)
  {
    forall i :: 0 <= i < |s| ==> !('A' <= s[i] <= 'Z')
  }

  lemma LowerIsLower(s: string)
    ensures IsLower(Lower(s)) && |Lower(s)| == |s|
  {
  }

  /** Lower-casing a text that has no upper-case letters changes nothing. */
  lemma LowerOfLowerCase(s: string)
    requires IsLower(s)
    ensures Lower(s) == s
  {
  }

  lemma LowerOfUpper(s: string)
    ensures Lower(Upper(s)) == Lower(s)
  {
  }

  lemma UpperIdempotent(s: string)
    ensures Upper(Upper(s)) == Upper(s)
  {
  }

  lemma LowerIdempotent(s: string)
    ensures Lower(Lower(s)) == Lower(s)
  {
  }

  lemma LowerConcat(a: string, b: string)
    ensures Lower(a + b) == Lower(a) + Lower(b)
  {
  }

  /** Lower-casing leaves whitespace where it was. */
  lemma LowerKeepsSpaces(s: string)
    ensures forall i :: 0 <= i < |s| ==> (Lower(s)[i] in Whitespace <==> s[i] in Whitespace)
  {
  }

  /** Upper-casing and stripping whitespace commute. */
  lemma {:induction false} LTrimUpper(s: string)
    ensures LTrim(Upper(s), Whitespace) == Upper(LTrim(s, Whitespace))
  {
    if s != [] {
      var u := Upper(s);
      assert u[0] == UpperChar(s[0]);
      assert u[0] in Whitespace <==> s[0] in Whitespace;
      if s[0] in Whitespace {
        assert u[1..] == Upper(s[1..]);
        calc {
          LTrim(u, Whitespace);
          LTrim(u[1..], Whitespace);
          { LTrimUpper(s[1..]); }
          Upper(LTrim(s[1..], Whitespace));
        }
      }
    }
  }

  lemma {:induction false} RTrimUpper(s: string)
    ensures RTrim(Upper(s), Whitespace) == Upper(RTrim(s, Whitespace))
  {
    if s != [] {
      var u := Upper(s);
      var n := |s| - 1;
      assert u[n] == UpperChar(s[n]);
      assert u[n] in Whitespace <==> s[n] in Whitespace;
      if s[n] in Whitespace {
        assert u[..n] == Upper(s[..n]);
        calc {
          RTrim(u, Whitespace);
          RTrim(u[..n], Whitespace);
          { RTrimUpper(s[..n]); }
          Upper(RTrim(s[..n], Whitespace));
        }
      }
    }
  }

  lemma StripUpper(s: string)
    ensures Strip(Upper(s)) == Upper(Strip(s))
  {
    LTrimUpper(s);
    RTrimUpper(LTrim(s, Whitespace));
  }

  /** The longest prefix of `s` that holds no whitespace. */
  function Word(s: string): (w: string)
    ensures w <= s
    ensures forall j :: 0 <= j < |w| ==> w[j] !in Whitespace
    ensures |w| == |s| || s[|w|] in Whitespace
  {
    if s == [] || s[0] in Whitespace then [] else [s[0]] + Word(s[1..])
  }

  /** `s.split()`: the maximal runs of non-whitespace characters, in order. */
  function Words(s: string): (r: seq<string>)
    ensures forall i :: 0 <= i < |r| ==> r[i] != [] && forall j :: 0 <= j < |r[i]| ==> r[i][j] !in Whitespace
    decreases |s|
  {
    if s == [] then []
    else if s[0] in Whitespace then Words(s[1..])
    else
      var w := Word(s);
      [w] + Words(s[|w|..])
  }

  /** Each text of a list lower-cased. */
  function LowerEach(ws: seq<string>): (r: seq<string>)
    ensures |r| == |ws|
    ensures forall i :: 0 <= i < |ws| ==> r[i] == Lower(ws[i])
  {
    if ws == [] then [] else [Lower(ws[0])] + LowerEach(ws[1..])
  }

  /** Lower-casing a text and then splitting it gives the lower-cased words. */
  lemma {:induction false} WordsOfLower(s: string)
    ensures Words(Lower(s)) == LowerEach(Words(s))
    ensures |Words(Lower(s))| == |Words(s)|
    ensures forall i :: 0 <= i < |Words(s)| ==> Words(Lower(s))[i] == Lower(Words(s)[i])
    decreases |s|
  {
    var ls := Lower(s);
    if s == [] {
    } else if s[0] in Whitespace {
      assert ls[0] in Whitespace;
      assert Words(ls) == Words(Lower(s[1..])) by {
        assert ls[1..] == Lower(s[1..]);
      }
      WordsOfLower(s[1..]);
    } else {
      var w := Word(s);
      var rest := s[|w|..];
      assert ls[0] !in Whitespace;
      assert Words(ls) == [Lower(w)] + Words(Lower(rest)) by {
        WordOfLower(s);
        assert |Word(ls)| == |w|;
        assert ls[|w|..] == Lower(rest);
      }
      WordsOfLower(rest);
      assert ([w] + Words(rest))[1..] == Words(rest);
    }
  }

  lemma {:induction false} WordOfLower(s: string)
    ensures Word(Lower(s)) == Lower(Word(s))
    decreases |s|
  {
    if s != [] && s[0] !in Whitespace {
      assert Lower(s)[1..] == Lower(s[1..]);
      WordOfLower(s[1..]);
    }
  }

  /** A text made only of whitespace has no words. */
  lemma {:induction false} WordsOfBlank(s: string)
    requires forall i :: 0 <= i < |s| ==> s[i] in Whitespace
    ensures Words(s) == []
    decreases |s|
  {
    if s != [] {
      WordsOfBlank(s[1..]);
    }
  }

  /** Leading whitespace does not change the words. */
  lemma {:induction false} WordsSkipLeading(s: string, k: nat)
    requires k <= |s| && forall i :: 0 <= i < k ==> s[i] in Whitespace
    ensures Words(s[k..]) == Words(s)
    decreases k
  {
    if k > 0 {
      WordsSkipLeading(s[1..], k - 1);
      assert s[1..][k - 1..] == s[k..];
    }
  }

  /** A word ends where whitespace follows, whatever comes after. */
  lemma {:induction false} WordOfConcat(s: string, t: string)
    requires t == [] || t[0] in Whitespace
    ensures Word(s + t) == Word(s)
    decreases |s|
  {
    if s == [] {
      assert s + t == t;
    } else if s[0] !in Whitespace {
      assert (s + t)[1..] == s[1..] + t;
      WordOfConcat(s[1..], t);
    }
  }

  /** Trailing whitespace does not change the words. */
  lemma {:induction false} WordsDropTrailing(s: string, t: string)
    requires forall i :: 0 <= i < |t| ==> t[i] in Whitespace
    ensures Words(s + t) == Words(s)
    decreases |s|
  {
    if s == [] {
      assert s + t == t;
      WordsOfBlank(t);
    } else if s[0] in Whitespace {
      assert (s + t)[1..] == s[1..] + t;
      WordsDropTrailing(s[1..], t);
    } else {
      var w := Word(s);
      WordOfConcat(s, t);
      assert (s + t)[|w|..] == s[|w|..] + t;
      WordsDropTrailing(s[|w|..], t);
    }
  }

  /** `s.strip().split() == s.split()`. */
  lemma WordsOfStrip(s: string)
    ensures Words(Strip(s)) == Words(s)
  {
    var l := LTrim(s, Whitespace);
    assert Words(l) == Words(s) by {
      WordsSkipLeading(s, |s| - |l|);
    }
    var r := RTrim(l, Whitespace);
    assert Words(r) == Words(l) by {
      var t := l[|r|..];
      assert l == r + t;
      forall i | 0 <= i < |t| ensures t[i] in Whitespace {
        assert t[i] == l[|r| + i];
      }
      WordsDropTrailing(r, t);
    }
    assert Strip(s) == r;
  }

  /** `s.split(sep)` for a one-character separator. */
  function Split(s: string, sep: char): (r: seq<string>)
    ensures |r| >= 1
    ensures forall i :: 0 <= i < |r| ==> sep !in r[i]
  {
    if s == [] then [""]
    else
      var rest := Split(s[1..], sep);
      if s[0] == sep then [""] + rest else [[s[0]] + rest[0]] + rest[1..]
  }

  /** `sep.join(parts)` for a one-character separator and at least one part. */
  function Join(parts: seq<string>, sep: char): string
    requires |parts| >= 1
  {
    if |parts| == 1 then parts[0] else parts[0] + [sep] + Join(parts[1..], sep)
  }

  /** Splitting and joining again gives back the text. */
  lemma {:induction false} JoinSplit(s: string, sep: char)
    ensures Join(Split(s, sep), sep) == s
  {
    if s != [] {
      JoinSplit(s[1..], sep);
      var rest := Split(s[1..], sep);
      if s[0] == sep {
        assert Split(s, sep)[1..] == rest;
      } else {
        var r := Split(s, sep);
        if |rest| == 1 {
        } else {
          assert r[1..] == rest[1..];
          assert Join(rest, sep) == rest[0] + [sep] + Join(rest[1..], sep);
        }
      }
    }
  }

  /** Splitting a joined text at the joining separator gives back both sides' parts. */
  lemma {:induction false} SplitConcat(a: string, b: string, sep: char)
    ensures Split(a + [sep] + b, sep) == Split(a, sep) + Split(b, sep)
    decreases |a|
  {
    if a == [] {
      assert (a + [sep] + b)[1..] == b;
    } else {
      assert (a + [sep] + b)[1..] == a[1..] + [sep] + b;
      SplitConcat(a[1..], b, sep);
    }
  }

  /** A text without the separator splits into itself alone. */
  lemma {:induction false} SplitWithoutSep(s: string, sep: char)
    requires sep !in s
    ensures Split(s, sep) == [s]
  {
    if s != [] {
      SplitWithoutSep(s[1..], sep);
      assert [s[0]] + s[1..] == s;
    }
  }

  /** Splitting a join of parts that do not contain the separator gives the parts back. */
  lemma {:induction false} SplitJoin(parts: seq<string>, sep: char)
    requires |parts| >= 1
    requires forall i :: 0 <= i < |parts| ==> sep !in parts[i]
    ensures Split(Join(parts, sep), sep) == parts
  {
    if |parts| == 1 {
      SplitWithoutSep(parts[0], sep);
    } else {
      SplitWithoutSep(parts[0], sep);
      SplitJoin(parts[1..], sep);
      SplitConcat(parts[0], Join(parts[1..], sep), sep);
    }
  }

  /** `[p.strip() for p in parts if p.strip()]`. */
  function StrippedNonBlank(parts: seq<string>): (r: seq<string>)
    ensures |r| <= |parts|
    ensures forall i :: 0 <= i < |r| ==> r[i] != "" && IsStripped(r[i])
  {
    if parts == [] then []
    else
      var r := StrippedNonBlank(parts[..|parts| - 1]);
      var last := Strip(parts[|parts| - 1]);
      StripIsStripped(parts[|parts| - 1]);
      if last != "" then r + [last] else r
  }

  /** The kept parts are exactly the non-empty stripped forms of the input parts. */
  lemma {:induction false} StrippedNonBlankMembers(parts: seq<string>, x: string)
    ensures x in StrippedNonBlank(parts) <==> x != "" && exists i :: 0 <= i < |parts| && Strip(parts[i]) == x
  {
    if parts != [] {
      var init := parts[..|parts| - 1];
      var last := Strip(parts[|parts| - 1]);
      var r := StrippedNonBlank(init);
      StrippedNonBlankMembers(init, x);
      assert StrippedNonBlank(parts) == if last != "" then r + [last] else r;
      assert forall i :: 0 <= i < |init| ==> init[i] == parts[i];
    }
  }

  /** A character found in no input part is found in no kept part. */
  lemma {:induction false} StrippedNonBlankAvoids(parts: seq<string>, c: char)
    requires forall i :: 0 <= i < |parts| ==> c !in parts[i]
    ensures forall i :: 0 <= i < |StrippedNonBlank(parts)| ==> c !in StrippedNonBlank(parts)[i]
  {
    if parts != [] {
      var init := parts[..|parts| - 1];
      var last := Strip(parts[|parts| - 1]);
      var r := StrippedNonBlank(init);
      assert forall i :: 0 <= i < |init| ==> c !in init[i] by {
        assert forall i :: 0 <= i < |init| ==> init[i] == parts[i];
      }
      StrippedNonBlankAvoids(init, c);
      StripIsInfix(parts[|parts| - 1]);
      assert c !in last;
      assert StrippedNonBlank(parts) == if last != "" then r + [last] else r;
    }
  }

  /** Parts that are already stripped and not empty pass through unchanged. */
  lemma {:induction false} StrippedNonBlankKeeps(parts: seq<string>)
    requires forall i :: 0 <= i < |parts| ==> parts[i] != "" && IsStripped(parts[i])
    ensures StrippedNonBlank(parts) == parts
  {
    if parts != [] {
      var init := parts[..|parts| - 1];
      var last := parts[|parts| - 1];
      assert forall i :: 0 <= i < |init| ==> init[i] == parts[i];
      StrippedNonBlankKeeps(init);
      StripIsStripped(last);
      assert StrippedNonBlank(parts) == init + [last];
      assert init + [last] == parts;
    }
  }

  /** `[p.strip() for p in s.split(sep) if p.strip()]`. */
  function SplitStripped(s: string, sep: char): (r: seq<string>)
    ensures forall i :: 0 <= i < |r| ==> r[i] != "" && IsStripped(r[i]) && sep !in r[i]
  {
    StrippedNonBlankAvoids(Split(s, sep), sep);
    StrippedNonBlank(Split(s, sep))
  }

  /** Stripped non-empty parts without the separator, joined by it, split back into themselves. */
  lemma SplitStrippedOfJoin(parts: seq<string>, sep: char)
    requires |parts| >= 1
    requires forall i :: 0 <= i < |parts| ==> parts[i] != "" && IsStripped(parts[i]) && sep !in parts[i]
    ensures SplitStripped(Join(parts, sep), sep) == parts
  {
    SplitJoin(parts, sep);
    StrippedNonBlankKeeps(parts);
  }

  /** `s.replace(old, new)` with each character of `old` mapped onto the one of `new`. */
  function ReplaceChar(s: string, from: char, to: char): (r: string)
    ensures |r| == |s|
    ensures from != to ==> from !in r
    ensures forall i :: 0 <= i < |s| && s[i] != from ==> r[i] == s[i]
  {
    seq(|s|, i requires 0 <= i < |s| => if s[i] == from then to else s[i])
  }

  /**
   * `s.replace("//", "/")`: pairs of slashes are found left to right without
   * overlapping and each pair becomes one slash, so "///" becomes "//".
   */
  function CollapseSlashPairs(s: string): (r: string)
    ensures |r| <= |s|
    ensures s != [] && s[0] == '/' ==> r != [] && r[0] == '/'
  {
    if |s| >= 2 && s[0] == '/' && s[1] == '/' then "/" + CollapseSlashPairs(s[2..])
    else if s == [] then []
    else [s[0]] + CollapseSlashPairs(s[1..])
  }

  predicate HasDoubleSlash(s: string)
  {
    exists i :: 0 <= i < |s| - 1 && s[i] == '/' && s[i + 1] == '/'
  }

  /** A text without a doubled slash is left as it is. */
  lemma {:induction false} CollapseWithoutPairs(s: string)
    requires !HasDoubleSlash(s)
    ensures CollapseSlashPairs(s) == s
  {
    if s != [] {
      CollapseWithoutPairs(s[1..]);
    }
  }

  /** Dropping the first character cannot create a doubled slash. */
  lemma NoDoubleSlashTail(s: string)
    requires s != [] && !HasDoubleSlash(s)
    ensures !HasDoubleSlash(s[1..])
  {
    forall i | 0 <= i < |s| - 2 && s[1..][i] == '/'
      ensures s[1..][i + 1] != '/'
    {
      assert s[i + 1] == '/' && s[1..][i + 1] == s[i + 2];
    }
  }

  /** A text that neither holds a doubled slash nor ends with a slash passes through unchanged ahead of what follows. */
  lemma {:induction false} CollapseAfterPlain(a: string, t: string)
    requires !HasDoubleSlash(a + "/")
    ensures CollapseSlashPairs(a + t) == a + CollapseSlashPairs(t)
  {
    if a != [] {
      var s := a + t;
      var a1 := a + "/";
      assert a1[0] == '/' ==> a1[1] != '/';
      assert a[0] == '/' ==> |a| >= 2 && a[1] != '/';
      assert s[0] == a[0] && (|a| >= 2 ==> s[1] == a[1]);
      assert CollapseSlashPairs(s) == [a[0]] + CollapseSlashPairs(s[1..]);
      NoDoubleSlashTail(a1);
      assert a[1..] + "/" == a1[1..];
      CollapseAfterPlain(a[1..], t);
      assert s[1..] == a[1..] + t;
      assert a == [a[0]] + a[1..];
    } else {
      assert a + t == t;
    }
  }

  /** One doubled slash between texts that hold none becomes a single slash, and nothing else changes. */
  lemma CollapseOnePair(a: string, b: string)
    requires !HasDoubleSlash(a + "/") && !HasDoubleSlash("/" + b)
    ensures CollapseSlashPairs(a + "//" + b) == a + "/" + b
  {
    var t := "//" + b;
    assert a + "//" + b == a + t;
    CollapseAfterPlain(a, t);
    assert t[0] == '/' && t[1] == '/' && t[2..] == b;
    assert CollapseSlashPairs(t) == "/" + CollapseSlashPairs(b);
    var u := "/" + b;
    NoDoubleSlashTail(u);
    assert u[1..] == b;
    CollapseWithoutPairs(b);
    assert CollapseSlashPairs(a + t) == a + u;
    ConcatAssoc(a, "/", b);
  }

  /** Two texts without doubled slashes, the first ending and the second starting with a slash, meet in one slash. */
  lemma CollapseAtJoin(x: string, y: string)
    requires x != [] && x[|x| - 1] == '/' && !HasDoubleSlash(x)
    requires y != [] && y[0] == '/' && !HasDoubleSlash(y)
    ensures CollapseSlashPairs(x + y) == x + y[1..]
  {
    var a := x[..|x| - 1];
    assert a + "/" == x;
    ConcatAssoc(a, "/", y);
    var t := "/" + y;
    CollapseAfterPlain(a, t);
    assert t[0] == '/' && t[1] == '/' && t[2..] == y[1..];
    assert CollapseSlashPairs(t) == "/" + CollapseSlashPairs(y[1..]);
    NoDoubleSlashTail(y);
    CollapseWithoutPairs(y[1..]);
    ConcatAssoc(a, "/", y[1..]);
  }

  lemma ConcatAssoc(a: string, b: string, c: string)
    ensures a + (b + c) == a + b + c
  {
  }

  /** `sep.join(parts)` for any separator; an empty list joins to "". */
  function JoinWith(parts: seq<string>, sep: string): string
  {
    if parts == [] then "" else if |parts| == 1 then parts[0] else parts[0] + sep + JoinWith(parts[1..], sep)
  }

  /** With a non-empty separator, a join is empty only for no parts or a single empty part. */
  lemma JoinWithEmpty(parts: seq<string>, sep: string)
    requires sep != ""
    ensures JoinWith(parts, sep) == "" <==> parts == [] || parts == [""]
  {
  }

  /** `sub in s` for strings. */
  predicate IsInfix(sub: string, s: string)
  {
    exists i :: 0 <= i <= |s| && sub <= s[i..]
  }

  lemma InfixAt(sub: string, s: string, i: nat)
    requires i + |sub| <= |s| && s[i..i + |sub|] == sub
    ensures IsInfix(sub, s)
  {
    assert sub <= s[i..];
  }

  function DigitChar(d: nat): char
    requires d < 10
  {
    ('0' as int + d) as char
  }

  predicate IsDigit(c: char)
  {
    '0' <= c <= '9'
  }

  predicate AllDigits(s: string)
  {
    forall i :: 0 <= i < |s| ==> IsDigit(s[i])
  }

  /** `str(n)` for a natural number. */
  function NatToString(n: nat): (r: string)
    ensures r != [] && AllDigits(r)
  {
    if n < 10 then [DigitChar(n)] else NatToString(n / 10) + [DigitChar(n % 10)]
  }

  /** `str(i)` for an integer. */
  function IntToString(i: int): string
  {
    if i < 0 then "-" + NatToString(-i) else NatToString(i)
  }

  function DigitsValue(s: string): nat
    requires AllDigits(s)
  {
    if s == [] then 0
    else
      assert IsDigit(s[|s| - 1]);
      DigitsValue(s[..|s| - 1]) * 10 + (s[|s| - 1] as int - '0' as int)
  }

  /**
   * Python's `int(s)` on an already stripped text: an optional sign followed
   * by one or more ASCII digits; anything else is the ValueError case.
   */
  function ParseInt(s: string): (r: Option<int>)
    ensures r.Some? ==> s != [] && (IsDigit(s[0]) || s[0] == '+' || s[0] == '-')
  {
    var signed := s != [] && (s[0] == '+' || s[0] == '-');
    var digits := if signed then s[1..] else s;
    if digits == [] || !AllDigits(digits) then None
    else
      var v: int := DigitsValue(digits);
      Some(if signed && s[0] == '-' then -v else v)
  }

  lemma {:induction false} DigitsValueOfNat(n: nat)
    ensures DigitsValue(NatToString(n)) == n
  {
    if n >= 10 {
      var s := NatToString(n);
      assert s[..|s| - 1] == NatToString(n / 10);
      DigitsValueOfNat(n / 10);
    }
  }

  /** Digits read back as the unsigned number they print. */
  lemma ParseIntOfNat(n: nat)
    ensures ParseInt(NatToString(n)) == Some(n)
  {
    var s := NatToString(n);
    assert IsDigit(s[0]);
    DigitsValueOfNat(n);
  }

  /** A minus sign before the digits of `n` reads back as `-n`. */
  lemma ParseIntOfNegative(n: nat)
    ensures ParseInt("-" + NatToString(n)) == Some(-(n as int))
  {
    var d := NatToString(n);
    var s := "-" + d;
    assert s[0] == '-' && s[1..] == d;
    DigitsValueOfNat(n);
  }

  /** Printing an integer and reading it back gives the integer. */
  lemma ParseIntOfString(i: int)
    ensures ParseInt(IntToString(i)) == Some(i)
  {
    if i < 0 {
      ParseIntOfNegative(-i);
    } else {
      ParseIntOfNat(i);
    }
  }
}

=== FILE: text_app.dfy ===
/**
 * The text module's standalone application: the validated request of
 * `POST /v1/text/uppercase`, the handler, and the deprecated
 * `GET /text/uppercase` that builds the same request from a query parameter
 * and delegates to it.
 *
 * The request model strips surrounding whitespace from `text` before its
 * validator runs; a validation error is answered with status 422.
 */
module TextApp {
  import opened Wrappers
  import opened Text
  import opened PyValue

  datatype UppercaseRequest = UppercaseRequest(text: string)

  datatype UppercaseResponse = UppercaseResponse(original: string, uppercased: string)

  /** The validation error a blank text raises. */
  const BlankError := ValidationError("Value error, text must contain at least one visible character")

  /** `UppercaseRequest(text=...)`: the text is stripped, and a blank text is rejected. */
  function NewUppercaseRequest(text: string): (r: Result<UppercaseRequest, Exception>)
    ensures r.Ok? <==> Strip(text) != ""
    ensures r.Ok? ==> r.value.text == Strip(text) && IsStripped(r.value.text)
    ensures r.Err? ==> r.error == BlankError
  {
    assert IsStripped(Strip(text)) by {
      StripIsStripped(text);
    }
    if Strip(text) == "" then Err(BlankError)
    else Ok(UppercaseRequest(Strip(text)))
  }

  /** `uppercase`: the request's text and its upper-cased form. */
  function Uppercase(payload: UppercaseRequest): (r: UppercaseResponse)
    ensures r.original == payload.text
    ensures |r.uppercased| == |r.original|
    ensures Upper(r.uppercased) == r.uppercased
    ensures Lower(r.uppercased) == Lower(r.original)
  {
    UpperIdempotent(payload.text);
    LowerOfUpper(payload.text);
    UppercaseResponse(payload.text, Upper(payload.text))
  }

  /** The answer of `POST /v1/text/uppercase` for a body holding `text`. */
  function UppercaseEndpoint(text: string): (r: Result<UppercaseResponse, Exception>)
    ensures r.Ok? <==> Strip(text) != ""
    ensures r.Ok? ==> r.value.original == Strip(text) && r.value.uppercased == Upper(Strip(text))
    ensures r.Err? ==> r.error == BlankError
  {
    match NewUppercaseRequest(text)
    case Err(e) => Err(e)
    case Ok(req) => Ok(Uppercase(req))
  }

  /** `legacy_uppercase(text)`: builds the request from the query parameter and calls `uppercase`. */
  function LegacyUppercase(text: string): (r: Result<UppercaseResponse, Exception>)
    ensures r == UppercaseEndpoint(text)
  {
    match NewUppercaseRequest(text)
    case Err(e) => Err(e)
    case Ok(req) => Ok(Uppercase(req))
  }

  /** The status of a request with the given text: 422 for a blank text, else 200. */
  function UppercaseStatus(text: string): (code: int)
    ensures code == 422 <==> Strip(text) == ""
    ensures code == 200 <==> Strip(text) != ""
  {
    match UppercaseEndpoint(text)
    case Err(_) => 422
    case Ok(_) => 200
  }

  /** The upper-cased text is what upper-casing the raw text and stripping it gives. */
  lemma UppercaseOfRaw(text: string)
    requires Strip(text) != ""
    ensures UppercaseEndpoint(text).value.uppercased == Strip(Upper(text))
  {
    StripUpper(text);
  }

  /** Sending the answer's `original` again gives the same answer. */
  lemma UppercaseIdempotentRequest(text: string)
    requires Strip(text) != ""
    ensures UppercaseEndpoint(UppercaseEndpoint(text).value.original) == UppercaseEndpoint(text)
  {
    StripIdempotent(text);
  }
}

=== FILE: tracing.dfy ===
/**
 * The bookkeeping of the tracing set-up: the boolean environment switches,
 * the cache of one tracer provider per service name, the global provider,
 * the once-only instrumentation of the HTTP client libraries, the route
 * class a router is given, and the name and attributes of a handler's span.
 *
 * A provider is the resource it was created with; the exporters it is wired
 * to and the OpenTelemetry objects themselves are not part of this model.
 * The installed package version is the parameter `installed` (`None` when
 * the package metadata is missing).
 */
module Tracing {
  import opened Wrappers
  import opened Text
  import Collections

  /** The texts `_normalise_bool` reads as false and as true, after stripping and lower-casing. */
  const FalseWords: set<string> := {"0", "false", "no", "off"}
  const TrueWords: set<string> := {"1", "true", "yes", "on"}

  /** `_normalise_bool`: `None` and unrecognised texts give the default. */
  function NormaliseBool(value: Option<string>, default: bool): (b: bool)
    ensures value.None? ==> b == default
    ensures value.Some? && Lower(Strip(value.value)) in FalseWords ==> !b
    ensures value.Some? && Lower(Strip(value.value)) in TrueWords ==> b
    ensures value.Some? && Lower(Strip(value.value)) !in FalseWords + TrueWords ==> b == default
  {
    if value.None? then default
    else
      var lowered := Lower(Strip(value.value));
      if lowered in FalseWords then false
      else if lowered in TrueWords then true
      else default
  }

  /** Surrounding whitespace and letter case do not change the reading of a switch. */
  lemma NormaliseBoolIgnoresCaseAndSpace(s: string, default: bool)
    ensures NormaliseBool(Some(Strip(s)), default) == NormaliseBool(Some(s), default)
    ensures NormaliseBool(Some(Upper(s)), default) == NormaliseBool(Some(s), default)
  {
    StripIdempotent(s);
    StripUpper(s);
    LowerOfUpper(Strip(s));
  }

  /** `_default_version`: the installed version of the package, or `0.0.0`. */
  function DefaultVersion(installed: Option<string>): (v: string)
    ensures installed.Some? ==> v == installed.value
    ensures installed.None? ==> v == "0.0.0"
  {
    installed.GetOr("0.0.0")
  }

  /** The resource attributes a provider is created with. */
  datatype Resource = Resource(serviceName: string, serviceNamespace: string, serviceVersion: string)

  /** `_build_resource`: the namespace is `coman`; an absent or empty version falls back to the default one. */
  function BuildResource(serviceName: string, serviceVersion: Option<string>, installed: Option<string>): (r: Resource)
    ensures r.serviceName == serviceName && r.serviceNamespace == "coman"
    ensures serviceVersion.Some? && serviceVersion.value != "" ==> r.serviceVersion == serviceVersion.value
    ensures serviceVersion.None? || serviceVersion.value == "" ==> r.serviceVersion == DefaultVersion(installed)
  {
    var version := if serviceVersion.Some? && serviceVersion.value != "" then serviceVersion.value else DefaultVersion(installed);
    Resource(serviceName, "coman", version)
  }

  /** A tracer provider, known by the resource it was created with. */
  datatype Provider = Provider(resource: Resource)

  /** A tracer: its provider and its instrumentation scope name. */
  datatype Tracer = Tracer(provider: Provider, scope: string)

  /** `provider.get_tracer(f"coman.modules.{name}")`. */
  function ModuleTracer(provider: Provider, moduleName: string): (t: Tracer)
    ensures t.provider == provider && t.scope == "coman.modules." + moduleName
  {
    Tracer(provider, "coman.modules." + moduleName)
  }

  /** The process-wide tracer provider: the SDK's default, a provider of the SDK (tagged with a service name by this code, or not), or another kind. */
  datatype GlobalProvider = DefaultProvider | SdkProvider(provider: Provider, tag: Option<string>) | OtherProvider

  /** An HTTP client library the module instruments. */
  datatype Client = Httpx | Requests

  /** Whether the record of instrumentation calls holds a call on the library. */
  predicate Instrumented(log: seq<(Client, Provider)>, c: Client)
  {
    exists i :: 0 <= i < |log| && log[i].0 == c
  }

  /** The module-level state of the tracing helpers. */
  class TracingState {
    var providers: map<string, Provider>
    var global: GlobalProvider
    var httpxInstrumented: bool
    var requestsInstrumented: bool
    /** Every `instrument(...)` call made on a client library, in order. */
    var instrumentations: seq<(Client, Provider)>

    /** The state at import time: no providers, nothing instrumented. */
    constructor (global: GlobalProvider)
      ensures providers == map[] && this.global == global
      ensures !httpxInstrumented && !requestsInstrumented && instrumentations == []
      ensures Valid()
    {
      providers := map[];
      this.global := global;
      httpxInstrumented := false;
      requestsInstrumented := false;
      instrumentations := [];
    }

    /**
     * The invariant the helpers keep: each cached provider was created for
     * the name it is cached under, and a client library's flag is set exactly
     * when it has been instrumented, which happened at most once.
     */
    predicate Valid()
      reads this
    {
      && (forall name :: name in providers ==> providers[name].resource.serviceName == name)
      && (forall i, j :: 0 <= i < j < |instrumentations| ==> instrumentations[i].0 != instrumentations[j].0)
      && (httpxInstrumented <==> Instrumented(instrumentations, Httpx))
      && (requestsInstrumented <==> Instrumented(instrumentations, Requests))
    }

    /**
     * `_get_or_create_provider`: the provider cached under the name, or a new
     * one built from the name and version and cached under it.
     */
    method GetOrCreateProvider(serviceName: string, serviceVersion: Option<string>, installed: Option<string>)
      returns (p: Provider)
      modifies this
      requires Valid()
      ensures Valid()
      ensures serviceName in old(providers) ==> p == old(providers)[serviceName] && providers == old(providers)
      ensures serviceName !in old(providers) ==>
        p == Provider(BuildResource(serviceName, serviceVersion, installed)) && providers == old(providers)[serviceName := p]
      ensures global == old(global) && httpxInstrumented == old(httpxInstrumented)
      ensures requestsInstrumented == old(requestsInstrumented) && instrumentations == old(instrumentations)
    {
      if serviceName in providers {
        p := providers[serviceName];
      } else {
        p := Provider(BuildResource(serviceName, serviceVersion, installed));
        providers := providers[serviceName := p];
      }
    }

    /**
     * `_instrument_http_clients`: each library not yet instrumented is
     * instrumented with the provider, httpx first.
     */
    method InstrumentHttpClients(provider: Provider)
      modifies this
      requires Valid()
      ensures Valid()
      ensures httpxInstrumented && requestsInstrumented
      ensures instrumentations == old(instrumentations)
        + (if old(httpxInstrumented) then [] else [(Httpx, provider)])
        + (if old(requestsInstrumented) then [] else [(Requests, provider)])
      ensures providers == old(providers) && global == old(global)
    {
      if !httpxInstrumented {
        Record((Httpx, provider));
        httpxInstrumented := true;
      }
      if !requestsInstrumented {
        Record((Requests, provider));
        requestsInstrumented := true;
      }
    }

    /** Appends one instrumentation call to the record. */
    method Record(call: (Client, Provider))
      modifies this
      ensures instrumentations == old(instrumentations) + [call]
      ensures forall c :: Instrumented(instrumentations, c) <==> c == call.0 || Instrumented(old(instrumentations), c)
      ensures providers == old(providers) && global == old(global)
      ensures httpxInstrumented == old(httpxInstrumented) && requestsInstrumented == old(requestsInstrumented)
    {
      instrumentations := instrumentations + [call];
      assert instrumentations[|instrumentations| - 1] == call;
      assert forall i :: 0 <= i < |old(instrumentations)| ==> instrumentations[i] == old(instrumentations)[i];
    }

    /**
     * `_ensure_global_provider`: only the SDK's default provider is replaced,
     * by the given one tagged with the service name; a provider already set,
     * by this code or by someone else, is respected.
     */
    method EnsureGlobalProvider(provider: Provider, serviceName: string)
      modifies this
      ensures old(global).DefaultProvider? ==> global == SdkProvider(provider, Some(serviceName))
      ensures !old(global).DefaultProvider? ==> global == old(global)
      ensures providers == old(providers) && httpxInstrumented == old(httpxInstrumented)
      ensures requestsInstrumented == old(requestsInstrumented) && instrumentations == old(instrumentations)
    {
      if global.SdkProvider? && global.tag == Some(serviceName) {
        return;
      }
      if global.SdkProvider? {
        return;
      }
      if global.DefaultProvider? {
        global := SdkProvider(provider, Some(serviceName));
      }
    }

    /**
     * `instrument_fastapi_app`: the module's provider (cached or new), its
     * tracer, the client libraries and the global provider. The framework's
     * own instrumentation of the application is not part of this model.
     */
    method InstrumentFastApiApp(moduleName: string, moduleVersion: Option<string>, installed: Option<string>)
      returns (t: Tracer)
      modifies this
      requires Valid()
      ensures Valid()
      ensures moduleName in providers && t == ModuleTracer(providers[moduleName], moduleName)
      ensures moduleName in old(providers) ==> providers == old(providers)
      ensures moduleName !in old(providers) ==>
        providers == old(providers)[moduleName := Provider(BuildResource(moduleName, moduleVersion, installed))]
      ensures old(global).DefaultProvider? ==> global == SdkProvider(providers[moduleName], Some(moduleName))
      ensures !old(global).DefaultProvider? ==> global == old(global)
      ensures instrumentations == old(instrumentations)
        + (if old(httpxInstrumented) then [] else [(Httpx, providers[moduleName])])
        + (if old(requestsInstrumented) then [] else [(Requests, providers[moduleName])])
      ensures httpxInstrumented && requestsInstrumented
    {
      var provider := GetOrCreateProvider(moduleName, moduleVersion, installed);
      t := ModuleTracer(provider, moduleName);
      InstrumentHttpClients(provider);
      EnsureGlobalProvider(provider, moduleName);
    }
  }

  /** A route class set on a router: the traced route of a module, with its tracer. */
  datatype RouteClass = PlainRoute | TracedRoute(moduleName: string, tracer: Tracer)

  /** The part of a router the tracing helpers touch. */
  class Router {
    var routeClass: RouteClass
    /** The `_coman_tracing_route_class` attribute, `None` until it is set. */
    var tracingTag: Option<RouteClass>

    constructor ()
      ensures routeClass == PlainRoute && tracingTag.None?
    {
      routeClass := PlainRoute;
      tracingTag := None;
    }

    /**
     * `_ensure_router_route_class`: a router already tagged is left as it is;
     * otherwise it gets the module's traced route class, and is tagged with it.
     */
    method EnsureRouteClass(tracer: Tracer, moduleName: string)
      modifies this
      ensures old(tracingTag).Some? ==> routeClass == old(routeClass) && tracingTag == old(tracingTag)
      ensures old(tracingTag).None? ==>
        routeClass == TracedRoute(moduleName, tracer) && tracingTag == Some(routeClass)
      ensures tracingTag.Some?
    {
      if tracingTag.Some? {
        return;
      }
      routeClass := TracedRoute(moduleName, tracer);
      tracingTag := Some(routeClass);
    }
  }

  /**
   * `setup_module_observability`: the module's provider (cached or new) and
   * its tracer; a given router gets the traced route class unless it already
   * has one.
   */
  method SetupModuleObservability(state: TracingState, moduleName: string, moduleVersion: Option<string>,
                                  installed: Option<string>, router: Option<Router>)
    returns (t: Tracer)
    modifies state, if router.Some? then {router.value} else {}
    requires state.Valid()
    ensures state.Valid()
    ensures moduleName in state.providers && t == ModuleTracer(state.providers[moduleName], moduleName)
    ensures moduleName in old(state.providers) ==> state.providers == old(state.providers)
    ensures moduleName !in old(state.providers) ==>
      state.providers == old(state.providers)[moduleName := Provider(BuildResource(moduleName, moduleVersion, installed))]
    ensures state.global == old(state.global) && state.instrumentations == old(state.instrumentations)
    ensures state.httpxInstrumented == old(state.httpxInstrumented) && state.requestsInstrumented == old(state.requestsInstrumented)
    ensures router.Some? && old(router.value.tracingTag).None? ==>
      router.value.routeClass == TracedRoute(moduleName, t) && router.value.tracingTag == Some(router.value.routeClass)
    ensures router.Some? && old(router.value.tracingTag).Some? ==>
      router.value.routeClass == old(router.value.routeClass) && router.value.tracingTag == old(router.value.tracingTag)
  {
    var provider := state.GetOrCreateProvider(moduleName, moduleVersion, installed);
    t := ModuleTracer(provider, moduleName);
    if router.Some? {
      router.value.EnsureRouteClass(t, moduleName);
    }
  }

  /** What follows the module name in a span name. */
  function SpanSuffix(operation: string, routePath: string): (suffix: string)
    ensures suffix != []
    ensures Trim(operation, Slash) != "" ==> suffix == Trim(operation, Slash)
    ensures Trim(operation, Slash) == "" && Trim(routePath, Slash) != "" ==> suffix == Trim(routePath, Slash)
    ensures Trim(operation, Slash) == "" && Trim(routePath, Slash) == "" ==> suffix == "handler"
  {
    var op := Trim(operation, Slash);
    var path := Trim(routePath, Slash);
    if op != "" then op else if path != "" then path else "handler"
  }

  /**
   * The span name of a traced handler: the module name, a dot, then the
   * operation without surrounding slashes, else the route path without
   * them, else `handler`.
   */
  function SpanName(moduleName: string, operation: string, routePath: string): (name: string)
    ensures |name| > |moduleName| + 1 && name[..|moduleName| + 1] == moduleName + "."
    ensures name[|moduleName| + 1..] == SpanSuffix(operation, routePath)
  {
    var head := moduleName + ".";
    var suffix := SpanSuffix(operation, routePath);
    assert (head + suffix)[..|head|] == head && (head + suffix)[|head|..] == suffix;
    head + suffix
  }

  /** The part after the module name neither starts nor ends with a slash. */
  lemma SpanSuffixWithoutOuterSlash(operation: string, routePath: string)
    ensures var suffix := SpanSuffix(operation, routePath); suffix[0] != '/' && suffix[|suffix| - 1] != '/'
  {
    TrimEnds(operation, Slash);
    TrimEnds(routePath, Slash);
  }

  /** An operation written between slashes names the span by what lies between them. */
  lemma SpanSuffixOfSlashed(s: string, routePath: string)
    requires s != [] && s[0] != '/' && s[|s| - 1] != '/'
    ensures SpanSuffix("/" + s + "/", routePath) == s
  {
    var op := "/" + s + "/";
    var l := LTrim(op, Slash);
    assert op[0] in Slash && op[1] !in Slash;
    assert |l| == |op| - 1;
    assert l == s + "/";
    var r := RTrim(l, Slash);
    assert l[|l| - 1] in Slash && l[|l| - 2] !in Slash;
    assert |r| == |l| - 1;
    assert l[..|s|] == s;
  }

  /** With an operation and a route path made only of slashes, the span is named `handler`. */
  lemma SpanSuffixOfOnlySlashes(operation: string, routePath: string)
    requires forall i :: 0 <= i < |operation| ==> operation[i] == '/'
    requires forall i :: 0 <= i < |routePath| ==> routePath[i] == '/'
    ensures SpanSuffix(operation, routePath) == "handler"
  {
    assert forall i :: 0 <= i < |operation| ==> operation[i] in Slash;
    assert forall i :: 0 <= i < |routePath| ==> routePath[i] in Slash;
  }

  /** `self.name or endpoint.__name__`, else "": the operation a traced route reports. */
  function RouteOperation(routeName: string, endpointName: Option<string>): (op: string)
    ensures routeName != "" ==> op == routeName
    ensures routeName == "" ==> op == endpointName.GetOr("")
  {
    if routeName != "" then routeName else endpointName.GetOr("")
  }

  /**
   * The attributes set on a handler's span: the module, the operation (or
   * the route path when there is none), the route path and, when the route
   * has methods, the methods sorted and joined with `,`.
   */
  function SpanAttributes(moduleName: string, operation: string, routePath: string, methods: set<string>): (a: map<string, string>)
    ensures "coman.module" in a && "coman.route" in a && "coman.operation" in a
    ensures a["coman.module"] == moduleName && a["coman.route"] == routePath
    ensures a["coman.operation"] == (if operation != "" then operation else routePath)
    ensures "coman.methods" in a <==> methods != {}
    ensures methods != {} ==> a["coman.methods"] == JoinWith(Collections.SortedSet(methods), ",")
  {
    var base := map["coman.module" := moduleName, "coman.operation" := (if operation != "" then operation else routePath),
                    "coman.route" := routePath];
    if methods != {} then base["coman.methods" := JoinWith(Collections.SortedSet(methods), ",")] else base
  }
}

=== FILE: wrappers.dfy ===
/** Option and Result, the failure-carrying values used by every other module. */
module Wrappers {

  /** Python's `x or None` style optional value. */
  datatype Option<+T> = None | Some(value: T) {
    function GetOr(default: T): T {
      match this
      case Some(v) => v
      case None => default
    }
  }

  /** A computation that either returns a value or raises an error. */
  datatype Result<+T, +E> = Ok(value: T) | Err(error: E)

  /** Applies `f` to every element in order; the first `Err` stops the conversion. */
  function MapAll<A, B, E>(xs: seq<A>, f: A -> Result<B, E>): (r: Result<seq<B>, E>)
    ensures r.Ok? <==> forall i :: 0 <= i < |xs| ==> f(xs[i]).Ok?
    ensures r.Ok? ==> |r.value| == |xs| && forall i :: 0 <= i < |xs| ==> r.value[i] == f(xs[i]).value
  {
    if xs == [] then Ok([])
    else
      var init := xs[..|xs| - 1];
      assert forall i :: 0 <= i < |init| ==> init[i] == xs[i];
      match MapAll(init, f)
      case Err(e) => Err(e)
      case Ok(done) =>
        match f(xs[|xs| - 1])
        case Err(e) => Err(e)
        case Ok(y) => Ok(done + [y])
  }

  /** One more element of an accepted prefix: either it fails, or its value is appended. */
  lemma MapAllStep<A, B, E>(xs: seq<A>, f: A -> Result<B, E>, i: nat)
    requires i < |xs| && MapAll(xs[..i], f).Ok?
    ensures MapAll(xs[..i + 1], f)
      == if f(xs[i]).Ok? then Ok(MapAll(xs[..i], f).value + [f(xs[i]).value]) else Err(f(xs[i]).error)
  {
    assert xs[..i + 1][..i] == xs[..i];
  }

  /** Once a prefix fails, the whole sequence fails with the same error. */
  lemma {:induction false} MapAllFailureSticks<A, B, E>(xs: seq<A>, f: A -> Result<B, E>, i: nat)
    requires i <= |xs| && MapAll(xs[..i], f).Err?
    ensures MapAll(xs, f) == MapAll(xs[..i], f)
    decreases |xs| - i
  {
    if i < |xs| {
      var next := xs[..i + 1];
      assert next[..i] == xs[..i];
      assert MapAll(next, f) == MapAll(xs[..i], f);
      MapAllFailureSticks(xs, f, i + 1);
    } else {
      assert xs[..i] == xs;
    }
  }
}
